=== FILE: README.md ===
# Monsters and Heroes: the Legends of Valor engine in Dafny

This project models the core of the Monsters-and-Heroes role-playing game in its Legends of Valor mode.

## The board

The board is a fixed 8x8 grid.
- Lanes are the column pairs {0,1}, {3,4} and {6,7}; columns 2 and 5 are walls.
- Row 0 is the monsters' nexus and row 7 the heroes'.
- Every cell has a terrain type and two independent occupant slots: one hero and one monster.

## What the model covers

- **Board generation and repair** (`BoardGeneration`). The wall and nexus skeleton, the shuffled special terrain, the weighted random fill and the market pass. Also the lane-restricted breadth-first search that `ensureLanePathExists` runs, and the carving fallback.
- **The occupancy store.** One cell (`Cells`), the id and lane tracker (`EntityTracking`), and the two map classes that sit on top of them: `ValorWorld` for `ValorWorldMap` and `WorldMaps` for `WorldMap`. It includes placing, removing and detaching units, the step move, the monster step, teleport candidates, teleport, recall, obstacle removal, the nexus spawns and the win checks.
- **The three movement rule sets.** `MovementRules` uses orthogonal range and a different-lane teleport that never fires. ValorWorldMap uses range including diagonals and a same-lane teleport. `ValorBoards` with `TurnEngines` uses Manhattan attack range and a lane-switching teleport. Each is modelled as written, and lemmas state where they differ.
- **Characters and combat.**
  - HP and MP gauges (`Characters`).
  - Heroes with levelling, class bonuses, equipment, regeneration and revival (`Heroes`).
  - Monsters with their kind boosts and capped debuff accumulators (`Monsters`).
  - The shared damage formulas (`CombatMath`), the Valor combat resolver (`CombatResolver`) and the classic battle (`Battles`).
- **Items, inventory and market** (`Items`, `Inventories`, `Markets`). Use counts, order-preserving typed views, and buying and selling with the gold checks.
- **Round orchestration.**
  - The Valor turn engine and its context (`TurnEngines`, `TurnContexts`).
  - The monsters' turn (`MonsterControllers`) and a hero's move command (`MovementControllers`).
  - Respawning fallen heroes (`RespawnManagers`) and overworld regeneration (`HeroManagers`).
  - The two monster spawners (`MonsterSpawners`, `MonsterManagers`), sharing `MonsterFactories`.
  - The wave size (`SpawnManagers`) and the shared game state (`GameContexts`).

## Modelling conventions

- **State.** The game state is immutable. Every Java mutator becomes a function from the old state to the new one, paired with its success flag where Java returns one.
- **Grid.** A flat row-major sequence of 64 cells.
- **Identity.** Heroes are referred to by their index in the party. Monsters are referred to by a handle into a record table. Items carry a handle, so that Java's reference equality in `List.remove` and `contains` is kept.
- **Randomness.** Every random draw is an explicit parameter: `nextDouble`, `nextInt`, `Math.random` and the permutation `Collections.shuffle` applies.
- **Casts.** Java's `(int)` cast of a double is truncation toward zero (`JavaMath.JavaInt`) over exact reals. The scale constants (0.1, 0.15, 0.08, 1.05, 0.5) are exact rationals. Java's `%` is `JavaMath.JavaRem`, which differs from Dafny's Euclidean `%` on negative operands.
- **Nulls.** A Java `null` argument or result is `Option.None`.

## Where the code and the design notes disagree

The model follows the code in each of these cases, and a lemma states what the code does:
- **Teleport candidates.** They are scanned on the target's row and the row below only, never the row above (`ValorWorld.RowAboveNeverCandidate`, `ValorWorld.HeroTeleportCandidates`).
- **Recall onto an obstacle.** Recall reports success although a spawn cell that became an obstacle drops the hero from the board (`ValorWorld.RecallOntoObstacleLosesHero`).
- **Display ids.** They are `size + 1`, so after a removal a live id can be handed out again (`EntityTracking.HeroIdReusedAfterRemoval`).
- **Diagonal steps.** ValorWorldMap's step move accepts them (`ValorWorld.DiagonalStepAllowed`), while WorldMap's rejects them (`WorldMaps.DiagonalStepRejected`).
- **Respawns.** They are not timed. Every move command first revives every fainted hero at its lane's nexus spawn (`MovementControllers.Respawned`).
- **Cell-level checks.** They refuse only walls, and an obstacle is refused only by the map-level entry rule (`Cells.CellChecksIgnoreObstacles`).
- **Hero display.** A cell shows the hero's level (`"H" + max(1, level)`), not its display id (`Cells.RenderShort`).

## Model

| member | source | states |
|---|---|---|
| Actions.Outcome | src/valor/actions/ActionResult.java:10-12 | The two-argument constructor: no damage, no defeat. |
| Actions.WithDamage | src/valor/actions/ActionResult.java:14-19 | The four-argument constructor stores every field as given. |
| Actions.OutcomeIsDefaultedWithDamage | src/valor/actions/ActionResult.java:10-19 | The two constructors agree when the four-argument one is given the defaults. |
| Actions.NoFieldRelation | src/valor/actions/ActionResult.java:14-19 | Worked example of WithDamage: nothing ties the fields together, so a failed result with damage and a defeat can be built. |
| Battles.NewBattle | src/battle/Battle.java:21-27 | The constructor: not ended, not won. |
| Battles.AliveHeroes | src/battle/Battle.java:37-45 | Exactly the indices below `n` whose hero is alive, each once, in ascending list order. |
| Battles.AliveMonsters | src/battle/Battle.java:47-55 | Exactly the indices below `n` whose monster is alive, each once, in ascending list order. |
| Battles.CheckBattleEnd | src/battle/Battle.java:270-278 | With no monster alive the battle ends as a hero win, even if no hero is alive either; otherwise with no hero alive it ends as a loss; otherwise nothing changes; the fighters are untouched. |
| Battles.EmptyAliveListsMeanWipe | src/battle/Battle.java:270-278 | No living unit means none of the list is alive, so a double wipe counts as a hero win. |
| Battles.HeroAttack | src/battle/Battle.java:76-104 | heroAttack: fails, changing nothing, if either side is dead; a dodge changes nothing (and does not re-check the end); a hit deals HeroHitDamage, at least 1, then re-checks the end. |
| Battles.FellingLastMonsterWins | src/battle/Battle.java:76-104 | Felling the last living monster ends the battle as a hero win. |
| Battles.HeroCastSpell | src/battle/Battle.java:107-149 | heroCastSpell: fails, changing nothing, if either side is dead or mana is short. Otherwise mana is spent and the spell loses a use before the dodge roll, so a dodged spell is used up too; a hit deals SpellHitDamage, applies the spell type's debuff and re-checks the end. |
| Battles.Drink | src/battle/Battle.java:187-208 | A hero after drinking: each selected attribute rises by the boost, HP and MP capped at their maxima. |
| Battles.HeroUsePotion | src/battle/Battle.java:179-213 | heroUsePotion: fails for a fainted hero. Otherwise the hero drinks and the potion loses a use. Its remaining uses are not checked, and it stays in the inventory. |
| Battles.PotionBoostsAreCapped | src/battle/Battle.java:187-208 | A potion's boosts keep HP and MP within their maxima, while the three stats go up by the full boost. |
| Battles.MonsterAttack | src/battle/Battle.java:216-251 | monsterAttack: fails, changing nothing, for a dead monster or when no hero is alive. The target is the living hero the `pick` draw selects (`nextInt` over the living heroes); a dodge changes nothing, and a hit deals MonsterHitDamage, never negative, then re-checks the end. |
| Battles.AttacksFrom | src/battle/Battle.java:254-260 | One result per remaining attacker; the monsters are untouched and the heroes only lose HP. |
| Battles.MonstersAttackPhase | src/battle/Battle.java:254-260 | monstersAttackPhase: exactly one attack for every monster alive when the phase starts, in list order. The monsters are unchanged and the heroes only lose HP. |
| Battles.RegenerateHeroes | src/battle/Battle.java:263-267 | regenerateHeroes: the living heroes regenerate; fainted ones are untouched. |
| Battles.ReviveFaintedHeroes | src/battle/Battle.java:301-307 | reviveFaintedHeroes: fainted heroes revive at half their maxima; living ones are untouched. |
| Battles.RevivalLeavesEveryoneAlive | src/battle/Battle.java:301-307 | After revival every hero with a maximum HP of at least 2 is alive. |
| Battles.RegenerationKeepsLiveness | src/battle/Battle.java:263-267 | Regeneration keeps the living heroes alive and the fainted ones fainted. |
| Battles.AwardVictoryRewards | src/battle/Battle.java:281-298 | Nothing unless the heroes won. Then each living hero becomes exactly `gainExperience` of twice the total monster level, level-up included, followed by `addGold` of a hundred times it; nothing else of that hero changes, and fainted heroes and the monsters are untouched. |
| Battles.TotalLevelBounds | src/battle/Battle.java:281-298 | Monsters of level at least 1 give at least their number in levels; appending a monster adds its level. |
| Battles.TotalLevel | src/battle/Battle.java:286-289 | The sum of the monsters' levels, defeated ones included: with no negative level it is never negative and covers each monster's level. |
| Battles.EndChecked | src/battle/Battle.java:270-278 | The end flags checkBattleEnd leaves: no monster alive means ended and won, checked first; otherwise no hero alive means ended and lost; otherwise nothing changes. Used as the contract of the battle actions. |
| BoardGeneration.Skeleton | src/world/BoardGenerator.java:26-46 | Every cell of a wall column is INACCESSIBLE, every lane cell of rows 0 and 7 is NEXUS, every other cell PLAIN, all unoccupied. |
| BoardGeneration.Eligible | src/world/BoardGenerator.java:48-57 | The eligible list: every plain cell, once, in row-major order. |
| BoardGeneration.SkeletonEligible | src/world/BoardGenerator.java:48-57 | On the skeleton the eligible cells are exactly the lane cells of rows 1..6. |
| BoardGeneration.Shuffle | src/world/BoardGenerator.java:61 | The eligible list after `Collections.shuffle`, given as the index permutation it applied. |
| BoardGeneration.PickCount | src/world/BoardGenerator.java:59-67 | How many specials are placed: four, or fewer when the list is short. |
| BoardGeneration.PlaceSpecialsFrom | src/world/BoardGenerator.java:59-67 | The first min(4, n) shuffled cells get OBSTACLE, BUSH, CAVE, KOULOU in that order; no other cell changes. |
| BoardGeneration.FillKind | src/world/BoardGenerator.java:72-77 | The five bands of the draw: below 0.12 OBSTACLE, below 0.20 BUSH, below 0.26 CAVE, below 0.30 KOULOU, else PLAIN. |
| BoardGeneration.FillFrom | src/world/BoardGenerator.java:69-78 | Each cell from index `i` on gets the weighted type of its own draw; no other cell and no occupant changes. |
| BoardGeneration.MarketsFrom | src/world/BoardGenerator.java:80-89 | Scans cells[i..] turning plain cells into markets until two are placed. Returns the grid and the positions converted. |
| BoardGeneration.ClosedSetContainsWalk | src/world/BoardGenerator.java:113-144 | A set containing the lane's starts and closed under lane steps contains every walk's end. |
| BoardGeneration.FrontierFrom | src/world/BoardGenerator.java:130-143 | Every cell returned is an unvisited lane step from `p`, and every unvisited lane step among the remaining neighbours is returned. |
| BoardGeneration.ExpandKeepsClosed | src/world/BoardGenerator.java:130-143 | Expanding `p` by all its unvisited lane steps keeps the expanded set closed. |
| BoardGeneration.ExtendWalks | src/world/BoardGenerator.java:130-143 | The walks known after expanding `p`: each new cell extends the walk to `p`. |
| BoardGeneration.Frontier | src/world/BoardGenerator.java:130-143 | Exactly the unvisited lane steps out of `p`. |
| BoardGeneration.ExpandKeepsInvariant | src/world/BoardGenerator.java:122-144 | Dequeuing a non-goal cell and queueing its frontier keeps the invariant and makes progress. |
| BoardGeneration.FrontierProgress | src/world/BoardGenerator.java:122-144 | A non-empty frontier strictly shrinks the set of unvisited lane cells. |
| BoardGeneration.GoalKeepsInvariant | src/world/BoardGenerator.java:123-128 | Dequeuing a goal cell: its known walk is a lane path. |
| BoardGeneration.LaneReachable | src/world/BoardGenerator.java:105-146 | The search reports reachable exactly when some row-0 lane cell is joined to some row-7 lane cell by orthogonal steps through lane cells that are neither INACCESSIBLE nor OBSTACLE. |
| BoardGeneration.CarveCell | src/world/BoardGenerator.java:155-156 | An OBSTACLE or INACCESSIBLE cell becomes PLAIN, any other cell is kept; occupants stay. |
| BoardGeneration.Carve | src/world/BoardGenerator.java:148-157 | Clears every obstacle and wall cell of the lane's first column to plain. |
| BoardGeneration.CarveMakesPath | src/world/BoardGenerator.java:148-157 | After carving, the lane's first column is a straight top-to-bottom path. |
| BoardGeneration.LanePathIsLocal | src/world/BoardGenerator.java:130-140 | Whether a lane has a path depends only on the types of that lane's cells. |
| BoardGeneration.EnsureLanePathExists | src/world/BoardGenerator.java:102-158 | Afterwards the lane has a top-to-bottom path; a lane that had one is left exactly as it was. |
| BoardGeneration.CarvePreservesOtherLanes | src/world/BoardGenerator.java:148-157 | Repairing one lane never breaks another lane's path. |
| BoardGeneration.SkeletonIsTerrainBase | src/world/BoardGenerator.java:26-57 | The skeleton has no market, no occupant, and its plain cells are exactly the lane cells of rows 1 to 6, which the terrain passes start from. |
| BoardGeneration.TerrainOn | src/world/BoardGenerator.java:59-89 | Specials, weighted fill and markets laid on the shuffled eligible cells of `base`. |
| BoardGeneration.ShuffledCells | src/world/BoardGenerator.java:48-61 | Shuffled cells of a base are distinct lane-interior cells. |
| BoardGeneration.TerrainOnFacts | src/world/BoardGenerator.java:59-89 | What the terrain passes produce on any base, before any lane is repaired. |
| BoardGeneration.PassesFacts | src/world/BoardGenerator.java:59-89 | The three terrain passes, composed, give the terrain shape. |
| BoardGeneration.OnlyShuffledCellsChange | src/world/BoardGenerator.java:59-89 | The three terrain passes touch only shuffled eligible cells: every other cell is as the skeleton left it. |
| BoardGeneration.KindsBeforeMarkets | src/world/BoardGenerator.java:63-78 | The fill pass starts after the specials, so the first pick cells keep their special type. |
| BoardGeneration.NoMarketBeforeMarketPass | src/world/BoardGenerator.java:26-78 | Before the market pass no cell of the board is a MARKET. |
| BoardGeneration.SpecialsAreNotMarkets | src/world/BoardGenerator.java:83-89 | The market pass starts at index pick, so no special cell becomes a market. |
| BoardGeneration.LaneInteriorKinds | src/world/BoardGenerator.java:26-89 | After the three passes the walls and nexus rows are intact and every lane interior cell has a lane terrain type. |
| BoardGeneration.CarveKeepsLayout | src/world/BoardGenerator.java:148-157 | Carving keeps a well-laid board well laid, keeps markets, and clears only obstacles. |
| BoardGeneration.ShapeFromTerrain | src/world/BoardGenerator.java:59-89 | What the terrain passes leave is a board of the generated shape: walls, nexus rows, at most two markets on shuffled cells past the specials. |
| BoardGeneration.RepairKeepsShape | src/world/BoardGenerator.java:148-157 | A lane repair keeps the generated shape and whether each other lane has a path. |
| BoardGeneration.GenerateBoard | src/world/BoardGenerator.java:23-97 | generateBoard followed by the three lane repairs. The result keeps the walls and the nexus rows, has at most two markets, each on a shuffled cell past the specials, keeps BUSH, CAVE and KOULOU on the second to fourth shuffled cells (the first, the OBSTACLE, may be carved back to PLAIN), and has a path in every lane. |
| BoardGeneration.RepairLanes | src/world/BoardGenerator.java:91-94 | After the three repairs every lane has a top-to-bottom path, and the board keeps its generated shape. |
| BoardGeneration.RepairLane | src/world/BoardGenerator.java:93 | One repair gives its lane a path, keeps the others' paths and the board's shape. |
| Cells.NewCell | src/world/Cell.java:12-16 | A fresh cell of the given type with both slots empty. |
| Cells.SetType | src/world/Cell.java:22-24 | Changing the type never touches the occupants. |
| Cells.PlaceHero | src/world/Cell.java:50-52 | Overwrites the hero slot without any check; the monster slot and type are kept. |
| Cells.RemoveHero | src/world/Cell.java:54-56 | The hero slot is emptied; the monster slot and the type stay. |
| Cells.PlaceMonster | src/world/Cell.java:58-60 | Overwrites the monster slot without any check; the hero slot and type are kept. |
| Cells.RemoveMonster | src/world/Cell.java:62-64 | The monster slot is emptied; the hero slot and the type stay. |
| Cells.CellChecksIgnoreObstacles | src/world/Cell.java:42-48 | The cell-level checks are weaker than the map-level entry rule: an empty obstacle cell accepts a hero and a monster and counts as walkable here. |
| Cells.PlaceHeroOverwrites | src/world/Cell.java:50-52 | Placing over an occupied hero slot silently drops the previous hero. |
| Cells.HasHero | src/world/Cell.java:34-36 | A hero occupies the cell exactly when the hero slot is filled. |
| Cells.HasMonster | src/world/Cell.java:38-40 | A monster occupies the cell exactly when the monster slot is filled. |
| Cells.CanPlaceHero | src/world/Cell.java:42-44 | The hero slot is empty and the cell is not a wall; obstacles do not refuse (see `Cells.CellChecksIgnoreObstacles`). |
| Cells.CanPlaceMonster | src/world/Cell.java:46-48 | The monster slot is empty and the cell is not a wall; obstacles do not refuse. |
| Cells.CellIsWalkable | src/world/Cell.java:66-68 | Every cell but a wall; unlike the map-level rule, an obstacle counts as walkable. |
| Cells.PadCenter | src/world/Cell.java:100-110 | `s` centred in a field of width `w`: unchanged when it already fills the field, otherwise floor((w-\|s\|)/2) spaces on the left and the rest right. |
| Cells.PadCenterKeeps | src/world/Cell.java:100-110 | Padding never loses a character of the padded text. |
| Cells.PadCenterCentred | src/world/Cell.java:100-110 | Text no wider than the field comes out centred in it. |
| Cells.PadCenterFitted | src/world/Cell.java:100-110 | Padding to a width fits the text to it, whatever its length. |
| Cells.NatToString | src/world/Cell.java:92 | Java's decimal rendering of a non-negative int. |
| Cells.NatToStringRoundTrip | src/world/Cell.java:92 | Decimal rendering is lossless. |
| Cells.LevelTag | src/world/Cell.java:90-98 | "H" or "M" followed by the level, shown as at least 1: after the prefix come only decimal digits, and they read back as max(1, level). |
| Cells.RenderShort | src/world/Cell.java:72-88 | Cell text: "H<lvl>/M<lvl>" with each tag centred to 3 when a hero and a monster share the cell, a single tag centred to 6 for one occupant, the type symbol centred to 6 when empty. A tag wider than its field is kept whole, so the text is 6 wide (7 when shared) only while levels stay below 100. The occupant levels are looked up by the caller. |
| Cells.RenderLone | src/world/Cell.java:72-88 | A lone occupant's tag centred to 6, or left as it is when it is wider. |
| Cells.RenderShared | src/world/Cell.java:72-88 | A shared cell: the hero tag centred to 3, a slash, the monster tag centred to 3; a tag wider than 3 is kept whole and pushes the slash right. |
| Cells.RenderedLevelReadsBack | src/world/Cell.java:72-98 | The level shown in a lone occupant's cell reads back: the digits right after the tag letter, up to the right padding, parse to max(1, level). |
| Cells.DisplayedLevelAtLeastOne | src/world/Cell.java:90-98 | A level below 1 is displayed as level 1. |
| CellTypes.Symbol | src/world/CellType.java:14-26 | The map symbol of a cell type; the source's '?' default is unreachable. |
| CellTypes.AllCellTypesComplete | src/world/CellType.java:4-12 | The eight cell types, each listed once. |
| CellTypes.SymbolInjective | src/world/CellType.java:14-26 | Distinct cell types are drawn with distinct symbols. |
| Characters.Full | src/characters/Character.java:11-16 | The constructor: current and maximum both start at the given value. |
| Characters.Set | src/characters/Character.java:38-40 | setHp / setMp: the value clamped into [0, maximum]. |
| Characters.Resize | src/characters/Character.java:42-45 | setMaxHp / setMaxMp: a new maximum, lowering the current value if it was above it. |
| Characters.Drain | src/characters/Character.java:47-49 | takeDamage / useMana: subtract, never going below zero. |
| Characters.Refill | src/characters/Character.java:51-53 | heal / restoreMana: add, never going above the maximum. |
| Characters.DrainBounds | src/characters/Character.java:47-49 | A non-negative amount drained moves the value down, never below 0, and keeps it in range. |
| Characters.RefillBounds | src/characters/Character.java:51-53 | A non-negative amount refilled moves the value up, never above the maximum. |
| Characters.ClampingKeepsRange | src/characters/Character.java:38-53 | Setting, resizing or refilling a gauge with a non-negative maximum keeps it in range. |
| Characters.DrainUndoesRefill | src/characters/Character.java:47-53 | Draining what was just refilled restores the gauge when nothing was capped. |
| Characters.FaintedIsNotAlive | src/characters/Character.java:55-61 | isFainted is exactly the negation of isAlive. |
| Characters.DrainToFaint | src/characters/Character.java:47-49 | Full-strength damage faints: draining at least the current value leaves exactly 0. |
| CombatMath.ScaledDefense | src/valor/combat/CombatResolver.java:28 | A tenth of the monster's effective defense, truncated. |
| CombatMath.HeroHitDamage | src/valor/combat/CombatResolver.java:27-29 | A hero's weapon hit: the hero's damage less the scaled defense, but always at least 1. |
| CombatMath.SpellHitDamage | src/valor/combat/CombatResolver.java:60-62 | A spell hit: the spell damage less the scaled defense, but always at least 1. |
| CombatMath.ScaledMonsterDamage | src/valor/combat/CombatResolver.java:98 | 8% of the monster's effective damage, truncated. |
| CombatMath.MonsterHitDamage | src/valor/combat/CombatResolver.java:98-99 | A monster hit: the scaled damage less the hero's armor, never negative. |
| CombatMath.HeroHitExample | src/valor/combat/CombatResolver.java:27-29 | Worked example of HeroHitDamage: strength 50, no weapon, effective defense 20 gives a hit of 3. |
| CombatMath.ApplySpellEffect | src/valor/combat/CombatResolver.java:112-126 | applySpellEffect: one 0.1 debuff, on the accumulator the spell type names (ice: damage, fire: defense, lightning: dodge); nothing else changes. |
| CombatMath.SpellEffectKeepsRange | src/valor/combat/CombatResolver.java:112-126 | A spell effect never touches HP or base stats and keeps the accumulators in range. |
| CombatResolver.HeroAttack | src/valor/combat/CombatResolver.java:14-40 | heroAttack: fails, changing nothing, on a missing argument or a dead side; a dodge succeeds with no damage; a hit deals HeroHitDamage and reports whether the target fainted. |
| CombatResolver.HeroCastSpell | src/valor/combat/CombatResolver.java:42-84 | heroCastSpell: fails, changing nothing, on a missing argument, a dead side or too little mana. Otherwise the mana is spent and the spell uses one of its uses whether or not the target dodges; a hit deals SpellHitDamage and applies the spell type's debuff. The spell object is the one the hero's inventory refers to, so the inventory shows the use. |
| CombatResolver.ExhaustedSpellStillCasts | src/valor/combat/CombatResolver.java:42-84 | Nothing checks the spell's remaining uses: a used-up spell still casts, and stays used up. |
| CombatResolver.MonsterAttack | src/valor/combat/CombatResolver.java:86-110 | monsterAttack: fails, changing nothing, on a missing argument or a dead side; a dodge (against the hero's agility-based chance) succeeds with no damage; a hit deals MonsterHitDamage, possibly 0. |
| EntityTracking.GetOrAssignHeroId | src/world/EntityTracker.java:20-26 | Returns the hero's id, assigning size+1 on the first call. |
| EntityTracking.GetOrAssignMonsterId | src/world/EntityTracker.java:38-44 | Returns the monster's id, assigning size+1 on the first call. |
| EntityTracking.GetHeroId | src/world/EntityTracker.java:31-33 | Some id exactly when the hero has one, and then that id. |
| EntityTracking.GetMonsterId | src/world/EntityTracker.java:49-51 | Some id exactly when the monster has one, and then that id. |
| EntityTracking.RemoveHeroId | src/world/EntityTracker.java:56-58 | Forgets a hero's id; its recorded lane stays. |
| EntityTracking.RemoveMonsterId | src/world/EntityTracker.java:63-65 | The monster loses its id; every other monster keeps its own; hero ids and lanes are untouched. |
| EntityTracking.SetHeroLane | src/world/EntityTracker.java:70-72 | Records (or overwrites) a hero's lane. |
| EntityTracking.GetHeroLane | src/world/EntityTracker.java:77-80 | The recorded lane, or -1 when none is recorded. |
| EntityTracking.GetHeroLaneMinusOne | src/world/EntityTracker.java:77-87 | While only real lanes are recorded, -1 means exactly "no lane recorded". |
| EntityTracking.AssignHeroIdIdempotent | src/world/EntityTracker.java:20-26 | Asking twice gives the same id and changes nothing the second time. |
| EntityTracking.AssignMonsterIdIdempotent | src/world/EntityTracker.java:38-44 | Asking twice for a monster's id gives the same id and changes nothing the second time. |
| EntityTracking.AssignKeepsHeroIdsDense | src/world/EntityTracker.java:20-26 | Without removals, assigning keeps ids dense, so no two heroes share an id. |
| EntityTracking.AssignKeepsMonsterIdsDense | src/world/EntityTracker.java:38-44 | Without removals, assigning keeps monster ids dense (1..size), so no two monsters share an id. |
| EntityTracking.HeroIdReusedAfterRemoval | src/world/EntityTracker.java:20-58 | After a removal the size+1 rule can hand out a live id again: heroes 0 and 1 get ids 1 and 2, hero 0 is removed, and hero 2 then gets id 2. |
| EntityTracking.RemoveKeepsLane | src/world/EntityTracker.java:56-58 | Removing a hero's id leaves the recorded lane in place. |
| EntityTracking.HasHeroLane | src/world/EntityTracker.java:85-87 | A lane is recorded for the hero exactly when the hero is a key of the lane table. |
| GameContexts.Enlist | src/game/MonsterSpawner.java:115-146 | A new monster object: recorded under the next reference, which is then used up. |
| GameContexts.NewGameContext | src/game/GameContext.java:18-40 | The field initialisers: hero 0 first, round 0, a wave every 4 rounds. |
| GameContexts.NewGameContextValid | src/game/GameContext.java:18-40 | A new context over a board without monsters is valid. |
| Geometry.LaneForColumn | src/world/MovementRules.java:145-150 | Lane index of a column, or -1 for wall and off-board columns. |
| Geometry.LaneColumns | src/world/MovementRules.java:163-166 | The columns of a lane; empty outside 0..2. |
| Geometry.Neighbors | src/world/BoardGenerator.java:160-173 | Orthogonal neighbours in the order up, down, left, right, keeping only those on the board; the origin itself is not checked. |
| Geometry.CheckedNeighbors | src/world/ValorWorldMap.java:259-273 | Neighbours of an on-board position; empty for an off-board one. |
| Geometry.LanesPartitionColumns | src/world/MovementRules.java:145-150 | The lane layout: every column is in at most one lane and walls are in none. |
| Grids.HeroPosition | src/world/ValorWorldMap.java:361-369 | Where hero `h` stands: the first row-major cell holding it. |
| Grids.MonsterPosition | src/world/ValorWorldMap.java:372-380 | Where monster `m` stands: the first row-major cell holding it. |
| Grids.HeroPositionFromHeroSlots | src/world/ValorWorldMap.java:361-369 | Where a hero stands depends only on the hero slots: grids that agree on them locate every hero alike. |
| Grids.MonsterCells | src/world/ValorWorldMap.java:393-399 | Positions of all cells holding a monster, in row-major order. |
| Grids.Relocate | src/world/ValorWorldMap.java:474-491 | Empties the mover's slot at `from`, then places the same occupant at `to`. |
| Grids.RelocationKeepsCount | src/world/ValorWorldMap.java:474-491 | Moving one occupant out of `from` into a free `to` keeps the number of matching cells. |
| Heroes.NewHero | src/characters/Hero.java:24-37 | The Hero constructor, reached unchanged from each class's constructor: HP and MP start full, the inventory empty, nothing equipped. |
| Heroes.SetMp | src/characters/Hero.java:52-54 | setMp: clamped into [0, maxMp]; nothing else changes. |
| Heroes.HasMana | src/characters/Hero.java:130-132 | The current mana covers the required amount. |
| Heroes.UseMana | src/characters/Hero.java:122-124 | useMana: mana goes down by the amount, but not below zero. |
| Heroes.RestoreMana | src/characters/Hero.java:126-128 | restoreMana: mana goes up by the amount, but not above the maximum. |
| Heroes.UseManaWithinBudget | src/characters/Hero.java:122-124 | Spending mana the hero has leaves exactly the difference. |
| Heroes.AddGold | src/characters/Hero.java:66-70 | addGold: refuses a negative amount; only the purse changes. |
| Heroes.RemoveGold | src/characters/Hero.java:72-76 | removeGold: refuses a negative amount or more than the purse holds. |
| Heroes.CanAfford | src/characters/Hero.java:78-80 | The purse holds at least the price. |
| Heroes.AffordIffPurchaseSucceeds | src/characters/Hero.java:72-80 | For a non-negative price, affording it is exactly what lets removeGold go through. |
| Heroes.GoldRoundTrip | src/characters/Hero.java:66-76 | Taking back gold just added restores the hero; adding back gold just taken does too. |
| Heroes.Grow | src/characters/Hero.java:101-105 | The level-up growth of a stat: the truncation of stat * 1.05. |
| Heroes.GrowthIsIntegerDivision | src/characters/Hero.java:101-105 | The truncation of s * 1.05 is s + s/20 for s >= 0, and its mirror image for s < 0. |
| Heroes.FavoredBonus | src/characters/Warrior.java:16-22 | A favoured stat's extra: stat plus the truncation of stat * 0.05. |
| Heroes.FavoredExtraIsIntegerDivision | src/characters/Warrior.java:18-19 | The truncation of s * 0.05 is s/20 for s >= 0. |
| Heroes.WarriorBonus | src/characters/Warrior.java:16-22 | Warrior: strength and agility get the favoured extra; dexterity and the rest stay. |
| Heroes.SorcererBonus | src/characters/Sorcerer.java:16-22 | Sorcerer: dexterity and agility get the favoured extra; strength and the rest stay. |
| Heroes.PaladinBonus | src/characters/Paladin.java:16-22 | Paladin: strength and dexterity get the favoured extra; agility and the rest stay. |
| Heroes.ApplyFavoredStatBonus | src/characters/Hero.java:108 | applyFavoredStatBonus, dispatched on the hero's class: the two stats the class favours get the favoured extra, the third stays as it was. |
| Heroes.SmallStatsGainNothing | src/characters/Warrior.java:16-22 | Stats below 20 gain nothing from any class's favoured bonus. |
| Heroes.LevelUp | src/characters/Hero.java:97-115 | levelUp: one more level; max HP, max MP and all three stats grow by 5% (truncated); the class bonus is added on top of the grown stats; then HP and MP are set to the new maxima. |
| Heroes.DodgeChance | src/characters/Hero.java:184-186 | getDodgeChance: 0.02% per point of agility, compared against a monster attack's roll. No agility means no chance; from 5000 agility on the chance reaches 1, so every roll in [0, 1) is dodged. |
| Heroes.DodgeChanceMonotone | src/characters/Hero.java:184-186 | More agility never lowers the dodge chance, and strictly more agility raises it. |
| Heroes.GainExperience | src/characters/Hero.java:83-94 | gainExperience: experience grows by the amount and is never reset; the hero levels up once, and only once, when the new total reaches the threshold of the current level. |
| Heroes.OneLevelPerGain | src/characters/Hero.java:83-94 | However large the gain, one call raises the level by at most one. |
| Heroes.XpRequired | src/characters/Hero.java:89-90 | The experience a hero of a level needs to level up: one more than the level, times the base of 10. |
| Heroes.XpRequiredIncreasing | src/characters/Hero.java:89-90 | Each level needs strictly more experience than the one below it, 10 more per level. |
| Heroes.EquipWeapon | src/characters/Hero.java:135-142 | equipWeapon: needs a weapon, the level, and the weapon in the inventory. |
| Heroes.EquipArmor | src/characters/Hero.java:144-151 | equipArmor: the same three checks for armor. |
| Heroes.CalculateDamage | src/characters/Hero.java:162-168 | calculateDamage: a tenth of strength (truncated) plus the equipped weapon's damage. |
| Heroes.TenthIsIntegerDivision | src/characters/Hero.java:162-168 | The truncation of s * 0.1 is s/10 for s >= 0. |
| Heroes.CalculateSpellDamage | src/characters/Hero.java:171-174 | calculateSpellDamage: the truncation of 0.15 * dexterity + 0.15 * the spell's base damage. |
| Heroes.SpellScaleIsIntegerDivision | src/characters/Hero.java:171-174 | The truncation of s * 0.15 is 3s/20 for s >= 0. |
| Heroes.GetDefense | src/characters/Hero.java:176-181 | getDefense: the equipped armor's reduction, or 0 without armor. |
| Heroes.Regenerate | src/characters/Hero.java:189-194 | regenerate: heals a tenth of max HP and restores a tenth of max MP, each capped at its maximum. |
| Heroes.Revive | src/characters/Hero.java:197-202 | revive: HP and MP set to half their maxima (truncated). |
| Heroes.HalfIsIntegerDivision | src/characters/Hero.java:197-202 | The truncation of s * 0.5 is s/2 for s >= 0. |
| HeroManagers.TenthRoundedUp | src/managers/HeroManager.java:28-29 | `(int) Math.ceil(m * rate)` at the 10% regeneration rate: a tenth, rounded up. |
| HeroManagers.OverworldRegen | src/managers/HeroManager.java:27-31 | The overworld regeneration of one hero: a living hero heals a tenth of its maximum HP and MP, rounded up, capped at the maxima; a fainted hero is skipped. |
| HeroManagers.OverworldRegenAtLeastRegenerate | src/managers/HeroManager.java:25-33 | Rounding up makes the overworld regeneration at least as generous as Hero.regenerate, which rounds down, and strictly more generous for a hero below the cap whose maximum is not a multiple of 10. |
| HeroManagers.RegenerateHeroesOverworld | src/managers/HeroManager.java:25-33 | regenerateHeroesOverworld: every hero in turn; fainted heroes stay exactly as they were, living heroes with sane gauges never lose HP or MP, stay alive, and stay within their maxima. |
| Inventories.IndexOf | src/inventory/Inventory.java:21-23 | The first index holding the very object, exactly when one exists; no earlier index holds it. |
| Inventories.Contains | src/inventory/Inventory.java:67-69 | contains: some entry is the same object as `item`. |
| Inventories.AddItem | src/inventory/Inventory.java:17-19 | addItem appends to the end. |
| Inventories.RemoveItem | src/inventory/Inventory.java:21-23 | removeItem: drops the first entry that is the same object as `item` and reports whether there was one; the other entries keep their order. |
| Inventories.RemoveUndoesAdd | src/inventory/Inventory.java:17-23 | Removing an item that was just added to an inventory not holding it gives the inventory back. |
| Inventories.RemoveTakesOneEntry | src/inventory/Inventory.java:21-23 | Removal takes out exactly one entry: the multiset of items loses that entry and nothing else. |
| Inventories.Size | src/inventory/Inventory.java:63-65 | size; getAllItems needs no counterpart, since an inventory value is never shared. |
| Inventories.IsEmptyMeansNoItem | src/inventory/Inventory.java:59-61 | isEmpty holds iff no item is contained. |
| Inventories.IsEmpty | src/inventory/Inventory.java:59-61 | The inventory holds no entry. |
| Inventories.FilterCategory | src/inventory/Inventory.java:29-57 | A stream filter: keeps the entries in the category, in their original order. |
| Inventories.FilterAppend | src/inventory/Inventory.java:29-57 | Filtering distributes over concatenation, so the views keep the list order. |
| Inventories.FilterIdempotent | src/inventory/Inventory.java:29-57 | Filtering twice is filtering once. |
| Inventories.GetWeapons | src/inventory/Inventory.java:29-34 | Exactly the weapons of the inventory. |
| Inventories.GetArmor | src/inventory/Inventory.java:36-41 | Exactly the armor of the inventory. |
| Inventories.GetPotions | src/inventory/Inventory.java:43-49 | Exactly the potions of the inventory that still have uses. |
| Inventories.GetSpells | src/inventory/Inventory.java:51-57 | Exactly the spells of the inventory that still have uses. |
| Inventories.Refresh | src/items/Item.java:42-46 | useOnce changes the one object every list slot refers to: each entry that is the same object as `used` now shows the used state. |
| Inventories.UsedSpellLeavesSpellView | src/inventory/Inventory.java:51-57 | A spell used once leaves the spell view, while the entry itself stays in the inventory. |
| Items.NewWeapon | src/items/Weapon.java:9-13 | Weapon and Armor call the three-argument Item constructor: infinite uses. |
| Items.IsTwoHanded | src/items/Weapon.java:23-25 | A weapon is two-handed exactly when it needs two hands. |
| Items.NewArmor | src/items/Armor.java:8-11 | An armor with the given fields and infinite uses. |
| Items.NewPotion | src/items/Potion.java:11-16 | Potions and spells pass a use count of one. |
| Items.NewSpell | src/items/Spell.java:12-18 | A spell with the given fields, usable once. |
| Items.UseOnce | src/items/Item.java:42-46 | useOnce: only a positive count goes down; nothing else about the item changes. |
| Items.UseTimesCount | src/items/Item.java:42-46 | After `n` uses a finite count stands at max(0, count - n); an infinite or exhausted count never moves; only the count ever changes. |
| Items.ExhaustedAfterExactlyItsUses | src/items/Item.java:38-46 | An item with `n > 0` uses has some left after fewer than `n` uses and none after exactly `n`. |
| Items.HasUsesLeft | src/items/Item.java:38-40 | An item is usable when its uses are infinite (-1) or its count is positive. |
| Items.InfiniteItemNeverWearsOut | src/items/Item.java:18-20 | An infinite-use item keeps its uses whatever happens to it. |
| Items.WeaponsAndArmorNeverWearOut | src/items/Item.java:18-20 | Weapons and armor are built with infinite uses, so they never wear out. |
| Items.SingleUseItems | src/items/Potion.java:11-16 | A new potion or spell is usable once, and used up after one use. |
| Items.Affects | src/items/Potion.java:26-49 | affectsHealth, affectsMana, ... : some listed name selects the attribute. |
| Items.AllAndEmptyAttributes | src/items/Potion.java:26-49 | A listed "All", in any case, makes all five predicates true; an empty list makes all false. |
| Items.SingleAttributePotion | src/items/Potion.java:26-49 | A potion naming one attribute affects that attribute and no other. |
| JavaMath.JavaInt | src/characters/Monster.java:50 | Java's `(int) x` for a double `x`: rounds toward zero. |
| JavaMath.JavaCeil | src/managers/HeroManager.java:28-29 | Java's `(int) Math.ceil(x)`: the least integer not below `x`. |
| JavaMath.JavaRem | src/game/MovementController.java:66 | Java's integer `%` by a positive divisor: the remainder takes the sign of the dividend. |
| JavaMath.TruncatedScale | src/characters/Hero.java:101-105 | Truncating a non-negative integer scaled by the rational n/d is integer division: (int) (s * n/d) == s * n / d. The source's casts of `stat * 0.1`, `stat * 1.05` and the like are all of this form. |
| Markets.BuyItem | src/market/Market.java:35-63 | buyItem: stock first, then level, then gold. On success the gold is taken with removeGold, the item is appended to the hero's inventory and its first occurrence leaves the stock. |
| Markets.SellPrice | src/market/Market.java:66-83 | The truncation of price * 0.5. |
| Markets.SellItem | src/market/Market.java:66-83 | sellItem: fails on an item the hero does not own. Otherwise the first occurrence leaves the inventory, half the price (truncated) is added with addGold, and the item is appended to the stock. The equipped weapon and armor are not touched. |
| Markets.BuyThenSell | src/market/Market.java:35-83 | Buying an item and selling it straight back returns the hero's inventory and costs the hero the half price not refunded. |
| Markets.BuyThenSellRestocks | src/market/Market.java:35-83 | The same round trip gives the stock its contents back, the item moving to the end. |
| Markets.NegativePriceIsFree | src/market/Market.java:35-63 | A negative price passes the gold check and removeGold refuses it: the item changes hands for nothing. |
| Markets.SellingKeepsEquipment | src/market/Market.java:66-83 | Selling the equipped weapon leaves it equipped, although the inventory no longer holds it. |
| Monsters.MonsterBase | src/characters/Monster.java:17-22 | The Monster constructor: full HP, dodge given in percent, no debuffs yet. |
| Monsters.Boost | src/characters/Dragon.java:10-15 | A stat raised by a 10% boost, truncated. |
| Monsters.NewDragon | src/characters/Dragon.java:10-15 | Dragon: the base damage gets the 10% boost; defense and dodge stay as the base constructor set them. |
| Monsters.NewExoskeleton | src/characters/Exoskeleton.java:10-15 | Exoskeleton: the defense gets the 10% boost; damage and dodge stay. |
| Monsters.NewSpirit | src/characters/Spirit.java:10-15 | Spirit: the dodge chance is multiplied by 1.1, with no truncation; damage and defense stay. |
| Monsters.NewMonster | src/characters/Monster.java:17-22 | The monster has the requested type, name, level and full HP, and starts with every debuff accumulator at zero. |
| Monsters.Reduced | src/characters/Monster.java:49-55 | The truncation of stat * (1 - reduction). |
| Monsters.EffectiveDamage | src/characters/Monster.java:49-51 | getEffectiveDamage: base damage after the ice debuff. |
| Monsters.EffectiveDefense | src/characters/Monster.java:53-55 | getEffectiveDefense: defense after the fire debuff. |
| Monsters.EffectiveDodgeChance | src/characters/Monster.java:57-59 | getEffectiveDodgeChance: dodge after the lightning debuff, never negative. |
| Monsters.ApplyIceDebuff | src/characters/Monster.java:62-64 | applyIceDebuff: the damage accumulator grows by the amount, capped at 1; nothing else changes. |
| Monsters.ApplyFireDebuff | src/characters/Monster.java:66-68 | applyFireDebuff: the defense accumulator grows by the amount, capped at 1; nothing else changes. |
| Monsters.ApplyLightningDebuff | src/characters/Monster.java:70-72 | applyLightningDebuff: the dodge accumulator grows by the amount, capped at the current dodge chance; nothing else changes. |
| Monsters.DebuffsStayInRange | src/characters/Monster.java:49-72 | A fresh monster with a non-negative dodge has its accumulators in range, and non-negative debuffs keep them there; effective stats then stay between zero and the base stats. |
| Monsters.FreshMonsterDebuffsInRange | src/characters/Monster.java:17-22 | A monster as built, with a non-negative dodge percentage, starts with every debuff accumulator in range. |
| MonsterControllers.HeroesInRange | src/game/MonsterController.java:47-52 | Exactly the party indices below `n` whose hero is on the board within one king's step of the monster. |
| MonsterControllers.HeroesInRangeAscending | src/game/MonsterController.java:47-52 | The indices of the heroes in range are strictly increasing: party order, each hero once. |
| MonsterControllers.FirstLateral | src/game/MonsterController.java:85-90 | The first same-row neighbour, from index `k` of `ns` on, that the monster may enter and move to. |
| MonsterControllers.StepTarget | src/game/MonsterController.java:74-91 | Where a monster with no hero in range goes: one row down when it may move there, otherwise the first of its left and right neighbours it may move to, otherwise nowhere. It never goes up. |
| MonsterControllers.AttackInRange | src/game/MonsterController.java:54-73 | The attack of monster `m` at `mpos` on the hero the draw `pick` selects among those in range: a roll below the target's dodge chance leaves the party as it was, otherwise the target loses the monster's hit damage; nobody else changes. |
| MonsterControllers.StepMonsterAt | src/game/MonsterController.java:74-91 | Ids stay; a monster with no step target stays; otherwise exactly that monster is carried to its target; the monster count is kept. |
| MonsterControllers.StepKeepsHeroesAndRecords | src/game/MonsterController.java:74-91 | A step moves one monster and nothing else: heroes, terrain and known monsters stay so. |
| MonsterControllers.MonsterAct | src/game/MonsterController.java:41-93 | One monster's action at `mpos`: with a hero in range it attacks and stays, otherwise it steps to its step target if it has one. A cell emptied earlier in the turn is skipped. |
| MonsterControllers.FaintedHeroStillDrawsFire | src/game/MonsterController.java:47-73 | A hero in range is attacked whether or not it has fainted, so a monster next to a fainted hero that the board still shows stays where it is, and the fainted hero's HP stays at 0. |
| MonsterControllers.MonsterStepAvoidsWalls | src/game/MonsterController.java:74-91 | With the wall columns closed, a monster never steps into a wall: its only sideways moves are to cells it may enter. |
| MonsterControllers.ActionSparesOtherMonsters | src/game/MonsterController.java:74-91 | One action leaves every other cell that holds a monster as it was: a step only enters a cell without one. |
| MonsterControllers.WaitingAfterAction | src/game/MonsterController.java:41-93 | The action at the `k`-th snapshot cell keeps every later snapshot cell waiting. |
| MonsterControllers.ActUpTo | src/game/MonsterController.java:41-93 | The state after the first `k` scanned cells have acted, in scan order. A monster only steps into a cell without a monster, and the cells still to be scanned keep theirs: every monster of the snapshot not yet scanned still stands on its scanned cell. |
| MonsterControllers.SnapshotActsOnce | src/game/MonsterController.java:28-44 | Each monster of the snapshot acts once: at its turn it still stands on its scanned cell, and if it steps it lands on no cell still to be scanned, so it does not act again. |
| MonsterControllers.EveryMonsterGetsItsTurn | src/game/MonsterController.java:28-44 | In a running game every monster of the snapshot gets its turn on the cell it was scanned on: the `k`-th action is that monster's own. |
| MonsterControllers.PerformMonstersTurn | src/game/MonsterController.java:25-96 | performMonstersTurn: nothing happens once the game has stopped; otherwise each monster of the row-major snapshot takes its action in turn, so the party only loses HP, heroes stay on their cells, the terrain and the monster count stay, and every monster stays known. In a running game the turn is the fold `ActUpTo` over the whole snapshot, and a lone monster's turn is its own action. |
| MonsterControllers.EmptyBoardTurnIsIdle | src/game/MonsterController.java:25-96 | With no monster on the board the turn changes nothing. |
| MonsterFactories.ClosestFrom | src/game/MonsterSpawner.java:115-146 | The scan's result is a template of minimal level gap to the target, and no earlier template has that small a gap. |
| MonsterFactories.ClosestTemplate | src/game/MonsterSpawner.java:115-146 | The template createMonsterOfLevel copies: one whose level is closest to the target, and, since only a strictly closer one replaces the current best, the earliest of those. |
| MonsterFactories.CloneAtLevel | src/game/MonsterSpawner.java:115-146 | A new monster built from a template: the template's kind, name, level, damage, defense and dodge (passed in percent) go through the kind's constructor again, with hit points 150 per level. |
| MonsterFactories.CloneBoostsAgain | src/game/MonsterSpawner.java:115-146 | The kind's boost is applied to the template's already boosted stat, so a copy of a dragon hits harder than its template, a copy of an exoskeleton defends better and a copy of a spirit dodges more. |
| MonsterFactories.CloneOfCloneCompounds | src/game/MonsterSpawner.java:115-146 | Worked example of CloneBoostsAgain: a dragon template of damage 100 yields copies of damage 110, and a copy of a copy 121. |
| MonsterFactories.CreateMonsterOfLevel | src/managers/MonsterManager.java:114-145 | createMonsterOfLevel: the copy of the earliest template closest to the target level. |
| MonsterFactories.ExactLevelIsChosen | src/managers/MonsterManager.java:114-145 | A template of exactly the target level is matched when it is the first such one. |
| MonsterFactories.ChosenPool | src/game/MonsterSpawner.java:34-44 | The pool a typeChoice draw of 0, 1 or 2 names; any other value names none. |
| MonsterFactories.FallbackPool | src/game/MonsterSpawner.java:47-51 | The first non-empty pool in the order dragons, exoskeletons, spirits. |
| MonsterFactories.CreateRandomMonster | src/managers/MonsterManager.java:85-109 | createRandomMonster, with `choice` the typeChoice draw: a copy from the chosen pool when that pool has templates, otherwise from the first non-empty pool, and nothing only when every pool is empty. |
| MonsterFactories.RandomMonsterKind | src/game/MonsterSpawner.java:29-51 | With well-typed pools the draw decides the kind whenever its pool has templates; a draw outside 0..2, or an empty chosen pool, gives a dragon whenever there are dragon templates. |
| MonsterFactories.HighestLevelOf | src/game/MonsterSpawner.java:149-156 | getHighestHeroLevel over the first `n` heroes: at least 1, and no hero above it. |
| MonsterFactories.HighestHeroLevel | src/managers/HeroManager.java:65-73 | getHighestHeroLevel: the largest hero level, but never below 1. |
| MonsterFactories.HighestLevelFloor | src/game/MonsterSpawner.java:149-156 | An empty party, or one of level-0 heroes, still targets level 1. |
| MonsterManagers.SpawnInitialMonsters | src/managers/MonsterManager.java:31-53 | spawnInitialMonsters: one monster per draw unless every pool is empty, each the copy createRandomMonster makes for its draw, returned in draw order; the pools stay and every monster on the board stays known. Where each one stands is `InitialWaveOnNexus`. |
| MonsterManagers.InitialWaveOnNexus | src/managers/MonsterManager.java:31-53 | The `k`-th created monster stands on the nexus spawn of lane `k` exactly when that cell is walkable, and the cell then refers to its record. |
| MonsterManagers.SpawnMonstersPeriodically | src/managers/MonsterManager.java:58-80 | spawnMonstersPeriodically: the lane-by-lane wave of the Valor spawner (`MonsterSpawners.SpawnInLanes`) at the given level; with every pool empty nothing changes. Which cells get monsters is `ManagerWaveFillsOpenLanes` and `ManagerWaveFrame`. |
| MonsterManagers.ManagerWaveFillsOpenLanes | src/managers/MonsterManager.java:58-80 | Each lane whose scan finds an open cell gets, on the first such cell in row-major order, the copy createRandomMonster makes for that lane's draw, under a new record. |
| MonsterManagers.ManagerWaveFrame | src/managers/MonsterManager.java:58-80 | The periodic wave changes no cell other than where some lane's scan stopped: at most one new monster per lane. |
| MonsterManagers.PlacementIgnoresIdFreeing | src/world/WorldMap.java:150-159 | The placement loops of the two spawners lay out the same cells from the same board: freeing the removed monster's id changes only the id table. |
| MonsterManagers.OpeningWavesAgree | src/managers/MonsterManager.java:31-53 | Started from the same state, the opening wave of either spawner leaves the same board cells and records. |
| MonsterSpawners.CreateAll | src/game/MonsterSpawner.java:29-56 | One createRandomMonster per draw; all of them fail together, when every pool is empty. |
| MonsterSpawners.EnlistAll | src/game/MonsterSpawner.java:59-65 | New records for `ms` under consecutive fresh references, earlier records kept. |
| MonsterSpawners.ClearSpawn | src/game/MonsterSpawner.java:62 | removeMonster on a spawn cell: the Valor map keeps the old monster's id, WorldMap frees it. |
| MonsterSpawners.PlaceAtNexusFrom | src/game/MonsterSpawner.java:59-65 | The placement loop from index `i`: monster `i` goes to the spawn of lane `i` after that cell is cleared. Only those spawn cells change, and only in their monster slot; with at most three monsters the spawns are distinct, so each ends up holding its own monster, or none when the cell is an obstacle or inaccessible. |
| MonsterSpawners.SpawnAtNexus | src/game/MonsterSpawner.java:23-68 | spawnMonsters / spawnInitialMonsters: one monster per draw unless every pool is empty, each the copy createRandomMonster makes for its draw, recorded under a fresh reference and placed on the nexus spawn of the lane with its index. |
| MonsterSpawners.NewMonstersKnown | src/game/MonsterSpawner.java:59-65 | Records survive and the new references are recorded, so every monster on the board stays known. |
| MonsterSpawners.LaneCell | src/game/MonsterSpawner.java:99-103 | The `t`-th cell a lane is scanned in: row t/2, and in each row the lane's two columns in order. |
| MonsterSpawners.FirstOpenIndex | src/game/MonsterSpawner.java:101-110 | The first scan step from `t` whose cell a monster may enter, with every earlier step refused; none exactly when no remaining step is enterable. |
| MonsterSpawners.FirstOpenLaneCell | src/game/MonsterSpawner.java:98-110 | The first lane cell, in scan order, that a monster may enter. |
| MonsterSpawners.FirstOpenIsLocal | src/game/MonsterSpawner.java:98-110 | Two grids that agree on a lane's cells agree on where that lane's scan stops. |
| MonsterSpawners.SpawnInLane | src/game/MonsterSpawner.java:96-110 | One lane of spawnMonstersPeriodically, given the monster created for it: placed on the lane's first open cell under a fresh reference; with no monster, or no open cell, nothing changes and the monster is dropped. |
| MonsterSpawners.LaneSpawnIsLocal | src/game/MonsterSpawner.java:76-111 | A lane spawn leaves the other lanes' scans where they were. |
| MonsterSpawners.LaneSpawnKeepsOthers | src/game/MonsterSpawner.java:98-110 | A lane spawn touches no cell outside its lane and keeps every record below the next reference. |
| MonsterSpawners.SpawnInLanes | src/game/MonsterSpawner.java:76-111 | At most three monsters are recorded, each under the next fresh reference; with no monster created nothing changes; valid lane records stay valid. |
| MonsterSpawners.LaneSpawnPlaces | src/game/MonsterSpawner.java:98-110 | A lane spawn with a monster and an open cell puts that monster, newly recorded, on the cell. |
| MonsterSpawners.LaterLaneKeeps | src/game/MonsterSpawner.java:76-111 | A later lane spawn keeps a filled cell of another lane and its record. |
| MonsterSpawners.FillsLaneZero | src/game/MonsterSpawner.java:76-111 | Lane 0 is filled first and lanes 1 and 2 leave its cell alone. |
| MonsterSpawners.FillsLaneOne | src/game/MonsterSpawner.java:76-111 | Lane 0 leaves lane 1's scan unchanged, and lane 2 leaves its cell alone. |
| MonsterSpawners.FillsLaneTwo | src/game/MonsterSpawner.java:76-111 | Lanes 0 and 1 leave lane 2's scan unchanged. |
| MonsterSpawners.SpawnInLanesFillsEachLane | src/game/MonsterSpawner.java:76-111 | Since the lanes share no cells, every lane with a monster whose scan finds an open cell on the board as it was gets that monster there. |
| MonsterSpawners.SpawnInLanesFrame | src/game/MonsterSpawner.java:76-111 | A periodic wave changes only the cells where some lane's scan stopped. |
| MonsterSpawners.LaneSpawnKeepsRecords | src/game/MonsterSpawner.java:98-110 | One lane spawn keeps every monster on the board known and every reference fresh. |
| MonsterSpawners.SpawnInLanesKeepsRecords | src/game/MonsterSpawner.java:76-111 | A periodic wave keeps every monster on the board known and every reference fresh. |
| MonsterSpawners.LaneMonsters | src/game/MonsterSpawner.java:76-96 | The monster created for each lane: spawnMonstersPeriodically's one createRandomMonster per lane. |
| MonsterSpawners.SpawnMonsters | src/game/MonsterSpawner.java:23-68 | spawnMonsters: three draws at the level of the strongest hero, on the Valor map (whose removeMonster keeps ids); the state stays valid. |
| MonsterSpawners.SpawnMonstersPeriodically | src/game/MonsterSpawner.java:71-112 | spawnMonstersPeriodically at the level of the strongest hero; the state stays valid. |
| MonsterSpawners.PeriodicWaveFillsOpenLanes | src/game/MonsterSpawner.java:71-112 | With some template available, every lane whose scan finds an open cell gets there the copy its draw creates at the strongest hero's level. |
| MonsterSpawners.PeriodicWaveFrame | src/game/MonsterSpawner.java:71-112 | A periodic wave changes no cell where no lane's scan stopped. |
| MonsterSpawners.LaneSpawnKeepsHeroes | src/game/MonsterSpawner.java:98-110 | A lane spawn only fills a monster slot: heroes and terrain stay. |
| MonsterSpawners.PeriodicWaveKeepsHeroes | src/game/MonsterSpawner.java:71-112 | A periodic wave moves no hero and changes no terrain. |
| MovementControllers.InRangeMonstersFrom | src/game/MovementController.java:141-162 | A monster is gathered exactly when it was gathered already or stands in range on a remaining cell; gathering stays duplicate-free. |
| MovementControllers.InRangeMonsters | src/game/MovementController.java:141-162 | The set collectMonstersInRangeOf gathers: every monster within one king's step of `hp`, each once. |
| MovementControllers.RemoveEach | src/game/MovementController.java:141-162 | removeMonster at the first cell of each reference from index `k` on; the ids stay, as the Valor map keeps them. |
| MovementControllers.CollectMonstersInRangeOf | src/game/MovementController.java:141-162 | collectMonstersInRangeOf: the monsters within one king's step of the hero are gathered and taken off the board. With each monster on one cell, exactly the cells in range lose their monster and nothing else changes, so no monster is left in range. |
| MovementControllers.CollectedIffInRange | src/game/MovementController.java:141-162 | Something is collected exactly when the hero stands on the board with a monster within one step. |
| MovementControllers.KeyTarget | src/game/MovementController.java:33-40 | The target of a movement key: W, A, S and D (upper case only) step up, left, down and right. |
| MovementControllers.Respawned | src/game/MovementController.java:25 | The state after dead heroes are respawned, which every move command starts with. |
| MovementControllers.Encounter | src/game/MovementController.java:55-63 | The encounter after a move: one monster steps, the monsters next to the hero are taken off, and if there were any the hero is as the battle left it. The hero's cell is found before the step, which moves only monsters. |
| MovementControllers.EncounterFightsIffInRange | src/game/MovementController.java:55-63 | The hero is as the battle left it exactly when it is on the board and a monster stood within one step of it after the step; off the board the encounter is the monster step alone. |
| MovementControllers.EncounterClearsRange | src/game/MovementController.java:55-63 | With each monster on one cell, the encounter empties exactly the cells within one step of the hero, as they stand after the monster step, so no monster is left next to the hero. |
| MovementControllers.CountRound | src/game/MovementController.java:65-69 | The round counter goes up by one; on a spawn round the result is exactly the periodic wave on the counted state, otherwise board and records stay; heroes and terrain never change; a valid state stays valid. |
| MovementControllers.CheckWin | src/game/MovementController.java:71-80 | The win checks: the game stops when a hero stands on the top nexus or a monster on the bottom one. |
| MovementControllers.AfterMove | src/game/MovementController.java:53-80 | What a successful move leads to: monster step, encounter, round count, wave and the win checks. The party is as the encounter left it; the board is the encounter's, with the wave of a spawn round on top. |
| MovementControllers.HandleHeroMovement | src/game/MovementController.java:24-81 | handleHeroMovement with `dir` the key, `stepPick` the draw of stepMonsters, `fought` the hero as the battle leaves it when the move ends next to monsters, and `waveChoices` the draws of a wave. The outcome names the check that stopped the command: no hero on the board, a key that is not W, A, S or D, or a refused move. A command that stops early keeps only the respawn; one that goes through counts the round. Where the hero ends and whether the game goes on is `MoveOutcome`. |
| MovementControllers.MoveOutcome | src/game/MovementController.java:24-81 | After a move the hero stands on the target cell, and the game goes on unless some hero now stands on the top nexus row or some monster on the bottom one. |
| MovementControllers.LowerCaseKeyDoesNotMove | src/game/MovementController.java:33-40 | Keys are case-sensitive: a lower-case movement key only respawns the fallen. |
| MovementControllers.WaveEveryFourthRound | src/game/MovementController.java:65-69 | With the default interval of 4, a wave can follow only every fourth counted round. |
| MovementControllers.HandleRecall | src/game/MovementController.java:129-139 | handleRecall: the current hero, if on the board, goes back to its recall spawn; a hero off the board, or a failed recall, leaves the state as it was. |
| MovementControllers.RespawnKeepsValid | src/game/MovementController.java:25 | Respawning moves heroes only, so monsters stay known and lane records valid. |
| MovementControllers.HeroMoveKeepsValid | src/game/MovementController.java:47 | A hero's one-step move carries no monster. |
| MovementControllers.StepKeepsKnown | src/game/MovementController.java:55 | A monster step carries a known monster to its new cell. |
| MovementControllers.EncounterKeepsValid | src/game/MovementController.java:55-63 | The encounter only removes monsters. |
| MovementControllers.AfterMoveKeepsValid | src/game/MovementController.java:53-80 | Counting the round, with its wave, and the win checks keep the state valid. |
| MovementControllers.HandleHeroMovementKeepsValid | src/game/MovementController.java:24-81 | A move command, whatever its outcome, keeps the shared state valid. |
| MovementRules.ValidPositionIsInBounds | src/world/MovementRules.java:15-17 | Every map is 8x8, so validity is `InBounds`. |
| MovementRules.IsValidPosition | src/world/MovementRules.java:15-17 | Both coordinates lie in [0, size). |
| MovementRules.CanEnterCellMeaning | src/world/MovementRules.java:31-37 | canEnter is exactly walkability plus a free own-kind slot; the other slot never matters. |
| MovementRules.WalkableCell | src/world/MovementRules.java:22-26 | Any cell but a wall or an obstacle. |
| MovementRules.InRangeOrthogonalMeaning | src/world/MovementRules.java:42-48 | In range means Manhattan distance at most one, so no diagonal is in range. |
| MovementRules.WhenNeverBlocked | src/world/MovementRules.java:72-89 | Blocking needs a row strictly between the ends, the same lane and lane cells at both ends. |
| MovementRules.BlockedByOpposingUnit | src/world/MovementRules.java:72-89 | Both ends lie in one lane and a unit of the other side stands in that lane on a row strictly between them. |
| MovementRules.OrthogonalTeleportNeverAllowed | src/world/MovementRules.java:94-117 | Lanes {0,1}, {3,4}, {6,7} are separated by a wall column, so no orthogonal neighbour of a lane cell lies in another lane: the rule never holds. |
| MovementRules.OrthogonalTeleportCandidates | src/world/MovementRules.java:122-140 | getTeleportCandidates: the target's up, down, left and right cells that pass the rule. |
| MovementRules.OrthogonalTeleportCandidatesEmpty | src/world/MovementRules.java:122-140 | The candidate list of this rule set is always empty. |
| RespawnManagers.DetachHero | src/world/ValorWorldMap.java:326-332 | detachHeroFromCell at the hero's first cell, when it has one; its id is kept. |
| RespawnManagers.RespawnOne | src/game/RespawnManager.java:13-32 | One loop step: a fainted hero at index `i` is revived and, when its lane's nexus spawn admits it after detaching, stands there; a living hero changes nothing; monsters, terrain and other heroes stay. |
| RespawnManagers.RespawnFrom | src/game/RespawnManager.java:13-32 | From index `i` on every fainted hero is revived and every living one kept; monsters, terrain, monster ids, valid lane records and the cells of heroes not revived stay. |
| RespawnManagers.RespawnDeadHeroes | src/game/RespawnManager.java:13-32 | respawnDeadHeroesAtNexus: fainted heroes are revived and living ones are untouched, so afterwards every hero whose maximum HP is at least 2 is alive; monsters, terrain and the cells of living heroes stay as they were. |
| RespawnManagers.NoneFaintedNoChange | src/game/RespawnManager.java:13-32 | With no fainted hero, respawning changes nothing. |
| RespawnManagers.LaneTwoSpawnGoesToThirdHero | src/game/RespawnManager.java:13-32 | Indices past 2 are clamped to lane 2, so the third and fourth heroes share one nexus spawn: when both are fainted and that spawn is a free walkable cell, the third hero takes it and it stays theirs. |
| SpawnManagers.NormalWave | src/valor/spawn/SpawnManager.java:8-22 | One monster per hero (at least one), and one more for every three rounds after the first. |
| SpawnManagers.MonstersToSpawn | src/valor/spawn/SpawnManager.java:8-22 | monstersToSpawn: EASY one fewer (never below one), HARD one more. |
| SpawnManagers.DifficultyOrder | src/valor/spawn/SpawnManager.java:8-22 | EASY never spawns more than NORMAL, which never spawns more than HARD. |
| SpawnManagers.WaveIsMonotone | src/valor/spawn/SpawnManager.java:8-22 | More rounds or more heroes never mean fewer monsters. |
| SpawnManagers.GrowthEveryThreeRounds | src/valor/spawn/SpawnManager.java:8-22 | The wave is the same through rounds 3k+1 to 3k+3 and one larger at 3k+4 (for NORMAL and HARD). |
| SpawnManagers.EasyFirstStepHidden | src/valor/spawn/SpawnManager.java:8-22 | Worked example of MonstersToSpawn: on EASY the floor of one hides the first step, so one hero in rounds 3 and 4 meets a single monster. |
| SpawnManagers.EarlyRoundsAddNothing | src/valor/spawn/SpawnManager.java:8-22 | Rounds before the first add nothing: Java's division truncates toward zero and the growth is floored at zero. |
| TurnContexts.NewTurnContextWith | src/valor/turns/TurnContext.java:21-26 | The four-argument constructor: the lists are copied, the generator and round kept as given. |
| TurnContexts.NewTurnContext | src/valor/turns/TurnContext.java:17-19 | The two-argument constructor: a new generator (`newRng`) and round 1. |
| TurnContexts.NextRound | src/valor/turns/TurnContext.java:44-46 | nextRound: the round grows by exactly one and nothing else changes. |
| TurnContexts.GetRng | src/valor/turns/TurnContext.java:36-38 | getRng hands back the injected generator itself, so a seeded run can be replayed. |
| TurnContexts.Occupied | src/valor/turns/TurnEngine.java:115 | A cell is occupied exactly when some hero's or some monster's recorded position is that cell. |
| TurnContexts.MoveHero | src/valor/turns/TurnEngine.java:118 | moveHero: the hero's recorded position becomes `dest`; nothing else changes. |
| TurnContexts.MoveMonster | src/valor/turns/TurnEngine.java:77 | moveMonster: the monster's recorded position becomes `dest`; nothing else changes. |
| TurnEngines.IsMeleeInRange | src/valor/turns/TurnEngine.java:164-174 | isMeleeInRange: both on the board, at Manhattan distance one. |
| TurnEngines.HandleMove | src/valor/turns/TurnEngine.java:99-120 | handleMove: a destination is needed, the board and the hero's position must be known, and the destination must be on the board, accessible, one orthogonal step away and free of any unit. |
| TurnEngines.HandleTeleport | src/valor/turns/TurnEngine.java:122-147 | handleTeleport: like a move, except that the distance is free, the monster nexus is refused, and the lane must change. A wall column has lane -1, which differs from every lane. |
| TurnEngines.HandleRecall | src/valor/turns/TurnEngine.java:149-162 | handleRecall: to the first free spot of the hero nexus in the lane the hero stands in now. |
| TurnEngines.RecallFailsOffLane | src/valor/turns/TurnEngine.java:149-162 | A hero standing in a wall column has no lane, so recall always fails there. |
| TurnEngines.TeleportIntoWallColumn | src/valor/turns/TurnEngine.java:122-147 | A free, accessible wall-column cell outside the monster nexus is a legal teleport destination. |
| TurnEngines.TeleportChangesLane | src/valor/turns/TurnEngine.java:99-147 | A teleport never stays in the hero's lane, while a move may. |
| TurnEngines.HandleHeroAction | src/valor/turns/TurnEngine.java:33-62 | handleHeroAction: a missing action, hero or context fails. ATTACK and CAST_SPELL need the target in melee range and then go to the combat resolver, whose hero and monster are written back and whose result is the turn's; MOVE, TELEPORT and RECALL go to their handlers; PASS always succeeds; EQUIP and USE_POTION are not wired and fail. |
| TurnEngines.CastSpellInRangeSpendsMana | src/valor/turns/TurnEngine.java:33-62 | A spell cast in range spends the caster's mana and a use of the spell, even when it is dodged. |
| TurnEngines.InRangeHeroes | src/valor/turns/TurnEngine.java:185-191 | The living heroes among the first `n` that stand in attack range of `mp`, in list order. |
| TurnEngines.FirstAliveHero | src/valor/turns/TurnEngine.java:198-205 | pickAnyAliveHero: the first living hero of the list. |
| TurnEngines.PickHeroInRange | src/valor/turns/TurnEngine.java:176-196 | pickHeroInRange: with no board or no position for the monster, the first living hero wherever it stands; otherwise the `pick`-th living hero in attack range (`nextInt` over the candidates), or none. |
| TurnEngines.NextForwardStep | src/valor/turns/TurnEngine.java:207-218 | nextForwardStep: the cell one row down, if it is on the board, accessible and free. |
| TurnEngines.RunMonsterTurn | src/valor/turns/TurnEngine.java:64-83 | runMonsterTurn: a missing monster or context, or a defeated monster, fails. A hero picked by PickHeroInRange is attacked through the combat resolver; with none, the monster steps forward if it can and succeeds either way. The `target` argument is never read. |
| TurnEngines.MonsterTurnIgnoresTarget | src/valor/turns/TurnEngine.java:64-83 | The target argument makes no difference to a monster's turn. |
| TurnEngines.MonsterMovesOnlyForward | src/valor/turns/TurnEngine.java:64-83 | A monster that moves goes exactly one row down, in its own column; heroes and the other monsters stay put. |
| TurnEngines.EndOfTurn | src/valor/turns/TurnEngine.java:85-97 | endOfTurn: living heroes regenerate, the round advances by one; positions and monsters stay. |
| ValorBoards.DefaultBoard | src/valor/board/ValorBoard.java:16-37 | defaultBoard, pass by pass: everything PLAIN, then columns 2 and 5 INACCESSIBLE on every row, then row 0 MONSTER_NEXUS and row 7 HERO_NEXUS across all columns, walls included. |
| ValorBoards.CellTypeAt | src/valor/board/ValorBoard.java:45-50 | getCellType: None stands for the null returned off the board. |
| ValorBoards.IsAccessible | src/valor/board/ValorBoard.java:52-55 | isAccessible: on the board and not INACCESSIBLE. |
| ValorBoards.HasType | src/valor/board/ValorBoard.java:57-75 | isHeroNexus and friends: the position is on the board with the given type. |
| ValorBoards.GetLane | src/valor/board/ValorBoard.java:78-84 | getLane: by column ranges 0-1, 3-4, 6-7; -1 otherwise. The row is not checked. |
| ValorBoards.LaneToColumns | src/valor/board/ValorBoard.java:109-120 | laneToColumns: the lane's two columns, or none outside 0..2. |
| ValorBoards.LaneToColumnsInvertsGetLane | src/valor/board/ValorBoard.java:78-120 | laneToColumns inverts getLane on the three lanes. |
| ValorBoards.IsInAttackRange | src/valor/board/ValorBoard.java:86-89 | isInAttackRange: Manhattan distance exactly one. |
| ValorBoards.FirstFreeSpot | src/valor/board/ValorBoard.java:96-106 | The first of `cols`, in order, whose cell on `row` is free and accessible. |
| ValorBoards.FindHeroRecallSpot | src/valor/board/ValorBoard.java:96-106 | findHeroRecallSpot: the first free accessible cell of the lane on the bottom row, trying the lane's first column before its second. |
| ValorBoards.FindMonsterSpawnSpot | src/valor/board/ValorBoard.java:123-133 | findMonsterSpawnSpot: the same search on the top row, first column first. |
| ValorBoards.NoRecallSpotOffLane | src/valor/board/ValorBoard.java:96-106 | Outside the three lanes there is never a recall spot. |
| ValorWorld.NewValorMap | src/world/ValorWorldMap.java:43-49 | The constructor: a generated board and empty id maps. |
| ValorWorld.IsWalkable | src/world/ValorWorldMap.java:276-281 | On the board and neither a wall nor an obstacle. |
| ValorWorld.CanEnter | src/world/ValorWorldMap.java:285-292 | On the board, not a wall or obstacle, and the mover's own slot is empty: a hero and a monster may share a cell, two of a kind may not. |
| ValorWorld.PlaceHeroAt | src/world/ValorWorldMap.java:295-311 | placeHero: succeeds exactly when the hero may enter. The id is assigned (size + 1) and the lane recorded only on the hero's first placement. |
| ValorWorld.RemoveHeroAt | src/world/ValorWorldMap.java:313-322 | removeHero: empties the hero slot and forgets that hero's id (not its lane). |
| ValorWorld.DetachHeroAt | src/world/ValorWorldMap.java:326-332 | detachHeroFromCell: empties the hero slot and keeps every id. |
| ValorWorld.PlaceMonsterAt | src/world/ValorWorldMap.java:334-345 | placeMonster: succeeds exactly when the monster may enter; assigns an id on first placement. |
| ValorWorld.RemoveMonsterAt | src/world/ValorWorldMap.java:347-358 | removeMonster: empties the monster slot but keeps the monster's id for later. |
| ValorWorld.MonsterIdSurvivesRemoval | src/world/ValorWorldMap.java:334-358 | A monster taken off for a battle and put back gets its old id again. |
| ValorWorld.InRangeIsChebyshev | src/world/ValorWorldMap.java:582-588 | In range on this map means Chebyshev distance at most one: the eight surrounding cells. |
| ValorWorld.Move | src/world/ValorWorldMap.java:466-493 | move: a one-step move of the hero (or monster) at `from`. On success the occupant is carried to `to` and nothing else changes, ids included. |
| ValorWorld.DiagonalStepAllowed | src/world/ValorWorldMap.java:466-493 | Diagonal single steps are legal moves, whatever the surrounding cells hold. |
| ValorWorld.MoveToSameCellFails | src/world/ValorWorldMap.java:466-493 | A move onto the mover's own cell always fails: its slot there is taken. |
| ValorWorld.OtherLaneColumn | src/world/ValorWorldMap.java:424-426 | The other column of the same lane. |
| ValorWorld.MonsterStepFrom | src/world/ValorWorldMap.java:409-440 | Where the monster at `from` goes: down if it may enter that cell, else the other column of its lane if it may enter that one, else nowhere. |
| ValorWorld.LateralStep | src/world/ValorWorldMap.java:420-427 | The cell beside `from` in the other column of its lane. |
| ValorWorld.MonsterStep | src/world/ValorWorldMap.java:401-440 | The step stepMonsters takes with the `pick`-th monster of the row-major list, if any. |
| ValorWorld.StepMonsters | src/world/ValorWorldMap.java:391-441 | stepMonsters, `pick` being the random index draw: ids stay; without a step the board is unchanged, otherwise exactly one monster is carried to its step target; the monster count is kept. |
| ValorWorld.StepMonstersKeepsHeroes | src/world/ValorWorldMap.java:391-441 | A monster step never moves or removes a hero. |
| ValorWorld.StepMonstersMovesPicked | src/world/ValorWorldMap.java:391-441 | The picked monster moves down when it may enter the cell below, else to the other column of its lane when it may enter that, else nothing moves; without monsters nothing moves either. |
| ValorWorld.PickedMonsterAdvances | src/world/ValorWorldMap.java:401-417 | A monster that may enter the cell below its own goes there when it is the one picked. |
| ValorWorld.KeepCandidate | src/world/ValorWorldMap.java:539-557 | The candidate is offered exactly when the teleport rules allow it. |
| ValorWorld.RowCandidates | src/world/ValorWorldMap.java:539-557 | Exactly the cells of row `rr` in the lane's columns that the teleport rules allow. |
| ValorWorld.TeleportCandidates | src/world/ValorWorldMap.java:539-557 | teleportCandidates: the allowed destinations on the target's row and the row below it, in the target's lane. The row above is never scanned. |
| ValorWorld.HeroTeleportCandidates | src/world/ValorWorldMap.java:500-557 | For a hero mover only the other column of the same row and the cell directly below can be offered. |
| ValorWorld.RowAboveNeverCandidate | src/world/ValorWorldMap.java:539-557 | The cell above the target is never a candidate, although the rules would allow it. |
| ValorWorld.TeleportAllowed | src/world/ValorWorldMap.java:500-533 | The destination is a king's step from the target, not diagonally behind it for the mover, in the target's lane, not a wall or obstacle, free of heroes, and enterable by the mover. |
| ValorWorld.TeleportHero | src/world/ValorWorldMap.java:622-649 | teleportHero: positions on the board, a hero at `from`, and `to` enterable for a hero. The hero keeps (or, if it had none, receives) its id. |
| ValorWorld.RecallLane | src/world/ValorWorldMap.java:560-579 | The lane a recall uses: the first-placement record, else the current lane, else lane 1. |
| ValorWorld.RecallSpawn | src/world/ValorWorldMap.java:560-579 | The bottom-row cell a recall targets: the first column of the recall lane. |
| ValorWorld.RecallHero | src/world/ValorWorldMap.java:560-579 | recallHero: fails with nothing changed when `from` holds no hero or the spawn cell already holds one. Otherwise the hero leaves `from` and is placed at the spawn through placeHero, whose own failure is ignored. |
| ValorWorld.WellLaidNexusIntact | src/world/ValorWorldMap.java:560-579 | A board laid out as generated has its nexus rows intact, so each recall spawn admits a hero. |
| ValorWorld.RecallNeverLosesHeroOnIntactBoard | src/world/ValorWorldMap.java:560-579 | While the nexus rows are intact a successful recall always puts the hero on its spawn. |
| ValorWorld.RecallOntoObstacleLosesHero | src/world/ValorWorldMap.java:560-579 | With an obstacle on the spawn, recall reports success but the hero leaves the board. |
| ValorWorld.RemoveObstacle | src/world/ValorWorldMap.java:591-597 | removeObstacle: an OBSTACLE cell becomes PLAIN with its occupants; anything else fails. |
| ValorWorld.ClampLane | src/world/ValorWorldMap.java:614-618 | The lane index clamped into 0..2: kept when already in range, 0 below it, 2 above it. |
| ValorWorld.HeroNexusSpawn | src/world/ValorWorldMap.java:614-618 | getHeroNexusSpawn: the first column of the clamped lane, on the bottom row. |
| ValorWorld.MonsterNexusSpawn | src/world/ValorWorldMap.java:652-656 | getMonsterNexusSpawn: the first column of the clamped lane, on the top row. |
| ValorWorld.ClearMonstersAtTopNexus | src/world/ValorWorldMap.java:659-666 | clearMonstersAtTopNexus: no monster is left on the three top-row spawn cells. |
| ValorWorld.RowHasOccupiedKind | src/world/ValorWorldMap.java:669-684 | Row `row` from column `c` on has a cell of type `kind` whose `isHero` slot is filled. |
| ValorWorld.AnyHeroAtTopNexus | src/world/ValorWorldMap.java:669-675 | anyHeroAtTopNexus: some NEXUS cell of row 0 holds a hero. |
| ValorWorld.AnyMonsterAtBottomNexus | src/world/ValorWorldMap.java:678-684 | anyMonsterAtBottomNexus: some NEXUS cell of row 7 holds a monster. |
| WorldMaps.NewWorldMap | src/world/WorldMap.java:31-48 | The constructor ignores the requested size and always builds the generated 8x8 board with empty trackers. |
| WorldMaps.MoveOrthogonal | src/world/WorldMap.java:171-199 | move: like the Valor move, except that range is orthogonal (`InRangeOrthogonal`). |
| WorldMaps.MoveOrthogonalSameCellFails | src/world/WorldMap.java:171-199 | A move to the mover's own cell always fails. |
| WorldMaps.DiagonalStepRejected | src/world/WorldMap.java:171-199 | A diagonal step is rejected here though the Valor map accepts it. |
| WorldMaps.RemoveMonsterTracked | src/world/WorldMap.java:150-159 | removeMonster: unlike the Valor map, this one frees the monster's id. |
| WorldMaps.RemoveMonsterVersionsDiffer | src/world/WorldMap.java:150-159 | The two removeMonster versions change the board alike and differ only in the id map. |
| WorldMaps.WorldTeleportCandidates | src/world/WorldMap.java:256-258 | teleportCandidates delegates to MovementRules, so the list is always empty. |
| WorldMaps.TrackedRecallLane | src/world/WorldMap.java:283-307 | The recall lane: the tracker's lane unless it is -1, then the current lane, then lane 1. |
| WorldMaps.RecallLanesDiffer | src/world/WorldMap.java:283-307 | The two recall lanes differ only for a hero whose first placement recorded lane -1: the Valor map then uses lane 1, WorldMap the current lane. |
| WorldMaps.TrackedRecallSpawn | src/world/WorldMap.java:283-307 | The recall target is the first column of the recall lane on the bottom row. |
| WorldMaps.RecallTracked | src/world/WorldMap.java:283-307 | recallHero: fails with nothing changed when `from` holds no hero or the spawn already holds one; otherwise detaches the hero and calls placeHero on the spawn, ignoring whether that succeeds. |

## Left out

- Console I/O, menus and interactive controllers: `ConsoleView`, `ValorView`, `GameLoop`, `CommandProcessor`, `GameModeChooser`, `Main`, `BattleController`, `BattleManager`, `BattleHandler`, `MarketController`, `MarketHandler`, `PartyManager`, `MovementHandler`, `GameController`, `ValorGameController` and `GameInitializer`. They print, read input and call the modelled operations; the two state changes `BattleController` makes itself after a battle are listed under `MovementControllers.HandleHeroMovement` below.
- Loading heroes, monsters and items from files (`DataLoader`): the templates and party are given values.
- Rendering of whole boards (`BoardRenderer`, the ANSI `render` methods) and every message string. Only `padCenter` and `renderShort` are kept, as string functions.
- Classic-mode leftovers: `moveParty`, `shouldTriggerBattle`, `getCurrentTile`, `Tile`, `TileType`, `ValorWorld.java`.
- IEEE double rounding. Products such as `stat * 0.1` are exact rationals, then truncated. Dodge rolls, the `Math.random` type choice, `nextInt` picks, the terrain draws and the shuffle are parameters.
- 32-bit overflow: stats, gold, experience and HP are unbounded integers. Nothing in the modelled formulas approaches 2^31 for the game's data.
- Heroes.CalculateSpellDamage: exact reals, not doubles, so the result can differ by one from Java's. Dexterity 1 and base damage 119 give 18 here; Java's `(int)(1*0.15 + 119*0.15)` sums to 17.999999999999996 and gives 17.
- Monsters.EffectiveDamage: exact reals, not doubles. Three 0.1 ice debuffs accumulate to 0.30000000000000004 in Java, so base damage 90 gives 62 there and 63 here.
- Heroes.DodgeChance: computed as an exact real (agility / 5000), not as an IEEE double, so the rounding of `agility * 0.0002` is not modelled; the random draw it is compared against is a parameter of the attack.
- Items.Affects: attribute names are compared with ASCII-only case folding (`Items.EqualsIgnoreCase`); Java's `equalsIgnoreCase` also folds non-ASCII letters such as 'ſ' against 's' and 'ı' against 'i', and full Unicode case mapping is not modelled.
- Terrain bonuses, `applyTerrainBonus` and `removeAdjacentObstacle`: their code is not part of this model.
- `RespawnManager.scheduleRespawn` is called but its code is not part of this model. No respawn countdown is invented.
- `TurnContext`'s board, position, occupancy and move methods are not in its file. They are modelled as a board field and two position maps (`TurnContexts`).
- `Cell`'s two-argument `placeHero` and `placeMonster` (called by ValorWorldMap) are not in `Cell.java`. Display ids are kept in the tracker maps, and the cell stores only the occupant.
- `ValorCellType.java` is not part of this model. `ValorBoards` declares the enumeration with the seven values `ValorBoard.java` uses.
- `MovementController.handleTeleport` is interactive: it lists candidates and reads the player's choice. Its candidate list and move are `ValorWorld.TeleportCandidates` and `ValorWorld.TeleportHero`.
- The battle a move command starts is interactive. `MovementControllers.HandleHeroMovement` takes the hero as the battle leaves it (`fought`) as a parameter, and the battle itself changes only that hero's record.
- MovementControllers.HandleHeroMovement: does not model the end of that battle in src/game/BattleController.java:301-332. After a defeat the source sets `gameRunning` to false (:327), while the model lets the game go on. After every battle the source calls `clearMonstersAtTopNexus` (:330-332), while the model leaves the monsters on the top nexus spawns.
- MovementControllers.CollectMonstersInRangeOf: Java gathers into a `HashSet`, whose iteration order is unspecified. The model gathers in row-major order and states the gathered set, not an order. The exact cells it empties are stated only when each monster stands on one cell (`MonsterRefsUnique`), which the state invariant does not track.
- MovementControllers.EncounterClearsRange: states the emptied cells only when each monster stands on one cell, for the reason given for `CollectMonstersInRangeOf`; the party half (`EncounterFightsIffInRange`) holds for every board.
- MonsterSpawners.SpawnMonstersPeriodically: a monster created for a lane with no open cell is dropped, as in the code. The model states only that nothing is placed for it.
- MonsterManagers.SpawnInitialMonsters: does not state the reference number each new record gets. `MonsterManagers.InitialWaveOnNexus` states instead that the monster on each spawn cell is the one created for that lane.
- `HeroManager.respawnDeadHeroesAtNexus` and `HeroManager.getHighestHeroLevel` have the same code as their `RespawnManager` and `MonsterSpawner` counterparts. They are covered by `RespawnManagers.RespawnDeadHeroes` and `MonsterFactories.HighestHeroLevel`.
- `getAllItems`, `getHeroes` and `getMonsters` return copies. Values are never shared here, so a copy is the value itself.
- TurnContexts.NewTurnContext: `new Random()` is the parameter `newRng`, since a fresh generator's seed cannot be known.

=== FILE: actions.dfy ===
/**
 * valor/actions: the eight actions a hero can choose in Legends of Valor
 * and the result record every turn operation returns.
 */
module Actions {

  datatype ValorAction = Move | Attack | CastSpell | Teleport | Recall | Equip | UsePotion | Pass

  /**
   * ActionResult without its message text. The fields are fixed at
   * construction; nothing ties `success` to the other two.
   */
  datatype ActionResult = ActionResult(success: bool, damageDealt: int, targetDefeated: bool)

  /** The two-argument constructor: no damage, no defeat. */
  function Outcome(success: bool): (r: ActionResult)
    ensures r.success == success && r.damageDealt == 0 && !r.targetDefeated
  {
    ActionResult(success, 0, false)
  }

  /** The four-argument constructor stores every field as given. */
  function WithDamage(success: bool, damageDealt: int, targetDefeated: bool): (r: ActionResult)
    ensures r.success == success && r.damageDealt == damageDealt && r.targetDefeated == targetDefeated
  {
    ActionResult(success, damageDealt, targetDefeated)
  }

  /** The two constructors agree when the four-argument one is given the defaults. */
  lemma OutcomeIsDefaultedWithDamage(success: bool)
    ensures Outcome(success) == WithDamage(success, 0, false)
  {
  }

  /** Worked example of WithDamage: nothing ties the fields together, so a failed result with damage and a defeat can be built. */
  lemma NoFieldRelation()
    ensures exists success: bool, damageDealt: int, targetDefeated: bool ::
      var r := WithDamage(success, damageDealt, targetDefeated);
      !r.success && r.damageDealt > 0 && r.targetDefeated
  {
    var r := WithDamage(false, 1, true);
    assert !r.success && r.damageDealt > 0 && r.targetDefeated;
  }
}

=== FILE: battle.dfy ===
/**
 * battle/Battle.java: a classic-mode fight between a party and a group of
 * monsters. Heroes and monsters are referred to by their index in the
 * battle's lists; the two random draws of an attack (`nextInt` for the
 * target, `nextDouble` for the dodge) are parameters.
 */
module Battles {
  import opened JavaMath
  import opened GameConstants
  import opened Items
  import opened Inventories
  import opened Characters
  import opened Heroes
  import opened Monsters
  import opened CombatMath

  datatype Battle = Battle(heroes: seq<Hero>, monsters: seq<Monster>, battleEnded: bool, heroesWon: bool)

  /** The constructor: not ended, not won. */
  function NewBattle(heroes: seq<Hero>, monsters: seq<Monster>): (b: Battle)
    ensures b.heroes == heroes && b.monsters == monsters && !b.battleEnded && !b.heroesWon
  {
    Battle(heroes, monsters, false, false)
  }

  // ---- Living units ----

  /** getAliveHeroes, as the indices of the living heroes among the first `n`, in list order. */
  function AliveHeroes(hs: seq<Hero>, n: nat): (r: seq<nat>)
    requires n <= |hs|
    ensures forall i :: i in r <==> 0 <= i < n && Heroes.IsAlive(hs[i])
    ensures forall a, b :: 0 <= a < b < |r| ==> r[a] < r[b]
    ensures forall k :: 0 <= k < |r| ==> r[k] < n
    ensures |r| <= n
  {
    if n == 0 then []
    else
      var rest := AliveHeroes(hs, n - 1);
      if Heroes.IsAlive(hs[n - 1]) then rest + [n - 1] else rest
  }

  /** getAliveMonsters, likewise. */
  function AliveMonsters(ms: seq<Monster>, n: nat): (r: seq<nat>)
    requires n <= |ms|
    ensures forall i :: i in r <==> 0 <= i < n && Monsters.IsAlive(ms[i])
    ensures forall a, b :: 0 <= a < b < |r| ==> r[a] < r[b]
    ensures forall k :: 0 <= k < |r| ==> r[k] < n
    ensures |r| <= n
  {
    if n == 0 then []
    else
      var rest := AliveMonsters(ms, n - 1);
      if Monsters.IsAlive(ms[n - 1]) then rest + [n - 1] else rest
  }

  predicate NoHeroAlive(hs: seq<Hero>) { AliveHeroes(hs, |hs|) == [] }
  predicate NoMonsterAlive(ms: seq<Monster>) { AliveMonsters(ms, |ms|) == [] }

  /** The end flags checkBattleEnd leaves: a monster wipe wins, and it is checked first. */
  predicate EndChecked(before: Battle, after: Battle)
  {
    after.heroes == before.heroes && after.monsters == before.monsters
    && (NoMonsterAlive(before.monsters) ==> after.battleEnded && after.heroesWon)
    && (!NoMonsterAlive(before.monsters) && NoHeroAlive(before.heroes) ==> after.battleEnded && !after.heroesWon)
    && (!NoMonsterAlive(before.monsters) && !NoHeroAlive(before.heroes) ==> after == before)
  }

  function CheckBattleEnd(b: Battle): (r: Battle)
    ensures EndChecked(b, r)
  {
    if AliveMonsters(b.monsters, |b.monsters|) == [] then b.(battleEnded := true, heroesWon := true)
    else if AliveHeroes(b.heroes, |b.heroes|) == [] then b.(battleEnded := true, heroesWon := false)
    else b
  }

  /** No living unit means none of the list is alive, so a double wipe counts as a hero win. */
  lemma EmptyAliveListsMeanWipe(b: Battle)
    ensures NoHeroAlive(b.heroes) <==> forall i :: 0 <= i < |b.heroes| ==> Heroes.IsFainted(b.heroes[i])
    ensures NoMonsterAlive(b.monsters) <==> forall i :: 0 <= i < |b.monsters| ==> Monsters.IsFainted(b.monsters[i])
    ensures NoHeroAlive(b.heroes) && NoMonsterAlive(b.monsters) ==> CheckBattleEnd(b).heroesWon
  {
    var h := AliveHeroes(b.heroes, |b.heroes|);
    var m := AliveMonsters(b.monsters, |b.monsters|);
    if h != [] { assert h[0] in h; }
    if m != [] { assert m[0] in m; }
  }

  // ---- Hero actions ----

  /** What the monster list becomes when monster `mi` takes a hit of `d`. */
  predicate MonsterHit(before: seq<Monster>, after: seq<Monster>, mi: nat, d: int)
    requires mi < |before|
  {
    |after| == |before|
    && (forall j :: 0 <= j < |before| && j != mi ==> after[j] == before[j])
    && after[mi].hp == Gauge(Max(0, before[mi].hp.current - d), before[mi].hp.maximum)
  }

  /**
   * heroAttack: fails, changing nothing, if either side is dead; a dodge
   * changes nothing (and does not re-check the end); a hit deals
   * HeroHitDamage, at least 1, then re-checks the end.
   */
  function HeroAttack(b: Battle, hi: nat, mi: nat, roll: real): (r: (Battle, bool))
    requires hi < |b.heroes| && mi < |b.monsters|
    ensures r.1 <==> Heroes.IsAlive(b.heroes[hi]) && Monsters.IsAlive(b.monsters[mi])
    ensures !r.1 || roll < EffectiveDodgeChance(b.monsters[mi]) ==> r.0 == b
    ensures r.1 && roll >= EffectiveDodgeChance(b.monsters[mi]) ==>
      (var d := HeroHitDamage(b.heroes[hi], b.monsters[mi]);
       d >= 1 && MonsterHit(b.monsters, r.0.monsters, mi, d)
       && r.0.monsters[mi] == b.monsters[mi].(hp := r.0.monsters[mi].hp)
       && EndChecked(b.(monsters := r.0.monsters), r.0))
  {
    var h := b.heroes[hi];
    var m := b.monsters[mi];
    if !Heroes.IsAlive(h) || !Monsters.IsAlive(m) then (b, false)
    else if roll < EffectiveDodgeChance(m) then (b, true)
    else
      var d := HeroHitDamage(h, m);
      (CheckBattleEnd(b.(monsters := b.monsters[mi := DamageMonster(m, d)])), true)
  }

  /** Felling the last living monster ends the battle as a hero win. */
  lemma FellingLastMonsterWins(b: Battle, hi: nat, mi: nat, roll: real)
    requires hi < |b.heroes| && mi < |b.monsters|
    requires Heroes.IsAlive(b.heroes[hi]) && roll >= EffectiveDodgeChance(b.monsters[mi])
    requires AliveMonsters(b.monsters, |b.monsters|) == [mi]
    requires HeroHitDamage(b.heroes[hi], b.monsters[mi]) >= b.monsters[mi].hp.current
    ensures HeroAttack(b, hi, mi, roll).0.battleEnded && HeroAttack(b, hi, mi, roll).0.heroesWon
  {
    var after := HeroAttack(b, hi, mi, roll).0.monsters;
    assert mi in AliveMonsters(b.monsters, |b.monsters|);
    forall j | 0 <= j < |after|
      ensures Monsters.IsFainted(after[j])
    {
      if j != mi {
        assert j !in AliveMonsters(b.monsters, |b.monsters|);
      }
    }
    EmptyAliveListsMeanWipe(b.(monsters := after));
  }

  /** The units a spell cast can change. */
  datatype SpellCast = SpellCast(battle: Battle, spell: Spell, success: bool)

  /**
   * heroCastSpell: fails, changing nothing, if either side is dead or mana
   * is short. Otherwise mana is spent and the spell loses a use before the
   * dodge roll, so a dodged spell is used up too; a hit deals
   * SpellHitDamage, applies the spell type's debuff and re-checks the end.
   */
  function HeroCastSpell(b: Battle, hi: nat, spell: Spell, mi: nat, roll: real): (r: SpellCast)
    requires hi < |b.heroes| && mi < |b.monsters|
    ensures r.success <==> (Heroes.IsAlive(b.heroes[hi]) && Monsters.IsAlive(b.monsters[mi])
      && HasMana(b.heroes[hi], spell.kind.manaCost))
    ensures !r.success ==> r == SpellCast(b, spell, false)
    ensures r.success ==> (r.spell == UseOnce(spell)
      && |r.battle.heroes| == |b.heroes|
      && (forall j :: 0 <= j < |b.heroes| && j != hi ==> r.battle.heroes[j] == b.heroes[j])
      && r.battle.heroes[hi] == UseMana(b.heroes[hi], spell.kind.manaCost).(inventory := Refresh(b.heroes[hi].inventory, UseOnce(spell))))
    ensures r.success && roll < EffectiveDodgeChance(b.monsters[mi]) ==>
      r.battle == b.(heroes := r.battle.heroes)
    ensures r.success && roll >= EffectiveDodgeChance(b.monsters[mi]) ==>
      (var d := SpellHitDamage(b.heroes[hi], spell, b.monsters[mi]);
       d >= 1 && MonsterHit(b.monsters, r.battle.monsters, mi, d)
       && r.battle.monsters[mi] == ApplySpellEffect(spell.kind.spellType, b.monsters[mi]).(hp := r.battle.monsters[mi].hp)
       && EndChecked(b.(heroes := r.battle.heroes, monsters := r.battle.monsters), r.battle))
  {
    var h := b.heroes[hi];
    var m := b.monsters[mi];
    if !Heroes.IsAlive(h) || !Monsters.IsAlive(m) || !HasMana(h, spell.kind.manaCost) then SpellCast(b, spell, false)
    else
      var used := UseOnce(spell);
      var caster := UseMana(h, spell.kind.manaCost);
      var caster' := caster.(inventory := Refresh(caster.inventory, used));
      var b1 := b.(heroes := b.heroes[hi := caster']);
      if roll < EffectiveDodgeChance(m) then SpellCast(b1, used, true)
      else
        var d := SpellHitDamage(caster, spell, m);
        assert d == SpellHitDamage(h, spell, m);
        var m' := ApplySpellEffect(spell.kind.spellType, DamageMonster(m, d));
        SpellCast(CheckBattleEnd(b1.(monsters := b.monsters[mi := m'])), used, true)
  }

  /** The potion after use and the battle it changed. */
  datatype PotionUse = PotionUse(battle: Battle, potion: Potion, success: bool)

  /** A hero after drinking: each selected attribute rises by the boost, HP and MP capped at their maxima. */
  function Drink(h: Hero, p: Potion): (r: Hero)
    ensures r == h.(hp := r.hp, mp := r.mp, strength := r.strength, dexterity := r.dexterity, agility := r.agility)
    ensures var boost := p.kind.attributeIncrease;
      r.hp == (if Affects(p, Health) then Refill(h.hp, boost) else h.hp)
      && r.mp == (if Affects(p, Mana) then RestoreMana(h, boost).mp else h.mp)
      && r.strength == h.strength + (if Affects(p, Strength) then boost else 0)
      && r.dexterity == h.dexterity + (if Affects(p, Dexterity) then boost else 0)
      && r.agility == h.agility + (if Affects(p, Agility) then boost else 0)
  {
    var boost := p.kind.attributeIncrease;
    var h1 := if Affects(p, Health) then h.(hp := Refill(h.hp, boost)) else h;
    var h2 := if Affects(p, Mana) then RestoreMana(h1, boost) else h1;
    var h3 := if Affects(p, Strength) then h2.(strength := h2.strength + boost) else h2;
    var h4 := if Affects(p, Dexterity) then h3.(dexterity := h3.dexterity + boost) else h3;
    if Affects(p, Agility) then h4.(agility := h4.agility + boost) else h4
  }

  /**
   * heroUsePotion: fails for a fainted hero. Otherwise the hero drinks and
   * the potion loses a use. Its remaining uses are not checked, and it
   * stays in the inventory.
   */
  function HeroUsePotion(b: Battle, hi: nat, p: Potion): (r: PotionUse)
    requires hi < |b.heroes|
    ensures r.success <==> Heroes.IsAlive(b.heroes[hi])
    ensures !r.success ==> r == PotionUse(b, p, false)
    ensures r.success ==> (r.potion == UseOnce(p)
      && r.battle == b.(heroes := b.heroes[hi := Drink(b.heroes[hi], p).(inventory := Refresh(b.heroes[hi].inventory, UseOnce(p)))]))
  {
    var h := b.heroes[hi];
    if !Heroes.IsAlive(h) then PotionUse(b, p, false)
    else
      var used := UseOnce(p);
      var h' := Drink(h, p);
      PotionUse(b.(heroes := b.heroes[hi := h'.(inventory := Refresh(h'.inventory, used))]), used, true)
  }

  /** A potion's boosts keep HP and MP within their maxima, while the three stats go up by the full boost. */
  lemma PotionBoostsAreCapped(h: Hero, p: Potion)
    requires InRange(h.hp) && InRange(h.mp) && p.kind.attributeIncrease >= 0
    ensures InRange(Drink(h, p).hp) && InRange(Drink(h, p).mp)
    ensures h.hp.current <= Drink(h, p).hp.current && h.mp.current <= Drink(h, p).mp.current
    ensures Affects(p, Strength) ==> Drink(h, p).strength == h.strength + p.kind.attributeIncrease
  {
    if Affects(p, Health) { RefillBounds(h.hp, p.kind.attributeIncrease); }
    if Affects(p, Mana) { RefillBounds(h.mp, p.kind.attributeIncrease); }
  }

  // ---- Monster actions ----

  /** A monster attack's result, and the index of the hero it targeted. */
  datatype Strike = Strike(battle: Battle, target: nat, success: bool)

  /**
   * monsterAttack: fails, changing nothing, for a dead monster or when no
   * hero is alive. The target is the living hero the `pick` draw selects
   * (`nextInt` over the living heroes); a dodge changes nothing, and a hit
   * deals MonsterHitDamage, never negative, then re-checks the end.
   */
  function MonsterAttack(b: Battle, mi: nat, pick: nat, roll: real): (r: Strike)
    requires mi < |b.monsters|
    ensures r.success <==> Monsters.IsAlive(b.monsters[mi]) && !NoHeroAlive(b.heroes)
    ensures !r.success ==> r.battle == b
    ensures r.success ==> (r.target < |b.heroes| && Heroes.IsAlive(b.heroes[r.target])
      && r.target == AliveHeroes(b.heroes, |b.heroes|)[pick % |AliveHeroes(b.heroes, |b.heroes|)|])
    ensures r.success && roll < DodgeChance(b.heroes[r.target]) ==> r.battle == b
    ensures r.success && roll >= DodgeChance(b.heroes[r.target]) ==>
      (var t := b.heroes[r.target];
       var d := MonsterHitDamage(b.monsters[mi], t);
       d >= 0 && r.battle.monsters == b.monsters && |r.battle.heroes| == |b.heroes|
       && (forall j :: 0 <= j < |b.heroes| && j != r.target ==> r.battle.heroes[j] == b.heroes[j])
       && r.battle.heroes[r.target] == t.(hp := Gauge(Max(0, t.hp.current - d), t.hp.maximum))
       && EndChecked(b.(heroes := r.battle.heroes), r.battle))
  {
    var alive := AliveHeroes(b.heroes, |b.heroes|);
    if !Monsters.IsAlive(b.monsters[mi]) || alive == [] then Strike(b, 0, false)
    else
      var t := alive[pick % |alive|];
      assert t in alive;
      var h := b.heroes[t];
      if roll < DodgeChance(h) then Strike(b, t, true)
      else
        var d := MonsterHitDamage(b.monsters[mi], h);
        Strike(CheckBattleEnd(b.(heroes := b.heroes[t := DamageHero(h, d)])), t, true)
  }

  /** Each hero of `after` is the same hero as in `before`, with no more HP. */
  predicate OnlyHpLost(before: seq<Hero>, after: seq<Hero>)
  {
    |after| == |before|
    && forall i :: 0 <= i < |before| ==>
      after[i] == before[i].(hp := after[i].hp)
      && after[i].hp.maximum == before[i].hp.maximum
      && (before[i].hp.current >= 0 ==> 0 <= after[i].hp.current <= before[i].hp.current)
  }

  /**
   * Attacks by the monsters at `order[k..]`, one each and in that order, the
   * `k`-th attack using draws `pick(k)` and `roll(k)`.
   */
  function AttacksFrom(b: Battle, order: seq<nat>, k: nat, pick: nat -> nat, roll: nat -> real): (r: (Battle, seq<bool>))
    requires k <= |order|
    requires forall i :: 0 <= i < |order| ==> order[i] < |b.monsters|
    ensures |r.1| == |order| - k
    ensures r.0.monsters == b.monsters
    ensures OnlyHpLost(b.heroes, r.0.heroes)
    decreases |order| - k
  {
    if k == |order| then (b, [])
    else
      var s := MonsterAttack(b, order[k], pick(k), roll(k));
      var rest := AttacksFrom(s.battle, order, k + 1, pick, roll);
      OnlyHpLostTransitive(b.heroes, s.battle.heroes, rest.0.heroes);
      (rest.0, [s.success] + rest.1)
  }

  lemma OnlyHpLostTransitive(a: seq<Hero>, b: seq<Hero>, c: seq<Hero>)
    requires OnlyHpLost(a, b) && OnlyHpLost(b, c)
    ensures OnlyHpLost(a, c)
  {
    forall i | 0 <= i < |a|
      ensures c[i] == a[i].(hp := c[i].hp)
    {
      assert b[i] == a[i].(hp := b[i].hp);
      assert c[i] == b[i].(hp := c[i].hp);
    }
  }

  /**
   * monstersAttackPhase: exactly one attack for every monster alive when the
   * phase starts, in list order. The monsters are unchanged and the heroes
   * only lose HP.
   */
  function MonstersAttackPhase(b: Battle, pick: nat -> nat, roll: nat -> real): (r: (Battle, seq<bool>))
    ensures |r.1| == |AliveMonsters(b.monsters, |b.monsters|)|
    ensures r.0.monsters == b.monsters
    ensures OnlyHpLost(b.heroes, r.0.heroes)
  {
    AttacksFrom(b, AliveMonsters(b.monsters, |b.monsters|), 0, pick, roll)
  }

  // ---- Between rounds ----

  /** regenerateHeroes: the living heroes regenerate; fainted ones are untouched. */
  function RegenerateHeroes(b: Battle): (r: Battle)
    ensures r == b.(heroes := r.heroes) && |r.heroes| == |b.heroes|
    ensures forall i :: 0 <= i < |b.heroes| ==>
      r.heroes[i] == (if Heroes.IsAlive(b.heroes[i]) then Regenerate(b.heroes[i]) else b.heroes[i])
  {
    b.(heroes := seq(|b.heroes|, i requires 0 <= i < |b.heroes| =>
      if Heroes.IsAlive(b.heroes[i]) then Regenerate(b.heroes[i]) else b.heroes[i]))
  }

  /** reviveFaintedHeroes: fainted heroes revive at half their maxima; living ones are untouched. */
  function ReviveFaintedHeroes(b: Battle): (r: Battle)
    ensures r == b.(heroes := r.heroes) && |r.heroes| == |b.heroes|
    ensures forall i :: 0 <= i < |b.heroes| ==>
      r.heroes[i] == (if Heroes.IsFainted(b.heroes[i]) then Revive(b.heroes[i]) else b.heroes[i])
  {
    b.(heroes := seq(|b.heroes|, i requires 0 <= i < |b.heroes| =>
      if Heroes.IsFainted(b.heroes[i]) then Revive(b.heroes[i]) else b.heroes[i]))
  }

  /** After revival every hero with a maximum HP of at least 2 is alive. */
  lemma RevivalLeavesEveryoneAlive(b: Battle)
    requires forall i :: 0 <= i < |b.heroes| ==> b.heroes[i].hp.maximum >= 2
    ensures NoHeroAlive(ReviveFaintedHeroes(b).heroes) ==> b.heroes == []
    ensures forall i :: 0 <= i < |b.heroes| ==> Heroes.IsAlive(ReviveFaintedHeroes(b).heroes[i])
  {
    var r := ReviveFaintedHeroes(b);
    if b.heroes != [] {
      assert 0 in AliveHeroes(r.heroes, |r.heroes|);
    }
  }

  /** Regeneration keeps the living heroes alive and the fainted ones fainted. */
  lemma RegenerationKeepsLiveness(b: Battle)
    requires forall i :: 0 <= i < |b.heroes| ==> InRange(b.heroes[i].hp) && InRange(b.heroes[i].mp)
    ensures forall i :: 0 <= i < |b.heroes| ==>
      (Heroes.IsAlive(RegenerateHeroes(b).heroes[i]) <==> Heroes.IsAlive(b.heroes[i]))
  {
  }

  /**
   * The sum of the monsters' levels, defeated ones included: with no
   * negative level it is never negative and covers each monster's level.
   */
  function TotalLevel(ms: seq<Monster>): (r: int)
    ensures (forall i :: 0 <= i < |ms| ==> ms[i].level >= 0) ==> r >= 0
    ensures forall i :: 0 <= i < |ms| && (forall j :: 0 <= j < |ms| ==> ms[j].level >= 0) ==> r >= ms[i].level
  {
    if ms == [] then 0 else TotalLevel(ms[..|ms| - 1]) + ms[|ms| - 1].level
  }

  /** Each living hero's reward: experience, then gold (refused if negative). */
  function Reward(h: Hero, total: int): Hero
  {
    AddGold(GainExperience(h, total * VictoryXpBase), total * VictoryGoldBase).0
  }

  /**
   * awardVictoryRewards: nothing unless the heroes won. Then every living
   * hero gains twice the total monster level in experience and a hundred
   * times it in gold; fainted heroes get nothing.
   */
  function AwardVictoryRewards(b: Battle): (r: Battle)
    ensures !b.heroesWon ==> r == b
    ensures r == b.(heroes := r.heroes) && |r.heroes| == |b.heroes|
    ensures b.heroesWon ==> forall i :: 0 <= i < |b.heroes| ==>
      (Heroes.IsFainted(b.heroes[i]) ==> r.heroes[i] == b.heroes[i])
      && (Heroes.IsAlive(b.heroes[i]) ==>
        r.heroes[i].experience == b.heroes[i].experience + 2 * TotalLevel(b.monsters)
        && (TotalLevel(b.monsters) >= 0 ==> r.heroes[i].gold == b.heroes[i].gold + 100 * TotalLevel(b.monsters)))
    ensures b.heroesWon ==> forall i :: 0 <= i < |b.heroes| && Heroes.IsAlive(b.heroes[i]) ==>
      r.heroes[i] == AddGold(GainExperience(b.heroes[i], 2 * TotalLevel(b.monsters)), 100 * TotalLevel(b.monsters)).0
  {
    if !b.heroesWon then b
    else
      var total := TotalLevel(b.monsters);
      b.(heroes := seq(|b.heroes|, i requires 0 <= i < |b.heroes| =>
        if Heroes.IsAlive(b.heroes[i]) then Reward(b.heroes[i], total) else b.heroes[i]))
  }

  /** Monsters of level at least 1 give at least their number in levels; appending a monster adds its level. */
  lemma {:induction false} TotalLevelBounds(ms: seq<Monster>, m: Monster)
    requires forall i :: 0 <= i < |ms| ==> ms[i].level >= 1
    ensures TotalLevel(ms) >= |ms|
    ensures TotalLevel(ms + [m]) == TotalLevel(ms) + m.level
  {
    assert (ms + [m])[..|ms|] == ms;
    if ms != [] {
      TotalLevelBounds(ms[..|ms| - 1], ms[|ms| - 1]);
    }
  }
}

=== FILE: board_generator.dfy ===
/**
 * Board generation (world/BoardGenerator.java, and the identical private
 * copy in world/ValorWorldMap.java): the wall/nexus skeleton, one of each
 * special terrain on shuffled eligible cells, a weighted random fill, up to
 * two markets, and the per-lane breadth-first repair pass that carves a
 * column when a lane has no top-to-bottom path.
 *
 * The shuffle is a permutation of eligible-list indices and the fill draws
 * are the successive `nextDouble` values; both are parameters.
 */
module BoardGeneration {
  import opened Wrappers
  import opened JavaMath
  import opened CellTypes
  import opened Cells
  import opened Geometry
  import opened Grids

  // ------------------------------------------------------------ skeleton

  predicate IsWallColumn(col: int) { col == WallColumns[0] || col == WallColumns[1] }

  predicate IsNexusRow(row: int) { row == 0 || row == Size - 1 }

  /** The type each cell has once walls and nexus rows are laid over all-plain. */
  function SkeletonKind(p: Position): CellType
  {
    if IsWallColumn(p.col) then Inaccessible
    else if IsNexusRow(p.row) then Nexus
    else Plain
  }

  /** Walls on columns 2 and 5 of every row; nexus on lane columns of rows 0 and 7. */
  function Skeleton(): (g: Grid)
    ensures forall p :: InBounds(p) && IsWallColumn(p.col) ==> KindAt(g, p) == Inaccessible
    ensures forall p :: InBounds(p) && IsNexusRow(p.row) && LaneOfPosition(p) != -1 ==> KindAt(g, p) == Nexus
    ensures forall p :: InBounds(p) ==> (KindAt(g, p) == Plain <==> !IsNexusRow(p.row) && LaneOfPosition(p) != -1)
    ensures forall p :: InBounds(p) ==> !HasHero(At(g, p)) && !HasMonster(At(g, p))
  {
    seq(64, i requires 0 <= i < 64 => NewCell(SkeletonKind(PosOf(i))))
  }

  function IsPlain(c: Cell): bool { c.kind == Plain }

  /** The eligible list: every plain cell, once, in row-major order. */
  function Eligible(g: Grid): (ps: seq<Position>)
    ensures forall k :: 0 <= k < |ps| ==> InBounds(ps[k]) && KindAt(g, ps[k]) == Plain
    ensures forall q :: InBounds(q) ==> (q in ps <==> KindAt(g, q) == Plain)
    ensures forall a, b :: 0 <= a < b < |ps| ==> Idx(ps[a]) < Idx(ps[b])
  {
    CellsWhere(g, IsPlain)
  }

  /** On the skeleton the eligible cells are exactly the lane cells of rows 1..6. */
  lemma SkeletonEligible(q: Position)
    requires InBounds(q)
    ensures q in Eligible(Skeleton()) <==> 1 <= q.row <= 6 && LaneForColumn(q.col) != -1
  {
  }

  // ------------------------------------------------------------- shuffle

  predicate Distinct(ps: seq<Position>)
  {
    forall a, b :: 0 <= a < |ps| && 0 <= b < |ps| && a != b ==> ps[a] != ps[b]
  }

  /** `perm` reorders `n` items: a sequence of `n` distinct indices below `n`. */
  predicate IsPermutation(perm: seq<nat>, n: nat)
  {
    |perm| == n
    && (forall k :: 0 <= k < n ==> perm[k] < n)
    && (forall a, b :: 0 <= a < n && 0 <= b < n && a != b ==> perm[a] != perm[b])
  }

  /** The eligible list after `Collections.shuffle`, given as the index permutation it applied. */
  function Shuffle(ps: seq<Position>, perm: seq<nat>): (r: seq<Position>)
    requires IsPermutation(perm, |ps|)
    ensures |r| == |ps|
    ensures forall k :: 0 <= k < |r| ==> r[k] == ps[perm[k]]
    ensures Distinct(ps) ==> Distinct(r)
  {
    seq(|ps|, k requires 0 <= k < |ps| => ps[perm[k]])
  }

  // ----------------------------------------------------- special terrain

  const Specials: seq<CellType> := [Obstacle, Bush, Cave, Koulou]

  /** How many specials are placed: four, or fewer when the list is short. */
  function PickCount(n: nat): (k: nat)
    ensures k <= 4 && k <= n && (n >= 4 ==> k == 4) && (n < 4 ==> k == n)
  {
    Min(4, n)
  }

  predicate AllInBounds(ps: seq<Position>)
  {
    forall k :: 0 <= k < |ps| ==> InBounds(ps[k])
  }

  /** Only the types change during generation; every occupant slot is kept. */
  ghost predicate SameOccupants(g: Grid, h: Grid)
  {
    forall q :: InBounds(q) ==> At(h, q).hero == At(g, q).hero && At(h, q).monster == At(g, q).monster
  }

  /** Sets cells[k..] (up to the pick count) to the matching special terrain. */
  function PlaceSpecialsFrom(g: Grid, cells: seq<Position>, k: nat): (r: Grid)
    requires AllInBounds(cells) && Distinct(cells) && k <= PickCount(|cells|)
    ensures forall j :: k <= j < PickCount(|cells|) ==> KindAt(r, cells[j]) == Specials[j]
    ensures forall q :: InBounds(q) && q !in cells[k..PickCount(|cells|)] ==> At(r, q) == At(g, q)
    ensures SameOccupants(g, r)
    decreases 4 - k
  {
    if k == PickCount(|cells|) then g
    else
      var r := PlaceSpecialsFrom(SetKind(g, cells[k], Specials[k]), cells, k + 1);
      assert cells[k..PickCount(|cells|)] == [cells[k]] + cells[k + 1..PickCount(|cells|)];
      r
  }

  // ---------------------------------------------------------- fill

  /** The weighted terrain choice for one draw in [0, 1). */
  function FillKind(roll: real): (t: CellType)
    ensures t in {Obstacle, Bush, Cave, Koulou, Plain}
    ensures t == Plain <==> roll >= 0.30
    ensures t == Obstacle <==> roll < 0.12
  {
    if roll < 0.12 then Obstacle
    else if roll < 0.20 then Bush
    else if roll < 0.26 then Cave
    else if roll < 0.30 then Koulou
    else Plain
  }

  /** Fills cells[i..] with the weighted choice, consuming one draw per cell. */
  function FillFrom(g: Grid, cells: seq<Position>, draws: seq<real>, pick: nat, i: nat): (r: Grid)
    requires AllInBounds(cells) && Distinct(cells)
    requires pick <= i <= |cells| && |draws| == |cells| - pick
    ensures forall j :: i <= j < |cells| ==> KindAt(r, cells[j]) == FillKind(draws[j - pick])
    ensures forall q :: InBounds(q) && q !in cells[i..] ==> At(r, q) == At(g, q)
    ensures SameOccupants(g, r)
    decreases |cells| - i
  {
    if i == |cells| then g
    else
      var r := FillFrom(SetKind(g, cells[i], FillKind(draws[i - pick])), cells, draws, pick, i + 1);
      assert cells[i..] == [cells[i]] + cells[i + 1..];
      r
  }

  // ---------------------------------------------------------- markets

  /**
   * Scans cells[i..] turning plain cells into markets until two are placed.
   * Returns the grid and the positions converted.
   */
  function MarketsFrom(g: Grid, cells: seq<Position>, i: nat, placed: nat): (r: (Grid, seq<Position>))
    requires AllInBounds(cells) && Distinct(cells) && i <= |cells| && placed <= 2
    ensures |r.1| <= 2 - placed
    ensures forall k :: 0 <= k < |r.1| ==>
      r.1[k] in cells[i..] && InBounds(r.1[k]) && KindAt(g, r.1[k]) == Plain && KindAt(r.0, r.1[k]) == Market
    ensures forall q :: InBounds(q) && q !in r.1 ==> At(r.0, q) == At(g, q)
    ensures SameOccupants(g, r.0)
    decreases |cells| - i
  {
    if i == |cells| || placed >= 2 then (g, [])
    else if KindAt(g, cells[i]) == Plain then
      var rest := MarketsFrom(SetKind(g, cells[i], Market), cells, i + 1, placed + 1);
      assert cells[i..] == [cells[i]] + cells[i + 1..];
      assert forall k :: 0 <= k < |rest.1| ==> rest.1[k] != cells[i];
      (rest.0, [cells[i]] + rest.1)
    else
      var rest := MarketsFrom(g, cells, i + 1, placed);
      assert cells[i..] == [cells[i]] + cells[i + 1..];
      rest
  }

  // ------------------------------------------------------- lane paths

  predicate InLane(p: Position, lane: int)
    requires 0 <= lane < 3
  {
    InBounds(p) && (p.col == Lanes[lane][0] || p.col == Lanes[lane][1])
  }

  predicate Open(g: Grid, p: Position)
    requires InBounds(p)
  {
    Passable(KindAt(g, p))
  }

  /** One breadth-first edge: an orthogonal neighbour inside the lane that is not a wall or obstacle. */
  predicate LaneStep(g: Grid, lane: int, p: Position, q: Position)
    requires 0 <= lane < 3
  {
    q in Neighbors(p) && InLane(q, lane) && Open(g, q)
  }

  /** A walk from a row-0 lane cell to `v` taking only lane steps. */
  ghost predicate IsPathTo(g: Grid, lane: int, path: seq<Position>, v: Position)
    requires 0 <= lane < 3
  {
    |path| >= 1 && path[0].row == 0 && InLane(path[0], lane) && path[|path| - 1] == v
    && forall k :: 0 <= k < |path| - 1 ==> LaneStep(g, lane, path[k], path[k + 1])
  }

  /** A walk from the lane's row 0 to its row 7 inside the lane, avoiding walls and obstacles. */
  ghost predicate IsLanePath(g: Grid, lane: int, path: seq<Position>)
    requires 0 <= lane < 3
  {
    |path| >= 1 && IsPathTo(g, lane, path, path[|path| - 1]) && path[|path| - 1].row == Size - 1
  }

  ghost predicate HasLanePath(g: Grid, lane: int)
    requires 0 <= lane < 3
  {
    exists path :: IsLanePath(g, lane, path)
  }

  function LaneCells(lane: int): (s: set<Position>)
    requires 0 <= lane < 3
    ensures forall p :: p in s <==> InLane(p, lane)
  {
    set r, c | 0 <= r < Size && c in Lanes[lane] :: Position(r, c)
  }

  /** A set containing the lane's starts and closed under lane steps contains every walk's end. */
  lemma {:induction false} ClosedSetContainsWalk(g: Grid, lane: int, s: set<Position>, path: seq<Position>)
    requires 0 <= lane < 3
    requires Position(0, Lanes[lane][0]) in s && Position(0, Lanes[lane][1]) in s
    requires forall v, q :: v in s && LaneStep(g, lane, v, q) ==> q in s
    requires |path| >= 1 && IsPathTo(g, lane, path, path[|path| - 1])
    ensures path[|path| - 1] in s
    decreases |path|
  {
    if |path| > 1 {
      var prefix := path[..|path| - 1];
      assert IsPathTo(g, lane, prefix, prefix[|prefix| - 1]);
      ClosedSetContainsWalk(g, lane, s, prefix);
      assert LaneStep(g, lane, path[|path| - 2], path[|path| - 1]);
    }
  }

  /** The unvisited lane steps out of `p` among ns[j..], in neighbour order. */
  function FrontierFrom(g: Grid, lane: int, p: Position, visited: set<Position>, ns: seq<Position>, j: nat): (r: seq<Position>)
    requires 0 <= lane < 3 && ns == Neighbors(p) && j <= |ns|
    ensures forall q :: q in r ==> q !in visited && LaneStep(g, lane, p, q)
    ensures forall k :: j <= k < |ns| && ns[k] !in visited && LaneStep(g, lane, p, ns[k]) ==> ns[k] in r
    decreases |ns| - j
  {
    if j == |ns| then []
    else
      var n := ns[j];
      var rest := FrontierFrom(g, lane, p, visited, ns, j + 1);
      if n !in visited && (n.col == Lanes[lane][0] || n.col == Lanes[lane][1]) && Passable(KindAt(g, n)) then
        [n] + rest
      else rest
  }

  /** Every visited cell is recorded with a walk reaching it. */
  ghost predicate WalksKnown(g: Grid, lane: int, visited: set<Position>, paths: map<Position, seq<Position>>)
    requires 0 <= lane < 3
  {
    forall v :: v in visited ==> v in paths && IsPathTo(g, lane, paths[v], v)
  }

  /** Every lane step out of an expanded cell leads to a visited cell. */
  ghost predicate ExpandedClosed(g: Grid, lane: int, done: set<Position>, visited: set<Position>)
    requires 0 <= lane < 3
  {
    forall v, q :: v in done && LaneStep(g, lane, v, q) ==> q in visited
  }

  /** Expanding `p` by all its unvisited lane steps keeps the expanded set closed. */
  lemma ExpandKeepsClosed(g: Grid, lane: int, p: Position, done: set<Position>, visited: set<Position>, added: seq<Position>)
    requires 0 <= lane < 3 && ExpandedClosed(g, lane, done, visited)
    requires forall q :: LaneStep(g, lane, p, q) && q !in visited ==> q in added
    ensures ExpandedClosed(g, lane, done + {p}, visited + (set q | q in added))
  {
  }

  /** The walks known after expanding `p`: each new cell extends the walk to `p`. */
  ghost function ExtendWalks(g: Grid, lane: int, p: Position, visited: set<Position>,
                             paths: map<Position, seq<Position>>, added: seq<Position>): (r: map<Position, seq<Position>>)
    requires 0 <= lane < 3 && p in visited && WalksKnown(g, lane, visited, paths)
    requires forall q :: q in added ==> LaneStep(g, lane, p, q)
    ensures WalksKnown(g, lane, visited + (set q | q in added), r)
  {
    var r := map q | q in visited + (set q | q in added) :: if q in visited then paths[q] else paths[p] + [q];
    assert forall q :: q in added && q !in visited ==> IsPathTo(g, lane, r[q], q) by {
      forall q | q in added && q !in visited ensures IsPathTo(g, lane, r[q], q) {
        assert r[q] == paths[p] + [q];
      }
    }
    r
  }

  /** Exactly the unvisited lane steps out of `p`. */
  function Frontier(g: Grid, lane: int, p: Position, visited: set<Position>): (r: seq<Position>)
    requires 0 <= lane < 3
    ensures forall q :: q in r <==> q !in visited && LaneStep(g, lane, p, q)
  {
    var ns := Neighbors(p);
    var r := FrontierFrom(g, lane, p, visited, ns, 0);
    assert forall q :: LaneStep(g, lane, p, q) && q !in visited ==> q in r by {
      forall q | LaneStep(g, lane, p, q) && q !in visited ensures q in r {
        var k :| 0 <= k < |ns| && ns[k] == q;
      }
    }
    r
  }

  /**
   * What the search knows between iterations: visited cells are in the lane
   * and are either expanded (`done`) or queued, both starts are visited,
   * every visited cell has a known walk, and, while no goal has been found,
   * no expanded cell is a goal and every step out of an expanded cell is
   * visited.
   */
  ghost predicate SearchInvariant(g: Grid, lane: int, queue: seq<Position>, visited: set<Position>,
                                  done: set<Position>, paths: map<Position, seq<Position>>, reachable: bool)
    requires 0 <= lane < 3
  {
    visited <= LaneCells(lane)
    && (forall v :: v in visited <==> v in done || v in queue)
    && Position(0, Lanes[lane][0]) in visited && Position(0, Lanes[lane][1]) in visited
    && (!reachable ==> forall v :: v in done ==> v.row != Size - 1)
    && (!reachable ==> ExpandedClosed(g, lane, done, visited))
    && WalksKnown(g, lane, visited, paths)
    && (reachable ==> HasLanePath(g, lane))
  }

  /** Dequeuing a non-goal cell and queueing its frontier keeps the invariant and makes progress. */
  lemma ExpandKeepsInvariant(g: Grid, lane: int, queue: seq<Position>, visited: set<Position>,
                             done: set<Position>, paths: map<Position, seq<Position>>)
    requires 0 <= lane < 3 && |queue| > 0
    requires SearchInvariant(g, lane, queue, visited, done, paths, false)
    requires queue[0] != Position(Size - 1, Lanes[lane][0]) && queue[0] != Position(Size - 1, Lanes[lane][1])
    ensures var p := queue[0];
      var added := Frontier(g, lane, p, visited);
      var visited' := visited + (set q | q in added);
      SearchInvariant(g, lane, queue[1..] + added, visited', done + {p},
                      ExtendWalks(g, lane, p, visited, paths, added), false)
      && (LaneCells(lane) - visited' < LaneCells(lane) - visited || (visited' == visited && |added| == 0))
  {
    var p := queue[0];
    var added := Frontier(g, lane, p, visited);
    var visited' := visited + (set q | q in added);
    var queue' := queue[1..] + added;
    var paths' := ExtendWalks(g, lane, p, visited, paths, added);
    assert p in visited;
    assert InLane(p, lane);
    assert visited' <= LaneCells(lane);
    QueueBookkeeping(done, visited, queue, added);
    assert forall v :: v in done + {p} ==> v.row != Size - 1;
    assert ExpandedClosed(g, lane, done + {p}, visited') by {
      ExpandKeepsClosed(g, lane, p, done, visited, added);
    }
    FrontierProgress(lane, visited, added);
  }

  /** Moving the queue head to `done` and appending `added` to both keeps visited = done + queue. */
  lemma QueueBookkeeping(done: set<Position>, visited: set<Position>, queue: seq<Position>, added: seq<Position>)
    requires |queue| > 0
    requires forall v :: v in visited <==> v in done || v in queue
    ensures forall v :: v in visited + (set q | q in added) <==> v in done + {queue[0]} || v in queue[1..] + added
  {
    assert queue == [queue[0]] + queue[1..];
  }

  /** A non-empty frontier strictly shrinks the set of unvisited lane cells. */
  lemma FrontierProgress(lane: int, visited: set<Position>, added: seq<Position>)
    requires 0 <= lane < 3
    requires forall q :: q in added ==> q !in visited && InLane(q, lane)
    ensures |added| > 0 ==> LaneCells(lane) - (visited + (set q | q in added)) < LaneCells(lane) - visited
    ensures |added| == 0 ==> visited + (set q | q in added) == visited
  {
    if |added| > 0 {
      assert added[0] in LaneCells(lane) - visited;
    }
  }

  /** Dequeuing a goal cell: its known walk is a lane path. */
  lemma GoalKeepsInvariant(g: Grid, lane: int, queue: seq<Position>, visited: set<Position>,
                           done: set<Position>, paths: map<Position, seq<Position>>)
    requires 0 <= lane < 3 && |queue| > 0
    requires SearchInvariant(g, lane, queue, visited, done, paths, false)
    requires queue[0] == Position(Size - 1, Lanes[lane][0]) || queue[0] == Position(Size - 1, Lanes[lane][1])
    ensures SearchInvariant(g, lane, queue[1..], visited, done + {queue[0]}, paths, true)
  {
    assert queue == [queue[0]] + queue[1..];
    assert IsLanePath(g, lane, paths[queue[0]]);
  }

  /**
   * The breadth-first search of `ensureLanePathExists`: starts at both row-0
   * cells of the lane, stops when a row-7 cell of the lane is dequeued.
   */
  method LaneReachable(g: Grid, lane: int) returns (reachable: bool)
    requires 0 <= lane < 3
    ensures reachable <==> HasLanePath(g, lane)
  {
    var cols := Lanes[lane];
    var s0 := Position(0, cols[0]);
    var s1 := Position(0, cols[1]);
    var queue: seq<Position> := [s0, s1];
    var visited: set<Position> := {s0, s1};
    ghost var done: set<Position> := {};
    ghost var paths: map<Position, seq<Position>> := map[s0 := [s0], s1 := [s1]];
    reachable := false;
    while |queue| > 0 && !reachable
      invariant SearchInvariant(g, lane, queue, visited, done, paths, reachable)
      decreases LaneCells(lane) - visited, |queue|
    {
      var p := queue[0];
      if p == Position(Size - 1, cols[0]) || p == Position(Size - 1, cols[1]) {
        GoalKeepsInvariant(g, lane, queue, visited, done, paths);
        reachable := true;
        queue := queue[1..];
        done := done + {p};
      } else {
        ExpandKeepsInvariant(g, lane, queue, visited, done, paths);
        var added := Frontier(g, lane, p, visited);
        paths := ExtendWalks(g, lane, p, visited, paths, added);
        visited := visited + (set q | q in added);
        queue := queue[1..] + added;
        done := done + {p};
      }
    }
    if !reachable {
      forall path | IsLanePath(g, lane, path)
        ensures path[|path| - 1] in visited
      {
        ClosedSetContainsWalk(g, lane, visited, path);
      }
    }
  }

  // ----------------------------------------------------------- carving

  function CarveCell(c: Cell): (r: Cell)
    ensures r.hero == c.hero && r.monster == c.monster
    ensures Passable(r.kind)
    ensures Passable(c.kind) ==> r == c
    ensures !Passable(c.kind) ==> r.kind == Plain
  {
    if c.kind == Obstacle || c.kind == Inaccessible then SetType(c, Plain) else c
  }

  /** Clears every obstacle and wall cell of the lane's first column to plain. */
  function Carve(g: Grid, lane: int): (r: Grid)
    requires 0 <= lane < 3
    ensures forall p :: InBounds(p) && p.col != Lanes[lane][0] ==> At(r, p) == At(g, p)
    ensures forall p :: InBounds(p) && p.col == Lanes[lane][0] ==> At(r, p) == CarveCell(At(g, p))
  {
    seq(64, i requires 0 <= i < 64 => if PosOf(i).col == Lanes[lane][0] then CarveCell(g[i]) else g[i])
  }

  /** After carving, the lane's first column is a straight top-to-bottom path. */
  lemma CarveMakesPath(g: Grid, lane: int)
    requires 0 <= lane < 3
    ensures HasLanePath(Carve(g, lane), lane)
  {
    var h := Carve(g, lane);
    var c := Lanes[lane][0];
    var path := seq(Size, r => Position(r, c));
    forall k | 0 <= k < |path| - 1
      ensures LaneStep(h, lane, path[k], path[k + 1])
    {
      assert Manhattan(path[k], path[k + 1]) == 1;
    }
    assert IsLanePath(h, lane, path);
  }

  /** Whether a lane has a path depends only on the types of that lane's cells. */
  lemma LanePathIsLocal(g: Grid, h: Grid, lane: int)
    requires 0 <= lane < 3
    requires forall p :: InLane(p, lane) ==> KindAt(g, p) == KindAt(h, p)
    ensures HasLanePath(g, lane) <==> HasLanePath(h, lane)
  {
    forall path | IsLanePath(g, lane, path) ensures IsLanePath(h, lane, path) {
      assert forall k :: 0 <= k < |path| - 1 ==> LaneStep(h, lane, path[k], path[k + 1]);
    }
    forall path | IsLanePath(h, lane, path) ensures IsLanePath(g, lane, path) {
      assert forall k :: 0 <= k < |path| - 1 ==> LaneStep(g, lane, path[k], path[k + 1]);
    }
  }

  /** Leaves a connected lane alone; otherwise carves its first column. */
  method EnsureLanePathExists(g: Grid, lane: int) returns (r: Grid)
    requires 0 <= lane < 3
    ensures HasLanePath(r, lane)
    ensures HasLanePath(g, lane) ==> r == g
    ensures !HasLanePath(g, lane) ==> r == Carve(g, lane)
  {
    var reachable := LaneReachable(g, lane);
    if reachable {
      r := g;
    } else {
      r := Carve(g, lane);
      CarveMakesPath(g, lane);
    }
  }

  /** Repairing one lane never breaks another lane's path. */
  lemma CarvePreservesOtherLanes(g: Grid, lane: int, other: int)
    requires 0 <= lane < 3 && 0 <= other < 3 && lane != other
    ensures HasLanePath(g, other) <==> HasLanePath(Carve(g, lane), other)
  {
    LanePathIsLocal(g, Carve(g, lane), other);
  }

  // -------------------------------------------------------- the whole board

  /** Walls and nexus where the skeleton put them, no other wall or nexus cell, no occupants. */
  ghost predicate WellLaid(g: Grid)
  {
    (forall p :: InBounds(p) && IsWallColumn(p.col) ==> KindAt(g, p) == Inaccessible)
    && (forall p :: InBounds(p) && IsNexusRow(p.row) && LaneOfPosition(p) != -1 ==> KindAt(g, p) == Nexus)
    && (forall p :: InBounds(p) && !IsNexusRow(p.row) && LaneOfPosition(p) != -1 ==>
          KindAt(g, p) != Inaccessible && KindAt(g, p) != Nexus)
    && (forall p :: InBounds(p) ==> !HasHero(At(g, p)) && !HasMonster(At(g, p)))
  }

  /** A base grid to lay terrain on: well laid, plain exactly on the lane interior, no market. */
  ghost predicate TerrainBase(g: Grid)
  {
    WellLaid(g)
    && (forall p :: InBounds(p) ==> (KindAt(g, p) == Plain <==> !IsNexusRow(p.row) && LaneOfPosition(p) != -1))
    && (forall p :: InBounds(p) ==> KindAt(g, p) != Market)
  }

  lemma SkeletonIsTerrainBase()
    ensures TerrainBase(Skeleton())
  {
  }

  /** Specials, weighted fill and markets laid on the shuffled eligible cells of `base`. */
  function TerrainOn(base: Grid, perm: seq<nat>, draws: seq<real>): (r: (Grid, seq<Position>, seq<Position>))
    requires IsPermutation(perm, |Eligible(base)|)
    requires |draws| == |Eligible(base)| - PickCount(|Eligible(base)|)
    ensures r.1 == Shuffle(Eligible(base), perm)
  {
    var elig := Eligible(base);
    IncreasingIsDistinct(elig);
    var cells := Shuffle(elig, perm);
    var pick := PickCount(|cells|);
    var g1 := PlaceSpecialsFrom(base, cells, 0);
    var g2 := FillFrom(g1, cells, draws, pick, pick);
    var m := MarketsFrom(g2, cells, pick, 0);
    (m.0, cells, m.1)
  }

  /** The terrain before repair: skeleton, specials, weighted fill, markets. */
  function Terrain(perm: seq<nat>, draws: seq<real>): (r: (Grid, seq<Position>, seq<Position>))
    requires IsPermutation(perm, |Eligible(Skeleton())|)
    requires |draws| == |Eligible(Skeleton())| - PickCount(|Eligible(Skeleton())|)
  {
    TerrainOn(Skeleton(), perm, draws)
  }

  /** Shuffled cells of a base are distinct lane-interior cells. */
  lemma ShuffledCells(base: Grid, perm: seq<nat>)
    requires TerrainBase(base) && IsPermutation(perm, |Eligible(base)|)
    ensures var cells := Shuffle(Eligible(base), perm);
      AllInBounds(cells) && Distinct(cells)
      && forall k :: 0 <= k < |cells| ==> !IsNexusRow(cells[k].row) && LaneOfPosition(cells[k]) != -1
  {
    IncreasingIsDistinct(Eligible(base));
  }

  /** The kinds the terrain passes produce, before any lane is repaired. */
  ghost predicate TerrainShape(t: Grid, cells: seq<Position>, markets: seq<Position>, draws: seq<real>)
    requires AllInBounds(cells) && |draws| == |cells| - PickCount(|cells|)
  {
    WellLaid(t)
    && |markets| <= 2
    && (forall p :: InBounds(p) ==> (KindAt(t, p) == Market <==> p in markets))
    && (forall k :: 0 <= k < |markets| ==> markets[k] in cells[PickCount(|cells|)..])
    && (forall j :: 0 <= j < PickCount(|cells|) ==> KindAt(t, cells[j]) == Specials[j])
    && (forall j :: PickCount(|cells|) <= j < |cells| && cells[j] !in markets ==>
          KindAt(t, cells[j]) == FillKind(draws[j - PickCount(|cells|)]))
  }

  /** What the terrain passes produce on any base, before any lane is repaired. */
  lemma TerrainOnFacts(base: Grid, perm: seq<nat>, draws: seq<real>)
    requires TerrainBase(base)
    requires IsPermutation(perm, |Eligible(base)|)
    requires |draws| == |Eligible(base)| - PickCount(|Eligible(base)|)
    ensures var t := TerrainOn(base, perm, draws);
      AllInBounds(t.1) && Distinct(t.1) && TerrainShape(t.0, t.1, t.2, draws)
  {
    var elig := Eligible(base);
    ShuffledCells(base, perm);
    var cells := Shuffle(elig, perm);
    var pick := PickCount(|cells|);
    var g1 := PlaceSpecialsFrom(base, cells, 0);
    var g2 := FillFrom(g1, cells, draws, pick, pick);
    var m := MarketsFrom(g2, cells, pick, 0);
    assert TerrainOn(base, perm, draws) == (m.0, cells, m.1);
    PassesFacts(base, g1, g2, m.0, cells, m.1, draws, pick);
  }

  /** The three terrain passes, composed, give the terrain shape. */
  lemma PassesFacts(base: Grid, g1: Grid, g2: Grid, g3: Grid, cells: seq<Position>, ms: seq<Position>,
                    draws: seq<real>, pick: nat)
    requires TerrainBase(base) && AllInBounds(cells) && Distinct(cells)
    requires pick == PickCount(|cells|) && |draws| == |cells| - pick
    requires forall k :: 0 <= k < |cells| ==> !IsNexusRow(cells[k].row) && LaneOfPosition(cells[k]) != -1
    requires forall j :: 0 <= j < pick ==> KindAt(g1, cells[j]) == Specials[j]
    requires forall q :: InBounds(q) && q !in cells[0..pick] ==> At(g1, q) == At(base, q)
    requires forall j :: pick <= j < |cells| ==> KindAt(g2, cells[j]) == FillKind(draws[j - pick])
    requires forall q :: InBounds(q) && q !in cells[pick..] ==> At(g2, q) == At(g1, q)
    requires |ms| <= 2
    requires forall k :: 0 <= k < |ms| ==>
      ms[k] in cells[pick..] && InBounds(ms[k]) && KindAt(g2, ms[k]) == Plain && KindAt(g3, ms[k]) == Market
    requires forall q :: InBounds(q) && q !in ms ==> At(g3, q) == At(g2, q)
    requires SameOccupants(base, g1) && SameOccupants(g1, g2) && SameOccupants(g2, g3)
    ensures TerrainShape(g3, cells, ms, draws)
  {
    OnlyShuffledCellsChange(base, g1, g2, g3, cells, ms, pick);
    KindsBeforeMarkets(g1, g2, cells, draws, pick);
    NoMarketBeforeMarketPass(base, g2, cells, draws, pick);
    SpecialsAreNotMarkets(cells, ms, pick);
    LaneInteriorKinds(base, g2, g3, cells, ms, draws, pick);
  }

  lemma OnlyShuffledCellsChange(base: Grid, g1: Grid, g2: Grid, g3: Grid, cells: seq<Position>, ms: seq<Position>, pick: nat)
    requires pick <= |cells|
    requires forall q :: InBounds(q) && q !in cells[0..pick] ==> At(g1, q) == At(base, q)
    requires forall q :: InBounds(q) && q !in cells[pick..] ==> At(g2, q) == At(g1, q)
    requires forall k :: 0 <= k < |ms| ==> ms[k] in cells[pick..]
    requires forall q :: InBounds(q) && q !in ms ==> At(g3, q) == At(g2, q)
    ensures forall q :: InBounds(q) && q !in cells ==> At(g3, q) == At(base, q) && At(g2, q) == At(base, q)
  {
    forall q | InBounds(q) && q !in cells ensures At(g3, q) == At(base, q) && At(g2, q) == At(base, q) {
      assert q !in cells[0..pick] && q !in cells[pick..];
      assert q !in ms;
    }
  }

  lemma KindsBeforeMarkets(g1: Grid, g2: Grid, cells: seq<Position>, draws: seq<real>, pick: nat)
    requires AllInBounds(cells) && Distinct(cells) && pick <= 4 && pick <= |cells| && |draws| == |cells| - pick
    requires forall j :: 0 <= j < pick ==> KindAt(g1, cells[j]) == Specials[j]
    requires forall j :: pick <= j < |cells| ==> KindAt(g2, cells[j]) == FillKind(draws[j - pick])
    requires forall q :: InBounds(q) && q !in cells[pick..] ==> At(g2, q) == At(g1, q)
    ensures forall j :: 0 <= j < pick ==> KindAt(g2, cells[j]) == Specials[j]
  {
    forall j | 0 <= j < pick ensures KindAt(g2, cells[j]) == Specials[j] {
      assert cells[j] !in cells[pick..];
    }
  }

  lemma NoMarketBeforeMarketPass(base: Grid, g2: Grid, cells: seq<Position>, draws: seq<real>, pick: nat)
    requires TerrainBase(base) && AllInBounds(cells) && pick <= 4 && pick <= |cells| && |draws| == |cells| - pick
    requires forall j :: 0 <= j < pick ==> KindAt(g2, cells[j]) == Specials[j]
    requires forall j :: pick <= j < |cells| ==> KindAt(g2, cells[j]) == FillKind(draws[j - pick])
    requires forall q :: InBounds(q) && q !in cells ==> At(g2, q) == At(base, q)
    ensures forall q :: InBounds(q) ==> KindAt(g2, q) != Market
  {
    forall q | InBounds(q) ensures KindAt(g2, q) != Market {
      if q in cells {
        var j :| 0 <= j < |cells| && cells[j] == q;
      }
    }
  }

  lemma SpecialsAreNotMarkets(cells: seq<Position>, ms: seq<Position>, pick: nat)
    requires Distinct(cells) && pick <= |cells|
    requires forall k :: 0 <= k < |ms| ==> ms[k] in cells[pick..]
    ensures forall j :: 0 <= j < pick ==> cells[j] !in ms
  {
    forall j | 0 <= j < pick ensures cells[j] !in ms {
      assert cells[j] !in cells[pick..];
    }
  }

  lemma LaneInteriorKinds(base: Grid, g2: Grid, g3: Grid, cells: seq<Position>, ms: seq<Position>,
                          draws: seq<real>, pick: nat)
    requires TerrainBase(base) && AllInBounds(cells) && pick <= 4 && pick <= |cells| && |draws| == |cells| - pick
    requires forall k :: 0 <= k < |cells| ==> !IsNexusRow(cells[k].row) && LaneOfPosition(cells[k]) != -1
    requires forall j :: 0 <= j < pick ==> KindAt(g2, cells[j]) == Specials[j]
    requires forall j :: pick <= j < |cells| ==> KindAt(g2, cells[j]) == FillKind(draws[j - pick])
    requires forall q :: InBounds(q) && q !in cells ==> At(g3, q) == At(base, q) && At(g2, q) == At(base, q)
    requires forall k :: 0 <= k < |ms| ==> InBounds(ms[k]) && KindAt(g3, ms[k]) == Market
    requires forall q :: InBounds(q) && q !in ms ==> At(g3, q) == At(g2, q)
    requires SameOccupants(base, g2) && SameOccupants(g2, g3)
    ensures WellLaid(g3)
  {
    assert forall k :: 0 <= k < |cells| ==> !IsWallColumn(cells[k].col) && !IsNexusRow(cells[k].row);
    assert forall q :: InBounds(q) && (IsWallColumn(q.col) || IsNexusRow(q.row)) ==> q !in cells;
    forall q | InBounds(q) && !IsNexusRow(q.row) && LaneOfPosition(q) != -1
      ensures KindAt(g3, q) != Inaccessible && KindAt(g3, q) != Nexus
    {
      if q in ms {
      } else if q in cells {
        var j :| 0 <= j < |cells| && cells[j] == q;
      }
    }
  }

  /** Carving keeps a well-laid board well laid, keeps markets, and clears only obstacles. */
  lemma CarveKeepsLayout(g: Grid, lane: int)
    requires 0 <= lane < 3 && WellLaid(g)
    ensures WellLaid(Carve(g, lane))
    ensures forall p :: InBounds(p) ==> (KindAt(Carve(g, lane), p) == Market <==> KindAt(g, p) == Market)
    ensures forall p :: InBounds(p) && KindAt(g, p) != Obstacle ==> KindAt(Carve(g, lane), p) == KindAt(g, p)
    ensures forall p :: InBounds(p) && KindAt(g, p) == Obstacle ==> KindAt(Carve(g, lane), p) in {Obstacle, Plain}
  {
    var h := Carve(g, lane);
    forall p | InBounds(p) && IsWallColumn(p.col) ensures KindAt(h, p) == Inaccessible {
      assert LaneForColumn(p.col) == -1;
      assert p.col != Lanes[lane][0];
    }
    forall p | InBounds(p) && IsNexusRow(p.row) && LaneOfPosition(p) != -1
      ensures KindAt(h, p) == Nexus
    {
    }
  }

  /** A lane repair, read as the carve-or-keep choice it makes. */
  ghost function Repaired(g: Grid, lane: int): Grid
    requires 0 <= lane < 3
  {
    if HasLanePath(g, lane) then g else Carve(g, lane)
  }

  /** What survives the repairs: layout, markets, and the specials other than the obstacle. */
  ghost predicate BoardShape(g: Grid, cells: seq<Position>, markets: seq<Position>)
    requires AllInBounds(cells)
  {
    WellLaid(g)
    && (forall p :: InBounds(p) ==> (KindAt(g, p) == Market <==> p in markets))
    && (forall j :: 1 <= j < PickCount(|cells|) ==> KindAt(g, cells[j]) == Specials[j])
    && (|cells| > 0 ==> KindAt(g, cells[0]) in {Obstacle, Plain})
  }

  lemma ShapeFromTerrain(t: Grid, cells: seq<Position>, markets: seq<Position>, draws: seq<real>)
    requires AllInBounds(cells) && |draws| == |cells| - PickCount(|cells|)
    requires TerrainShape(t, cells, markets, draws)
    ensures BoardShape(t, cells, markets)
  {
  }

  lemma RepairKeepsShape(g: Grid, lane: int, cells: seq<Position>, markets: seq<Position>)
    requires 0 <= lane < 3 && AllInBounds(cells) && BoardShape(g, cells, markets)
    ensures BoardShape(Repaired(g, lane), cells, markets)
    ensures forall l :: 0 <= l < 3 && l != lane ==> (HasLanePath(g, l) <==> HasLanePath(Repaired(g, lane), l))
  {
    CarveKeepsLayout(g, lane);
    forall l | 0 <= l < 3 && l != lane ensures HasLanePath(g, l) <==> HasLanePath(Carve(g, lane), l) {
      CarvePreservesOtherLanes(g, lane, l);
    }
  }

  /**
   * generateBoard followed by the three lane repairs. The result keeps
   * the walls and the nexus rows, has at most two markets, each on a
   * shuffled cell past the specials, keeps BUSH, CAVE and KOULOU on the
   * second to fourth shuffled cells (the first, the OBSTACLE, may be
   * carved back to PLAIN), and has a path in every lane.
   */
  method GenerateBoard(perm: seq<nat>, draws: seq<real>) returns (g: Grid, cells: seq<Position>, markets: seq<Position>)
    requires IsPermutation(perm, |Eligible(Skeleton())|)
    requires |draws| == |Eligible(Skeleton())| - PickCount(|Eligible(Skeleton())|)
    ensures cells == Shuffle(Eligible(Skeleton()), perm) && AllInBounds(cells)
    ensures WellLaid(g)
    ensures forall lane :: 0 <= lane < 3 ==> HasLanePath(g, lane)
    ensures |markets| <= 2 && forall p :: InBounds(p) ==> (KindAt(g, p) == Market <==> p in markets)
    ensures forall k :: 0 <= k < |markets| ==> markets[k] in cells[PickCount(|cells|)..]
    ensures forall j :: 1 <= j < PickCount(|cells|) ==> KindAt(g, cells[j]) == Specials[j]
    ensures |cells| > 0 ==> KindAt(g, cells[0]) in {Obstacle, Plain}
    ensures g == Repaired(Repaired(Repaired(Terrain(perm, draws).0, 0), 1), 2)
  {
    var t := Terrain(perm, draws);
    SkeletonIsTerrainBase();
    TerrainOnFacts(Skeleton(), perm, draws);
    cells := t.1;
    markets := t.2;
    ShapeFromTerrain(t.0, cells, markets, draws);
    g := RepairLanes(t.0, cells, markets);
  }

  /** ensureLanePathExists for lanes 0, 1 and 2 in turn. */
  method RepairLanes(t: Grid, cells: seq<Position>, markets: seq<Position>) returns (g: Grid)
    requires AllInBounds(cells) && BoardShape(t, cells, markets)
    ensures BoardShape(g, cells, markets)
    ensures forall lane :: 0 <= lane < 3 ==> HasLanePath(g, lane)
    ensures g == Repaired(Repaired(Repaired(t, 0), 1), 2)
  {
    var g1 := RepairLane(t, 0, cells, markets);
    var g2 := RepairLane(g1, 1, cells, markets);
    g := RepairLane(g2, 2, cells, markets);
  }

  /** One ensureLanePathExists call on a board that has the generated shape. */
  method RepairLane(g: Grid, lane: int, cells: seq<Position>, markets: seq<Position>) returns (r: Grid)
    requires 0 <= lane < 3 && AllInBounds(cells) && BoardShape(g, cells, markets)
    ensures BoardShape(r, cells, markets)
    ensures HasLanePath(r, lane)
    ensures forall l :: 0 <= l < 3 && l != lane && HasLanePath(g, l) ==> HasLanePath(r, l)
    ensures r == Repaired(g, lane)
  {
    RepairKeepsShape(g, lane, cells, markets);
    r := EnsureLanePathExists(g, lane);
  }
}

=== FILE: cell.dfy ===
/**
 * One board cell (world/Cell.java): a mutable cell type plus two independent
 * occupant slots, one for a hero and one for a monster, so that a hero and a
 * monster may share a cell. Occupants are references (party index for heroes,
 * a handle for monsters).
 */
module Cells {
  import opened Wrappers
  import opened CellTypes
  import opened JavaMath

  type HeroRef = nat
  type MonsterRef = nat

  datatype Cell = Cell(kind: CellType, hero: Option<HeroRef>, monster: Option<MonsterRef>)

  /** A fresh cell of the given type with both slots empty. */
  function NewCell(t: CellType): (c: Cell)
    ensures c.kind == t && !HasHero(c) && !HasMonster(c)
  {
    Cell(t, None, None)
  }

  predicate HasHero(c: Cell) { c.hero.Some? }
  predicate HasMonster(c: Cell) { c.monster.Some? }

  /** Changing the type never touches the occupants. */
  function SetType(c: Cell, t: CellType): (r: Cell)
    ensures r.kind == t && r.hero == c.hero && r.monster == c.monster
  {
    c.(kind := t)
  }

  /** Overwrites the hero slot without any check; the monster slot and type are kept. */
  function PlaceHero(c: Cell, h: HeroRef): (r: Cell)
    ensures r.hero == Some(h) && r.monster == c.monster && r.kind == c.kind
  {
    c.(hero := Some(h))
  }

  function RemoveHero(c: Cell): (r: Cell)
    ensures !HasHero(r) && r.monster == c.monster && r.kind == c.kind
  {
    c.(hero := None)
  }

  /** Overwrites the monster slot without any check; the hero slot and type are kept. */
  function PlaceMonster(c: Cell, m: MonsterRef): (r: Cell)
    ensures r.monster == Some(m) && r.hero == c.hero && r.kind == c.kind
  {
    c.(monster := Some(m))
  }

  function RemoveMonster(c: Cell): (r: Cell)
    ensures !HasMonster(r) && r.hero == c.hero && r.kind == c.kind
  {
    c.(monster := None)
  }

  /** The cell's own placement check: only walls refuse, obstacles do not. */
  predicate CanPlaceHero(c: Cell) { c.hero.None? && c.kind != Inaccessible }
  predicate CanPlaceMonster(c: Cell) { c.monster.None? && c.kind != Inaccessible }
  predicate CellIsWalkable(c: Cell) { c.kind != Inaccessible }

  /**
   * The cell-level checks are weaker than the map-level entry rule: an empty
   * obstacle cell accepts a hero and a monster and counts as walkable here.
   */
  lemma CellChecksIgnoreObstacles(c: Cell)
    requires c == NewCell(Obstacle)
    ensures CanPlaceHero(c) && CanPlaceMonster(c) && CellIsWalkable(c)
    ensures !Passable(c.kind)
  {
  }

  /** Placing over an occupied hero slot silently drops the previous hero. */
  lemma PlaceHeroOverwrites(c: Cell, h: HeroRef)
    requires HasHero(c) && c.hero.value != h
    ensures PlaceHero(c, h).hero != c.hero
    ensures RemoveHero(PlaceHero(c, h)) == RemoveHero(c)
  {
  }

  // ---------------------------------------------------------------- text

  function Spaces(n: nat): (s: string)
    ensures |s| == n && forall i :: 0 <= i < n ==> s[i] == ' '
  {
    if n == 0 then "" else " " + Spaces(n - 1)
  }

  /**
   * `s` centred in a field of width `w`: unchanged when it already fills the
   * field, otherwise floor((w-|s|)/2) spaces on the left and the rest right.
   */
  function PadCenter(s: string, w: int): (r: string)
    ensures |s| >= w ==> r == s
    ensures |s| < w ==> |r| == w
    ensures |s| < w ==> forall i :: 0 <= i < (w - |s|) / 2 ==> r[i] == ' '
    ensures |s| < w ==> r[(w - |s|) / 2 .. (w - |s|) / 2 + |s|] == s
    ensures |s| < w ==> forall i :: (w - |s|) / 2 + |s| <= i < w ==> r[i] == ' '
  {
    if |s| >= w then s
    else
      var total := w - |s|;
      var left := total / 2;
      Spaces(left) + s + Spaces(total - left)
  }

  /** `r` is `t` centred to width `w`: `t` at offset floor((w-|t|)/2), spaces around it. */
  predicate Centred(r: string, t: string, w: int)
  {
    |t| <= w && |r| == w
    && r[(w - |t|) / 2 .. (w - |t|) / 2 + |t|] == t
    && (forall i :: 0 <= i < (w - |t|) / 2 ==> r[i] == ' ')
    && (forall i :: (w - |t|) / 2 + |t| <= i < w ==> r[i] == ' ')
  }

  /** What padding gives: `t` centred when it fits the field, `t` itself when it is wider. */
  predicate Fitted(r: string, t: string, w: int)
  {
    if |t| <= w then Centred(r, t, w) else r == t
  }

  /** Padding to a width fits the text to it, whatever its length. */
  lemma PadCenterFitted(s: string, w: int)
    ensures Fitted(PadCenter(s, w), s, w)
  {
  }

  /** Text no wider than the field comes out centred in it. */
  lemma PadCenterCentred(s: string, w: int)
    requires |s| <= w
    ensures Centred(PadCenter(s, w), s, w)
  {
  }

  /** Padding never loses a character of the padded text. */
  lemma PadCenterKeeps(s: string, w: int, x: char)
    requires x in s
    ensures x in PadCenter(s, w)
  {
    if |s| < w {
      var left := (w - |s|) / 2;
      var i :| 0 <= i < |s| && s[i] == x;
      assert PadCenter(s, w)[left + i] == x;
    }
  }

  function DigitChar(d: int): char
    requires 0 <= d < 10
  {
    "0123456789"[d]
  }

  function DigitValue(c: char): int
  {
    if '0' <= c <= '9' then (c as int) - ('0' as int) else 0
  }

  predicate IsDigit(c: char) { '0' <= c <= '9' }

  /** Java's decimal rendering of a non-negative int. */
  function NatToString(n: nat): (s: string)
    ensures |s| >= 1
    ensures forall i :: 0 <= i < |s| ==> IsDigit(s[i])
    ensures n < 10 <==> |s| == 1
    ensures n < 100 ==> |s| <= 2
    decreases n
  {
    if n < 10 then [DigitChar(n)] else NatToString(n / 10) + [DigitChar(n % 10)]
  }

  /** Reads a string of decimal digits back. */
  function ParseNat(s: string): nat
  {
    if |s| == 0 then 0 else 10 * ParseNat(s[..|s| - 1]) + DigitValue(s[|s| - 1])
  }

  /** Decimal rendering is lossless. */
  lemma {:induction false} NatToStringRoundTrip(n: nat)
    ensures ParseNat(NatToString(n)) == n
    decreases n
  {
    if n >= 10 {
      var s := NatToString(n);
      assert s[..|s| - 1] == NatToString(n / 10);
      NatToStringRoundTrip(n / 10);
    }
  }

  /**
   * "H" or "M" followed by the level, shown as at least 1: after the prefix
   * come only decimal digits, and they read back as max(1, level).
   */
  function LevelTag(prefix: char, level: int): (s: string)
    ensures |s| >= 2 && s[0] == prefix
    ensures forall i :: 1 <= i < |s| ==> IsDigit(s[i])
    ensures ParseNat(s[1..]) == Max(1, level)
    ensures level < 100 ==> |s| <= 3
  {
    var digits := NatToString(Max(1, level));
    NatToStringRoundTrip(Max(1, level));
    assert ([prefix] + digits)[1..] == digits;
    [prefix] + digits
  }

  /** A lone occupant's tag centred to 6, or left as it is when it is wider. */
  function RenderLone(prefix: char, level: int): (r: string)
    ensures prefix in r && Fitted(r, LevelTag(prefix, level), 6)
    ensures level < 100 ==> |r| == 6 && Centred(r, LevelTag(prefix, level), 6)
  {
    var t := LevelTag(prefix, level);
    PadCenterKeeps(t, 6, prefix);
    PadCenterFitted(t, 6);
    PadCenter(t, 6)
  }

  /** Joining two halves around a slash keeps both halves readable at fixed offsets. */
  lemma SlashJoin(left: string, right: string)
    ensures var r := left + "/" + right;
      |r| == |left| + 1 + |right| && r[|left|] == '/' && r[..|left|] == left && r[|left| + 1..] == right
  {
    var r := left + "/" + right;
    assert r[..|left|] == left;
    assert r[|left| + 1..] == right;
  }

  /**
   * A shared cell: the hero tag centred to 3, a slash, the monster tag
   * centred to 3; a tag wider than 3 is kept whole and pushes the slash right.
   */
  function RenderShared(heroLevel: int, monsterLevel: int): (r: string)
    ensures var th := LevelTag('H', heroLevel); var tm := LevelTag('M', monsterLevel);
      var at := Max(3, |th|);
      |r| == at + 1 + Max(3, |tm|) && r[at] == '/'
      && Fitted(r[..at], th, 3) && Fitted(r[at + 1..], tm, 3)
    ensures heroLevel < 100 && monsterLevel < 100 ==>
      |r| == 7 && r[3] == '/' && 'H' in r[..3] && 'M' in r[4..]
      && Centred(r[..3], LevelTag('H', heroLevel), 3) && Centred(r[4..], LevelTag('M', monsterLevel), 3)
  {
    var th := LevelTag('H', heroLevel);
    var tm := LevelTag('M', monsterLevel);
    var left := PadCenter(th, 3);
    var right := PadCenter(tm, 3);
    PadCenterFitted(th, 3);
    PadCenterFitted(tm, 3);
    SlashJoin(left, right);
    if heroLevel < 100 && monsterLevel < 100 then
      PadCenterKeeps(th, 3, 'H');
      PadCenterKeeps(tm, 3, 'M');
      left + "/" + right
    else
      left + "/" + right
  }

  /**
   * Cell text: "H<lvl>/M<lvl>" with each tag centred to 3 when a hero and a
   * monster share the cell, a single tag centred to 6 for one occupant, the
   * type symbol centred to 6 when empty. A tag wider than its field is kept
   * whole, so the text is 6 wide (7 when shared) only while levels stay
   * below 100. The occupant levels are looked up by the caller.
   */
  function RenderShort(c: Cell, heroLevel: int, monsterLevel: int): (r: string)
    ensures !HasHero(c) && !HasMonster(c) ==> r == "  " + [Symbol(c.kind)] + "   "
    ensures HasHero(c) && !HasMonster(c) ==> Fitted(r, LevelTag('H', heroLevel), 6)
    ensures HasMonster(c) && !HasHero(c) ==> Fitted(r, LevelTag('M', monsterLevel), 6)
    ensures HasHero(c) && HasMonster(c) ==>
      var th := LevelTag('H', heroLevel); var tm := LevelTag('M', monsterLevel);
      var at := Max(3, |th|);
      |r| == at + 1 + Max(3, |tm|) && r[at] == '/'
      && Fitted(r[..at], th, 3) && Fitted(r[at + 1..], tm, 3)
    ensures HasHero(c) && !HasMonster(c) && heroLevel < 100 ==>
      |r| == 6 && 'H' in r && Centred(r, LevelTag('H', heroLevel), 6)
    ensures HasMonster(c) && !HasHero(c) && monsterLevel < 100 ==>
      |r| == 6 && 'M' in r && Centred(r, LevelTag('M', monsterLevel), 6)
    ensures HasHero(c) && HasMonster(c) && heroLevel < 100 && monsterLevel < 100 ==>
      |r| == 7 && r[3] == '/' && 'H' in r[..3] && 'M' in r[4..]
      && Centred(r[..3], LevelTag('H', heroLevel), 3) && Centred(r[4..], LevelTag('M', monsterLevel), 3)
  {
    if HasHero(c) && HasMonster(c) then RenderShared(heroLevel, monsterLevel)
    else if HasHero(c) then RenderLone('H', heroLevel)
    else if HasMonster(c) then RenderLone('M', monsterLevel)
    else PadCenter([Symbol(c.kind)], 6)
  }

  /**
   * The level shown in a lone occupant's cell reads back: the digits right
   * after the tag letter, up to the right padding, parse to max(1, level).
   */
  lemma RenderedLevelReadsBack(c: Cell, heroLevel: int)
    requires HasHero(c) && !HasMonster(c) && heroLevel < 100
    ensures var t := LevelTag('H', heroLevel); var r := RenderShort(c, heroLevel, 0);
      var at := (6 - |t|) / 2;
      r[at] == 'H' && ParseNat(r[at + 1 .. at + |t|]) == Max(1, heroLevel)
  {
    var t := LevelTag('H', heroLevel);
    var r := RenderShort(c, heroLevel, 0);
    var at := (6 - |t|) / 2;
    assert r[at .. at + |t|] == t;
    assert r[at + 1 .. at + |t|] == t[1..];
  }

  /** A level below 1 is displayed as level 1. */
  lemma DisplayedLevelAtLeastOne(c: Cell, heroLevel: int, monsterLevel: int)
    requires heroLevel < 1 && monsterLevel < 1
    ensures RenderShort(c, heroLevel, monsterLevel) == RenderShort(c, 1, 1)
  {
  }
}

=== FILE: cell_type.dfy ===
/** The eight kinds of board cell and their one-character map symbols. */
module CellTypes {

  datatype CellType = Nexus | Market | Inaccessible | Obstacle | Plain | Bush | Cave | Koulou

  /** Every declared variant, in declaration order. */
  const AllCellTypes: seq<CellType> := [Nexus, Market, Inaccessible, Obstacle, Plain, Bush, Cave, Koulou]

  /** The map symbol of a cell type; the source's '?' default is unreachable. */
  function Symbol(t: CellType): (r: char)
    ensures r != '?'
    ensures r in "NMXO.BCK"
  {
    match t
    case Nexus => 'N'
    case Market => 'M'
    case Inaccessible => 'X'
    case Obstacle => 'O'
    case Plain => '.'
    case Bush => 'B'
    case Cave => 'C'
    case Koulou => 'K'
  }

  /** Entry is refused on walls and on obstacles that have not been cleared. */
  predicate Passable(t: CellType)
  {
    t != Inaccessible && t != Obstacle
  }

  lemma AllCellTypesComplete(t: CellType)
    ensures t in AllCellTypes
    ensures |AllCellTypes| == 8
    ensures forall i, j :: 0 <= i < j < |AllCellTypes| ==> AllCellTypes[i] != AllCellTypes[j]
  {
  }

  /** Distinct cell types are drawn with distinct symbols. */
  lemma SymbolInjective(a: CellType, b: CellType)
    ensures Symbol(a) == Symbol(b) <==> a == b
  {
  }
}

=== FILE: character.dfy ===
/**
 * characters/Character.java, and the matching mana half of Hero.java: a
 * current value held against a maximum. Hit points and mana points obey
 * the same four rules (set with clamping, resize, subtract with a floor of
 * zero, add with a cap), so both are a `Gauge`.
 */
module Characters {
  import opened JavaMath

  datatype Gauge = Gauge(current: int, maximum: int)

  /** The constructor: current and maximum both start at the given value. */
  function Full(v: int): (g: Gauge)
    ensures g.current == v && g.maximum == v
  {
    Gauge(v, v)
  }

  /** setHp / setMp: the value clamped into [0, maximum]. */
  function Set(g: Gauge, v: int): (r: Gauge)
    ensures r.maximum == g.maximum && r.current >= 0
    ensures g.maximum >= 0 ==> r.current <= g.maximum
    ensures 0 <= v <= g.maximum ==> r.current == v
    ensures v > g.maximum ==> r.current == Max(0, g.maximum)
    ensures v < 0 ==> r.current == 0
  {
    g.(current := Max(0, Min(v, g.maximum)))
  }

  /** setMaxHp / setMaxMp: a new maximum, lowering the current value if it was above it. */
  function Resize(g: Gauge, m: int): (r: Gauge)
    ensures r.maximum == m && r.current <= m
    ensures g.current <= m ==> r.current == g.current
    ensures g.current > m ==> r.current == m
  {
    Gauge(Min(g.current, m), m)
  }

  /** takeDamage / useMana: subtract, never going below zero. */
  function Drain(g: Gauge, d: int): (r: Gauge)
    ensures r.maximum == g.maximum && r.current >= 0
    ensures g.current - d >= 0 ==> r.current == g.current - d
    ensures g.current - d < 0 ==> r.current == 0
  {
    g.(current := Max(0, g.current - d))
  }

  /** heal / restoreMana: add, never going above the maximum. */
  function Refill(g: Gauge, a: int): (r: Gauge)
    ensures r.maximum == g.maximum && r.current <= g.maximum
    ensures g.current + a <= g.maximum ==> r.current == g.current + a
    ensures g.current + a > g.maximum ==> r.current == g.maximum
  {
    g.(current := Min(g.maximum, g.current + a))
  }

  /** The bounds the clamping operations are meant to keep. */
  predicate InRange(g: Gauge)
  {
    0 <= g.current <= g.maximum
  }

  /** A non-negative amount drained moves the value down, never below 0, and keeps it in range. */
  lemma DrainBounds(g: Gauge, d: int)
    requires d >= 0 && g.current >= 0
    ensures 0 <= Drain(g, d).current <= g.current
    ensures InRange(g) ==> InRange(Drain(g, d))
  {
  }

  /** A non-negative amount refilled moves the value up, never above the maximum. */
  lemma RefillBounds(g: Gauge, a: int)
    requires a >= 0 && InRange(g)
    ensures g.current <= Refill(g, a).current <= g.maximum
    ensures InRange(Refill(g, a))
  {
  }

  /** Setting, resizing or refilling a gauge with a non-negative maximum keeps it in range. */
  lemma ClampingKeepsRange(g: Gauge, v: int, m: int, a: int)
    requires g.maximum >= 0 && m >= 0
    ensures InRange(Set(g, v))
    ensures g.current >= 0 ==> InRange(Resize(g, m))
    ensures InRange(g) && a >= 0 ==> InRange(Refill(g, a))
  {
  }

  /** Draining what was just refilled restores the gauge when nothing was capped. */
  lemma DrainUndoesRefill(g: Gauge, a: int)
    requires InRange(g) && a >= 0 && g.current + a <= g.maximum
    ensures Drain(Refill(g, a), a) == g
  {
  }

  /** isAlive: strictly positive. */
  predicate IsAlive(g: Gauge)
  {
    g.current > 0
  }

  /** isFainted: zero or below. */
  predicate IsFainted(g: Gauge)
  {
    g.current <= 0
  }

  /** isFainted is exactly the negation of isAlive. */
  lemma FaintedIsNotAlive(g: Gauge)
    ensures IsFainted(g) <==> !IsAlive(g)
  {
  }

  /** Full-strength damage faints: draining at least the current value leaves exactly 0. */
  lemma DrainToFaint(g: Gauge, d: int)
    requires d >= g.current
    ensures Drain(g, d).current == 0 && IsFainted(Drain(g, d))
  {
  }
}

=== FILE: combat_math.dfy ===
/**
 * The damage and debuff rules shared, line for line, by
 * valor/combat/CombatResolver.java, battle/Battle.java and
 * game/MonsterController.java.
 */
module CombatMath {
  import opened JavaMath
  import opened GameConstants
  import opened Items
  import opened Characters
  import opened Heroes
  import opened Monsters

  /** A tenth of the monster's effective defense, truncated. */
  function ScaledDefense(m: Monster): (r: int)
    ensures EffectiveDefense(m) >= 0 ==> r == EffectiveDefense(m) / 10
  {
    var r := JavaInt(EffectiveDefense(m) as real * MonsterDefenseScale);
    if EffectiveDefense(m) >= 0 then TruncatedScale(EffectiveDefense(m), 1, 10, MonsterDefenseScale); r else r
  }

  /** A hero's weapon hit: the hero's damage less the scaled defense, but always at least 1. */
  function HeroHitDamage(h: Hero, m: Monster): (d: int)
    ensures d >= 1
    ensures CalculateDamage(h) - ScaledDefense(m) >= 1 ==> d == CalculateDamage(h) - ScaledDefense(m)
    ensures CalculateDamage(h) - ScaledDefense(m) < 1 ==> d == 1
  {
    Max(1, CalculateDamage(h) - ScaledDefense(m))
  }

  /** A spell hit: the spell damage less the scaled defense, but always at least 1. */
  function SpellHitDamage(h: Hero, s: Spell, m: Monster): (d: int)
    ensures d >= 1
    ensures CalculateSpellDamage(h, s) - ScaledDefense(m) >= 1 ==> d == CalculateSpellDamage(h, s) - ScaledDefense(m)
    ensures CalculateSpellDamage(h, s) - ScaledDefense(m) < 1 ==> d == 1
  {
    Max(1, CalculateSpellDamage(h, s) - ScaledDefense(m))
  }

  /** 8% of the monster's effective damage, truncated. */
  function ScaledMonsterDamage(m: Monster): (r: int)
    ensures EffectiveDamage(m) >= 0 ==> r == EffectiveDamage(m) * 2 / 25
  {
    var r := JavaInt(EffectiveDamage(m) as real * MonsterAttackScale);
    if EffectiveDamage(m) >= 0 then TruncatedScale(EffectiveDamage(m), 2, 25, MonsterAttackScale); r else r
  }

  /** A monster hit: the scaled damage less the hero's armor, never negative. */
  function MonsterHitDamage(m: Monster, h: Hero): (d: int)
    ensures d >= 0
    ensures ScaledMonsterDamage(m) - GetDefense(h) >= 0 ==> d == ScaledMonsterDamage(m) - GetDefense(h)
    ensures ScaledMonsterDamage(m) <= GetDefense(h) ==> d == 0
  {
    Max(0, ScaledMonsterDamage(m) - GetDefense(h))
  }

  /** Worked example of HeroHitDamage: strength 50, no weapon, effective defense 20 gives a hit of 3. */
  lemma HeroHitExample(h: Hero, m: Monster)
    requires h.strength == 50 && h.weapon.None? && EffectiveDefense(m) == 20
    ensures HeroHitDamage(h, m) == 3
  {
  }

  /**
   * The debuff increment of one successful spell. It is not a named game
   * constant: both spell resolvers write the literal 0.1 at each call.
   */
  const SpellDebuff: real := 0.1

  /**
   * applySpellEffect: one 0.1 debuff, on the accumulator the spell type
   * names (ice: damage, fire: defense, lightning: dodge); nothing else changes.
   */
  function ApplySpellEffect(t: SpellType, m: Monster): (r: Monster)
    ensures t == Ice ==> r == m.(damageReduction := MinReal(1.0, m.damageReduction + SpellDebuff))
    ensures t == Fire ==> r == m.(defenseReduction := MinReal(1.0, m.defenseReduction + SpellDebuff))
    ensures t == Lightning ==> r == m.(dodgeReduction := MinReal(m.dodgeChance, m.dodgeReduction + SpellDebuff))
  {
    match t
    case Ice => ApplyIceDebuff(m, SpellDebuff)
    case Fire => ApplyFireDebuff(m, SpellDebuff)
    case Lightning => ApplyLightningDebuff(m, SpellDebuff)
  }

  /** A spell effect never touches HP or base stats and keeps the accumulators in range. */
  lemma SpellEffectKeepsRange(t: SpellType, m: Monster)
    requires DebuffsInRange(m)
    ensures DebuffsInRange(ApplySpellEffect(t, m))
    ensures ApplySpellEffect(t, m).hp == m.hp && ApplySpellEffect(t, m).baseDamage == m.baseDamage
    ensures ApplySpellEffect(t, m).defense == m.defense && ApplySpellEffect(t, m).dodgeChance == m.dodgeChance
  {
    DebuffsStayInRange(m, SpellDebuff);
  }

  /** takeDamage on a monster: only its HP changes. */
  function DamageMonster(m: Monster, d: int): Monster
  {
    m.(hp := Drain(m.hp, d))
  }

  /** takeDamage on a hero: only its HP changes. */
  function DamageHero(h: Hero, d: int): Hero
  {
    h.(hp := Drain(h.hp, d))
  }
}

=== FILE: combat_resolver.dfy ===
/**
 * valor/combat/CombatResolver.java: one hero attack, one spell cast or one
 * monster attack, each returning the changed units and an ActionResult.
 * `roll` is the `nextDouble()` drawn from the context's generator; the
 * attack is dodged when it is below the defender's dodge chance.
 */
module CombatResolver {
  import opened Wrappers
  import opened JavaMath
  import opened Items
  import opened Inventories
  import opened Characters
  import opened Heroes
  import opened Monsters
  import opened CombatMath
  import opened Actions
  import opened TurnContexts

  /**
   * heroAttack: fails, changing nothing, on a missing argument or a dead
   * side; a dodge succeeds with no damage; a hit deals HeroHitDamage and
   * reports whether the target fainted.
   */
  function HeroAttack(hero: Option<Hero>, target: Option<Monster>, ctx: Option<TurnContext>, roll: real): (r: (Option<Monster>, ActionResult))
    ensures r.1.success <==> (hero.Some? && target.Some? && ctx.Some?
      && Heroes.IsAlive(hero.value) && Monsters.IsAlive(target.value))
    ensures !r.1.success ==> r.0 == target && r.1 == Outcome(false)
    ensures r.1.success && roll < EffectiveDodgeChance(target.value) ==> r.0 == target && r.1 == Outcome(true)
    ensures r.1.success && roll >= EffectiveDodgeChance(target.value) ==>
      (var d := HeroHitDamage(hero.value, target.value);
       r.0.Some? && r.0.value == target.value.(hp := r.0.value.hp)
       && r.0.value.hp.current == Max(0, target.value.hp.current - d)
       && r.1.damageDealt == d && d >= 1
       && r.1.targetDefeated == Monsters.IsFainted(r.0.value))
  {
    if hero.None? || target.None? || ctx.None? then (target, Outcome(false))
    else if !Heroes.IsAlive(hero.value) || !Monsters.IsAlive(target.value) then (target, Outcome(false))
    else if roll < EffectiveDodgeChance(target.value) then (target, Outcome(true))
    else
      var d := HeroHitDamage(hero.value, target.value);
      var m := DamageMonster(target.value, d);
      (Some(m), WithDamage(true, d, Monsters.IsFainted(m)))
  }

  /** The units a spell cast can change, and its result. */
  datatype SpellCast = SpellCast(hero: Option<Hero>, spell: Option<Spell>, target: Option<Monster>, result: ActionResult)

  /**
   * heroCastSpell: fails, changing nothing, on a missing argument, a dead
   * side or too little mana. Otherwise the mana is spent and the spell uses
   * one of its uses whether or not the target dodges; a hit deals
   * SpellHitDamage and applies the spell type's debuff. The spell object is
   * the one the hero's inventory refers to, so the inventory shows the use.
   */
  function HeroCastSpell(hero: Option<Hero>, spell: Option<Spell>, target: Option<Monster>,
                         ctx: Option<TurnContext>, roll: real): (r: SpellCast)
    ensures r.result.success <==> (hero.Some? && spell.Some? && target.Some? && ctx.Some?
      && Heroes.IsAlive(hero.value) && Monsters.IsAlive(target.value)
      && HasMana(hero.value, spell.value.kind.manaCost))
    ensures !r.result.success ==> r == SpellCast(hero, spell, target, Outcome(false))
    ensures r.result.success ==> (r.spell == Some(UseOnce(spell.value))
      && r.hero == Some(UseMana(hero.value, spell.value.kind.manaCost).(inventory := Refresh(hero.value.inventory, UseOnce(spell.value)))))
    ensures r.result.success && roll < EffectiveDodgeChance(target.value) ==>
      r.target == target && r.result == Outcome(true)
    ensures r.result.success && roll >= EffectiveDodgeChance(target.value) ==>
      (var d := SpellHitDamage(hero.value, spell.value, target.value);
       r.target.Some? && d >= 1 && r.result.damageDealt == d
       && r.target.value == ApplySpellEffect(spell.value.kind.spellType, target.value).(hp := r.target.value.hp)
       && r.target.value.hp.current == Max(0, target.value.hp.current - d)
       && r.result.targetDefeated == Monsters.IsFainted(r.target.value))
  {
    if hero.None? || spell.None? || target.None? || ctx.None? then SpellCast(hero, spell, target, Outcome(false))
    else if !Heroes.IsAlive(hero.value) || !Monsters.IsAlive(target.value) then SpellCast(hero, spell, target, Outcome(false))
    else if !HasMana(hero.value, spell.value.kind.manaCost) then SpellCast(hero, spell, target, Outcome(false))
    else
      var s := spell.value;
      var used := UseOnce(s);
      var caster := UseMana(hero.value, s.kind.manaCost);
      var caster' := caster.(inventory := Refresh(caster.inventory, used));
      if roll < EffectiveDodgeChance(target.value) then SpellCast(Some(caster'), Some(used), target, Outcome(true))
      else
        var d := SpellHitDamage(caster, s, target.value);
        var m := ApplySpellEffect(s.kind.spellType, DamageMonster(target.value, d));
        SpellCast(Some(caster'), Some(used), Some(m), WithDamage(true, d, Monsters.IsFainted(m)))
  }

  /** Nothing checks the spell's remaining uses: a used-up spell still casts, and stays used up. */
  lemma ExhaustedSpellStillCasts(hero: Hero, spell: Spell, target: Monster, ctx: TurnContext, roll: real)
    requires spell.remainingUses == 0
    requires Heroes.IsAlive(hero) && Monsters.IsAlive(target) && HasMana(hero, spell.kind.manaCost)
    ensures HeroCastSpell(Some(hero), Some(spell), Some(target), Some(ctx), roll).result.success
    ensures HeroCastSpell(Some(hero), Some(spell), Some(target), Some(ctx), roll).spell == Some(spell)
  {
  }

  /**
   * monsterAttack: fails, changing nothing, on a missing argument or a dead
   * side; a dodge (against the hero's agility-based chance) succeeds with
   * no damage; a hit deals MonsterHitDamage, possibly 0.
   */
  function MonsterAttack(monster: Option<Monster>, target: Option<Hero>, ctx: Option<TurnContext>, roll: real): (r: (Option<Hero>, ActionResult))
    ensures r.1.success <==> (monster.Some? && target.Some? && ctx.Some?
      && Monsters.IsAlive(monster.value) && Heroes.IsAlive(target.value))
    ensures !r.1.success ==> r.0 == target && r.1 == Outcome(false)
    ensures r.1.success && roll < DodgeChance(target.value) ==> r.0 == target && r.1 == Outcome(true)
    ensures r.1.success && roll >= DodgeChance(target.value) ==>
      (var d := MonsterHitDamage(monster.value, target.value);
       r.0.Some? && r.0.value == target.value.(hp := r.0.value.hp)
       && r.0.value.hp.current == Max(0, target.value.hp.current - d)
       && r.1.damageDealt == d && d >= 0
       && r.1.targetDefeated == Heroes.IsFainted(r.0.value))
  {
    if monster.None? || target.None? || ctx.None? then (target, Outcome(false))
    else if !Monsters.IsAlive(monster.value) || !Heroes.IsAlive(target.value) then (target, Outcome(false))
    else if roll < DodgeChance(target.value) then (target, Outcome(true))
    else
      var d := MonsterHitDamage(monster.value, target.value);
      var h := DamageHero(target.value, d);
      (Some(h), WithDamage(true, d, Heroes.IsFainted(h)))
  }
}

=== FILE: entity_tracker.dfy ===
/**
 * Display ids and recorded lanes (world/EntityTracker.java, and the same
 * three maps kept privately by world/ValorWorldMap.java). A new entity gets
 * id "current map size + 1"; removal forgets the id but not the lane.
 */
module EntityTracking {
  import opened Wrappers
  import opened Cells

  datatype Tracker = Tracker(heroIds: map<HeroRef, nat>, monsterIds: map<MonsterRef, nat>, heroLane: map<HeroRef, int>)

  const EmptyTracker := Tracker(map[], map[], map[])

  /** The next id a map hands out: its size plus one. */
  function NextId<K>(m: map<K, nat>): nat
  {
    |m| + 1
  }

  /** Returns the hero's id, assigning size+1 on the first call. */
  function GetOrAssignHeroId(t: Tracker, h: HeroRef): (r: (Tracker, nat))
    ensures h in t.heroIds ==> r.0 == t && r.1 == t.heroIds[h]
    ensures h !in t.heroIds ==> r.1 == |t.heroIds| + 1 && r.0 == t.(heroIds := t.heroIds[h := r.1])
    ensures h in r.0.heroIds && r.0.heroIds[h] == r.1
    ensures r.0.monsterIds == t.monsterIds && r.0.heroLane == t.heroLane
  {
    if h in t.heroIds then (t, t.heroIds[h])
    else
      var id := NextId(t.heroIds);
      (t.(heroIds := t.heroIds[h := id]), id)
  }

  /** Returns the monster's id, assigning size+1 on the first call. */
  function GetOrAssignMonsterId(t: Tracker, m: MonsterRef): (r: (Tracker, nat))
    ensures m in t.monsterIds ==> r.0 == t && r.1 == t.monsterIds[m]
    ensures m !in t.monsterIds ==> r.1 == |t.monsterIds| + 1 && r.0 == t.(monsterIds := t.monsterIds[m := r.1])
    ensures m in r.0.monsterIds && r.0.monsterIds[m] == r.1
    ensures r.0.heroIds == t.heroIds && r.0.heroLane == t.heroLane
  {
    if m in t.monsterIds then (t, t.monsterIds[m])
    else
      var id := NextId(t.monsterIds);
      (t.(monsterIds := t.monsterIds[m := id]), id)
  }

  function GetHeroId(t: Tracker, h: HeroRef): (r: Option<nat>)
    ensures r.Some? <==> h in t.heroIds
    ensures r.Some? ==> r.value == t.heroIds[h]
  {
    if h in t.heroIds then Some(t.heroIds[h]) else None
  }

  function GetMonsterId(t: Tracker, m: MonsterRef): (r: Option<nat>)
    ensures r.Some? <==> m in t.monsterIds
    ensures r.Some? ==> r.value == t.monsterIds[m]
  {
    if m in t.monsterIds then Some(t.monsterIds[m]) else None
  }

  /** Forgets a hero's id; its recorded lane stays. */
  function RemoveHeroId(t: Tracker, h: HeroRef): (r: Tracker)
    ensures h !in r.heroIds
    ensures forall k :: k != h ==> (k in r.heroIds <==> k in t.heroIds) && (k in r.heroIds ==> r.heroIds[k] == t.heroIds[k])
    ensures r.heroLane == t.heroLane && r.monsterIds == t.monsterIds
  {
    t.(heroIds := t.heroIds - {h})
  }

  function RemoveMonsterId(t: Tracker, m: MonsterRef): (r: Tracker)
    ensures m !in r.monsterIds
    ensures forall k :: k != m ==> (k in r.monsterIds <==> k in t.monsterIds) && (k in r.monsterIds ==> r.monsterIds[k] == t.monsterIds[k])
    ensures r.heroLane == t.heroLane && r.heroIds == t.heroIds
  {
    t.(monsterIds := t.monsterIds - {m})
  }

  /** Records (or overwrites) a hero's lane. */
  function SetHeroLane(t: Tracker, h: HeroRef, lane: int): (r: Tracker)
    ensures GetHeroLane(r, h) == lane && HasHeroLane(r, h)
    ensures forall k :: k != h ==> GetHeroLane(r, k) == GetHeroLane(t, k) && (HasHeroLane(r, k) <==> HasHeroLane(t, k))
    ensures r.heroIds == t.heroIds && r.monsterIds == t.monsterIds
  {
    t.(heroLane := t.heroLane[h := lane])
  }

  /** The recorded lane, or -1 when none is recorded. */
  function GetHeroLane(t: Tracker, h: HeroRef): (lane: int)
    ensures h !in t.heroLane ==> lane == -1
    ensures h in t.heroLane ==> lane == t.heroLane[h]
  {
    if h in t.heroLane then t.heroLane[h] else -1
  }

  predicate HasHeroLane(t: Tracker, h: HeroRef) { h in t.heroLane }

  /** While only real lanes are recorded, -1 means exactly "no lane recorded". */
  lemma GetHeroLaneMinusOne(t: Tracker, h: HeroRef)
    requires forall k :: k in t.heroLane ==> 0 <= t.heroLane[k] < 3
    ensures GetHeroLane(t, h) == -1 <==> !HasHeroLane(t, h)
  {
  }

  /** Asking twice gives the same id and changes nothing the second time. */
  lemma AssignHeroIdIdempotent(t: Tracker, h: HeroRef)
    ensures var (t1, id1) := GetOrAssignHeroId(t, h);
      GetOrAssignHeroId(t1, h) == (t1, id1)
  {
  }

  lemma AssignMonsterIdIdempotent(t: Tracker, m: MonsterRef)
    ensures var (t1, id1) := GetOrAssignMonsterId(t, m);
      GetOrAssignMonsterId(t1, m) == (t1, id1)
  {
  }

  /** Ids are 1..|m| and pairwise different: what holds while nothing is removed. */
  ghost predicate DenseIds<K>(m: map<K, nat>)
  {
    (forall k :: k in m ==> 1 <= m[k] <= |m|)
    && (forall a, b :: a in m && b in m && a != b ==> m[a] != m[b])
  }

  /** Without removals, assigning keeps ids dense, so no two heroes share an id. */
  lemma AssignKeepsHeroIdsDense(t: Tracker, h: HeroRef)
    requires DenseIds(t.heroIds)
    ensures DenseIds(GetOrAssignHeroId(t, h).0.heroIds)
  {
    if h !in t.heroIds {
      var m := t.heroIds[h := |t.heroIds| + 1];
      assert |m| == |t.heroIds| + 1 by {
        assert m.Keys == t.heroIds.Keys + {h};
      }
    }
  }

  lemma AssignKeepsMonsterIdsDense(t: Tracker, m: MonsterRef)
    requires DenseIds(t.monsterIds)
    ensures DenseIds(GetOrAssignMonsterId(t, m).0.monsterIds)
  {
    if m !in t.monsterIds {
      var n := t.monsterIds[m := |t.monsterIds| + 1];
      assert |n| == |t.monsterIds| + 1 by {
        assert n.Keys == t.monsterIds.Keys + {m};
      }
    }
  }

  /**
   * After a removal the size+1 rule can hand out a live id again: heroes 0
   * and 1 get ids 1 and 2, hero 0 is removed, and hero 2 then gets id 2.
   */
  lemma HeroIdReusedAfterRemoval()
    ensures var (t1, _) := GetOrAssignHeroId(EmptyTracker, 0);
      var (t2, id1) := GetOrAssignHeroId(t1, 1);
      var t3 := RemoveHeroId(t2, 0);
      var (_, id2) := GetOrAssignHeroId(t3, 2);
      id1 == 2 && id2 == 2
  {
    var (t1, a) := GetOrAssignHeroId(EmptyTracker, 0);
    assert t1.heroIds == map[0 := 1];
    var (t2, id1) := GetOrAssignHeroId(t1, 1);
    assert |t2.heroIds| == 2 by { assert t2.heroIds.Keys == {0, 1}; }
    var t3 := RemoveHeroId(t2, 0);
    assert |t3.heroIds| == 1 by { assert t3.heroIds.Keys == {1}; }
  }

  /** Removing a hero's id leaves the recorded lane in place. */
  lemma RemoveKeepsLane(t: Tracker, h: HeroRef)
    ensures GetHeroLane(RemoveHeroId(t, h), h) == GetHeroLane(t, h)
    ensures GetHeroId(RemoveHeroId(t, h), h) == None
  {
  }
}

=== FILE: game_constants.dfy ===
/**
 * The balance constants of the game (utils/GameConstants.java), with every
 * `double` written as an exact rational.
 */
module GameConstants {

  // World configuration
  const WorldSize: int := 8

  // Hero configuration
  const StartingHeroLevel: int := 1
  const HeroHpMultiplier: real := 100.0
  const HeroManaMultiplier: real := 1.0
  const LevelUpStatIncrease: real := 0.05
  const FavoredStatBonus: real := 0.05

  // Monster configuration
  const MonsterHpMultiplier: real := 150.0
  const DragonDamageBoost: real := 0.10
  const ExoskeletonDefenseBoost: real := 0.10
  const SpiritDodgeBoost: real := 0.10

  // Damage scaling
  const HeroAttackScale: real := 0.1
  const HeroSpellScale: real := 0.15
  const MonsterAttackScale: real := 0.08
  const MonsterDefenseScale: real := 0.1
  const HpRegenRate: real := 0.1
  const MpRegenRate: real := 0.1
  const FaintedHeroRevivalHp: real := 0.5
  const FaintedHeroRevivalMp: real := 0.5

  // Experience and rewards
  const BaseXpForLevelUp: int := 10
  const VictoryXpBase: int := 2
  const VictoryGoldBase: int := 100

  // Market
  const SellPriceMultiplier: real := 0.5

  // Terrain bonuses
  const BushDexBonus: int := 2
  const CaveAgiBonus: int := 2
  const KoulouStrBonus: int := 2
}

=== FILE: game_context.dfy ===
/**
 * game/GameContext.java: the state the controllers share. Java keeps the
 * live monster objects reachable from the board cells; here a `Roster`
 * maps each monster reference on the board to its record, and hands out
 * fresh references for new monsters.
 */
module GameContexts {
  import opened Geometry
  import opened Cells
  import opened Grids
  import opened EntityTracking
  import opened ValorWorld
  import opened Heroes
  import opened Monsters
  import opened MonsterFactories

  /** The monster records and the next unused reference. */
  datatype Roster = Roster(records: map<MonsterRef, Monster>, next: nat)

  const EmptyRoster: Roster := Roster(map[], 0)

  /** Every reference handed out is below `next`. */
  predicate RosterFresh(r: Roster)
  {
    forall k | k in r.records :: k < r.next
  }

  /** A new monster object: recorded under the next reference, which is then used up. */
  function Enlist(r: Roster, m: Monster): (res: (Roster, MonsterRef))
    ensures res.1 == r.next && res.0.next == r.next + 1
    ensures res.0.records == r.records[res.1 := m]
    ensures RosterFresh(r) ==> RosterFresh(res.0) && res.1 !in r.records
  {
    (Roster(r.records[r.next := m], r.next + 1), r.next)
  }

  /** Every monster standing on the board has a record. */
  ghost predicate MonstersKnown(g: Grid, r: Roster)
  {
    forall q :: InBounds(q) && At(g, q).monster.Some? ==> At(g, q).monster.value in r.records
  }

  /**
   * The party is indexed by hero reference: `party[h]` is the hero whose
   * reference is `h` on the board.
   */
  datatype GameState = GameState(world: Board, party: seq<Hero>, roster: Roster, pools: Pools,
                                 gameRunning: bool, currentHeroIndex: int,
                                 roundCounter: int, spawnInterval: int)

  /** The field initialisers: hero 0 first, round 0, a wave every 4 rounds. */
  function NewGameContext(world: Board, party: seq<Hero>, pools: Pools): (gs: GameState)
    ensures gs.currentHeroIndex == 0 && gs.roundCounter == 0 && gs.spawnInterval == 4
    ensures gs.world == world && gs.party == party && gs.pools == pools && gs.roster == EmptyRoster
    ensures !gs.gameRunning
  {
    GameState(world, party, EmptyRoster, pools, false, 0, 0, 4)
  }

  /** The state every controller keeps: records for the board's monsters, fresh references, valid lanes. */
  ghost predicate Valid(gs: GameState)
  {
    MonstersKnown(gs.world.grid, gs.roster) && RosterFresh(gs.roster) && LaneRecordsValid(gs.world.ids)
  }

  /** A new context over a board without monsters is valid. */
  lemma NewGameContextValid(world: Board, party: seq<Hero>, pools: Pools)
    requires forall q :: InBounds(q) ==> !HasMonster(At(world.grid, q))
    requires LaneRecordsValid(world.ids)
    ensures Valid(NewGameContext(world, party, pools))
  {
  }
}

=== FILE: geometry.dfy ===
/**
 * Board geometry shared by every map: positions on the fixed 8x8 grid, the
 * three lanes {0,1}, {3,4}, {6,7} separated by wall columns 2 and 5, and the
 * distance and neighbour notions the three rule sets use.
 */
module Geometry {
  import opened JavaMath

  /** A (row, column) pair; rows grow downward, toward the heroes' nexus. */
  datatype Position = Position(row: int, col: int) {
    function MoveUp(): Position { Position(row - 1, col) }
    function MoveDown(): Position { Position(row + 1, col) }
    function MoveLeft(): Position { Position(row, col - 1) }
    function MoveRight(): Position { Position(row, col + 1) }
  }

  const Size: int := 8
  const CellCount: int := 64

  /** Columns of lanes 0, 1 and 2. */
  const Lanes: seq<seq<int>> := [[0, 1], [3, 4], [6, 7]]
  const WallColumns: seq<int> := [2, 5]

  predicate InBounds(p: Position)
  {
    0 <= p.row < Size && 0 <= p.col < Size
  }

  /** Row-major index of a position in a flat 64-cell grid. */
  function Idx(p: Position): (i: int)
    requires InBounds(p)
    ensures 0 <= i < CellCount
  {
    p.row * Size + p.col
  }

  /** Inverse of `Idx`. */
  function PosOf(i: int): (p: Position)
    requires 0 <= i < CellCount
    ensures InBounds(p) && Idx(p) == i
  {
    Position(i / Size, i % Size)
  }

  lemma IdxInjective(p: Position, q: Position)
    requires InBounds(p) && InBounds(q)
    ensures Idx(p) == Idx(q) <==> p == q
    ensures PosOf(Idx(p)) == p
  {
  }

  /** Scans lanes from `i` on; the source's nested loop over `lanes`. */
  function LaneScan(col: int, i: int): (r: int)
    requires 0 <= i <= 3
    ensures r == -1 || i <= r < 3
    ensures r != -1 ==> col in Lanes[r] && forall j :: i <= j < r ==> col !in Lanes[j]
    ensures r == -1 ==> forall j :: i <= j < 3 ==> col !in Lanes[j]
    decreases 3 - i
  {
    if i == 3 then -1
    else if Lanes[i][0] == col || Lanes[i][1] == col then i
    else LaneScan(col, i + 1)
  }

  /** Lane index of a column, or -1 for wall and off-board columns. */
  function LaneForColumn(col: int): (r: int)
    ensures -1 <= r < 3
    ensures r != -1 ==> col in Lanes[r]
    ensures r == -1 <==> forall j :: 0 <= j < 3 ==> col !in Lanes[j]
  {
    LaneScan(col, 0)
  }

  /** Lane index of a position; -1 when off the board or on a wall. */
  function LaneOfPosition(p: Position): int
  {
    if !InBounds(p) then -1 else LaneForColumn(p.col)
  }

  /** The columns of a lane; empty outside 0..2. */
  function LaneColumns(lane: int): (cols: seq<int>)
    ensures 0 <= lane < 3 ==> cols == Lanes[lane]
    ensures !(0 <= lane < 3) ==> cols == []
  {
    if lane < 0 || lane >= |Lanes| then [] else Lanes[lane]
  }

  function Manhattan(a: Position, b: Position): int
  {
    Abs(a.row - b.row) + Abs(a.col - b.col)
  }

  function Chebyshev(a: Position, b: Position): int
  {
    Max(Abs(a.row - b.row), Abs(a.col - b.col))
  }

  /**
   * Orthogonal neighbours in the order up, down, left, right, keeping only
   * those on the board; the origin itself is not checked.
   */
  function Neighbors(p: Position): (ns: seq<Position>)
    ensures |ns| <= 4
    ensures forall i :: 0 <= i < |ns| ==> InBounds(ns[i]) && Manhattan(p, ns[i]) == 1
    ensures forall q :: InBounds(q) && Manhattan(p, q) == 1 ==> q in ns
  {
    var up := p.MoveUp();
    var down := p.MoveDown();
    var left := p.MoveLeft();
    var right := p.MoveRight();
    (if InBounds(up) then [up] else [])
      + (if InBounds(down) then [down] else [])
      + (if InBounds(left) then [left] else [])
      + (if InBounds(right) then [right] else [])
  }

  /** Neighbours of an on-board position; empty for an off-board one. */
  function CheckedNeighbors(p: Position): (ns: seq<Position>)
    ensures !InBounds(p) ==> ns == []
    ensures InBounds(p) ==> ns == Neighbors(p)
  {
    if !InBounds(p) then [] else Neighbors(p)
  }

  /** The lane layout: every column is in at most one lane and walls are in none. */
  lemma LanesPartitionColumns(col: int)
    ensures LaneForColumn(col) == -1 <==> !(0 <= col <= 1 || 3 <= col <= 4 || 6 <= col <= 7)
    ensures col == 2 || col == 5 ==> LaneForColumn(col) == -1
    ensures forall i, j :: 0 <= i < j < 3 ==> !(col in Lanes[i] && col in Lanes[j])
  {
  }
}

=== FILE: grid.dfy ===
/**
 * The 8x8 board as a flat row-major sequence of cells, with point reads and
 * writes and the row-major first-match scans the maps use to locate
 * occupants.
 */
module Grids {
  import opened Wrappers
  import opened CellTypes
  import opened Cells
  import opened Geometry

  type Grid = g: seq<Cell> | |g| == 64 witness seq(64, _ => NewCell(Plain))

  function At(g: Grid, p: Position): Cell
    requires InBounds(p)
  {
    g[Idx(p)]
  }

  function KindAt(g: Grid, p: Position): CellType
    requires InBounds(p)
  {
    At(g, p).kind
  }

  /** Replaces one cell; every other cell is unchanged. */
  function Put(g: Grid, p: Position, c: Cell): (r: Grid)
    requires InBounds(p)
    ensures At(r, p) == c
    ensures forall q :: InBounds(q) && q != p ==> At(r, q) == At(g, q)
  {
    IdxInjective(p, p);
    assert forall q :: InBounds(q) && q != p ==> Idx(q) != Idx(p) by {
      forall q | InBounds(q) && q != p { IdxInjective(p, q); }
    }
    g[Idx(p) := c]
  }

  /** Changes the type of one cell, keeping its occupants. */
  function SetKind(g: Grid, p: Position, t: CellType): (r: Grid)
    requires InBounds(p)
    ensures KindAt(r, p) == t && At(r, p).hero == At(g, p).hero && At(r, p).monster == At(g, p).monster
    ensures forall q :: InBounds(q) && q != p ==> At(r, q) == At(g, q)
  {
    Put(g, p, SetType(At(g, p), t))
  }

  /** Every cell satisfying `f` has row-major index at least `from`. */
  ghost predicate NoneBefore(g: Grid, f: Cell -> bool, from: int)
  {
    forall j :: 0 <= j < from && j < 64 ==> !f(g[j])
  }

  /** Row-major scan from index `i` for the first cell satisfying `f`. */
  function FindFrom(g: Grid, f: Cell -> bool, i: nat): (r: Option<Position>)
    requires i <= 64
    ensures r.Some? ==> InBounds(r.value) && i <= Idx(r.value) && f(At(g, r.value))
    ensures r.Some? ==> forall j :: i <= j < Idx(r.value) ==> !f(g[j])
    ensures r.None? <==> forall j :: i <= j < 64 ==> !f(g[j])
    decreases 64 - i
  {
    if i == 64 then None
    else if f(g[i]) then Some(PosOf(i))
    else FindFrom(g, f, i + 1)
  }

  /** The first cell in row-major order satisfying `f`, or None. */
  function FindFirst(g: Grid, f: Cell -> bool): (r: Option<Position>)
    ensures r.Some? ==> InBounds(r.value) && f(At(g, r.value))
    ensures r.Some? ==> forall q :: InBounds(q) && Idx(q) < Idx(r.value) ==> !f(At(g, q))
    ensures r.None? <==> forall q :: InBounds(q) ==> !f(At(g, q))
  {
    var r := FindFrom(g, f, 0);
    assert r.None? <== (forall q :: InBounds(q) ==> !f(At(g, q))) by {
      if forall q :: InBounds(q) ==> !f(At(g, q)) {
        forall j | 0 <= j < 64 ensures !f(g[j]) { assert !f(At(g, PosOf(j))); }
      }
    }
    r
  }

  /** Where hero `h` stands: the first row-major cell holding it. */
  function HeroPosition(g: Grid, h: HeroRef): (r: Option<Position>)
    ensures r.Some? ==> InBounds(r.value) && At(g, r.value).hero == Some(h)
    ensures r.Some? ==> forall q :: InBounds(q) && Idx(q) < Idx(r.value) ==> At(g, q).hero != Some(h)
    ensures r.None? <==> forall q :: InBounds(q) ==> At(g, q).hero != Some(h)
  {
    FindFirst(g, (c: Cell) => c.hero == Some(h))
  }

  /** Where a hero stands depends only on the hero slots: grids that agree on them locate every hero alike. */
  lemma HeroPositionFromHeroSlots(g: Grid, g': Grid, h: HeroRef)
    requires forall q :: InBounds(q) ==> At(g', q).hero == At(g, q).hero
    ensures HeroPosition(g', h) == HeroPosition(g, h)
  {
    var a, b := HeroPosition(g, h), HeroPosition(g', h);
    if a.Some? && b.Some? {
      IdxInjective(a.value, b.value);
    }
  }

  /** Where monster `m` stands: the first row-major cell holding it. */
  function MonsterPosition(g: Grid, m: MonsterRef): (r: Option<Position>)
    ensures r.Some? ==> InBounds(r.value) && At(g, r.value).monster == Some(m)
    ensures r.Some? ==> forall q :: InBounds(q) && Idx(q) < Idx(r.value) ==> At(g, q).monster != Some(m)
    ensures r.None? <==> forall q :: InBounds(q) ==> At(g, q).monster != Some(m)
  {
    FindFirst(g, (c: Cell) => c.monster == Some(m))
  }

  /** Positions of the cells from index `i` on satisfying `f`, in row-major order. */
  function CellsWhereFrom(g: Grid, f: Cell -> bool, i: nat): (ps: seq<Position>)
    requires i <= 64
    ensures forall k :: 0 <= k < |ps| ==> InBounds(ps[k]) && i <= Idx(ps[k]) && f(At(g, ps[k]))
    ensures forall j :: i <= j < 64 && f(g[j]) ==> PosOf(j) in ps
    ensures forall a, b :: 0 <= a < b < |ps| ==> Idx(ps[a]) < Idx(ps[b])
    decreases 64 - i
  {
    if i == 64 then []
    else if f(g[i]) then [PosOf(i)] + CellsWhereFrom(g, f, i + 1)
    else CellsWhereFrom(g, f, i + 1)
  }

  /** Positions of all cells satisfying `f`, each once, in row-major order. */
  function CellsWhere(g: Grid, f: Cell -> bool): (ps: seq<Position>)
    ensures forall k :: 0 <= k < |ps| ==> InBounds(ps[k]) && f(At(g, ps[k]))
    ensures forall q :: InBounds(q) ==> (q in ps <==> f(At(g, q)))
    ensures forall a, b :: 0 <= a < b < |ps| ==> Idx(ps[a]) < Idx(ps[b])
  {
    var ps := CellsWhereFrom(g, f, 0);
    assert forall q :: InBounds(q) && f(At(g, q)) ==> q in ps by {
      forall q | InBounds(q) && f(At(g, q)) ensures q in ps {
        IdxInjective(q, PosOf(Idx(q)));
      }
    }
    ps
  }

  /** Strictly increasing row-major indices imply distinct positions. */
  lemma IncreasingIsDistinct(ps: seq<Position>)
    requires forall k :: 0 <= k < |ps| ==> InBounds(ps[k])
    requires forall a, b :: 0 <= a < b < |ps| ==> Idx(ps[a]) < Idx(ps[b])
    ensures forall a, b :: 0 <= a < |ps| && 0 <= b < |ps| && a != b ==> ps[a] != ps[b]
  {
  }

  /** Positions of all cells holding a monster, in row-major order. */
  function MonsterCells(g: Grid): (ps: seq<Position>)
    ensures forall k :: 0 <= k < |ps| ==> InBounds(ps[k]) && HasMonster(At(g, ps[k]))
    ensures forall q :: InBounds(q) ==> (q in ps <==> HasMonster(At(g, q)))
    ensures forall a, b :: 0 <= a < b < |ps| ==> Idx(ps[a]) < Idx(ps[b])
  {
    CellsWhere(g, HasMonster)
  }

  /** The hero slot or the monster slot of a cell. */
  function Slot(c: Cell, isHero: bool): Option<nat>
  {
    if isHero then c.hero else c.monster
  }

  /**
   * `r` is `g` with the mover-kind occupant of `from` carried to `to`: the
   * other kind's slots, both cell types and every other cell are unchanged.
   */
  ghost predicate Relocated(g: Grid, r: Grid, from: Position, to: Position, isHero: bool)
    requires InBounds(from) && InBounds(to)
  {
    from != to
    && Slot(At(r, to), isHero) == Slot(At(g, from), isHero)
    && Slot(At(r, from), isHero).None?
    && Slot(At(r, to), !isHero) == Slot(At(g, to), !isHero)
    && Slot(At(r, from), !isHero) == Slot(At(g, from), !isHero)
    && KindAt(r, to) == KindAt(g, to) && KindAt(r, from) == KindAt(g, from)
    && forall q :: InBounds(q) && q != from && q != to ==> At(r, q) == At(g, q)
  }

  /** Empties the mover's slot at `from`, then places the same occupant at `to`. */
  function Relocate(g: Grid, from: Position, to: Position, isHero: bool): (r: Grid)
    requires InBounds(from) && InBounds(to) && from != to
    requires Slot(At(g, from), isHero).Some?
    ensures Relocated(g, r, from, to, isHero)
  {
    var src := At(g, from);
    var dst := At(g, to);
    if isHero then
      Put(Put(g, from, RemoveHero(src)), to, PlaceHero(dst, src.hero.value))
    else
      Put(Put(g, from, RemoveMonster(src)), to, PlaceMonster(dst, src.monster.value))
  }

  lemma {:induction false} SwapKeepsCountFrom(g: Grid, r: Grid, f: Cell -> bool, a: int, b: int, i: nat)
    requires i <= 64 && 0 <= a < 64 && 0 <= b < 64
    requires f(g[a]) && !f(r[a]) && !f(g[b]) && f(r[b])
    requires forall j :: 0 <= j < 64 && j != a && j != b ==> f(r[j]) == f(g[j])
    ensures |CellsWhereFrom(r, f, i)| + (if a >= i then 1 else 0) == |CellsWhereFrom(g, f, i)| + (if b >= i then 1 else 0)
    decreases 64 - i
  {
    if i < 64 {
      SwapKeepsCountFrom(g, r, f, a, b, i + 1);
    }
  }

  /** Moving one occupant out of `from` into a free `to` keeps the number of matching cells. */
  lemma RelocationKeepsCount(g: Grid, r: Grid, f: Cell -> bool, from: Position, to: Position)
    requires InBounds(from) && InBounds(to)
    requires f(At(g, from)) && !f(At(r, from)) && !f(At(g, to)) && f(At(r, to))
    requires forall q :: InBounds(q) && q != from && q != to ==> f(At(r, q)) == f(At(g, q))
    ensures |CellsWhere(r, f)| == |CellsWhere(g, f)|
  {
    IdxInjective(from, to);
    forall j | 0 <= j < 64 && j != Idx(from) && j != Idx(to)
      ensures f(r[j]) == f(g[j])
    {
      var q := PosOf(j);
      assert q != from && q != to;
      assert At(r, q) == r[j] && At(g, q) == g[j];
    }
    SwapKeepsCountFrom(g, r, f, Idx(from), Idx(to), 0);
  }
}

=== FILE: hero.dfy ===
/**
 * characters/Hero.java with its three classes (Warrior.java, Sorcerer.java,
 * Paladin.java): a hero's gauges, stats, purse, experience, inventory and
 * equipment, and the rules that change them.
 *
 * For a non-negative integer `s`, truncating `s * 0.05`, `s * 0.1`, `s * 0.5`
 * or `s * 1.05` is the same as integer division; the contracts below use
 * those integer forms as the reference for the source's scaled casts.
 */
module Heroes {
  import opened Wrappers
  import opened JavaMath
  import opened GameConstants
  import opened Items
  import opened Inventories
  import opened Characters

  datatype HeroClass = Warrior | Sorcerer | Paladin

  datatype Hero = Hero(heroClass: HeroClass, name: string, level: int, hp: Gauge, mp: Gauge,
                       strength: int, dexterity: int, agility: int, gold: int, experience: int,
                       inventory: Inventory, weapon: Option<Weapon>, armor: Option<Armor>)

  /**
   * The Hero constructor, reached unchanged from each class's constructor:
   * HP and MP start full, the inventory empty, nothing equipped.
   */
  function NewHero(c: HeroClass, name: string, level: int, hp: int, mp: int,
                   strength: int, dexterity: int, agility: int, gold: int, experience: int): (h: Hero)
    ensures h.heroClass == c && h.name == name && h.level == level
    ensures h.hp.current == hp && h.hp.maximum == hp && h.mp.current == mp && h.mp.maximum == mp
    ensures h.strength == strength && h.dexterity == dexterity && h.agility == agility
    ensures h.gold == gold && h.experience == experience
    ensures h.inventory == EmptyInventory && h.weapon.None? && h.armor.None?
  {
    Hero(c, name, level, Full(hp), Full(mp), strength, dexterity, agility, gold, experience,
         EmptyInventory, None, None)
  }

  predicate IsAlive(h: Hero) { Characters.IsAlive(h.hp) }
  predicate IsFainted(h: Hero) { Characters.IsFainted(h.hp) }

  // ---- Mana ----

  /** setMp: clamped into [0, maxMp]; nothing else changes. */
  function SetMp(h: Hero, v: int): (r: Hero)
    ensures r == h.(mp := r.mp) && r.mp.maximum == h.mp.maximum
    ensures r.mp.current >= 0 && (h.mp.maximum >= 0 ==> r.mp.current <= h.mp.maximum)
    ensures 0 <= v <= h.mp.maximum ==> r.mp.current == v
    ensures v > h.mp.maximum ==> r.mp.current == Max(0, h.mp.maximum)
    ensures v < 0 ==> r.mp.current == 0
  {
    h.(mp := Set(h.mp, v))
  }

  /** useMana: mana goes down by the amount, but not below zero. */
  function UseMana(h: Hero, amount: int): (r: Hero)
    ensures r == h.(mp := r.mp) && r.mp.maximum == h.mp.maximum
    ensures r.mp.current == Max(0, h.mp.current - amount)
  {
    h.(mp := Drain(h.mp, amount))
  }

  /** restoreMana: mana goes up by the amount, but not above the maximum. */
  function RestoreMana(h: Hero, amount: int): (r: Hero)
    ensures r == h.(mp := r.mp) && r.mp.maximum == h.mp.maximum
    ensures r.mp.current == Min(h.mp.maximum, h.mp.current + amount)
  {
    h.(mp := Refill(h.mp, amount))
  }

  /** hasMana: at least the required amount is available. */
  predicate HasMana(h: Hero, required: int)
  {
    h.mp.current >= required
  }

  /** Spending mana the hero has leaves exactly the difference. */
  lemma UseManaWithinBudget(h: Hero, amount: int)
    requires HasMana(h, amount) && amount >= 0
    ensures UseMana(h, amount).mp.current == h.mp.current - amount
    ensures !HasMana(UseMana(h, amount), h.mp.current - amount + 1)
  {
  }

  // ---- Gold ----

  /** addGold: refuses a negative amount; only the purse changes. */
  function AddGold(h: Hero, amount: int): (r: (Hero, bool))
    ensures r.1 <==> amount >= 0
    ensures !r.1 ==> r.0 == h
    ensures r.1 ==> r.0 == h.(gold := r.0.gold) && r.0.gold == h.gold + amount
  {
    if amount < 0 then (h, false) else (h.(gold := h.gold + amount), true)
  }

  /** removeGold: refuses a negative amount or more than the purse holds. */
  function RemoveGold(h: Hero, amount: int): (r: (Hero, bool))
    ensures r.1 <==> 0 <= amount <= h.gold
    ensures !r.1 ==> r.0 == h
    ensures r.1 ==> r.0 == h.(gold := r.0.gold) && r.0.gold == h.gold - amount && r.0.gold >= 0
  {
    if amount < 0 || h.gold < amount then (h, false) else (h.(gold := h.gold - amount), true)
  }

  /** canAfford: the purse holds at least the price (a negative price is always affordable). */
  predicate CanAfford(h: Hero, price: int)
  {
    h.gold >= price
  }

  /** For a non-negative price, affording it is exactly what lets removeGold go through. */
  lemma AffordIffPurchaseSucceeds(h: Hero, price: int)
    requires price >= 0
    ensures CanAfford(h, price) <==> RemoveGold(h, price).1
    ensures CanAfford(h, price) ==> RemoveGold(h, price).0.gold == h.gold - price
  {
  }

  /** Taking back gold just added restores the hero; adding back gold just taken does too. */
  lemma GoldRoundTrip(h: Hero, amount: int)
    requires amount >= 0 && h.gold >= 0
    ensures RemoveGold(AddGold(h, amount).0, amount) == (h, true)
    ensures amount <= h.gold ==> AddGold(RemoveGold(h, amount).0, amount) == (h, true)
  {
  }

  // ---- Level-up ----

  /** The level-up growth of a stat: the truncation of stat * 1.05. */
  function Grow(s: int): (r: int)
    ensures s >= 0 ==> r == s + s / 20
    ensures s < 0 ==> r == -((-s) + (-s) / 20)
  {
    var r := JavaInt(s as real * (1.0 + LevelUpStatIncrease));
    GrowthIsIntegerDivision(s, r);
    r
  }

  lemma GrowthIsIntegerDivision(s: int, r: int)
    requires r == JavaInt(s as real * (1.0 + LevelUpStatIncrease))
    ensures s >= 0 ==> r == s + s / 20
    ensures s < 0 ==> r == -((-s) + (-s) / 20)
  {
    var a := if s >= 0 then s else -s;
    TruncatedScale(a, 21, 20, 1.05);
    assert a * 21 / 20 == a + a / 20;
    if s < 0 {
      assert s as real * 1.05 == -(a as real * 1.05);
    }
  }

  /** A favoured stat's extra: stat plus the truncation of stat * 0.05. */
  function FavoredBonus(s: int): (r: int)
    ensures s >= 0 ==> r == s + s / 20
    ensures 0 <= s < 20 ==> r == s
    ensures s >= 20 ==> r > s
  {
    var extra := JavaInt(s as real * FavoredStatBonus);
    FavoredExtraIsIntegerDivision(s, extra);
    s + extra
  }

  lemma FavoredExtraIsIntegerDivision(s: int, extra: int)
    requires extra == JavaInt(s as real * FavoredStatBonus)
    ensures s >= 0 ==> extra == s / 20
  {
    if s >= 0 {
      TruncatedScale(s, 1, 20, FavoredStatBonus);
    }
  }

  /** Warrior: strength and agility get the favoured extra; dexterity and the rest stay. */
  function WarriorBonus(h: Hero): (r: Hero)
    ensures r == h.(strength := r.strength, agility := r.agility)
    ensures h.strength >= 0 ==> r.strength == h.strength + h.strength / 20
    ensures h.agility >= 0 ==> r.agility == h.agility + h.agility / 20
  {
    h.(strength := FavoredBonus(h.strength), agility := FavoredBonus(h.agility))
  }

  /** Sorcerer: dexterity and agility get the favoured extra; strength and the rest stay. */
  function SorcererBonus(h: Hero): (r: Hero)
    ensures r == h.(dexterity := r.dexterity, agility := r.agility)
    ensures h.dexterity >= 0 ==> r.dexterity == h.dexterity + h.dexterity / 20
    ensures h.agility >= 0 ==> r.agility == h.agility + h.agility / 20
  {
    h.(dexterity := FavoredBonus(h.dexterity), agility := FavoredBonus(h.agility))
  }

  /** Paladin: strength and dexterity get the favoured extra; agility and the rest stay. */
  function PaladinBonus(h: Hero): (r: Hero)
    ensures r == h.(strength := r.strength, dexterity := r.dexterity)
    ensures h.strength >= 0 ==> r.strength == h.strength + h.strength / 20
    ensures h.dexterity >= 0 ==> r.dexterity == h.dexterity + h.dexterity / 20
  {
    h.(strength := FavoredBonus(h.strength), dexterity := FavoredBonus(h.dexterity))
  }

  /** The stats each class favours: Warrior and Paladin strength, Sorcerer and Paladin dexterity, Warrior and Sorcerer agility. */
  predicate FavorsStrength(c: HeroClass) { c == Warrior || c == Paladin }
  predicate FavorsDexterity(c: HeroClass) { c == Sorcerer || c == Paladin }
  predicate FavorsAgility(c: HeroClass) { c == Warrior || c == Sorcerer }

  /**
   * applyFavoredStatBonus, dispatched on the hero's class: the two stats the
   * class favours get the favoured extra, the third stays as it was.
   */
  function ApplyFavoredStatBonus(h: Hero): (r: Hero)
    ensures r == h.(strength := r.strength, dexterity := r.dexterity, agility := r.agility)
    ensures r.strength == (if FavorsStrength(h.heroClass) then FavoredBonus(h.strength) else h.strength)
    ensures r.dexterity == (if FavorsDexterity(h.heroClass) then FavoredBonus(h.dexterity) else h.dexterity)
    ensures r.agility == (if FavorsAgility(h.heroClass) then FavoredBonus(h.agility) else h.agility)
    ensures h.strength >= 0 ==> h.strength <= r.strength
    ensures h.dexterity >= 0 ==> h.dexterity <= r.dexterity
    ensures h.agility >= 0 ==> h.agility <= r.agility
  {
    match h.heroClass
    case Warrior => WarriorBonus(h)
    case Sorcerer => SorcererBonus(h)
    case Paladin => PaladinBonus(h)
  }

  /** Stats below 20 gain nothing from any class's favoured bonus. */
  lemma SmallStatsGainNothing(h: Hero)
    requires 0 <= h.strength < 20 && 0 <= h.dexterity < 20 && 0 <= h.agility < 20
    ensures ApplyFavoredStatBonus(h) == h
  {
  }

  /**
   * levelUp: one more level; max HP, max MP and all three stats grow by
   * 5% (truncated); the class bonus is added on top of the grown stats;
   * then HP and MP are set to the new maxima.
   */
  function LevelUp(h: Hero): (r: Hero)
    ensures r.level == h.level + 1
    ensures r.hp.maximum == Grow(h.hp.maximum) && r.mp.maximum == Grow(h.mp.maximum)
    ensures r.hp.current == Max(0, r.hp.maximum) && r.mp.current == Max(0, r.mp.maximum)
    ensures h.hp.maximum >= 0 ==> h.hp.maximum <= r.hp.maximum && r.hp.current == r.hp.maximum
    ensures h.mp.maximum >= 0 ==> h.mp.maximum <= r.mp.maximum && r.mp.current == r.mp.maximum
    ensures h.strength >= 0 ==> h.strength <= r.strength
    ensures h.dexterity >= 0 ==> h.dexterity <= r.dexterity
    ensures h.agility >= 0 ==> h.agility <= r.agility
    ensures r.strength == (if FavorsStrength(h.heroClass) then FavoredBonus(Grow(h.strength)) else Grow(h.strength))
    ensures r.dexterity == (if FavorsDexterity(h.heroClass) then FavoredBonus(Grow(h.dexterity)) else Grow(h.dexterity))
    ensures r.agility == (if FavorsAgility(h.heroClass) then FavoredBonus(Grow(h.agility)) else Grow(h.agility))
    ensures r.heroClass == h.heroClass && r.name == h.name && r.gold == h.gold && r.experience == h.experience
    ensures r.inventory == h.inventory && r.weapon == h.weapon && r.armor == h.armor
  {
    var newMaxHp := Grow(h.hp.maximum);
    var newMaxMp := Grow(h.mp.maximum);
    var grown := h.(level := h.level + 1, strength := Grow(h.strength),
                    dexterity := Grow(h.dexterity), agility := Grow(h.agility));
    var boosted := ApplyFavoredStatBonus(grown);
    var resized := boosted.(hp := Resize(boosted.hp, newMaxHp), mp := Resize(boosted.mp, newMaxMp));
    resized.(hp := Set(resized.hp, newMaxHp), mp := Set(resized.mp, newMaxMp))
  }

  /** The experience a hero of `level` needs for the next level. */
  function XpRequired(level: int): int
  {
    (level + 1) * BaseXpForLevelUp
  }

  /** Each level needs strictly more experience than the one below it, 10 more per level. */
  lemma XpRequiredIncreasing(level: int, higher: int)
    requires level < higher
    ensures XpRequired(level) < XpRequired(higher)
    ensures XpRequired(higher) - XpRequired(level) == (higher - level) * BaseXpForLevelUp
  {
  }

  /**
   * gainExperience: experience grows by the amount and is never reset;
   * the hero levels up once, and only once, when the new total reaches the
   * threshold of the current level.
   */
  function GainExperience(h: Hero, amount: int): (r: Hero)
    ensures r.experience == h.experience + amount
    ensures h.experience + amount >= XpRequired(h.level) ==> r == LevelUp(h.(experience := h.experience + amount))
    ensures h.experience + amount < XpRequired(h.level) ==> r == h.(experience := h.experience + amount)
    ensures r.level == h.level || r.level == h.level + 1
  {
    var gained := h.(experience := h.experience + amount);
    if gained.experience >= XpRequired(gained.level) then LevelUp(gained) else gained
  }

  /** However large the gain, one call raises the level by at most one. */
  lemma OneLevelPerGain(h: Hero, amount: int)
    requires amount >= 10 * (h.level + 2) && h.experience >= 0 && h.level >= 0
    ensures GainExperience(h, amount).level == h.level + 1
    ensures GainExperience(h, amount).experience >= XpRequired(h.level + 1)
  {
  }

  // ---- Equipment ----

  /** equipWeapon: needs a weapon, the level, and the weapon in the inventory. */
  function EquipWeapon(h: Hero, w: Option<Weapon>): (r: (Hero, bool))
    ensures r.1 <==> w.Some? && w.value.requiredLevel <= h.level && Contains(h.inventory, w.value)
    ensures !r.1 ==> r.0 == h
    ensures r.1 ==> r.0 == h.(weapon := w)
  {
    if w.None? then (h, false)
    else if w.value.requiredLevel > h.level then (h, false)
    else if !Contains(h.inventory, w.value) then (h, false)
    else (h.(weapon := w), true)
  }

  /** equipArmor: the same three checks for armor. */
  function EquipArmor(h: Hero, a: Option<Armor>): (r: (Hero, bool))
    ensures r.1 <==> a.Some? && a.value.requiredLevel <= h.level && Contains(h.inventory, a.value)
    ensures !r.1 ==> r.0 == h
    ensures r.1 ==> r.0 == h.(armor := a)
  {
    if a.None? then (h, false)
    else if a.value.requiredLevel > h.level then (h, false)
    else if !Contains(h.inventory, a.value) then (h, false)
    else (h.(armor := a), true)
  }

  // ---- Combat figures ----

  /** calculateDamage: a tenth of strength (truncated) plus the equipped weapon's damage. */
  function CalculateDamage(h: Hero): (r: int)
    ensures h.strength >= 0 && h.weapon.None? ==> r == h.strength / 10
    ensures h.strength >= 0 && h.weapon.Some? ==> r == h.strength / 10 + h.weapon.value.kind.damage
  {
    var base := JavaInt(h.strength as real * HeroAttackScale);
    TenthIsIntegerDivision(h.strength, base);
    if h.weapon.Some? then base + h.weapon.value.kind.damage else base
  }

  lemma TenthIsIntegerDivision(s: int, r: int)
    requires r == JavaInt(s as real * 0.1)
    ensures s >= 0 ==> r == s / 10
  {
    if s >= 0 {
      TruncatedScale(s, 1, 10, 0.1);
    }
  }

  /** calculateSpellDamage: the truncation of 0.15 * dexterity + 0.15 * the spell's base damage. */
  function CalculateSpellDamage(h: Hero, spell: Spell): (r: int)
    ensures h.dexterity + spell.kind.baseDamage >= 0 ==> r == (h.dexterity + spell.kind.baseDamage) * 3 / 20
    ensures h.dexterity >= 0 && spell.kind.baseDamage >= 0 ==> r >= 0
  {
    var total := h.dexterity as real * HeroSpellScale + spell.kind.baseDamage as real * HeroSpellScale;
    var r := JavaInt(total);
    SpellScaleIsIntegerDivision(h.dexterity + spell.kind.baseDamage, total, r);
    r
  }

  lemma SpellScaleIsIntegerDivision(s: int, total: real, r: int)
    requires total == s as real * 0.15 && r == JavaInt(total)
    ensures s >= 0 ==> r == s * 3 / 20
  {
    if s >= 0 {
      TruncatedScale(s, 3, 20, 0.15);
    }
  }

  /** getDefense: the equipped armor's reduction, or 0 without armor. */
  function GetDefense(h: Hero): (r: int)
    ensures h.armor.None? ==> r == 0
    ensures h.armor.Some? ==> r == h.armor.value.kind.damageReduction
  {
    if h.armor.Some? then h.armor.value.kind.damageReduction else 0
  }

  /**
   * getDodgeChance: 0.02% per point of agility, compared against a monster
   * attack's roll. No agility means no chance; from 5000 agility on the
   * chance reaches 1, so every roll in [0, 1) is dodged.
   */
  function DodgeChance(h: Hero): (r: real)
    ensures r <= 0.0 <==> h.agility <= 0
    ensures r >= 1.0 <==> h.agility >= 5000
    ensures 5000.0 * r == h.agility as real
  {
    h.agility as real * 0.0002
  }

  /** More agility never lowers the dodge chance, and strictly more agility raises it. */
  lemma DodgeChanceMonotone(h: Hero, h': Hero)
    ensures h.agility <= h'.agility ==> DodgeChance(h) <= DodgeChance(h')
    ensures h.agility < h'.agility ==> DodgeChance(h) < DodgeChance(h')
  {
  }

  // ---- Recovery ----

  /** regenerate: heals a tenth of max HP and restores a tenth of max MP, each capped at its maximum. */
  function Regenerate(h: Hero): (r: Hero)
    ensures r == h.(hp := r.hp, mp := r.mp)
    ensures r.hp.maximum == h.hp.maximum && r.mp.maximum == h.mp.maximum
    ensures h.hp.maximum >= 0 ==> r.hp.current == Min(h.hp.maximum, h.hp.current + h.hp.maximum / 10)
    ensures h.mp.maximum >= 0 ==> r.mp.current == Min(h.mp.maximum, h.mp.current + h.mp.maximum / 10)
    ensures InRange(h.hp) ==> InRange(r.hp) && h.hp.current <= r.hp.current
    ensures InRange(h.mp) ==> InRange(r.mp) && h.mp.current <= r.mp.current
  {
    var hpRegen := JavaInt(h.hp.maximum as real * HpRegenRate);
    var mpRegen := JavaInt(h.mp.maximum as real * MpRegenRate);
    TenthIsIntegerDivision(h.hp.maximum, hpRegen);
    TenthIsIntegerDivision(h.mp.maximum, mpRegen);
    RestoreMana(h.(hp := Refill(h.hp, hpRegen)), mpRegen)
  }

  /** revive: HP and MP set to half their maxima (truncated). */
  function Revive(h: Hero): (r: Hero)
    ensures r == h.(hp := r.hp, mp := r.mp)
    ensures r.hp.maximum == h.hp.maximum && r.mp.maximum == h.mp.maximum
    ensures h.hp.maximum >= 0 ==> r.hp.current == h.hp.maximum / 2
    ensures h.mp.maximum >= 0 ==> r.mp.current == h.mp.maximum / 2
    ensures h.hp.maximum >= 2 ==> IsAlive(r)
  {
    var revivalHp := JavaInt(h.hp.maximum as real * FaintedHeroRevivalHp);
    var revivalMp := JavaInt(h.mp.maximum as real * FaintedHeroRevivalMp);
    HalfIsIntegerDivision(h.hp.maximum, revivalHp);
    HalfIsIntegerDivision(h.mp.maximum, revivalMp);
    SetMp(h.(hp := Set(h.hp, revivalHp)), revivalMp)
  }

  lemma HalfIsIntegerDivision(s: int, r: int)
    requires r == JavaInt(s as real * 0.5)
    ensures s >= 0 ==> r == s / 2
  {
    if s >= 0 {
      TruncatedScale(s, 1, 2, 0.5);
    }
  }
}

=== FILE: hero_manager.dfy ===
/**
 * managers/HeroManager.java: the overworld regeneration of the party.
 * Its respawnDeadHeroesAtNexus is `RespawnManagers.RespawnDeadHeroes` and
 * its getHighestHeroLevel is `MonsterFactories.HighestHeroLevel`.
 */
module HeroManagers {
  import opened JavaMath
  import opened GameConstants
  import Characters
  import opened Heroes

  /** `(int) Math.ceil(m * rate)` at the 10% regeneration rate: a tenth, rounded up. */
  function TenthRoundedUp(m: int, rate: real): (r: int)
    requires rate == 0.1
    ensures m >= 0 ==> r == (m + 9) / 10
    ensures m >= 0 ==> 10 * r >= m && 10 * (r - 1) < m + (if m == 0 then 10 else 0)
  {
    var r := JavaCeil(m as real * rate);
    assert (r - 1) as real < m as real * 0.1 <= r as real;
    assert 10 * r - 10 < m <= 10 * r by {
      assert (10 * r - 10) as real == 10.0 * (r - 1) as real;
      assert (10 * r) as real == 10.0 * r as real;
    }
    r
  }

  /**
   * The overworld regeneration of one hero: a living hero heals a tenth of
   * its maximum HP and MP, rounded up, capped at the maxima; a fainted hero
   * is skipped.
   */
  function OverworldRegen(h: Hero): (r: Hero)
    ensures r == h.(hp := r.hp, mp := r.mp)
    ensures r.hp.maximum == h.hp.maximum && r.mp.maximum == h.mp.maximum
    ensures !IsAlive(h) ==> r == h
    ensures IsAlive(h) && Characters.InRange(h.hp) ==> r.hp.current == Min(h.hp.maximum, h.hp.current + (h.hp.maximum + 9) / 10)
    ensures IsAlive(h) && Characters.InRange(h.mp) ==> r.mp.current == Min(h.mp.maximum, h.mp.current + (h.mp.maximum + 9) / 10)
  {
    if !IsAlive(h) then h
    else
      var heal := TenthRoundedUp(h.hp.maximum, HpRegenRate);
      var mana := TenthRoundedUp(h.mp.maximum, MpRegenRate);
      SetMp(h.(hp := Characters.Set(h.hp, Min(h.hp.maximum, h.hp.current + heal))), Min(h.mp.maximum, h.mp.current + mana))
  }

  /**
   * Rounding up makes the overworld regeneration at least as generous as
   * Hero.regenerate, which rounds down, and strictly more generous for a
   * hero below the cap whose maximum is not a multiple of 10.
   */
  lemma OverworldRegenAtLeastRegenerate(h: Hero)
    requires IsAlive(h) && Characters.InRange(h.hp) && Characters.InRange(h.mp)
    ensures Regenerate(h).hp.current <= OverworldRegen(h).hp.current
    ensures Regenerate(h).mp.current <= OverworldRegen(h).mp.current
    ensures h.hp.maximum % 10 != 0 && h.hp.current + (h.hp.maximum + 9) / 10 <= h.hp.maximum ==>
      Regenerate(h).hp.current < OverworldRegen(h).hp.current
  {
    assert h.hp.maximum / 10 <= (h.hp.maximum + 9) / 10;
    assert h.mp.maximum / 10 <= (h.mp.maximum + 9) / 10;
  }

  /**
   * regenerateHeroesOverworld: every hero in turn; fainted heroes stay
   * exactly as they were, living heroes with sane gauges never lose HP or
   * MP, stay alive, and stay within their maxima.
   */
  function RegenerateHeroesOverworld(party: seq<Hero>): (r: seq<Hero>)
    ensures |r| == |party|
    ensures forall j :: 0 <= j < |party| && !IsAlive(party[j]) ==> r[j] == party[j]
    ensures forall j :: 0 <= j < |party| && IsAlive(party[j]) && Characters.InRange(party[j].hp) && Characters.InRange(party[j].mp) ==>
      IsAlive(r[j]) && Characters.InRange(r[j].hp) && Characters.InRange(r[j].mp)
      && party[j].hp.current <= r[j].hp.current && party[j].mp.current <= r[j].mp.current
    ensures forall j :: 0 <= j < |party| ==> r[j] == party[j].(hp := r[j].hp, mp := r[j].mp)
  {
    seq(|party|, j requires 0 <= j < |party| => OverworldRegen(party[j]))
  }
}

=== FILE: inventory.dfy ===
/**
 * inventory/Inventory.java: a hero's items as an ordered list, with
 * identity-based lookup and removal and the four typed views.
 */
module Inventories {
  import opened Wrappers
  import opened Items

  datatype Inventory = Inventory(items: seq<Item>)

  const EmptyInventory: Inventory := Inventory([])

  /** Position of the first item that is the same object as `item`. */
  function IndexOf(s: seq<Item>, item: Item): (r: Option<nat>)
    ensures r.Some? ==> (r.value < |s| && s[r.value].handle == item.handle
      && forall j :: 0 <= j < r.value ==> s[j].handle != item.handle)
    ensures r.None? <==> forall j :: 0 <= j < |s| ==> s[j].handle != item.handle
  {
    if s == [] then None
    else if s[0].handle == item.handle then Some(0)
    else
      var rest := IndexOf(s[1..], item);
      assert forall j :: 1 <= j < |s| ==> s[j] == s[1..][j - 1];
      if rest.Some? then Some(rest.value + 1) else None
  }

  /** contains: some entry is the same object as `item`. */
  function Contains(inv: Inventory, item: Item): (r: bool)
    ensures r <==> exists j :: 0 <= j < |inv.items| && inv.items[j].handle == item.handle
  {
    IndexOf(inv.items, item).Some?
  }

  /** addItem appends to the end. */
  function AddItem(inv: Inventory, item: Item): (r: Inventory)
    ensures |r.items| == |inv.items| + 1 && r.items[..|inv.items|] == inv.items && r.items[|inv.items|] == item
    ensures Contains(r, item)
    ensures forall x :: Contains(inv, x) ==> Contains(r, x)
  {
    var r := Inventory(inv.items + [item]);
    assert r.items[|inv.items|] == item;
    r
  }

  /**
   * removeItem: drops the first entry that is the same object as `item`
   * and reports whether there was one; the other entries keep their order.
   */
  function RemoveItem(inv: Inventory, item: Item): (r: (Inventory, bool))
    ensures r.1 <==> Contains(inv, item)
    ensures !r.1 ==> r.0 == inv
    ensures r.1 ==> |r.0.items| == |inv.items| - 1
    ensures r.1 ==> exists k :: (0 <= k < |inv.items| && inv.items[k].handle == item.handle
      && (forall j :: 0 <= j < k ==> inv.items[j].handle != item.handle)
      && r.0.items == inv.items[..k] + inv.items[k + 1..])
  {
    match IndexOf(inv.items, item)
    case None => (inv, false)
    case Some(k) => (Inventory(inv.items[..k] + inv.items[k + 1..]), true)
  }

  /** Removing an item that was just added to an inventory not holding it gives the inventory back. */
  lemma RemoveUndoesAdd(inv: Inventory, item: Item)
    requires !Contains(inv, item)
    ensures RemoveItem(AddItem(inv, item), item) == (inv, true)
  {
    var added := AddItem(inv, item);
    assert IndexOf(added.items, item) == Some(|inv.items|);
    assert added.items[..|inv.items|] + added.items[|inv.items| + 1..] == inv.items;
  }

  /** Removal takes out exactly one entry: the multiset of items loses that entry and nothing else. */
  lemma RemoveTakesOneEntry(inv: Inventory, item: Item)
    requires Contains(inv, item)
    ensures var k := IndexOf(inv.items, item).value;
      multiset(RemoveItem(inv, item).0.items) + multiset{inv.items[k]} == multiset(inv.items)
  {
    var k := IndexOf(inv.items, item).value;
    assert inv.items == inv.items[..k] + [inv.items[k]] + inv.items[k + 1..];
  }

  /** size; getAllItems needs no counterpart, since an inventory value is never shared. */
  function Size(inv: Inventory): (n: nat)
    ensures n == |inv.items|
  {
    |inv.items|
  }

  predicate IsEmpty(inv: Inventory)
  {
    Size(inv) == 0
  }

  /** isEmpty holds iff no item is contained. */
  lemma IsEmptyMeansNoItem(inv: Inventory)
    ensures IsEmpty(inv) <==> forall x :: !Contains(inv, x)
  {
    if !IsEmpty(inv) {
      assert Contains(inv, inv.items[0]);
    }
  }

  // ---- Typed views ----

  /** The four typed views: weapons and armor by type alone, potions and spells only while usable. */
  datatype Category = Weapons | Armors | Potions | Spells

  predicate InCategory(c: Category, item: Item)
  {
    match c
    case Weapons => IsWeapon(item)
    case Armors => IsArmor(item)
    case Potions => IsPotion(item) && HasUsesLeft(item)
    case Spells => IsSpell(item) && HasUsesLeft(item)
  }

  /** A stream filter: keeps the entries in the category, in their original order. */
  function FilterCategory(s: seq<Item>, c: Category): (r: seq<Item>)
    ensures |r| <= |s|
    ensures forall x :: x in r <==> x in s && InCategory(c, x)
  {
    if s == [] then []
    else
      var rest := FilterCategory(s[1..], c);
      assert forall x :: x in s <==> x == s[0] || x in s[1..];
      if InCategory(c, s[0]) then [s[0]] + rest else rest
  }

  /** Filtering distributes over concatenation, so the views keep the list order. */
  lemma {:induction false} FilterAppend(a: seq<Item>, b: seq<Item>, c: Category)
    ensures FilterCategory(a + b, c) == FilterCategory(a, c) + FilterCategory(b, c)
  {
    if a == [] {
      assert a + b == b;
    } else {
      assert (a + b)[1..] == a[1..] + b;
      FilterAppend(a[1..], b, c);
    }
  }

  /** Filtering twice is filtering once. */
  lemma {:induction false} FilterIdempotent(s: seq<Item>, c: Category)
    ensures FilterCategory(FilterCategory(s, c), c) == FilterCategory(s, c)
  {
    if s != [] {
      FilterIdempotent(s[1..], c);
      if InCategory(c, s[0]) {
        var r := FilterCategory(s, c);
        assert r[1..] == FilterCategory(s[1..], c);
      }
    }
  }

  function GetWeapons(inv: Inventory): (r: seq<Item>)
    ensures forall x :: x in r <==> x in inv.items && IsWeapon(x)
  {
    FilterCategory(inv.items, Weapons)
  }

  function GetArmor(inv: Inventory): (r: seq<Item>)
    ensures forall x :: x in r <==> x in inv.items && IsArmor(x)
  {
    FilterCategory(inv.items, Armors)
  }

  function GetPotions(inv: Inventory): (r: seq<Item>)
    ensures forall x :: x in r <==> x in inv.items && IsPotion(x) && HasUsesLeft(x)
  {
    FilterCategory(inv.items, Potions)
  }

  function GetSpells(inv: Inventory): (r: seq<Item>)
    ensures forall x :: x in r <==> x in inv.items && IsSpell(x) && HasUsesLeft(x)
  {
    FilterCategory(inv.items, Spells)
  }

  /**
   * useOnce changes the one object every list slot refers to: each entry
   * that is the same object as `used` now shows the used state.
   */
  function Refresh(inv: Inventory, used: Item): (r: Inventory)
    ensures |r.items| == |inv.items|
    ensures forall j :: 0 <= j < |inv.items| ==>
      r.items[j] == (if inv.items[j].handle == used.handle then used else inv.items[j])
  {
    Inventory(seq(|inv.items|, j requires 0 <= j < |inv.items| =>
      if inv.items[j].handle == used.handle then used else inv.items[j]))
  }

  /** A spell used once leaves the spell view, while the entry itself stays in the inventory. */
  lemma UsedSpellLeavesSpellView(inv: Inventory, spell: Item)
    requires IsSpell(spell) && spell.remainingUses == 1 && Contains(inv, spell)
    ensures UseOnce(spell) !in GetSpells(Refresh(inv, UseOnce(spell)))
    ensures Contains(Refresh(inv, UseOnce(spell)), spell)
  {
    var k :| 0 <= k < |inv.items| && inv.items[k].handle == spell.handle;
    assert Refresh(inv, UseOnce(spell)).items[k].handle == spell.handle;
  }
}

=== FILE: items.dfy ===
/**
 * The item family of the items package: one record for the fields every item
 * shares (name, price, level requirement, remaining uses) and a tagged
 * part for what a weapon, an armor piece, a potion or a spell adds.
 *
 * Java compares items by object identity, and a use changes the object in
 * place wherever it is referenced. Each item therefore carries a `handle`
 * standing for that identity; two values with the same handle are the same
 * object, possibly seen before and after a use.
 */
module Items {
  import opened JavaMath

  datatype SpellType = Fire | Ice | Lightning

  datatype ItemKind =
    | WeaponKind(damage: int, handsRequired: int)
    | ArmorKind(damageReduction: int)
    | PotionKind(attributeIncrease: int, attributesAffected: seq<string>)
    | SpellKind(baseDamage: int, manaCost: int, spellType: SpellType)

  datatype Item = Item(handle: nat, name: string, price: int, requiredLevel: int,
                       remainingUses: int, kind: ItemKind)

  /** The use count that stands for "never wears out". */
  const InfiniteUses: int := -1

  predicate IsWeapon(i: Item) { i.kind.WeaponKind? }
  predicate IsArmor(i: Item) { i.kind.ArmorKind? }
  predicate IsPotion(i: Item) { i.kind.PotionKind? }
  predicate IsSpell(i: Item) { i.kind.SpellKind? }

  /** The four Java subclasses, as the items of each kind. */
  type Weapon = i: Item | IsWeapon(i) witness Item(0, "", 0, 0, InfiniteUses, WeaponKind(0, 1))
  type Armor = i: Item | IsArmor(i) witness Item(0, "", 0, 0, InfiniteUses, ArmorKind(0))
  type Potion = i: Item | IsPotion(i) witness Item(0, "", 0, 0, 1, PotionKind(0, []))
  type Spell = i: Item | IsSpell(i) witness Item(0, "", 0, 0, 1, SpellKind(0, 0, Fire))

  /** Weapon and Armor call the three-argument Item constructor: infinite uses. */
  function NewWeapon(handle: nat, name: string, price: int, requiredLevel: int,
                     damage: int, handsRequired: int): (w: Item)
    ensures IsWeapon(w) && w.remainingUses == InfiniteUses
    ensures w.kind.damage == damage && w.kind.handsRequired == handsRequired
    ensures w.handle == handle && w.name == name && w.price == price && w.requiredLevel == requiredLevel
  {
    Item(handle, name, price, requiredLevel, InfiniteUses, WeaponKind(damage, handsRequired))
  }

  function NewArmor(handle: nat, name: string, price: int, requiredLevel: int,
                    damageReduction: int): (a: Item)
    ensures IsArmor(a) && a.remainingUses == InfiniteUses && a.kind.damageReduction == damageReduction
    ensures a.handle == handle && a.name == name && a.price == price && a.requiredLevel == requiredLevel
  {
    Item(handle, name, price, requiredLevel, InfiniteUses, ArmorKind(damageReduction))
  }

  /** Potions and spells pass a use count of one. */
  function NewPotion(handle: nat, name: string, price: int, requiredLevel: int,
                     attributeIncrease: int, attributesAffected: seq<string>): (p: Item)
    ensures IsPotion(p) && p.remainingUses == 1
    ensures p.kind.attributeIncrease == attributeIncrease && p.kind.attributesAffected == attributesAffected
    ensures p.handle == handle && p.name == name && p.price == price && p.requiredLevel == requiredLevel
  {
    Item(handle, name, price, requiredLevel, 1, PotionKind(attributeIncrease, attributesAffected))
  }

  function NewSpell(handle: nat, name: string, price: int, requiredLevel: int,
                    baseDamage: int, manaCost: int, spellType: SpellType): (s: Item)
    ensures IsSpell(s) && s.remainingUses == 1
    ensures s.kind.baseDamage == baseDamage && s.kind.manaCost == manaCost && s.kind.spellType == spellType
    ensures s.handle == handle && s.name == name && s.price == price && s.requiredLevel == requiredLevel
  {
    Item(handle, name, price, requiredLevel, 1, SpellKind(baseDamage, manaCost, spellType))
  }

  /** hasUsesLeft: infinite, or a positive count. */
  predicate HasUsesLeft(i: Item)
  {
    i.remainingUses == InfiniteUses || i.remainingUses > 0
  }

  /** useOnce: only a positive count goes down; nothing else about the item changes. */
  function UseOnce(i: Item): (r: Item)
    ensures r == i.(remainingUses := r.remainingUses)
    ensures i.remainingUses > 0 ==> r.remainingUses == i.remainingUses - 1
    ensures i.remainingUses <= 0 ==> r == i
  {
    if i.remainingUses > 0 then i.(remainingUses := i.remainingUses - 1) else i
  }

  /** `n` consecutive calls to useOnce. */
  function UseTimes(i: Item, n: nat): Item
  {
    if n == 0 then i else UseOnce(UseTimes(i, n - 1))
  }

  /**
   * After `n` uses a finite count stands at max(0, count - n); an infinite
   * or exhausted count never moves; only the count ever changes.
   */
  lemma {:induction false} UseTimesCount(i: Item, n: nat)
    ensures UseTimes(i, n) == i.(remainingUses := UseTimes(i, n).remainingUses)
    ensures i.remainingUses >= 0 ==> UseTimes(i, n).remainingUses == Max(0, i.remainingUses - n)
    ensures i.remainingUses < 0 ==> UseTimes(i, n) == i
  {
    if n > 0 {
      UseTimesCount(i, n - 1);
    }
  }

  /** An item with `n > 0` uses has some left after fewer than `n` uses and none after exactly `n`. */
  lemma ExhaustedAfterExactlyItsUses(i: Item, k: nat)
    requires i.remainingUses > 0
    ensures k < i.remainingUses ==> HasUsesLeft(UseTimes(i, k))
    ensures k >= i.remainingUses ==> !HasUsesLeft(UseTimes(i, k))
  {
    UseTimesCount(i, k);
  }

  /** An infinite-use item keeps its uses whatever happens to it. */
  lemma InfiniteItemNeverWearsOut(i: Item, n: nat)
    requires i.remainingUses == InfiniteUses
    ensures UseTimes(i, n) == i && HasUsesLeft(UseTimes(i, n))
  {
    UseTimesCount(i, n);
  }

  /** Weapons and armor are built with infinite uses, so they never wear out. */
  lemma WeaponsAndArmorNeverWearOut(handle: nat, name: string, price: int, level: int, x: int, y: int, n: nat)
    ensures UseTimes(NewWeapon(handle, name, price, level, x, y), n) == NewWeapon(handle, name, price, level, x, y)
    ensures UseTimes(NewArmor(handle, name, price, level, x), n) == NewArmor(handle, name, price, level, x)
    ensures HasUsesLeft(NewWeapon(handle, name, price, level, x, y)) && HasUsesLeft(NewArmor(handle, name, price, level, x))
  {
    InfiniteItemNeverWearsOut(NewWeapon(handle, name, price, level, x, y), n);
    InfiniteItemNeverWearsOut(NewArmor(handle, name, price, level, x), n);
  }

  /** A new potion or spell is usable once, and used up after one use. */
  lemma SingleUseItems(handle: nat, name: string, price: int, level: int, x: int, y: int,
                       attrs: seq<string>, t: SpellType)
    ensures HasUsesLeft(NewPotion(handle, name, price, level, x, attrs))
    ensures !HasUsesLeft(UseOnce(NewPotion(handle, name, price, level, x, attrs)))
    ensures HasUsesLeft(NewSpell(handle, name, price, level, x, y, t))
    ensures !HasUsesLeft(UseOnce(NewSpell(handle, name, price, level, x, y, t)))
  {
  }

  /** isTwoHanded: exactly two hands. */
  predicate IsTwoHanded(w: Item)
    requires IsWeapon(w)
  {
    w.kind.handsRequired == 2
  }

  // ---- Potion attributes ----

  /** The five attributes a potion can name. */
  datatype Attribute = Health | Mana | Strength | Dexterity | Agility

  function AttributeName(a: Attribute): string
  {
    match a
    case Health => "Health"
    case Mana => "Mana"
    case Strength => "Strength"
    case Dexterity => "Dexterity"
    case Agility => "Agility"
  }

  /** Case folding restricted to ASCII letters. */
  function LowerAscii(c: char): char
  {
    if 'A' <= c <= 'Z' then (c as int + 32) as char else c
  }

  /** equalsIgnoreCase on ASCII text: same length, equal after folding each character. */
  predicate EqualsIgnoreCase(a: string, b: string)
  {
    |a| == |b| && forall i :: 0 <= i < |a| ==> LowerAscii(a[i]) == LowerAscii(b[i])
  }

  /** A listed name that selects `a`: its own name or "All", in any letter case. */
  predicate Selects(s: string, a: Attribute)
  {
    EqualsIgnoreCase(s, AttributeName(a)) || EqualsIgnoreCase(s, "All")
  }

  /** anyMatch over the list, scanning from the front. */
  function AnySelects(attrs: seq<string>, a: Attribute): (r: bool)
    ensures r <==> exists k :: 0 <= k < |attrs| && Selects(attrs[k], a)
  {
    if attrs == [] then false
    else if Selects(attrs[0], a) then true
    else
      var rest := AnySelects(attrs[1..], a);
      assert forall k :: 1 <= k < |attrs| ==> attrs[k] == attrs[1..][k - 1];
      rest
  }

  /** affectsHealth, affectsMana, ... : some listed name selects the attribute. */
  function Affects(p: Item, a: Attribute): (r: bool)
    requires IsPotion(p)
    ensures r <==> exists k :: 0 <= k < |p.kind.attributesAffected| && Selects(p.kind.attributesAffected[k], a)
  {
    AnySelects(p.kind.attributesAffected, a)
  }

  /** A listed "All", in any case, makes all five predicates true; an empty list makes all false. */
  lemma AllAndEmptyAttributes(p: Item, k: int, a: Attribute)
    requires IsPotion(p)
    ensures 0 <= k < |p.kind.attributesAffected| && EqualsIgnoreCase(p.kind.attributesAffected[k], "All") ==> Affects(p, a)
    ensures p.kind.attributesAffected == [] ==> !Affects(p, a)
  {
  }

  /** A potion naming one attribute affects that attribute and no other. */
  lemma SingleAttributePotion(p: Item, named: Attribute, a: Attribute)
    requires IsPotion(p) && p.kind.attributesAffected == [AttributeName(named)]
    ensures Affects(p, a) <==> a == named
  {
    // The five names and "All" have pairwise different lengths.
    if a == named {
      assert EqualsIgnoreCase(AttributeName(named), AttributeName(a));
    }
  }
}

=== FILE: java_math.dfy ===
/**
 * Integer helpers that reproduce the arithmetic of the Java source on
 * unbounded integers and exact reals: `Math.abs/max/min`, the `(int)` cast of
 * a `double` (truncation toward zero), `Math.ceil` and truncating `/`.
 */
module JavaMath {

  function Abs(x: int): (r: int)
    ensures r >= 0 && (r == x || r == -x)
  {
    if x < 0 then -x else x
  }

  function Max(a: int, b: int): (r: int)
    ensures r >= a && r >= b && (r == a || r == b)
  {
    if a >= b then a else b
  }

  function Min(a: int, b: int): (r: int)
    ensures r <= a && r <= b && (r == a || r == b)
  {
    if a <= b then a else b
  }

  function MaxReal(a: real, b: real): (r: real)
    ensures r >= a && r >= b && (r == a || r == b)
  {
    if a >= b then a else b
  }

  function MinReal(a: real, b: real): (r: real)
    ensures r <= a && r <= b && (r == a || r == b)
  {
    if a <= b then a else b
  }

  /** Java's `(int) x` for a double `x`: rounds toward zero. */
  function JavaInt(x: real): (r: int)
    ensures x >= 0.0 ==> r >= 0 && r as real <= x < r as real + 1.0
    ensures x < 0.0 ==> r <= 0 && r as real - 1.0 < x <= r as real
  {
    if x >= 0.0 then x.Floor else -((-x).Floor)
  }

  /** Java's `(int) Math.ceil(x)`: the least integer not below `x`. */
  function JavaCeil(x: real): (r: int)
    ensures r as real - 1.0 < x <= r as real
  {
    -((-x).Floor)
  }

  /** Java's integer `/` by a positive divisor, which truncates toward zero
      (Dafny's `/` is Euclidean). */
  function JavaDiv(a: int, b: int): (r: int)
    requires b > 0
    ensures a >= 0 ==> r == a / b
    ensures a < 0 ==> r <= 0 && r * b >= a
  {
    if a >= 0 then a / b else -((-a) / b)
  }

  /** Java's integer `%` by a positive divisor: the remainder takes the sign of the dividend. */
  function JavaRem(a: int, b: int): (r: int)
    requires b > 0
    ensures a >= 0 ==> r == a % b
    ensures a < 0 ==> -b < r <= 0
    ensures a < 0 ==> r == -((-a) % b)
  {
    if a >= 0 then a % b else -((-a) % b)
  }

  /**
   * Truncating a non-negative integer scaled by the rational n/d is integer
   * division: (int) (s * n/d) == s * n / d. The source's casts of
   * `stat * 0.1`, `stat * 1.05` and the like are all of this form.
   */
  lemma TruncatedScale(s: int, n: int, d: int, f: real)
    requires s >= 0 && n >= 0 && d > 0 && f == n as real / d as real
    ensures JavaInt(s as real * f) == s * n / d
  {
    var q := (s * n) / d;
    var rem := (s * n) % d;
    assert s * n == q * d + rem;
    assert s as real * f == (s * n) as real / d as real;
    assert (s * n) as real / d as real == q as real + rem as real / d as real;
    assert 0.0 <= rem as real / d as real < 1.0;
  }
}

=== FILE: market.dfy ===
/**
 * market/Market.java: a market's stock, and the two transactions between
 * it and a hero. Stock lookup and removal go by object identity, exactly
 * as a hero's inventory does, so the stock is an `Inventory` too.
 */
module Markets {
  import opened JavaMath
  import opened GameConstants
  import opened Items
  import opened Inventories
  import opened Heroes

  datatype Market = Market(stock: Inventory)

  /** Why a purchase failed, in the order the checks run. */
  datatype BuyOutcome = Bought | NotInStock | LevelTooLow | NotEnoughGold
  datatype SellOutcome = Sold | NotOwned

  datatype Purchase = Purchase(market: Market, hero: Hero, outcome: BuyOutcome)
  datatype Sale = Sale(market: Market, hero: Hero, outcome: SellOutcome)

  /**
   * buyItem: stock first, then level, then gold. On success the gold is
   * taken with removeGold, the item is appended to the hero's inventory and
   * its first occurrence leaves the stock.
   */
  function BuyItem(m: Market, h: Hero, item: Item): (r: Purchase)
    ensures r.outcome == NotInStock <==> !Contains(m.stock, item)
    ensures r.outcome == LevelTooLow <==> Contains(m.stock, item) && h.level < item.requiredLevel
    ensures r.outcome == NotEnoughGold <==>
      Contains(m.stock, item) && h.level >= item.requiredLevel && !CanAfford(h, item.price)
    ensures r.outcome != Bought ==> r.market == m && r.hero == h
    ensures r.outcome == Bought ==>
      (r.hero == h.(gold := r.hero.gold, inventory := AddItem(h.inventory, item))
       && r.market.stock == RemoveItem(m.stock, item).0
       && (0 <= item.price ==> r.hero.gold == h.gold - item.price)
       && Size(r.market.stock) + Size(r.hero.inventory) == Size(m.stock) + Size(h.inventory))
  {
    if !Contains(m.stock, item) then Purchase(m, h, NotInStock)
    else if h.level < item.requiredLevel then Purchase(m, h, LevelTooLow)
    else if !CanAfford(h, item.price) then Purchase(m, h, NotEnoughGold)
    else
      var paid := RemoveGold(h, item.price).0;
      var buyer := paid.(inventory := AddItem(paid.inventory, item));
      Purchase(Market(RemoveItem(m.stock, item).0), buyer, Bought)
  }

  /** The truncation of price * 0.5. */
  function SellPrice(price: int): (r: int)
    ensures price >= 0 ==> r == price / 2 && 0 <= r <= price
    ensures price < 0 ==> r == -((-price) / 2)
  {
    var r := JavaInt(price as real * SellPriceMultiplier);
    if price >= 0 then
      TruncatedScale(price, 1, 2, SellPriceMultiplier);
      r
    else
      TruncatedScale(-price, 1, 2, SellPriceMultiplier);
      r
  }

  /**
   * sellItem: fails on an item the hero does not own. Otherwise the first
   * occurrence leaves the inventory, half the price (truncated) is added
   * with addGold, and the item is appended to the stock. The equipped
   * weapon and armor are not touched.
   */
  function SellItem(m: Market, h: Hero, item: Item): (r: Sale)
    ensures r.outcome == Sold <==> Contains(h.inventory, item)
    ensures r.outcome == NotOwned ==> r.market == m && r.hero == h
    ensures r.outcome == Sold ==>
      (r.hero == h.(gold := r.hero.gold, inventory := RemoveItem(h.inventory, item).0)
       && r.market.stock == AddItem(m.stock, item)
       && (0 <= item.price ==> r.hero.gold == h.gold + item.price / 2)
       && Size(r.market.stock) + Size(r.hero.inventory) == Size(m.stock) + Size(h.inventory))
  {
    if !Contains(h.inventory, item) then Sale(m, h, NotOwned)
    else
      var seller := h.(inventory := RemoveItem(h.inventory, item).0);
      var paid := AddGold(seller, SellPrice(item.price)).0;
      Sale(Market(AddItem(m.stock, item)), paid, Sold)
  }

  /**
   * Buying an item and selling it straight back returns the hero's
   * inventory and costs the hero the half price not refunded.
   */
  lemma BuyThenSell(m: Market, h: Hero, item: Item)
    requires Contains(m.stock, item) && !Contains(h.inventory, item)
    requires h.level >= item.requiredLevel && 0 <= item.price <= h.gold
    ensures BuyItem(m, h, item).outcome == Bought
    ensures var p := BuyItem(m, h, item);
      SellItem(p.market, p.hero, item) == Sale(SellItem(p.market, p.hero, item).market,
        h.(gold := h.gold - item.price + item.price / 2), Sold)
  {
    var p := BuyItem(m, h, item);
    assert p.hero.inventory == AddItem(h.inventory, item);
    RemoveUndoesAdd(h.inventory, item);
  }

  /** The same round trip gives the stock its contents back, the item moving to the end. */
  lemma BuyThenSellRestocks(m: Market, h: Hero, item: Item)
    requires Contains(m.stock, item) && !Contains(h.inventory, item)
    requires h.level >= item.requiredLevel && 0 <= item.price <= h.gold
    // The stock entry with the item's identity is the item itself.
    requires forall j :: 0 <= j < |m.stock.items| && m.stock.items[j].handle == item.handle ==> m.stock.items[j] == item
    ensures var p := BuyItem(m, h, item);
      multiset(SellItem(p.market, p.hero, item).market.stock.items) == multiset(m.stock.items)
  {
    var p := BuyItem(m, h, item);
    assert p.outcome == Bought;
    RemoveTakesOneEntry(m.stock, item);
    assert m.stock.items[IndexOf(m.stock.items, item).value] == item;
    assert SellItem(p.market, p.hero, item).market.stock.items == p.market.stock.items + [item];
  }

  /** A negative price passes the gold check and removeGold refuses it: the item changes hands for nothing. */
  lemma NegativePriceIsFree(m: Market, h: Hero, item: Item)
    requires Contains(m.stock, item) && h.level >= item.requiredLevel && item.price < 0
    requires h.gold >= 0
    ensures BuyItem(m, h, item).outcome == Bought
    ensures BuyItem(m, h, item).hero.gold == h.gold
    ensures Contains(BuyItem(m, h, item).hero.inventory, item)
  {
  }

  /** Selling the equipped weapon leaves it equipped, although the inventory no longer holds it. */
  lemma SellingKeepsEquipment(m: Market, h: Hero, item: Item)
    requires h.weapon.Some? && h.weapon.value == item && Contains(h.inventory, item)
    requires forall j :: 0 <= j < |h.inventory.items| && h.inventory.items[j].handle == item.handle ==> j == IndexOf(h.inventory.items, item).value
    ensures SellItem(m, h, item).hero.weapon == h.weapon
    ensures !Contains(SellItem(m, h, item).hero.inventory, item)
  {
  }
}

=== FILE: monster.dfy ===
/**
 * characters/Monster.java with its three kinds (Dragon.java,
 * Exoskeleton.java, Spirit.java): base stats, the three spell-debuff
 * accumulators, and the effective stats they produce.
 */
module Monsters {
  import opened JavaMath
  import opened GameConstants
  import opened Characters

  datatype MonsterType = Dragon | Exoskeleton | Spirit

  datatype Monster = Monster(monsterType: MonsterType, name: string, level: int, hp: Gauge,
                             baseDamage: int, defense: int, dodgeChance: real,
                             damageReduction: real, defenseReduction: real, dodgeReduction: real)

  predicate IsAlive(m: Monster) { Characters.IsAlive(m.hp) }
  predicate IsFainted(m: Monster) { Characters.IsFainted(m.hp) }

  /** The Monster constructor: full HP, dodge given in percent, no debuffs yet. */
  function MonsterBase(t: MonsterType, name: string, level: int, hp: int,
                       baseDamage: int, defense: int, dodgePercent: real): (m: Monster)
    ensures m.monsterType == t && m.name == name && m.level == level
    ensures m.hp.current == hp && m.hp.maximum == hp
    ensures m.baseDamage == baseDamage && m.defense == defense && m.dodgeChance * 100.0 == dodgePercent
    ensures m.damageReduction == 0.0 && m.defenseReduction == 0.0 && m.dodgeReduction == 0.0
  {
    Monster(t, name, level, Full(hp), baseDamage, defense, dodgePercent / 100.0, 0.0, 0.0, 0.0)
  }

  /** A stat raised by a 10% boost, truncated. */
  function Boost(s: int, boost: real): (r: int)
    requires boost == 0.1
    ensures s >= 0 ==> r == s + s / 10 && r >= s
  {
    var r := JavaInt(s as real * (1.0 + boost));
    if s >= 0 then
      TruncatedScale(s, 11, 10, 1.1);
      assert s * 11 / 10 == s + s / 10;
      r
    else r
  }

  /** Dragon: the base damage gets the 10% boost; defense and dodge stay as the base constructor set them. */
  function NewDragon(name: string, level: int, hp: int, baseDamage: int, defense: int, dodgePercent: real): (m: Monster)
    ensures m == MonsterBase(Dragon, name, level, hp, baseDamage, defense, dodgePercent).(baseDamage := m.baseDamage)
    ensures baseDamage >= 0 ==> m.baseDamage == baseDamage + baseDamage / 10 && m.baseDamage >= baseDamage
  {
    var m := MonsterBase(Dragon, name, level, hp, baseDamage, defense, dodgePercent);
    m.(baseDamage := Boost(m.baseDamage, DragonDamageBoost))
  }

  /** Exoskeleton: the defense gets the 10% boost; damage and dodge stay. */
  function NewExoskeleton(name: string, level: int, hp: int, baseDamage: int, defense: int, dodgePercent: real): (m: Monster)
    ensures m == MonsterBase(Exoskeleton, name, level, hp, baseDamage, defense, dodgePercent).(defense := m.defense)
    ensures defense >= 0 ==> m.defense == defense + defense / 10 && m.defense >= defense
  {
    var m := MonsterBase(Exoskeleton, name, level, hp, baseDamage, defense, dodgePercent);
    m.(defense := Boost(m.defense, ExoskeletonDefenseBoost))
  }

  /** Spirit: the dodge chance is multiplied by 1.1, with no truncation; damage and defense stay. */
  function NewSpirit(name: string, level: int, hp: int, baseDamage: int, defense: int, dodgePercent: real): (m: Monster)
    ensures m == MonsterBase(Spirit, name, level, hp, baseDamage, defense, dodgePercent).(dodgeChance := m.dodgeChance)
    ensures m.dodgeChance * 1000.0 == dodgePercent * 11.0
    ensures dodgePercent >= 0.0 ==> m.dodgeChance >= dodgePercent / 100.0
  {
    var m := MonsterBase(Spirit, name, level, hp, baseDamage, defense, dodgePercent);
    m.(dodgeChance := m.dodgeChance * (1.0 + SpiritDodgeBoost))
  }

  /** The subtype constructor for a given monster type. */
  function NewMonster(t: MonsterType, name: string, level: int, hp: int, baseDamage: int, defense: int, dodgePercent: real): (m: Monster)
    ensures m.monsterType == t && m.hp == Full(hp) && m.name == name && m.level == level
    ensures m.damageReduction == 0.0 && m.defenseReduction == 0.0 && m.dodgeReduction == 0.0
  {
    match t
    case Dragon => NewDragon(name, level, hp, baseDamage, defense, dodgePercent)
    case Exoskeleton => NewExoskeleton(name, level, hp, baseDamage, defense, dodgePercent)
    case Spirit => NewSpirit(name, level, hp, baseDamage, defense, dodgePercent)
  }

  // ---- Effective stats ----

  /** The truncation of stat * (1 - reduction). */
  function Reduced(s: int, reduction: real): (r: int)
    ensures s >= 0 && 0.0 <= reduction <= 1.0 ==> 0 <= r <= s
    ensures reduction == 0.0 ==> r == s
    ensures reduction == 1.0 ==> r == 0
    ensures s as real * (1.0 - reduction) >= 0.0 ==> r as real <= s as real * (1.0 - reduction) < r as real + 1.0
    ensures s as real * (1.0 - reduction) < 0.0 ==> r as real - 1.0 < s as real * (1.0 - reduction) <= r as real
  {
    var x := s as real * (1.0 - reduction);
    var r := JavaInt(x);
    assert x >= 0.0 ==> r as real <= x < r as real + 1.0;
    assert x < 0.0 ==> r as real - 1.0 < x <= r as real;
    if s >= 0 && 0.0 <= reduction <= 1.0 then
      ReducedInRange(s, reduction, x);
      r
    else
      r
  }

  /** A non-negative stat scaled by 1 - reduction, for a reduction in [0, 1], stays between 0 and the stat. */
  lemma ReducedInRange(s: int, reduction: real, x: real)
    requires s >= 0 && 0.0 <= reduction <= 1.0 && x == s as real * (1.0 - reduction)
    ensures 0.0 <= x <= s as real
  {
    assert x == s as real - s as real * reduction;
    assert s as real * reduction >= 0.0;
  }

  /** getEffectiveDamage: base damage after the ice debuff. */
  function EffectiveDamage(m: Monster): (r: int)
    ensures m.baseDamage >= 0 && 0.0 <= m.damageReduction <= 1.0 ==> 0 <= r <= m.baseDamage
    ensures m.damageReduction == 0.0 ==> r == m.baseDamage
    ensures m.baseDamage >= 0 && 0.0 <= m.damageReduction <= 1.0 ==>
      r as real <= m.baseDamage as real * (1.0 - m.damageReduction) < r as real + 1.0
  {
    Reduced(m.baseDamage, m.damageReduction)
  }

  /** getEffectiveDefense: defense after the fire debuff. */
  function EffectiveDefense(m: Monster): (r: int)
    ensures m.defense >= 0 && 0.0 <= m.defenseReduction <= 1.0 ==> 0 <= r <= m.defense
    ensures m.defenseReduction == 0.0 ==> r == m.defense
    ensures m.defense >= 0 && 0.0 <= m.defenseReduction <= 1.0 ==>
      r as real <= m.defense as real * (1.0 - m.defenseReduction) < r as real + 1.0
  {
    Reduced(m.defense, m.defenseReduction)
  }

  /** getEffectiveDodgeChance: dodge after the lightning debuff, never negative. */
  function EffectiveDodgeChance(m: Monster): (r: real)
    ensures r >= 0.0
    ensures m.dodgeReduction >= 0.0 ==> r <= MaxReal(0.0, m.dodgeChance)
    ensures m.dodgeChance - m.dodgeReduction >= 0.0 ==> r == m.dodgeChance - m.dodgeReduction
  {
    MaxReal(0.0, m.dodgeChance - m.dodgeReduction)
  }

  // ---- Debuffs ----

  /** applyIceDebuff: the damage accumulator grows by the amount, capped at 1; nothing else changes. */
  function ApplyIceDebuff(m: Monster, reduction: real): (r: Monster)
    ensures r == m.(damageReduction := r.damageReduction)
    ensures r.damageReduction <= 1.0
    ensures r.damageReduction == m.damageReduction + reduction || r.damageReduction == 1.0
    ensures reduction >= 0.0 && m.damageReduction <= 1.0 ==> m.damageReduction <= r.damageReduction
    ensures m.damageReduction + reduction <= 1.0 ==> r.damageReduction == m.damageReduction + reduction
    ensures m.damageReduction + reduction >= 1.0 ==> r.damageReduction == 1.0
  {
    m.(damageReduction := MinReal(1.0, m.damageReduction + reduction))
  }

  /** applyFireDebuff: the defense accumulator grows by the amount, capped at 1; nothing else changes. */
  function ApplyFireDebuff(m: Monster, reduction: real): (r: Monster)
    ensures r == m.(defenseReduction := r.defenseReduction)
    ensures r.defenseReduction <= 1.0
    ensures r.defenseReduction == m.defenseReduction + reduction || r.defenseReduction == 1.0
    ensures reduction >= 0.0 && m.defenseReduction <= 1.0 ==> m.defenseReduction <= r.defenseReduction
    ensures m.defenseReduction + reduction <= 1.0 ==> r.defenseReduction == m.defenseReduction + reduction
    ensures m.defenseReduction + reduction >= 1.0 ==> r.defenseReduction == 1.0
  {
    m.(defenseReduction := MinReal(1.0, m.defenseReduction + reduction))
  }

  /**
   * applyLightningDebuff: the dodge accumulator grows by the amount, capped
   * at the current dodge chance; nothing else changes.
   */
  function ApplyLightningDebuff(m: Monster, reduction: real): (r: Monster)
    ensures r == m.(dodgeReduction := r.dodgeReduction)
    ensures r.dodgeReduction <= m.dodgeChance
    ensures r.dodgeReduction == m.dodgeReduction + reduction || r.dodgeReduction == m.dodgeChance
    ensures reduction >= 0.0 && m.dodgeReduction <= m.dodgeChance ==> m.dodgeReduction <= r.dodgeReduction
    ensures m.dodgeReduction + reduction <= m.dodgeChance ==> r.dodgeReduction == m.dodgeReduction + reduction
    ensures m.dodgeReduction + reduction >= m.dodgeChance ==> r.dodgeReduction == m.dodgeChance
  {
    m.(dodgeReduction := MinReal(m.dodgeChance, m.dodgeReduction + reduction))
  }

  /** Every accumulator in [0, its cap]. */
  predicate DebuffsInRange(m: Monster)
  {
    0.0 <= m.damageReduction <= 1.0 && 0.0 <= m.defenseReduction <= 1.0
    && 0.0 <= m.dodgeReduction <= m.dodgeChance
  }

  /**
   * A fresh monster with a non-negative dodge has its accumulators in range,
   * and non-negative debuffs keep them there; effective stats then stay
   * between zero and the base stats.
   */
  lemma DebuffsStayInRange(m: Monster, reduction: real)
    requires DebuffsInRange(m) && reduction >= 0.0
    ensures DebuffsInRange(ApplyIceDebuff(m, reduction))
    ensures DebuffsInRange(ApplyFireDebuff(m, reduction))
    ensures DebuffsInRange(ApplyLightningDebuff(m, reduction))
    ensures m.baseDamage >= 0 ==> 0 <= EffectiveDamage(m) <= m.baseDamage
    ensures m.defense >= 0 ==> 0 <= EffectiveDefense(m) <= m.defense
    ensures EffectiveDodgeChance(m) <= m.dodgeChance
  {
  }

  lemma FreshMonsterDebuffsInRange(t: MonsterType, name: string, level: int, hp: int, d: int, def: int, dodgePercent: real)
    requires dodgePercent >= 0.0
    ensures DebuffsInRange(NewMonster(t, name, level, hp, d, def, dodgePercent))
  {
  }
}

=== FILE: monster_controller.dfy ===
/**
 * game/MonsterController.java: the monsters' turn. Every monster found in
 * a row-major scan at the start of the turn acts once, in scan order: it
 * attacks a random hero within one king's step, or, with none in range,
 * steps down one row, or failing that sideways within its row.
 * The random target index and dodge roll of the `k`-th scanned cell are
 * `pick(k)` and `roll(k)`.
 */
module MonsterControllers {
  import opened Wrappers
  import opened CellTypes
  import opened Cells
  import opened Geometry
  import opened Grids
  import opened MovementRules
  import opened EntityTracking
  import opened ValorWorld
  import opened Heroes
  import opened Monsters
  import opened CombatMath
  import opened Battles
  import opened GameContexts
  import BoardGeneration

  /** Hero `j` stands on the board within one king's step of `mpos`. */
  predicate HeroNear(g: Grid, j: HeroRef, mpos: Position)
  {
    HeroPosition(g, j).Some? && InRange(HeroPosition(g, j).value, mpos)
  }

  /** The party indices, below `n`, of heroes on the board within one king's step of `mpos`, in party order. */
  function HeroesInRange(g: Grid, party: seq<Hero>, mpos: Position, n: nat): (r: seq<HeroRef>)
    requires n <= |party|
    ensures forall j :: j in r <==> 0 <= j < n && HeroNear(g, j, mpos)
  {
    if n == 0 then []
    else
      var rest := HeroesInRange(g, party, mpos, n - 1);
      if HeroNear(g, n - 1, mpos) then rest + [n - 1] else rest
  }

  /** Strictly increasing party indices below `n`: party order, no hero twice. */
  predicate InPartyOrder(s: seq<HeroRef>, n: nat)
  {
    (forall a, b :: 0 <= a < b < |s| ==> s[a] < s[b]) && forall a :: 0 <= a < |s| ==> s[a] < n
  }

  /** The heroes in range are listed in party order, each once. */
  lemma {:induction false} HeroesInRangeAscending(g: Grid, party: seq<Hero>, mpos: Position, n: nat)
    requires n <= |party|
    ensures InPartyOrder(HeroesInRange(g, party, mpos, n), n)
  {
    if n > 0 {
      var rest := HeroesInRange(g, party, mpos, n - 1);
      HeroesInRangeAscending(g, party, mpos, n - 1);
      if HeroNear(g, n - 1, mpos) {
        var r := rest + [n - 1];
        assert HeroesInRange(g, party, mpos, n) == r;
        forall a, b | 0 <= a < b < |r| ensures r[a] < r[b] {
          assert r[a] == rest[a];
          if b < |rest| {
            assert r[b] == rest[b];
          }
        }
      } else {
        assert HeroesInRange(g, party, mpos, n) == rest;
      }
    }
  }

  /** Exactly when `move(from, to, false)` succeeds. */
  predicate MonsterMoveOk(g: Grid, from: Position, to: Position)
  {
    InRange(from, to) && CanEnter(g, to, false)
    && !BlockedByOpposingUnit(g, from, to, false) && Slot(At(g, from), false).Some?
  }

  /** The first same-row neighbour, from index `k` of `ns` on, that the monster may enter and move to. */
  function FirstLateral(g: Grid, from: Position, ns: seq<Position>, k: nat): (r: Option<Position>)
    requires k <= |ns|
    ensures r.Some? ==> (exists j :: k <= j < |ns| && ns[j] == r.value) && r.value.row == from.row && MonsterMoveOk(g, from, r.value)
    ensures r.None? ==> forall j :: k <= j < |ns| && ns[j].row == from.row ==> !MonsterMoveOk(g, from, ns[j])
    decreases |ns| - k
  {
    if k == |ns| then None
    else if ns[k].row == from.row && CanEnter(g, ns[k], false) && MonsterMoveOk(g, from, ns[k]) then Some(ns[k])
    else FirstLateral(g, from, ns, k + 1)
  }

  /**
   * Where a monster with no hero in range goes: one row down when it may
   * move there, otherwise the first of its left and right neighbours it
   * may move to, otherwise nowhere. It never goes up.
   */
  function StepTarget(g: Grid, from: Position): (r: Option<Position>)
    requires InBounds(from)
    ensures MonsterMoveOk(g, from, from.MoveDown()) ==> r == Some(from.MoveDown())
    ensures r.Some? ==> MonsterMoveOk(g, from, r.value) && r.value.row >= from.row
    ensures r.Some? && r.value != from.MoveDown() ==>
      r.value.row == from.row && Manhattan(from, r.value) == 1 && !MonsterMoveOk(g, from, from.MoveDown())
    ensures r.None? <==> (!MonsterMoveOk(g, from, from.MoveDown())
      && forall q :: InBounds(q) && q.row == from.row && Manhattan(from, q) == 1 ==> !MonsterMoveOk(g, from, q))
  {
    var forward := from.MoveDown();
    if InBounds(forward) && CanEnter(g, forward, false) && MonsterMoveOk(g, from, forward) then Some(forward)
    else
      var ns := CheckedNeighbors(from);
      var r := FirstLateral(g, from, ns, 0);
      if r.Some? then
        var j :| 0 <= j < |ns| && ns[j] == r.value;
        assert Manhattan(from, ns[j]) == 1;
        r
      else r
  }

  /**
   * The attack of monster `m` at `mpos` on the hero the draw `pick` selects
   * among those in range: a roll below the target's dodge chance leaves the
   * party as it was, otherwise the target loses the monster's hit damage;
   * nobody else changes.
   */
  function AttackInRange(g: Grid, party: seq<Hero>, mpos: Position, m: Monster, pick: nat, roll: real): (r: seq<Hero>)
    requires HeroesInRange(g, party, mpos, |party|) != []
    ensures OnlyHpLost(party, r)
    ensures var inRange := HeroesInRange(g, party, mpos, |party|);
      var t := inRange[pick % |inRange|];
      t < |party| && HeroNear(g, t, mpos)
      && (roll < DodgeChance(party[t]) ==> r == party)
      && (roll >= DodgeChance(party[t]) ==> r[t] == DamageHero(party[t], MonsterHitDamage(m, party[t])))
      && forall j :: 0 <= j < |party| && j != t ==> r[j] == party[j]
  {
    var inRange := HeroesInRange(g, party, mpos, |party|);
    var t := inRange[pick % |inRange|];
    assert t in inRange;
    var h := party[t];
    if roll < DodgeChance(h) then party
    else party[t := DamageHero(h, MonsterHitDamage(m, h))]
  }

  /** The move of the monster at `mpos` to its step target, if it has one. */
  function StepMonsterAt(w: Board, mpos: Position): (r: Board)
    requires InBounds(mpos)
    ensures r.ids == w.ids
    ensures StepTarget(w.grid, mpos).None? ==> r == w
    ensures StepTarget(w.grid, mpos).Some? ==> Relocated(w.grid, r.grid, mpos, StepTarget(w.grid, mpos).value, false)
    ensures |MonsterCells(r.grid)| == |MonsterCells(w.grid)|
  {
    match StepTarget(w.grid, mpos)
    case None => w
    case Some(to) =>
      var r := Move(w, mpos, to, false).0;
      RelocationKeepsCount(w.grid, r.grid, HasMonster, mpos, to);
      r
  }

  /** A step moves one monster and nothing else: heroes, terrain and known monsters stay so. */
  lemma StepKeepsHeroesAndRecords(w: Board, mpos: Position, roster: Roster)
    requires InBounds(mpos) && MonstersKnown(w.grid, roster)
    ensures var r := StepMonsterAt(w, mpos);
      MonstersKnown(r.grid, roster)
      && forall q :: InBounds(q) ==> At(r.grid, q).hero == At(w.grid, q).hero && KindAt(r.grid, q) == KindAt(w.grid, q)
  {
  }

  /**
   * One monster's action at `mpos`: with a hero in range it attacks and
   * stays, otherwise it steps to its step target if it has one. A cell
   * emptied earlier in the turn is skipped.
   */
  function MonsterAct(gs: GameState, mpos: Position, pick: nat, roll: real): (r: GameState)
    requires InBounds(mpos) && MonstersKnown(gs.world.grid, gs.roster)
    ensures r == gs.(world := r.world, party := r.party)
    ensures r.world.ids == gs.world.ids
    ensures r.world == gs.world || r.party == gs.party
    ensures OnlyHpLost(gs.party, r.party)
    ensures forall q :: InBounds(q) ==> At(r.world.grid, q).hero == At(gs.world.grid, q).hero && KindAt(r.world.grid, q) == KindAt(gs.world.grid, q)
    ensures |MonsterCells(r.world.grid)| == |MonsterCells(gs.world.grid)|
    ensures MonstersKnown(r.world.grid, r.roster)
    ensures !HasMonster(At(gs.world.grid, mpos)) ==> r == gs
    ensures HeroesInRange(gs.world.grid, gs.party, mpos, |gs.party|) != [] ==> r.world == gs.world
    ensures HasMonster(At(gs.world.grid, mpos)) && HeroesInRange(gs.world.grid, gs.party, mpos, |gs.party|) != [] ==>
      r.party == AttackInRange(gs.world.grid, gs.party, mpos, gs.roster.records[At(gs.world.grid, mpos).monster.value], pick, roll)
    ensures HasMonster(At(gs.world.grid, mpos)) && HeroesInRange(gs.world.grid, gs.party, mpos, |gs.party|) == [] ==>
      r.party == gs.party
      && (StepTarget(gs.world.grid, mpos).None? ==> r == gs)
      && (StepTarget(gs.world.grid, mpos).Some? ==>
            Relocated(gs.world.grid, r.world.grid, mpos, StepTarget(gs.world.grid, mpos).value, false))
    ensures r.world != gs.world ==>
      StepTarget(gs.world.grid, mpos).Some? && Relocated(gs.world.grid, r.world.grid, mpos, StepTarget(gs.world.grid, mpos).value, false)
  {
    var g := gs.world.grid;
    if !HasMonster(At(g, mpos)) then gs
    else if HeroesInRange(g, gs.party, mpos, |gs.party|) != [] then
      var m := gs.roster.records[At(g, mpos).monster.value];
      gs.(party := AttackInRange(g, gs.party, mpos, m, pick, roll))
    else
      StepKeepsHeroesAndRecords(gs.world, mpos, gs.roster);
      gs.(world := StepMonsterAt(gs.world, mpos))
  }

  /**
   * A hero in range is attacked whether or not it has fainted, so a monster
   * next to a fainted hero that the board still shows stays where it is,
   * and the fainted hero's HP stays at 0.
   */
  lemma FaintedHeroStillDrawsFire(gs: GameState, mpos: Position, pick: nat, roll: real, t: HeroRef)
    requires InBounds(mpos) && MonstersKnown(gs.world.grid, gs.roster) && HasMonster(At(gs.world.grid, mpos))
    requires t < |gs.party| && HeroNear(gs.world.grid, t, mpos)
    requires Heroes.IsFainted(gs.party[t]) && gs.party[t].hp.current == 0
    ensures MonsterAct(gs, mpos, pick, roll).world == gs.world
    ensures MonsterAct(gs, mpos, pick, roll).party[t] == gs.party[t]
  {
    assert t in HeroesInRange(gs.world.grid, gs.party, mpos, |gs.party|);
  }

  /**
   * With the wall columns closed, a monster never steps into a wall: its
   * only sideways moves are to cells it may enter.
   */
  lemma MonsterStepAvoidsWalls(g: Grid, from: Position)
    requires InBounds(from)
    requires forall p :: InBounds(p) && BoardGeneration.IsWallColumn(p.col) ==> KindAt(g, p) == Inaccessible
    ensures StepTarget(g, from).Some? ==> !BoardGeneration.IsWallColumn(StepTarget(g, from).value.col)
  {
  }

  /** The cells of a snapshot, each on the board and holding a monster, in strictly increasing row-major order. */
  ghost predicate Snapshot(g: Grid, ps: seq<Position>)
  {
    (forall i :: 0 <= i < |ps| ==> InBounds(ps[i]) && HasMonster(At(g, ps[i])))
    && forall a, b :: 0 <= a < b < |ps| ==> Idx(ps[a]) < Idx(ps[b])
  }

  /** One action leaves every other cell that holds a monster as it was: a step only enters a cell without one. */
  lemma ActionSparesOtherMonsters(s: GameState, from: Position, pick: nat, roll: real, c: Position)
    requires InBounds(from) && MonstersKnown(s.world.grid, s.roster)
    requires InBounds(c) && c != from && HasMonster(At(s.world.grid, c))
    ensures At(MonsterAct(s, from, pick, roll).world.grid, c) == At(s.world.grid, c)
  {
    var r := MonsterAct(s, from, pick, roll);
    if r.world != s.world {
      assert !HasMonster(At(s.world.grid, StepTarget(s.world.grid, from).value));
    }
  }

  /** The snapshot cells from index `k` on still hold the monsters they held in `g0`. */
  ghost predicate Waiting(g0: Grid, g: Grid, ps: seq<Position>, k: nat)
  {
    forall j :: k <= j < |ps| && InBounds(ps[j]) ==> At(g, ps[j]).monster == At(g0, ps[j]).monster
  }

  /** The action at the `k`-th snapshot cell keeps every later snapshot cell waiting. */
  lemma WaitingAfterAction(g0: Grid, s: GameState, ps: seq<Position>, k: nat, pick: nat, roll: real)
    requires k < |ps| && (forall i :: 0 <= i < |ps| ==> InBounds(ps[i])) && MonstersKnown(s.world.grid, s.roster)
    ensures Snapshot(g0, ps) && Waiting(g0, s.world.grid, ps, k) ==> Waiting(g0, MonsterAct(s, ps[k], pick, roll).world.grid, ps, k + 1)
  {
    if Snapshot(g0, ps) && Waiting(g0, s.world.grid, ps, k) {
      forall j | k + 1 <= j < |ps|
        ensures At(MonsterAct(s, ps[k], pick, roll).world.grid, ps[j]).monster == At(g0, ps[j]).monster
      {
        assert Idx(ps[k]) < Idx(ps[j]);
        assert HasMonster(At(g0, ps[j]));
        ActionSparesOtherMonsters(s, ps[k], pick, roll, ps[j]);
      }
    }
  }

  /**
   * The state after the first `k` scanned cells have acted, in scan order.
   * A monster only steps into a cell without a monster, and the cells still
   * to be scanned keep theirs: every monster of the snapshot not yet
   * scanned still stands on its scanned cell.
   */
  function ActUpTo(gs: GameState, ps: seq<Position>, k: nat, pick: nat -> nat, roll: nat -> real): (r: GameState)
    requires k <= |ps| && (forall i :: 0 <= i < |ps| ==> InBounds(ps[i])) && MonstersKnown(gs.world.grid, gs.roster)
    ensures r == gs.(world := r.world, party := r.party)
    ensures r.world.ids == gs.world.ids
    ensures OnlyHpLost(gs.party, r.party)
    ensures forall q :: InBounds(q) ==> At(r.world.grid, q).hero == At(gs.world.grid, q).hero && KindAt(r.world.grid, q) == KindAt(gs.world.grid, q)
    ensures |MonsterCells(r.world.grid)| == |MonsterCells(gs.world.grid)|
    ensures MonstersKnown(r.world.grid, r.roster)
    ensures Snapshot(gs.world.grid, ps) ==> Waiting(gs.world.grid, r.world.grid, ps, k)
    decreases k
  {
    if k == 0 then gs
    else
      var s := ActUpTo(gs, ps, k - 1, pick, roll);
      var r := MonsterAct(s, ps[k - 1], pick(k - 1), roll(k - 1));
      OnlyHpLostTransitive(gs.party, s.party, r.party);
      assert Snapshot(gs.world.grid, ps) ==> Waiting(gs.world.grid, r.world.grid, ps, k) by {
        WaitingAfterAction(gs.world.grid, s, ps, k - 1, pick(k - 1), roll(k - 1));
      }
      r
  }

  /**
   * Each monster of the snapshot acts once: at its turn it still stands on
   * its scanned cell, and if it steps it lands on no cell still to be
   * scanned, so it does not act again.
   */
  lemma SnapshotActsOnce(gs: GameState, ps: seq<Position>, k: nat, pick: nat -> nat, roll: nat -> real)
    requires k < |ps| && Snapshot(gs.world.grid, ps) && MonstersKnown(gs.world.grid, gs.roster)
    ensures var s := ActUpTo(gs, ps, k, pick, roll);
      At(s.world.grid, ps[k]).monster == At(gs.world.grid, ps[k]).monster
      && (ActUpTo(gs, ps, k + 1, pick, roll).world != s.world ==>
            StepTarget(s.world.grid, ps[k]).Some? && StepTarget(s.world.grid, ps[k]).value !in ps[k + 1..])
  {
    var s := ActUpTo(gs, ps, k, pick, roll);
    var r := ActUpTo(gs, ps, k + 1, pick, roll);
    assert r == MonsterAct(s, ps[k], pick(k), roll(k));
    if r.world != s.world {
      var to := StepTarget(s.world.grid, ps[k]).value;
      assert !HasMonster(At(s.world.grid, to));
      forall j | k + 1 <= j < |ps| ensures ps[j] != to {
        assert HasMonster(At(s.world.grid, ps[j]));
      }
    }
  }

  /**
   * performMonstersTurn: nothing happens once the game has stopped;
   * otherwise each monster of the row-major snapshot takes its action in
   * turn, so the party only loses HP, heroes stay on their cells, the
   * terrain and the monster count stay, and every monster stays known.
   * In a running game the turn is the fold `ActUpTo` over the whole
   * snapshot, and a lone monster's turn is its own action.
   */
  function PerformMonstersTurn(gs: GameState, pick: nat -> nat, roll: nat -> real): (r: GameState)
    requires MonstersKnown(gs.world.grid, gs.roster)
    ensures !gs.gameRunning ==> r == gs
    ensures r == gs.(world := r.world, party := r.party)
    ensures r.world.ids == gs.world.ids
    ensures OnlyHpLost(gs.party, r.party)
    ensures forall q :: InBounds(q) ==> At(r.world.grid, q).hero == At(gs.world.grid, q).hero && KindAt(r.world.grid, q) == KindAt(gs.world.grid, q)
    ensures |MonsterCells(r.world.grid)| == |MonsterCells(gs.world.grid)|
    ensures MonstersKnown(r.world.grid, r.roster)
    ensures Valid(gs) ==> Valid(r)
    ensures gs.gameRunning && |MonsterCells(gs.world.grid)| == 1 ==>
      r == MonsterAct(gs, MonsterCells(gs.world.grid)[0], pick(0), roll(0))
    ensures gs.gameRunning ==>
      r == ActUpTo(gs, MonsterCells(gs.world.grid), |MonsterCells(gs.world.grid)|, pick, roll)
  {
    var ps := MonsterCells(gs.world.grid);
    if !gs.gameRunning then gs
    else
      assert |ps| == 1 ==> ActUpTo(gs, ps, 1, pick, roll) == MonsterAct(gs, ps[0], pick(0), roll(0));
      ActUpTo(gs, ps, |ps|, pick, roll)
  }

  /**
   * In a running game every monster of the snapshot gets its turn on the
   * cell it was scanned on: the `k`-th action is that monster's own.
   */
  lemma EveryMonsterGetsItsTurn(gs: GameState, pick: nat -> nat, roll: nat -> real, k: nat)
    requires MonstersKnown(gs.world.grid, gs.roster) && gs.gameRunning
    requires k < |MonsterCells(gs.world.grid)|
    ensures var ps := MonsterCells(gs.world.grid);
      HasMonster(At(ActUpTo(gs, ps, k, pick, roll).world.grid, ps[k]))
      && At(ActUpTo(gs, ps, k, pick, roll).world.grid, ps[k]).monster == At(gs.world.grid, ps[k]).monster
  {
    SnapshotActsOnce(gs, MonsterCells(gs.world.grid), k, pick, roll);
  }

  /** With no monster on the board the turn changes nothing. */
  lemma EmptyBoardTurnIsIdle(gs: GameState, pick: nat -> nat, roll: nat -> real)
    requires MonstersKnown(gs.world.grid, gs.roster)
    requires forall q :: InBounds(q) ==> !HasMonster(At(gs.world.grid, q))
    ensures PerformMonstersTurn(gs, pick, roll) == gs
  {
  }
}

=== FILE: monster_factory.dfy ===
/**
 * Monster creation shared by game/MonsterSpawner.java and
 * managers/MonsterManager.java: the three template pools, the copy of the
 * template closest to a target level, the random choice of pool with its
 * fixed fallback order, and the party's highest level.
 */
module MonsterFactories {
  import opened Wrappers
  import opened JavaMath
  import opened GameConstants
  import opened Characters
  import opened Heroes
  import opened Monsters

  /** The template lists of the three monster kinds. */
  datatype Pools = Pools(dragons: seq<Monster>, exoskeletons: seq<Monster>, spirits: seq<Monster>)

  /** Each list holds only monsters of its own kind, as its Java element type promises. */
  predicate WellTyped(p: Pools)
  {
    (forall k :: 0 <= k < |p.dragons| ==> p.dragons[k].monsterType == Dragon)
    && (forall k :: 0 <= k < |p.exoskeletons| ==> p.exoskeletons[k].monsterType == Exoskeleton)
    && (forall k :: 0 <= k < |p.spirits| ==> p.spirits[k].monsterType == Spirit)
  }

  predicate AllEmpty(p: Pools)
  {
    p.dragons == [] && p.exoskeletons == [] && p.spirits == []
  }

  /** How far a template's level is from the target. */
  function LevelGap(t: Monster, target: int): nat
  {
    Abs(t.level - target)
  }

  /** The scan from index `i` on, with `best` the closest template so far. */
  function ClosestFrom(ts: seq<Monster>, target: int, best: nat, i: nat): (k: nat)
    requires best < |ts| && best <= i <= |ts|
    requires forall j :: 0 <= j < i ==> LevelGap(ts[best], target) <= LevelGap(ts[j], target)
    requires forall j :: 0 <= j < best ==> LevelGap(ts[j], target) > LevelGap(ts[best], target)
    ensures k < |ts|
    ensures forall j :: 0 <= j < |ts| ==> LevelGap(ts[k], target) <= LevelGap(ts[j], target)
    ensures forall j :: 0 <= j < k ==> LevelGap(ts[j], target) > LevelGap(ts[k], target)
    decreases |ts| - i
  {
    if i == |ts| then best
    else if LevelGap(ts[i], target) < LevelGap(ts[best], target) then ClosestFrom(ts, target, i, i + 1)
    else ClosestFrom(ts, target, best, i + 1)
  }

  /**
   * The template createMonsterOfLevel copies: one whose level is closest to
   * the target, and, since only a strictly closer one replaces the current
   * best, the earliest of those.
   */
  function ClosestTemplate(ts: seq<Monster>, target: int): (k: nat)
    requires |ts| > 0
    ensures k < |ts|
    ensures forall j :: 0 <= j < |ts| ==> LevelGap(ts[k], target) <= LevelGap(ts[j], target)
    ensures forall j :: 0 <= j < k ==> LevelGap(ts[j], target) > LevelGap(ts[k], target)
  {
    ClosestFrom(ts, target, 0, 0)
  }

  /**
   * A new monster built from a template: the template's kind, name, level,
   * damage, defense and dodge (passed in percent) go through the kind's
   * constructor again, with hit points 150 per level.
   */
  function CloneAtLevel(t: Monster): (m: Monster)
    ensures m.monsterType == t.monsterType && m.name == t.name && m.level == t.level
    ensures m.hp == Full(150 * t.level)
    ensures m.damageReduction == 0.0 && m.defenseReduction == 0.0 && m.dodgeReduction == 0.0
  {
    var hp := JavaInt(t.level as real * MonsterHpMultiplier);
    assert hp == 150 * t.level;
    NewMonster(t.monsterType, t.name, t.level, hp, t.baseDamage, t.defense, t.dodgeChance * 100.0)
  }

  /**
   * The kind's boost is applied to the template's already boosted stat, so
   * a copy of a dragon hits harder than its template, a copy of an
   * exoskeleton defends better and a copy of a spirit dodges more.
   */
  lemma CloneBoostsAgain(t: Monster)
    ensures t.monsterType == Dragon && t.baseDamage >= 0 ==>
      CloneAtLevel(t).baseDamage == t.baseDamage + t.baseDamage / 10
      && CloneAtLevel(t).defense == t.defense && CloneAtLevel(t).dodgeChance == t.dodgeChance
    ensures t.monsterType == Exoskeleton && t.defense >= 0 ==>
      CloneAtLevel(t).defense == t.defense + t.defense / 10
      && CloneAtLevel(t).baseDamage == t.baseDamage && CloneAtLevel(t).dodgeChance == t.dodgeChance
    ensures t.monsterType == Spirit ==>
      CloneAtLevel(t).dodgeChance * 10.0 == t.dodgeChance * 11.0
      && CloneAtLevel(t).baseDamage == t.baseDamage && CloneAtLevel(t).defense == t.defense
  {
  }

  /** Worked example of CloneBoostsAgain: a dragon template of damage 100 yields copies of damage 110, and a copy of a copy 121. */
  lemma CloneOfCloneCompounds(name: string, level: int, hp: int, defense: int, dodgePercent: real)
    ensures var t := NewDragon(name, level, hp, 100, defense, dodgePercent);
      t.baseDamage == 110 && CloneAtLevel(t).baseDamage == 121
      && CloneAtLevel(CloneAtLevel(t)).baseDamage == 133
  {
    var t := NewDragon(name, level, hp, 100, defense, dodgePercent);
    CloneBoostsAgain(t);
    CloneBoostsAgain(CloneAtLevel(t));
  }

  /** `m` is the copy of the earliest template of `ts` whose level is closest to the target. */
  ghost predicate IsClosestCopy(ts: seq<Monster>, target: int, m: Monster)
  {
    exists k :: (0 <= k < |ts| && m == CloneAtLevel(ts[k])
      && (forall j :: 0 <= j < |ts| ==> LevelGap(ts[k], target) <= LevelGap(ts[j], target))
      && (forall j :: 0 <= j < k ==> LevelGap(ts[j], target) > LevelGap(ts[k], target)))
  }

  /** createMonsterOfLevel: the copy of the earliest template closest to the target level. */
  function CreateMonsterOfLevel(ts: seq<Monster>, target: int): (m: Monster)
    requires |ts| > 0
    ensures IsClosestCopy(ts, target, m)
  {
    CloneAtLevel(ts[ClosestTemplate(ts, target)])
  }

  /** A template of exactly the target level is matched when it is the first such one. */
  lemma ExactLevelIsChosen(ts: seq<Monster>, target: int, k: nat)
    requires k < |ts| && ts[k].level == target
    requires forall j :: 0 <= j < k ==> ts[j].level != target
    ensures CreateMonsterOfLevel(ts, target) == CloneAtLevel(ts[k])
  {
    var c := ClosestTemplate(ts, target);
    assert LevelGap(ts[c], target) == 0;
  }

  /** The pool a typeChoice draw of 0, 1 or 2 names; any other value names none. */
  function ChosenPool(p: Pools, choice: int): (ts: seq<Monster>)
    ensures choice == 0 ==> ts == p.dragons
    ensures choice == 1 ==> ts == p.exoskeletons
    ensures choice == 2 ==> ts == p.spirits
    ensures !(0 <= choice <= 2) ==> ts == []
  {
    if choice == 0 then p.dragons
    else if choice == 1 then p.exoskeletons
    else if choice == 2 then p.spirits
    else []
  }

  /** The first non-empty pool in the order dragons, exoskeletons, spirits. */
  function FallbackPool(p: Pools): (ts: seq<Monster>)
    ensures p.dragons != [] ==> ts == p.dragons
    ensures p.dragons == [] && p.exoskeletons != [] ==> ts == p.exoskeletons
    ensures p.dragons == [] && p.exoskeletons == [] ==> ts == p.spirits
  {
    if p.dragons != [] then p.dragons
    else if p.exoskeletons != [] then p.exoskeletons
    else p.spirits
  }

  /**
   * createRandomMonster, with `choice` the typeChoice draw: a copy from the
   * chosen pool when that pool has templates, otherwise from the first
   * non-empty pool, and nothing only when every pool is empty.
   */
  function CreateRandomMonster(p: Pools, choice: int, target: int): (r: Option<Monster>)
    ensures r.None? <==> AllEmpty(p)
    ensures ChosenPool(p, choice) != [] ==> r == Some(CreateMonsterOfLevel(ChosenPool(p, choice), target))
    ensures ChosenPool(p, choice) == [] && !AllEmpty(p) ==> r == Some(CreateMonsterOfLevel(FallbackPool(p), target))
  {
    var chosen := ChosenPool(p, choice);
    if chosen != [] then Some(CreateMonsterOfLevel(chosen, target))
    else if AllEmpty(p) then None
    else Some(CreateMonsterOfLevel(FallbackPool(p), target))
  }

  /**
   * With well-typed pools the draw decides the kind whenever its pool has
   * templates; a draw outside 0..2, or an empty chosen pool, gives a dragon
   * whenever there are dragon templates.
   */
  lemma RandomMonsterKind(p: Pools, choice: int, target: int)
    requires WellTyped(p)
    ensures choice == 0 && p.dragons != [] ==> CreateRandomMonster(p, choice, target).value.monsterType == Dragon
    ensures choice == 1 && p.exoskeletons != [] ==> CreateRandomMonster(p, choice, target).value.monsterType == Exoskeleton
    ensures choice == 2 && p.spirits != [] ==> CreateRandomMonster(p, choice, target).value.monsterType == Spirit
    ensures ChosenPool(p, choice) == [] && p.dragons != [] ==> CreateRandomMonster(p, choice, target).value.monsterType == Dragon
  {
    if !AllEmpty(p) {
      var ts := if ChosenPool(p, choice) != [] then ChosenPool(p, choice) else FallbackPool(p);
      var m := CreateMonsterOfLevel(ts, target);
      var k :| 0 <= k < |ts| && m == CloneAtLevel(ts[k]);
      assert m.monsterType == ts[k].monsterType;
    }
  }

  /** getHighestHeroLevel over the first `n` heroes: at least 1, and no hero above it. */
  function HighestLevelOf(party: seq<Hero>, n: nat): (r: int)
    requires n <= |party|
    ensures r >= 1
    ensures forall j :: 0 <= j < n ==> party[j].level <= r
    ensures r == 1 || exists j :: 0 <= j < n && party[j].level == r
  {
    if n == 0 then 1
    else
      var rest := HighestLevelOf(party, n - 1);
      if party[n - 1].level > rest then party[n - 1].level else rest
  }

  /** getHighestHeroLevel: the largest hero level, but never below 1. */
  function HighestHeroLevel(party: seq<Hero>): (r: int)
    ensures r >= 1
    ensures forall j :: 0 <= j < |party| ==> party[j].level <= r
    ensures r == 1 || exists j :: 0 <= j < |party| && party[j].level == r
  {
    HighestLevelOf(party, |party|)
  }

  /** An empty party, or one of level-0 heroes, still targets level 1. */
  lemma HighestLevelFloor(party: seq<Hero>)
    requires forall j :: 0 <= j < |party| ==> party[j].level <= 1
    ensures HighestHeroLevel(party) == 1
  {
  }
}

=== FILE: monster_manager.dfy ===
/**
 * managers/MonsterManager.java: the older spawner that works on a plain
 * WorldMap. Its monster creation and placement rules are those of
 * game/MonsterSpawner.java; the one difference is that WorldMap's
 * removeMonster also frees the removed monster's id.
 */
module MonsterManagers {
  import opened Wrappers
  import opened CellTypes
  import opened Geometry
  import opened Cells
  import opened Grids
  import opened EntityTracking
  import opened ValorWorld
  import opened Monsters
  import opened MonsterFactories
  import opened GameContexts
  import opened MonsterSpawners

  /** The template pools, the map, and the monster objects the map refers to. */
  datatype MonsterManager = MonsterManager(pools: Pools, world: Board, roster: Roster)

  /**
   * spawnInitialMonsters: one monster per draw unless every pool is empty,
   * each the copy createRandomMonster makes for its draw, returned in draw
   * order; the pools stay and every monster on the board stays known. Where
   * each one stands is `InitialWaveOnNexus`.
   */
  function SpawnInitialMonsters(mm: MonsterManager, target: int, choices: seq<int>): (r: (MonsterManager, seq<Monster>))
    requires |choices| == 3
    ensures r.0.pools == mm.pools
    ensures |r.1| == (if AllEmpty(mm.pools) then 0 else 3)
    ensures forall k :: 0 <= k < |r.1| ==> Some(r.1[k]) == CreateRandomMonster(mm.pools, choices[k], target)
    ensures MonstersKnown(mm.world.grid, mm.roster) && RosterFresh(mm.roster) ==>
      MonstersKnown(r.0.world.grid, r.0.roster) && RosterFresh(r.0.roster)
  {
    var ms := CreateAll(mm.pools, choices, target);
    var (r1, refs) := EnlistAll(mm.roster, ms);
    var w1 := PlaceAtNexusFrom(mm.world, refs, 0, true);
    NewMonstersKnown(mm.world.grid, w1.grid, mm.roster, r1, refs);
    (MonsterManager(mm.pools, w1, r1), ms)
  }

  /**
   * The `k`-th created monster stands on the nexus spawn of lane `k` exactly
   * when that cell is walkable, and the cell then refers to its record.
   */
  lemma InitialWaveOnNexus(mm: MonsterManager, target: int, choices: seq<int>, k: nat)
    requires |choices| == 3
    requires k < |SpawnInitialMonsters(mm, target, choices).1|
    ensures var r := SpawnInitialMonsters(mm, target, choices);
      var spawn := At(r.0.world.grid, MonsterNexusSpawn(k));
      (spawn.monster.Some? <==> Passable(KindAt(mm.world.grid, MonsterNexusSpawn(k))))
      && (spawn.monster.Some? ==> spawn.monster.value in r.0.roster.records && r.0.roster.records[spawn.monster.value] == r.1[k])
  {
    var ms := CreateAll(mm.pools, choices, target);
    var (r1, refs) := EnlistAll(mm.roster, ms);
    var w1 := PlaceAtNexusFrom(mm.world, refs, 0, true);
    assert SpawnInitialMonsters(mm, target, choices) == (MonsterManager(mm.pools, w1, r1), ms);
    assert At(w1.grid, MonsterNexusSpawn(k)).monster == (if Passable(KindAt(mm.world.grid, MonsterNexusSpawn(k))) then Some(refs[k]) else None);
  }

  /**
   * spawnMonstersPeriodically: the lane-by-lane wave of the Valor spawner
   * (`MonsterSpawners.SpawnInLanes`) at the given level; with every pool
   * empty nothing changes. Which cells get monsters is `ManagerWaveFillsOpenLanes`
   * and `ManagerWaveFrame`.
   */
  function SpawnMonstersPeriodically(mm: MonsterManager, target: int, choices: seq<int>): (r: MonsterManager)
    requires |choices| == 3
    ensures r.pools == mm.pools
    ensures AllEmpty(mm.pools) ==> r == mm
    ensures LaneRecordsValid(mm.world.ids) ==> LaneRecordsValid(r.world.ids)
  {
    var wave := SpawnInLanes(mm.world, mm.roster, LaneMonsters(mm.pools, target, choices));
    MonsterManager(mm.pools, wave.world, wave.roster)
  }

  /**
   * Each lane whose scan finds an open cell gets, on the first such cell in
   * row-major order, the copy createRandomMonster makes for that lane's draw,
   * under a new record.
   */
  lemma ManagerWaveFillsOpenLanes(mm: MonsterManager, target: int, choices: seq<int>, lane: int)
    requires |choices| == 3 && 0 <= lane < 3 && !AllEmpty(mm.pools) && FirstOpenLaneCell(mm.world.grid, lane).Some?
    ensures var r := SpawnMonstersPeriodically(mm, target, choices);
      var p := FirstOpenLaneCell(mm.world.grid, lane).value;
      exists ref :: Holds(r.world.grid, r.roster, p, At(mm.world.grid, p),
                          CreateRandomMonster(mm.pools, choices[lane], target).value, ref)
  {
    var ms := LaneMonsters(mm.pools, target, choices);
    var p := FirstOpenLaneCell(mm.world.grid, lane).value;
    var x := CreateRandomMonster(mm.pools, choices[lane], target).value;
    assert ms[lane].value == x;
    SpawnInLanesFillsEachLane(mm.world, mm.roster, ms, lane);
    var wave := SpawnInLanes(mm.world, mm.roster, ms);
    var ref :| Holds(wave.world.grid, wave.roster, p, At(mm.world.grid, p), x, ref);
    var r := SpawnMonstersPeriodically(mm, target, choices);
    assert r.world == wave.world && r.roster == wave.roster;
    assert Holds(r.world.grid, r.roster, p, At(mm.world.grid, p), x, ref);
  }

  /** The periodic wave changes no cell other than where some lane's scan stopped: at most one new monster per lane. */
  lemma ManagerWaveFrame(mm: MonsterManager, target: int, choices: seq<int>, q: Position)
    requires |choices| == 3 && InBounds(q)
    requires forall lane :: 0 <= lane < 3 ==> FirstOpenLaneCell(mm.world.grid, lane) != Some(q)
    ensures At(SpawnMonstersPeriodically(mm, target, choices).world.grid, q) == At(mm.world.grid, q)
  {
    SpawnInLanesFrame(mm.world, mm.roster, LaneMonsters(mm.pools, target, choices), q);
  }

  /**
   * The placement loops of the two spawners lay out the same cells from the
   * same board: freeing the removed monster's id changes only the id table.
   */
  lemma {:induction false} PlacementIgnoresIdFreeing(w: Board, w': Board, refs: seq<MonsterRef>, i: nat)
    requires i <= |refs| && w.grid == w'.grid
    ensures PlaceAtNexusFrom(w, refs, i, true).grid == PlaceAtNexusFrom(w', refs, i, false).grid
    decreases |refs| - i
  {
    if i < |refs| {
      var spawn := MonsterNexusSpawn(i);
      var a1 := ClearSpawn(w, spawn, true);
      var b1 := ClearSpawn(w', spawn, false);
      assert a1.grid == b1.grid;
      var a2 := PlaceMonsterAt(a1, spawn, refs[i]).0;
      var b2 := PlaceMonsterAt(b1, spawn, refs[i]).0;
      PlacementIgnoresIdFreeing(a2, b2, refs, i + 1);
    }
  }

  /** Started from the same state, the opening wave of either spawner leaves the same board cells and records. */
  lemma OpeningWavesAgree(gs: GameState, choices: seq<int>)
    requires |choices| == 3
    ensures var mm := MonsterManager(gs.pools, gs.world, gs.roster);
      var r := SpawnInitialMonsters(mm, HighestHeroLevel(gs.party), choices);
      var s := MonsterSpawners.SpawnMonsters(gs, choices);
      r.0.world.grid == s.0.world.grid && r.0.roster == s.0.roster
  {
    var target := HighestHeroLevel(gs.party);
    var ms := CreateAll(gs.pools, choices, target);
    var (r1, refs) := EnlistAll(gs.roster, ms);
    PlacementIgnoresIdFreeing(gs.world, gs.world, refs, 0);
  }
}

=== FILE: monster_spawner.dfy ===
/**
 * game/MonsterSpawner.java: the opening wave of three monsters on the top
 * nexus spawns and the periodic wave of one monster per lane. Each
 * typeChoice draw is a parameter. The same two procedures appear in
 * managers/MonsterManager.java, which differs only in that its map frees a
 * removed monster's id (`freesId`) and in taking the target level as an
 * argument.
 */
module MonsterSpawners {
  import opened Wrappers
  import opened CellTypes
  import opened Cells
  import opened Geometry
  import opened Grids
  import opened EntityTracking
  import opened ValorWorld
  import opened WorldMaps
  import opened Monsters
  import opened MonsterFactories
  import opened GameContexts

  /** What a spawn leaves behind: the board, the monster records and the new references in spawn order. */
  datatype Wave = Wave(world: Board, roster: Roster, spawned: seq<MonsterRef>)

  // ---- Opening wave ----

  /** One createRandomMonster per draw; all of them fail together, when every pool is empty. */
  function CreateAll(p: Pools, choices: seq<int>, target: int): (ms: seq<Monster>)
    ensures AllEmpty(p) ==> ms == []
    ensures !AllEmpty(p) ==> (|ms| == |choices|
      && forall k :: 0 <= k < |choices| ==> CreateRandomMonster(p, choices[k], target) == Some(ms[k]))
  {
    if choices == [] || AllEmpty(p) then []
    else
      var rest := CreateAll(p, choices[1..], target);
      assert forall k :: 1 <= k < |choices| ==> choices[k] == choices[1..][k - 1];
      [CreateRandomMonster(p, choices[0], target).value] + rest
  }

  /** How far `k` lies past `base`. */
  function Offset(k: int, base: int): int
  {
    k - base
  }

  /** New records for `ms` under consecutive fresh references, earlier records kept. */
  function EnlistAll(r: Roster, ms: seq<Monster>): (res: (Roster, seq<MonsterRef>))
    ensures |res.1| == |ms| && res.0.next == r.next + |ms|
    ensures forall k :: 0 <= k < |ms| ==> res.1[k] == r.next + k
    ensures forall k :: 0 <= k < |ms| ==> res.1[k] in res.0.records && res.0.records[res.1[k]] == ms[k]
    ensures forall key :: key in r.records && key < r.next ==> key in res.0.records && res.0.records[key] == r.records[key]
    ensures forall key :: key in res.0.records ==> key in r.records || r.next <= key < res.0.next
    ensures RosterFresh(r) ==> RosterFresh(res.0)
  {
    var added := map k | r.next <= k < r.next + |ms| :: ms[Offset(k, r.next)];
    (Roster(r.records + added, r.next + |ms|), seq(|ms|, k requires 0 <= k < |ms| => r.next + k))
  }

  /** removeMonster on a spawn cell: the Valor map keeps the old monster's id, WorldMap frees it. */
  function ClearSpawn(w: Board, pos: Position, freesId: bool): (r: Board)
    requires InBounds(pos)
    ensures At(r.grid, pos) == At(w.grid, pos).(monster := None) && OnlyChangedAt(w.grid, r.grid, pos)
    ensures r.ids.heroIds == w.ids.heroIds && r.ids.heroLane == w.ids.heroLane
    ensures !freesId ==> r.ids == w.ids
  {
    if freesId then RemoveMonsterTracked(w, pos).0 else RemoveMonsterAt(w, pos).0
  }

  /**
   * The placement loop from index `i`: monster `i` goes to the spawn of lane
   * `i` after that cell is cleared. Only those spawn cells change, and only
   * in their monster slot; with at most three monsters the spawns are
   * distinct, so each ends up holding its own monster, or none when the
   * cell is an obstacle or inaccessible.
   */
  function PlaceAtNexusFrom(w: Board, refs: seq<MonsterRef>, i: nat, freesId: bool): (r: Board)
    requires i <= |refs|
    ensures forall q :: InBounds(q) ==> At(r.grid, q).hero == At(w.grid, q).hero && KindAt(r.grid, q) == KindAt(w.grid, q)
    ensures forall q :: InBounds(q) && (forall j :: i <= j < |refs| ==> q != MonsterNexusSpawn(j)) ==> At(r.grid, q) == At(w.grid, q)
    ensures forall q :: InBounds(q) && At(r.grid, q).monster.Some? ==>
      At(r.grid, q).monster == At(w.grid, q).monster || At(r.grid, q).monster.value in refs
    ensures |refs| <= 3 ==> forall j :: i <= j < |refs| ==>
      At(r.grid, MonsterNexusSpawn(j)).monster == (if Passable(KindAt(w.grid, MonsterNexusSpawn(j))) then Some(refs[j]) else None)
    ensures r.ids.heroIds == w.ids.heroIds && r.ids.heroLane == w.ids.heroLane
    decreases |refs| - i
  {
    if i == |refs| then w
    else
      var spawn := MonsterNexusSpawn(i);
      var w1 := ClearSpawn(w, spawn, freesId);
      var w2 := PlaceMonsterAt(w1, spawn, refs[i]).0;
      PlaceAtNexusFrom(w2, refs, i + 1, freesId)
  }

  /** Every cell other than the nexus spawns of the first `n` lanes is as it was. */
  ghost predicate SparesOtherCells(g: Grid, g': Grid, n: nat)
  {
    forall q :: InBounds(q) && (forall j :: 0 <= j < n ==> q != MonsterNexusSpawn(j)) ==> At(g', q) == At(g, q)
  }

  /**
   * spawnMonsters / spawnInitialMonsters: one monster per draw unless every
   * pool is empty, each the copy createRandomMonster makes for its draw,
   * recorded under a fresh reference and placed on the nexus spawn of the
   * lane with its index.
   */
  function SpawnAtNexus(w: Board, roster: Roster, pools: Pools, target: int, choices: seq<int>, freesId: bool): (r: Wave)
    ensures |r.spawned| == (if AllEmpty(pools) then 0 else |choices|)
    ensures forall k :: 0 <= k < |r.spawned| ==>
      r.spawned[k] == roster.next + k && r.spawned[k] in r.roster.records
      && Some(r.roster.records[r.spawned[k]]) == CreateRandomMonster(pools, choices[k], target)
    ensures |choices| <= 3 ==> forall k :: 0 <= k < |r.spawned| ==>
      At(r.world.grid, MonsterNexusSpawn(k)).monster
        == (if Passable(KindAt(w.grid, MonsterNexusSpawn(k))) then Some(r.spawned[k]) else None)
    ensures SparesOtherCells(w.grid, r.world.grid, |r.spawned|)
    ensures forall q :: InBounds(q) ==> At(r.world.grid, q).hero == At(w.grid, q).hero && KindAt(r.world.grid, q) == KindAt(w.grid, q)
    ensures LaneRecordsValid(w.ids) ==> LaneRecordsValid(r.world.ids)
    ensures MonstersKnown(w.grid, roster) && RosterFresh(roster) ==> MonstersKnown(r.world.grid, r.roster) && RosterFresh(r.roster)
  {
    var ms := CreateAll(pools, choices, target);
    var (r1, refs) := EnlistAll(roster, ms);
    var w1 := PlaceAtNexusFrom(w, refs, 0, freesId);
    NewMonstersKnown(w.grid, w1.grid, roster, r1, refs);
    Wave(w1, r1, refs)
  }

  /** Records survive and the new references are recorded, so every monster on the board stays known. */
  lemma NewMonstersKnown(g: Grid, g': Grid, roster: Roster, r': Roster, refs: seq<MonsterRef>)
    requires forall q :: InBounds(q) && At(g', q).monster.Some? ==> At(g', q).monster == At(g, q).monster || At(g', q).monster.value in refs
    requires forall k :: 0 <= k < |refs| ==> refs[k] in r'.records
    requires forall key :: key in roster.records && key < roster.next ==> key in r'.records
    ensures MonstersKnown(g, roster) && RosterFresh(roster) ==> MonstersKnown(g', r')
  {
  }

  // ---- Periodic wave ----

  /** The `t`-th cell a lane is scanned in: row t/2, and in each row the lane's two columns in order. */
  function LaneCell(lane: int, t: int): (p: Position)
    requires 0 <= lane < 3 && 0 <= t < 16
    ensures InBounds(p) && p.col in Lanes[lane] && p.row == t / 2
  {
    Position(t / 2, Lanes[lane][t % 2])
  }

  /** The scan from step `t` on for a cell a monster may enter. */
  function FirstOpenIndex(g: Grid, lane: int, t: nat): (r: Option<nat>)
    requires 0 <= lane < 3 && t <= 16
    ensures r.Some? ==> (t <= r.value < 16 && CanEnter(g, LaneCell(lane, r.value), false)
      && forall v :: t <= v < r.value ==> !CanEnter(g, LaneCell(lane, v), false))
    ensures r.None? <==> forall v :: t <= v < 16 ==> !CanEnter(g, LaneCell(lane, v), false)
    decreases 16 - t
  {
    if t == 16 then None
    else if CanEnter(g, LaneCell(lane, t), false) then Some(t)
    else FirstOpenIndex(g, lane, t + 1)
  }

  /** The first lane cell, in scan order, that a monster may enter. */
  function FirstOpenLaneCell(g: Grid, lane: int): (r: Option<Position>)
    requires 0 <= lane < 3
    ensures r.Some? ==> InBounds(r.value) && r.value.col in Lanes[lane] && CanEnter(g, r.value, false)
    ensures r.None? <==> forall v :: 0 <= v < 16 ==> !CanEnter(g, LaneCell(lane, v), false)
  {
    match FirstOpenIndex(g, lane, 0)
    case None => None
    case Some(t) => Some(LaneCell(lane, t))
  }

  /** Two grids that agree on a lane's cells agree on where that lane's scan stops. */
  lemma {:induction false} FirstOpenIsLocal(g: Grid, h: Grid, lane: int, t: nat)
    requires 0 <= lane < 3 && t <= 16
    requires forall v :: 0 <= v < 16 ==> At(g, LaneCell(lane, v)) == At(h, LaneCell(lane, v))
    ensures FirstOpenIndex(g, lane, t) == FirstOpenIndex(h, lane, t)
    decreases 16 - t
  {
    if t < 16 {
      FirstOpenIsLocal(g, h, lane, t + 1);
    }
  }

  /**
   * One lane of spawnMonstersPeriodically, given the monster created for
   * it: placed on the lane's first open cell under a fresh reference; with
   * no monster, or no open cell, nothing changes and the monster is dropped.
   */
  function SpawnInLane(w: Board, roster: Roster, m: Option<Monster>, lane: int): (r: Wave)
    requires 0 <= lane < 3
    ensures m.None? || FirstOpenLaneCell(w.grid, lane).None? ==> r == Wave(w, roster, [])
    ensures m.Some? && FirstOpenLaneCell(w.grid, lane).Some? ==>
      var p := FirstOpenLaneCell(w.grid, lane).value;
      r.spawned == [roster.next] && r.roster == Enlist(roster, m.value).0
      && At(r.world.grid, p) == At(w.grid, p).(monster := Some(roster.next))
      && OnlyChangedAt(w.grid, r.world.grid, p)
    ensures r.world.ids.heroIds == w.ids.heroIds && r.world.ids.heroLane == w.ids.heroLane
    ensures |r.spawned| <= 1 && r.roster.next == roster.next + |r.spawned|
    ensures r.spawned != [] ==> r.spawned[0] == roster.next
  {
    match m
    case None => Wave(w, roster, [])
    case Some(monster) =>
      match FirstOpenLaneCell(w.grid, lane)
      case None => Wave(w, roster, [])
      case Some(p) =>
        var (r1, ref) := Enlist(roster, monster);
        Wave(PlaceMonsterAt(w, p, ref).0, r1, [ref])
  }

  /** A lane spawn leaves the other lanes' scans where they were. */
  lemma LaneSpawnIsLocal(w: Board, roster: Roster, m: Option<Monster>, lane: int, other: int)
    requires 0 <= lane < 3 && 0 <= other < 3 && lane != other
    ensures FirstOpenLaneCell(SpawnInLane(w, roster, m, lane).world.grid, other) == FirstOpenLaneCell(w.grid, other)
  {
    var g' := SpawnInLane(w, roster, m, lane).world.grid;
    forall v | 0 <= v < 16
      ensures At(g', LaneCell(other, v)) == At(w.grid, LaneCell(other, v))
    {
      var q := LaneCell(other, v);
      LanesPartitionColumns(q.col);
    }
    FirstOpenIsLocal(g', w.grid, other, 0);
  }

  /** A lane spawn touches no cell outside its lane and keeps every record below the next reference. */
  lemma LaneSpawnKeepsOthers(w: Board, roster: Roster, m: Option<Monster>, lane: int, q: Position)
    requires 0 <= lane < 3 && InBounds(q) && q.col !in Lanes[lane]
    ensures var r := SpawnInLane(w, roster, m, lane);
      At(r.world.grid, q) == At(w.grid, q)
      && forall key :: key in roster.records && key < roster.next ==> key in r.roster.records && r.roster.records[key] == roster.records[key]
  {
  }

  /** The three lanes in turn, lane `i` with monster `ms[i]`. */
  function SpawnInLanes(w: Board, roster: Roster, ms: seq<Option<Monster>>): (r: Wave)
    requires |ms| == 3
    ensures (forall i :: 0 <= i < 3 ==> ms[i].None?) ==> r == Wave(w, roster, [])
    ensures |r.spawned| <= 3 && r.roster.next == roster.next + |r.spawned|
    ensures LaneRecordsValid(w.ids) ==> LaneRecordsValid(r.world.ids)
  {
    var a := SpawnInLane(w, roster, ms[0], 0);
    var b := SpawnInLane(a.world, a.roster, ms[1], 1);
    var c := SpawnInLane(b.world, b.roster, ms[2], 2);
    Wave(c.world, c.roster, a.spawned + b.spawned + c.spawned)
  }

  /** A lane spawn with a monster and an open cell puts that monster, newly recorded, on the cell. */
  lemma LaneSpawnPlaces(w: Board, roster: Roster, m: Option<Monster>, lane: int)
    requires 0 <= lane < 3 && m.Some? && FirstOpenLaneCell(w.grid, lane).Some?
    ensures var r := SpawnInLane(w, roster, m, lane);
      var p := FirstOpenLaneCell(w.grid, lane).value;
      At(r.world.grid, p).hero == At(w.grid, p).hero && KindAt(r.world.grid, p) == KindAt(w.grid, p)
      && At(r.world.grid, p).monster == Some(roster.next)
      && roster.next in r.roster.records && r.roster.records[roster.next] == m.value
      && r.roster.next == roster.next + 1
  {
  }

  /** The cell a lane spawn filled, with its record, as the later lanes leave it. */
  predicate Holds(g: Grid, r: Roster, p: Position, before: Cell, m: Monster, ref: MonsterRef)
    requires InBounds(p)
  {
    At(g, p).hero == before.hero && At(g, p).kind == before.kind
    && At(g, p).monster == Some(ref) && ref in r.records && r.records[ref] == m && ref < r.next
  }

  /** A later lane spawn keeps a filled cell of another lane and its record. */
  lemma LaterLaneKeeps(w: Board, roster: Roster, m: Option<Monster>, lane: int, p: Position, before: Cell, x: Monster, ref: MonsterRef)
    requires 0 <= lane < 3 && InBounds(p) && p.col !in Lanes[lane]
    requires Holds(w.grid, roster, p, before, x, ref)
    ensures var r := SpawnInLane(w, roster, m, lane); Holds(r.world.grid, r.roster, p, before, x, ref)
  {
    LaneSpawnKeepsOthers(w, roster, m, lane, p);
  }

  /** Lane 0 is filled first and lanes 1 and 2 leave its cell alone. */
  lemma FillsLaneZero(w: Board, roster: Roster, ms: seq<Option<Monster>>)
    requires |ms| == 3 && ms[0].Some? && FirstOpenLaneCell(w.grid, 0).Some?
    ensures var p := FirstOpenLaneCell(w.grid, 0).value;
      var r := SpawnInLanes(w, roster, ms);
      Holds(r.world.grid, r.roster, p, At(w.grid, p), ms[0].value, roster.next)
  {
    var p := FirstOpenLaneCell(w.grid, 0).value;
    LanesPartitionColumns(p.col);
    var a := SpawnInLane(w, roster, ms[0], 0);
    var b := SpawnInLane(a.world, a.roster, ms[1], 1);
    LaneSpawnPlaces(w, roster, ms[0], 0);
    LaterLaneKeeps(a.world, a.roster, ms[1], 1, p, At(w.grid, p), ms[0].value, roster.next);
    LaterLaneKeeps(b.world, b.roster, ms[2], 2, p, At(w.grid, p), ms[0].value, roster.next);
  }

  /** Lane 0 leaves lane 1's scan unchanged, and lane 2 leaves its cell alone. */
  lemma FillsLaneOne(w: Board, roster: Roster, ms: seq<Option<Monster>>)
    requires |ms| == 3 && ms[1].Some? && FirstOpenLaneCell(w.grid, 1).Some?
    ensures var p := FirstOpenLaneCell(w.grid, 1).value;
      var r := SpawnInLanes(w, roster, ms);
      var a := SpawnInLane(w, roster, ms[0], 0);
      Holds(r.world.grid, r.roster, p, At(w.grid, p), ms[1].value, a.roster.next)
  {
    var p := FirstOpenLaneCell(w.grid, 1).value;
    LanesPartitionColumns(p.col);
    var a := SpawnInLane(w, roster, ms[0], 0);
    var b := SpawnInLane(a.world, a.roster, ms[1], 1);
    LaneSpawnIsLocal(w, roster, ms[0], 0, 1);
    LaneSpawnKeepsOthers(w, roster, ms[0], 0, p);
    LaneSpawnPlaces(a.world, a.roster, ms[1], 1);
    LaterLaneKeeps(b.world, b.roster, ms[2], 2, p, At(w.grid, p), ms[1].value, a.roster.next);
  }

  /** Lanes 0 and 1 leave lane 2's scan unchanged. */
  lemma FillsLaneTwo(w: Board, roster: Roster, ms: seq<Option<Monster>>)
    requires |ms| == 3 && ms[2].Some? && FirstOpenLaneCell(w.grid, 2).Some?
    ensures var p := FirstOpenLaneCell(w.grid, 2).value;
      var r := SpawnInLanes(w, roster, ms);
      var a := SpawnInLane(w, roster, ms[0], 0);
      var b := SpawnInLane(a.world, a.roster, ms[1], 1);
      Holds(r.world.grid, r.roster, p, At(w.grid, p), ms[2].value, b.roster.next)
  {
    var p := FirstOpenLaneCell(w.grid, 2).value;
    LanesPartitionColumns(p.col);
    var a := SpawnInLane(w, roster, ms[0], 0);
    var b := SpawnInLane(a.world, a.roster, ms[1], 1);
    LaneSpawnIsLocal(w, roster, ms[0], 0, 2);
    LaneSpawnKeepsOthers(w, roster, ms[0], 0, p);
    LaneSpawnIsLocal(a.world, a.roster, ms[1], 1, 2);
    LaneSpawnKeepsOthers(a.world, a.roster, ms[1], 1, p);
    LaneSpawnPlaces(b.world, b.roster, ms[2], 2);
  }

  /**
   * Since the lanes share no cells, every lane with a monster whose scan
   * finds an open cell on the board as it was gets that monster there.
   */
  lemma SpawnInLanesFillsEachLane(w: Board, roster: Roster, ms: seq<Option<Monster>>, lane: int)
    requires |ms| == 3 && 0 <= lane < 3
    requires ms[lane].Some? && FirstOpenLaneCell(w.grid, lane).Some?
    ensures var r := SpawnInLanes(w, roster, ms);
      var p := FirstOpenLaneCell(w.grid, lane).value;
      exists ref :: Holds(r.world.grid, r.roster, p, At(w.grid, p), ms[lane].value, ref)
  {
    if lane == 0 {
      FillsLaneZero(w, roster, ms);
    } else if lane == 1 {
      FillsLaneOne(w, roster, ms);
    } else {
      FillsLaneTwo(w, roster, ms);
    }
  }

  /** A periodic wave changes only the cells where some lane's scan stopped. */
  lemma SpawnInLanesFrame(w: Board, roster: Roster, ms: seq<Option<Monster>>, q: Position)
    requires |ms| == 3 && InBounds(q)
    requires forall lane :: 0 <= lane < 3 ==> FirstOpenLaneCell(w.grid, lane) != Some(q)
    ensures At(SpawnInLanes(w, roster, ms).world.grid, q) == At(w.grid, q)
  {
    LaneSpawnIsLocal(w, roster, ms[0], 0, 1);
    LaneSpawnIsLocal(w, roster, ms[0], 0, 2);
    var a := SpawnInLane(w, roster, ms[0], 0);
    LaneSpawnIsLocal(a.world, a.roster, ms[1], 1, 2);
  }

  /** One lane spawn keeps every monster on the board known and every reference fresh. */
  lemma LaneSpawnKeepsRecords(w: Board, roster: Roster, m: Option<Monster>, lane: int)
    requires 0 <= lane < 3 && MonstersKnown(w.grid, roster) && RosterFresh(roster)
    ensures var r := SpawnInLane(w, roster, m, lane);
      MonstersKnown(r.world.grid, r.roster) && RosterFresh(r.roster)
  {
  }

  /** A periodic wave keeps every monster on the board known and every reference fresh. */
  lemma SpawnInLanesKeepsRecords(w: Board, roster: Roster, ms: seq<Option<Monster>>)
    requires |ms| == 3
    ensures var r := SpawnInLanes(w, roster, ms);
      MonstersKnown(w.grid, roster) && RosterFresh(roster) ==> MonstersKnown(r.world.grid, r.roster) && RosterFresh(r.roster)
  {
    if MonstersKnown(w.grid, roster) && RosterFresh(roster) {
      var a := SpawnInLane(w, roster, ms[0], 0);
      var b := SpawnInLane(a.world, a.roster, ms[1], 1);
      LaneSpawnKeepsRecords(w, roster, ms[0], 0);
      LaneSpawnKeepsRecords(a.world, a.roster, ms[1], 1);
      LaneSpawnKeepsRecords(b.world, b.roster, ms[2], 2);
    }
  }

  /** The monster created for each lane: spawnMonstersPeriodically's one createRandomMonster per lane. */
  function LaneMonsters(pools: Pools, target: int, choices: seq<int>): (ms: seq<Option<Monster>>)
    requires |choices| == 3
    ensures |ms| == 3 && forall i :: 0 <= i < 3 ==> ms[i] == CreateRandomMonster(pools, choices[i], target)
    ensures AllEmpty(pools) <==> forall i :: 0 <= i < 3 ==> ms[i].None?
  {
    var ms := seq(3, i requires 0 <= i < 3 => CreateRandomMonster(pools, choices[i], target));
    assert ms[0] == CreateRandomMonster(pools, choices[0], target);
    ms
  }

  // ---- The spawner over the shared game state ----

  /**
   * spawnMonsters: three draws at the level of the strongest hero, on the
   * Valor map (whose removeMonster keeps ids); the state stays valid.
   */
  function SpawnMonsters(gs: GameState, choices: seq<int>): (r: (GameState, seq<MonsterRef>))
    requires |choices| == 3
    ensures r.0 == gs.(world := r.0.world, roster := r.0.roster)
    ensures |r.1| == (if AllEmpty(gs.pools) then 0 else 3)
    ensures forall k :: 0 <= k < |r.1| ==> (r.1[k] in r.0.roster.records
      && Some(r.0.roster.records[r.1[k]]) == CreateRandomMonster(gs.pools, choices[k], HighestHeroLevel(gs.party)))
    ensures forall k :: 0 <= k < |r.1| ==>
      At(r.0.world.grid, MonsterNexusSpawn(k)).monster
        == (if Passable(KindAt(gs.world.grid, MonsterNexusSpawn(k))) then Some(r.1[k]) else None)
    ensures Valid(gs) ==> Valid(r.0)
  {
    var wave := SpawnAtNexus(gs.world, gs.roster, gs.pools, HighestHeroLevel(gs.party), choices, false);
    (gs.(world := wave.world, roster := wave.roster), wave.spawned)
  }

  /** spawnMonstersPeriodically at the level of the strongest hero; the state stays valid. */
  function SpawnMonstersPeriodically(gs: GameState, choices: seq<int>): (r: GameState)
    requires |choices| == 3
    ensures r == gs.(world := r.world, roster := r.roster)
    ensures AllEmpty(gs.pools) ==> r == gs
    ensures Valid(gs) ==> Valid(r)
  {
    var ms := LaneMonsters(gs.pools, HighestHeroLevel(gs.party), choices);
    var wave := SpawnInLanes(gs.world, gs.roster, ms);
    SpawnInLanesKeepsRecords(gs.world, gs.roster, ms);
    gs.(world := wave.world, roster := wave.roster)
  }

  /**
   * With some template available, every lane whose scan finds an open cell
   * gets there the copy its draw creates at the strongest hero's level.
   */
  lemma PeriodicWaveFillsOpenLanes(gs: GameState, choices: seq<int>, lane: int)
    requires |choices| == 3 && 0 <= lane < 3 && !AllEmpty(gs.pools) && FirstOpenLaneCell(gs.world.grid, lane).Some?
    ensures var r := SpawnMonstersPeriodically(gs, choices);
      var p := FirstOpenLaneCell(gs.world.grid, lane).value;
      exists ref :: Holds(r.world.grid, r.roster, p, At(gs.world.grid, p),
                          CreateRandomMonster(gs.pools, choices[lane], HighestHeroLevel(gs.party)).value, ref)
  {
    var ms := LaneMonsters(gs.pools, HighestHeroLevel(gs.party), choices);
    var p := FirstOpenLaneCell(gs.world.grid, lane).value;
    var x := CreateRandomMonster(gs.pools, choices[lane], HighestHeroLevel(gs.party)).value;
    assert ms[lane].value == x;
    SpawnInLanesFillsEachLane(gs.world, gs.roster, ms, lane);
    var wave := SpawnInLanes(gs.world, gs.roster, ms);
    var ref :| Holds(wave.world.grid, wave.roster, p, At(gs.world.grid, p), x, ref);
    var r := SpawnMonstersPeriodically(gs, choices);
    assert r.world == wave.world && r.roster == wave.roster;
    assert Holds(r.world.grid, r.roster, p, At(gs.world.grid, p), x, ref);
  }

  /** A periodic wave changes no cell where no lane's scan stopped. */
  lemma PeriodicWaveFrame(gs: GameState, choices: seq<int>, q: Position)
    requires |choices| == 3 && InBounds(q)
    requires forall lane :: 0 <= lane < 3 ==> FirstOpenLaneCell(gs.world.grid, lane) != Some(q)
    ensures At(SpawnMonstersPeriodically(gs, choices).world.grid, q) == At(gs.world.grid, q)
  {
    SpawnInLanesFrame(gs.world, gs.roster, LaneMonsters(gs.pools, HighestHeroLevel(gs.party), choices), q);
  }

  /** A lane spawn only fills a monster slot: heroes and terrain stay. */
  lemma LaneSpawnKeepsHeroes(w: Board, roster: Roster, m: Option<Monster>, lane: int)
    requires 0 <= lane < 3
    ensures var r := SpawnInLane(w, roster, m, lane);
      forall q :: InBounds(q) ==> At(r.world.grid, q).hero == At(w.grid, q).hero && KindAt(r.world.grid, q) == KindAt(w.grid, q)
  {
  }

  /** A periodic wave moves no hero and changes no terrain. */
  lemma PeriodicWaveKeepsHeroes(gs: GameState, choices: seq<int>)
    requires |choices| == 3
    ensures var r := SpawnMonstersPeriodically(gs, choices);
      forall q :: InBounds(q) ==> At(r.world.grid, q).hero == At(gs.world.grid, q).hero && KindAt(r.world.grid, q) == KindAt(gs.world.grid, q)
  {
    var ms := LaneMonsters(gs.pools, HighestHeroLevel(gs.party), choices);
    var a := SpawnInLane(gs.world, gs.roster, ms[0], 0);
    var b := SpawnInLane(a.world, a.roster, ms[1], 1);
    LaneSpawnKeepsHeroes(gs.world, gs.roster, ms[0], 0);
    LaneSpawnKeepsHeroes(a.world, a.roster, ms[1], 1);
    LaneSpawnKeepsHeroes(b.world, b.roster, ms[2], 2);
  }
}

=== FILE: movement_controller.dfy ===
/**
 * game/MovementController.java: a hero's move on the Valor board and the
 * round bookkeeping that follows it, the recall command, and the removal
 * of the monsters a moved hero ends up next to.
 */
module MovementControllers {
  import opened Wrappers
  import opened JavaMath
  import opened CellTypes
  import opened Cells
  import opened Geometry
  import opened Grids
  import opened EntityTracking
  import opened ValorWorld
  import opened Heroes
  import opened MonsterFactories
  import opened GameContexts
  import opened MonsterSpawners
  import opened RespawnManagers

  // ---- Encounters ----

  predicate Distinct(s: seq<MonsterRef>)
  {
    forall a, b :: 0 <= a < b < |s| ==> s[a] != s[b]
  }

  /** No monster reference stands on two cells. */
  ghost predicate MonsterRefsUnique(g: Grid)
  {
    forall p, q :: InBounds(p) && InBounds(q) && At(g, p).monster.Some? && At(g, p).monster == At(g, q).monster ==> p == q
  }

  /** Monster `x` stands on cell `j`, which is within one king's step of `hp`. */
  predicate NearAt(g: Grid, hp: Position, j: int, x: MonsterRef)
    requires 0 <= j < 64
  {
    InRange(hp, PosOf(j)) && g[j].monster == Some(x)
  }

  /** The row-major scan from cell `i` on, adding each monster in range not seen yet. */
  function InRangeMonstersFrom(g: Grid, hp: Position, i: nat, acc: seq<MonsterRef>): (r: seq<MonsterRef>)
    requires i <= 64
    ensures forall x :: x in r <==> x in acc || exists j :: i <= j < 64 && NearAt(g, hp, j, x)
    ensures Distinct(acc) ==> Distinct(r)
    decreases 64 - i
  {
    if i == 64 then acc
    else if InRange(hp, PosOf(i)) && g[i].monster.Some? && g[i].monster.value !in acc then
      var x := g[i].monster.value;
      assert NearAt(g, hp, i, x);
      assert forall y :: y in acc + [x] <==> y in acc || y == x;
      assert Distinct(acc) ==> Distinct(acc + [x]);
      InRangeMonstersFrom(g, hp, i + 1, acc + [x])
    else
      assert forall x :: NearAt(g, hp, i, x) ==> x in acc;
      InRangeMonstersFrom(g, hp, i + 1, acc)
  }

  /** The set collectMonstersInRangeOf gathers: every monster within one king's step of `hp`, each once. */
  function InRangeMonsters(g: Grid, hp: Position): (r: seq<MonsterRef>)
    ensures forall x :: x in r <==> exists q :: InBounds(q) && InRange(hp, q) && At(g, q).monster == Some(x)
    ensures Distinct(r)
  {
    var r := InRangeMonstersFrom(g, hp, 0, []);
    assert forall x :: (exists q :: InBounds(q) && InRange(hp, q) && At(g, q).monster == Some(x)) ==> x in r by {
      forall x | exists q :: InBounds(q) && InRange(hp, q) && At(g, q).monster == Some(x)
        ensures x in r
      {
        var q :| InBounds(q) && InRange(hp, q) && At(g, q).monster == Some(x);
        IdxInjective(q, q);
        assert NearAt(g, hp, Idx(q), x);
      }
    }
    r
  }

  /** removeMonster at the first cell of each reference from index `k` on; the ids stay, as the Valor map keeps them. */
  function RemoveEach(w: Board, refs: seq<MonsterRef>, k: nat): (r: Board)
    requires k <= |refs|
    ensures r.ids == w.ids
    ensures forall q :: InBounds(q) ==> At(r.grid, q).hero == At(w.grid, q).hero && KindAt(r.grid, q) == KindAt(w.grid, q)
    ensures forall q :: InBounds(q) && At(r.grid, q).monster.Some? ==> At(r.grid, q).monster == At(w.grid, q).monster
    ensures MonsterRefsUnique(w.grid) ==> (MonsterRefsUnique(r.grid)
      && forall q :: InBounds(q) ==>
        At(r.grid, q) == (if At(w.grid, q).monster.Some? && At(w.grid, q).monster.value in refs[k..] then At(w.grid, q).(monster := None) else At(w.grid, q)))
    decreases |refs| - k
  {
    if k == |refs| then w
    else
      var w1 := match MonsterPosition(w.grid, refs[k])
        case None => w
        case Some(p) => RemoveMonsterAt(w, p).0;
      assert refs[k..] == [refs[k]] + refs[k + 1..];
      RemoveEach(w1, refs, k + 1)
  }

  /**
   * collectMonstersInRangeOf: the monsters within one king's step of the
   * hero are gathered and taken off the board. With each monster on one
   * cell, exactly the cells in range lose their monster and nothing else
   * changes, so no monster is left in range.
   */
  function CollectMonstersInRangeOf(w: Board, h: HeroRef): (r: (Board, seq<MonsterRef>))
    ensures HeroPosition(w.grid, h).None? ==> r == (w, [])
    ensures HeroPosition(w.grid, h).Some? ==> forall x :: x in r.1 <==>
      exists q :: InBounds(q) && InRange(HeroPosition(w.grid, h).value, q) && At(w.grid, q).monster == Some(x)
    ensures Distinct(r.1)
    ensures r.0.ids == w.ids
    ensures forall q :: InBounds(q) ==> At(r.0.grid, q).hero == At(w.grid, q).hero && KindAt(r.0.grid, q) == KindAt(w.grid, q)
    ensures forall q :: InBounds(q) && At(r.0.grid, q).monster.Some? ==> At(r.0.grid, q).monster == At(w.grid, q).monster
    ensures MonsterRefsUnique(w.grid) && HeroPosition(w.grid, h).Some? ==> forall q :: InBounds(q) ==>
      At(r.0.grid, q) == (if InRange(HeroPosition(w.grid, h).value, q) then At(w.grid, q).(monster := None) else At(w.grid, q))
  {
    match HeroPosition(w.grid, h)
    case None => (w, [])
    case Some(hp) =>
      var refs := InRangeMonsters(w.grid, hp);
      var r := RemoveEach(w, refs, 0);
      assert refs[0..] == refs;
      assert MonsterRefsUnique(w.grid) ==> forall q :: InBounds(q) && At(w.grid, q).monster.Some? ==>
        (At(w.grid, q).monster.value in refs <==> InRange(hp, q));
      (r, refs)
  }

  // ---- Moving a hero ----

  /** The target of a movement key: W, A, S and D (upper case only) step up, left, down and right. */
  function KeyTarget(from: Position, dir: char): (r: Option<Position>)
    ensures r.Some? <==> dir in "WASD"
    ensures r.Some? ==> Manhattan(from, r.value) == 1
    ensures dir == 'W' ==> r == Some(from.MoveUp())
    ensures dir == 'S' ==> r == Some(from.MoveDown())
  {
    if dir == 'W' then Some(from.MoveUp())
    else if dir == 'A' then Some(from.MoveLeft())
    else if dir == 'S' then Some(from.MoveDown())
    else if dir == 'D' then Some(from.MoveRight())
    else None
  }

  /** Why a move command stopped, or that it went through. */
  datatype Outcome = NotPlaced | BadKey | OutOfBounds | Blocked | Moved

  /** The spawn rule of a round: a positive interval that divides the round counter, by Java's `%`. */
  predicate SpawnRound(roundCounter: int, spawnInterval: int)
  {
    spawnInterval > 0 && JavaRem(roundCounter, spawnInterval) == 0
  }

  /** The state after dead heroes are respawned, which every move command starts with. */
  function Respawned(gs: GameState): (r: GameState)
    ensures r == gs.(world := r.world, party := r.party)
  {
    var rs := RespawnDeadHeroes(gs.world, gs.party);
    gs.(world := rs.0, party := rs.1)
  }

  /** A monster step moves one monster to a cell, so no reference comes to stand on two cells. */
  lemma StepKeepsRefsUnique(w: Board, pick: nat)
    ensures MonsterRefsUnique(w.grid) ==> MonsterRefsUnique(StepMonsters(w, pick).grid)
  {
    StepMonstersMovesPicked(w, pick);
    var r := StepMonsters(w, pick);
    if MonsterRefsUnique(w.grid) && MonsterCells(w.grid) != [] {
      var c := MonsterCells(w.grid)[pick % |MonsterCells(w.grid)|];
      if MonsterStepFrom(w.grid, c).Some? {
        var t := MonsterStepFrom(w.grid, c).value;
        forall p, q | InBounds(p) && InBounds(q) && At(r.grid, p).monster.Some? && At(r.grid, p).monster == At(r.grid, q).monster
          ensures p == q
        {
          assert p != c && q != c;
          if p != t && q != t {
            assert At(w.grid, p).monster == At(w.grid, q).monster;
          }
        }
      }
    }
  }

  /** Something is collected exactly when the hero stands on the board with a monster within one step. */
  lemma CollectedIffInRange(w: Board, h: HeroRef)
    ensures var hp := HeroPosition(w.grid, h);
      CollectMonstersInRangeOf(w, h).1 != [] <==>
        hp.Some? && exists q :: InBounds(q) && InRange(hp.value, q) && HasMonster(At(w.grid, q))
  {
    var hp := HeroPosition(w.grid, h);
    var refs := CollectMonstersInRangeOf(w, h).1;
    if refs != [] {
      assert refs[0] in refs;
    }
    if hp.Some? && exists q :: InBounds(q) && InRange(hp.value, q) && HasMonster(At(w.grid, q)) {
      var q :| InBounds(q) && InRange(hp.value, q) && HasMonster(At(w.grid, q));
      assert At(w.grid, q).monster.value in refs;
    }
  }

  /**
   * The encounter after a move: one monster steps, the monsters next to
   * the hero are taken off, and if there were any the hero is as the
   * battle left it. The hero's cell is found before the step, which moves
   * only monsters.
   */
  function Encounter(gs: GameState, stepPick: nat, fought: Hero): (r: GameState)
    requires 0 <= gs.currentHeroIndex < |gs.party|
    ensures r == gs.(world := r.world, party := r.party)
    ensures r.world.ids == gs.world.ids
    ensures r.party == gs.party || r.party == gs.party[gs.currentHeroIndex := fought]
    ensures forall q :: InBounds(q) ==> At(r.world.grid, q).hero == At(gs.world.grid, q).hero && KindAt(r.world.grid, q) == KindAt(gs.world.grid, q)
  {
    var i := gs.currentHeroIndex;
    var w1 := StepMonsters(gs.world, stepPick);
    StepMonstersKeepsHeroes(gs.world, stepPick);
    var (w2, encountered) := CollectMonstersInRangeOf(w1, i);
    gs.(world := w2, party := if encountered != [] then gs.party[i := fought] else gs.party)
  }

  /**
   * The hero is as the battle left it exactly when it is on the board and
   * a monster stood within one step of it after the step; off the board
   * the encounter is the monster step alone.
   */
  lemma EncounterFightsIffInRange(gs: GameState, stepPick: nat, fought: Hero)
    requires 0 <= gs.currentHeroIndex < |gs.party|
    ensures HeroPosition(gs.world.grid, gs.currentHeroIndex).None? ==>
      Encounter(gs, stepPick, fought).world == StepMonsters(gs.world, stepPick)
      && Encounter(gs, stepPick, fought).party == gs.party
    ensures HeroPosition(gs.world.grid, gs.currentHeroIndex).Some? ==>
      var hp := HeroPosition(gs.world.grid, gs.currentHeroIndex).value;
      var w1 := StepMonsters(gs.world, stepPick);
      Encounter(gs, stepPick, fought).party ==
        (if exists q :: InBounds(q) && InRange(hp, q) && HasMonster(At(w1.grid, q))
         then gs.party[gs.currentHeroIndex := fought] else gs.party)
  {
    var w1 := StepMonsters(gs.world, stepPick);
    StepMonstersKeepsHeroes(gs.world, stepPick);
    HeroPositionFromHeroSlots(gs.world.grid, w1.grid, gs.currentHeroIndex);
    CollectedIffInRange(w1, gs.currentHeroIndex);
  }

  /**
   * With each monster on one cell, the encounter empties exactly the cells
   * within one step of the hero, as they stand after the monster step, so
   * no monster is left next to the hero.
   */
  lemma EncounterClearsRange(gs: GameState, stepPick: nat, fought: Hero)
    requires 0 <= gs.currentHeroIndex < |gs.party|
    requires MonsterRefsUnique(gs.world.grid)
    ensures HeroPosition(gs.world.grid, gs.currentHeroIndex).Some? ==>
      var hp := HeroPosition(gs.world.grid, gs.currentHeroIndex).value;
      var w1 := StepMonsters(gs.world, stepPick);
      var r := Encounter(gs, stepPick, fought);
      && (forall q :: InBounds(q) ==>
            At(r.world.grid, q) == (if InRange(hp, q) then At(w1.grid, q).(monster := None) else At(w1.grid, q)))
      && (forall q :: InBounds(q) && InRange(hp, q) ==> !HasMonster(At(r.world.grid, q)))
  {
    var w1 := StepMonsters(gs.world, stepPick);
    StepMonstersKeepsHeroes(gs.world, stepPick);
    HeroPositionFromHeroSlots(gs.world.grid, w1.grid, gs.currentHeroIndex);
    StepKeepsRefsUnique(gs.world, stepPick);
  }

  /** The round count, and a wave when the new count is a spawn round. */
  function CountRound(gs: GameState, waveChoices: seq<int>): (r: GameState)
    requires |waveChoices| == 3
    ensures r == gs.(world := r.world, roster := r.roster, roundCounter := gs.roundCounter + 1)
    ensures !SpawnRound(gs.roundCounter + 1, gs.spawnInterval) ==> r.roster == gs.roster && r.world == gs.world
    ensures SpawnRound(gs.roundCounter + 1, gs.spawnInterval) ==>
      r == SpawnMonstersPeriodically(gs.(roundCounter := gs.roundCounter + 1), waveChoices)
    ensures Valid(gs) ==> Valid(r)
    ensures forall q :: InBounds(q) ==> At(r.world.grid, q).hero == At(gs.world.grid, q).hero && KindAt(r.world.grid, q) == KindAt(gs.world.grid, q)
  {
    var gs1 := gs.(roundCounter := gs.roundCounter + 1);
    PeriodicWaveKeepsHeroes(gs1, waveChoices);
    if SpawnRound(gs1.roundCounter, gs1.spawnInterval) then SpawnMonstersPeriodically(gs1, waveChoices) else gs1
  }

  /** The win checks: the game stops when a hero stands on the top nexus or a monster on the bottom one. */
  function CheckWin(gs: GameState): (r: GameState)
    ensures r == gs.(gameRunning := r.gameRunning)
    ensures r.gameRunning == (gs.gameRunning && !AnyHeroAtTopNexus(gs.world) && !AnyMonsterAtBottomNexus(gs.world))
  {
    if AnyHeroAtTopNexus(gs.world) then gs.(gameRunning := false)
    else if AnyMonsterAtBottomNexus(gs.world) then gs.(gameRunning := false)
    else gs
  }

  /**
   * What a successful move leads to: monster step, encounter, round count,
   * wave and the win checks. The party is as the encounter left it; the
   * board is the encounter's, with the wave of a spawn round on top.
   */
  function AfterMove(gs: GameState, stepPick: nat, fought: Hero, waveChoices: seq<int>): (r: GameState)
    requires 0 <= gs.currentHeroIndex < |gs.party| && |waveChoices| == 3
    ensures r.currentHeroIndex == gs.currentHeroIndex && r.spawnInterval == gs.spawnInterval && r.pools == gs.pools
    ensures r.roundCounter == gs.roundCounter + 1
    ensures r.gameRunning == (gs.gameRunning && !AnyHeroAtTopNexus(r.world) && !AnyMonsterAtBottomNexus(r.world))
    ensures !SpawnRound(gs.roundCounter + 1, gs.spawnInterval) ==> r.roster == gs.roster
    ensures r.party == gs.party || r.party == gs.party[gs.currentHeroIndex := fought]
    ensures forall q :: InBounds(q) ==> At(r.world.grid, q).hero == At(gs.world.grid, q).hero && KindAt(r.world.grid, q) == KindAt(gs.world.grid, q)
    ensures var e := Encounter(gs, stepPick, fought);
      && r.party == e.party
      && (!SpawnRound(gs.roundCounter + 1, gs.spawnInterval) ==> r.world == e.world)
      && (SpawnRound(gs.roundCounter + 1, gs.spawnInterval) ==>
            r.world == SpawnMonstersPeriodically(e.(roundCounter := gs.roundCounter + 1), waveChoices).world
            && r.roster == SpawnMonstersPeriodically(e.(roundCounter := gs.roundCounter + 1), waveChoices).roster)
  {
    CheckWin(CountRound(Encounter(gs, stepPick, fought), waveChoices))
  }

  /**
   * handleHeroMovement with `dir` the key, `stepPick` the draw of
   * stepMonsters, `fought` the hero as the battle leaves it when the move
   * ends next to monsters, and `waveChoices` the draws of a wave. The
   * outcome names the check that stopped the command: no hero on the board,
   * a key that is not W, A, S or D, or a refused move. A command that stops
   * early keeps only the respawn; one that goes through counts the round.
   * Where the hero ends and whether the game goes on is `MoveOutcome`.
   */
  function HandleHeroMovement(gs: GameState, dir: char, stepPick: nat, fought: Hero, waveChoices: seq<int>): (r: (GameState, Outcome))
    requires 0 <= gs.currentHeroIndex < |gs.party| && |waveChoices| == 3
    ensures var base := Respawned(gs);
      var from := HeroPosition(base.world.grid, gs.currentHeroIndex);
      && (from.None? <==> r.1 == NotPlaced)
      && (from.Some? ==> (KeyTarget(from.value, dir).None? <==> r.1 == BadKey))
      && (r.1 == Moved <==> (from.Some? && KeyTarget(from.value, dir).Some?
            && Move(base.world, from.value, KeyTarget(from.value, dir).value, true).1))
      && (r.1 != Moved ==> r.0 == base)
    ensures r.0.currentHeroIndex == gs.currentHeroIndex && r.0.spawnInterval == gs.spawnInterval && r.0.pools == gs.pools
    ensures r.0.roundCounter == gs.roundCounter + (if r.1 == Moved then 1 else 0)
    ensures r.1 == Moved && !SpawnRound(gs.roundCounter + 1, gs.spawnInterval) ==> r.0.roster == gs.roster
    ensures r.1 == Moved ==> var base := Respawned(gs);
      var from := HeroPosition(base.world.grid, gs.currentHeroIndex).value;
      var to := KeyTarget(from, dir).value;
      InBounds(to) && r.0 == AfterMove(base.(world := Move(base.world, from, to, true).0), stepPick, fought, waveChoices)
  {
    var base := Respawned(gs);
    var i := gs.currentHeroIndex;
    match HeroPosition(base.world.grid, i)
    case None => (base, NotPlaced)
    case Some(from) =>
      match KeyTarget(from, dir)
      case None => (base, BadKey)
      case Some(to) =>
        if !InBounds(to) then (base, OutOfBounds)
        else
          var (w1, moved) := Move(base.world, from, to, true);
          if !moved then (base, Blocked)
          else (AfterMove(base.(world := w1), stepPick, fought, waveChoices), Moved)
  }

  /**
   * After a move the hero stands on the target cell, and the game goes on
   * unless some hero now stands on the top nexus row or some monster on
   * the bottom one.
   */
  lemma MoveOutcome(gs: GameState, dir: char, stepPick: nat, fought: Hero, waveChoices: seq<int>)
    requires 0 <= gs.currentHeroIndex < |gs.party| && |waveChoices| == 3
    ensures var r := HandleHeroMovement(gs, dir, stepPick, fought, waveChoices);
      var from := HeroPosition(Respawned(gs).world.grid, gs.currentHeroIndex);
      && (r.1 == Moved ==> At(r.0.world.grid, KeyTarget(from.value, dir).value).hero == Some(gs.currentHeroIndex))
      && r.0.gameRunning == (gs.gameRunning && !(r.1 == Moved && (AnyHeroAtTopNexus(r.0.world) || AnyMonsterAtBottomNexus(r.0.world))))
  {
  }

  /** Keys are case-sensitive: a lower-case movement key only respawns the fallen. */
  lemma LowerCaseKeyDoesNotMove(gs: GameState, dir: char, stepPick: nat, fought: Hero, waveChoices: seq<int>)
    requires 0 <= gs.currentHeroIndex < |gs.party| && |waveChoices| == 3
    requires dir in "wasd"
    ensures HandleHeroMovement(gs, dir, stepPick, fought, waveChoices).0 == Respawned(gs)
  {
    assert dir !in "WASD";
    var r := HandleHeroMovement(gs, dir, stepPick, fought, waveChoices);
    assert r.1 != Moved;
  }

  /** With the default interval of 4, a wave can follow only every fourth counted round. */
  lemma WaveEveryFourthRound(roundCounter: nat)
    ensures SpawnRound(roundCounter, 4) <==> roundCounter % 4 == 0
  {
  }

  /**
   * handleRecall: the current hero, if on the board, goes back to its
   * recall spawn; a hero off the board, or a failed recall, leaves the
   * state as it was.
   */
  function HandleRecall(gs: GameState): (r: (GameState, bool))
    requires 0 <= gs.currentHeroIndex < |gs.party| && LaneRecordsValid(gs.world.ids)
    ensures r.0 == gs.(world := r.0.world)
    ensures HeroPosition(gs.world.grid, gs.currentHeroIndex).None? ==> r == (gs, false)
    ensures HeroPosition(gs.world.grid, gs.currentHeroIndex).Some? ==>
      var from := HeroPosition(gs.world.grid, gs.currentHeroIndex).value;
      r.1 == !HasHero(At(gs.world.grid, RecallSpawn(gs.world.ids, gs.currentHeroIndex, from)))
    ensures !r.1 ==> r.0 == gs
    ensures r.1 ==> At(r.0.world.grid, HeroPosition(gs.world.grid, gs.currentHeroIndex).value).hero.None?
    ensures r.1 ==> var from := HeroPosition(gs.world.grid, gs.currentHeroIndex).value;
      var spawn := RecallSpawn(gs.world.ids, gs.currentHeroIndex, from);
      && (Passable(KindAt(gs.world.grid, spawn)) ==>
            At(r.0.world.grid, spawn).hero == Some(gs.currentHeroIndex) && Relocated(gs.world.grid, r.0.world.grid, from, spawn, true))
      && (!Passable(KindAt(gs.world.grid, spawn)) ==>
            At(r.0.world.grid, from) == At(gs.world.grid, from).(hero := None) && OnlyChangedAt(gs.world.grid, r.0.world.grid, from))
  {
    match HeroPosition(gs.world.grid, gs.currentHeroIndex)
    case None => (gs, false)
    case Some(from) =>
      var (w, ok) := RecallHero(gs.world, from);
      (gs.(world := w), ok)
  }

  // ---- The shared state stays valid ----

  /** Respawning moves heroes only, so monsters stay known and lane records valid. */
  lemma RespawnKeepsValid(gs: GameState)
    requires Valid(gs)
    ensures Valid(Respawned(gs))
  {
    var r := Respawned(gs);
    forall q | InBounds(q) && At(r.world.grid, q).monster.Some?
      ensures At(r.world.grid, q).monster.value in r.roster.records
    {
      assert At(r.world.grid, q).monster == At(gs.world.grid, q).monster;
    }
  }

  /** A hero's one-step move carries no monster. */
  lemma HeroMoveKeepsValid(gs: GameState, from: Position, to: Position)
    requires Valid(gs) && Move(gs.world, from, to, true).1
    ensures Valid(gs.(world := Move(gs.world, from, to, true).0))
  {
    var w := Move(gs.world, from, to, true).0;
    forall q | InBounds(q) && At(w.grid, q).monster.Some?
      ensures At(w.grid, q).monster.value in gs.roster.records
    {
      assert At(w.grid, q).monster == At(gs.world.grid, q).monster;
    }
  }

  /** A monster step carries a known monster to its new cell. */
  lemma StepKeepsKnown(w: Board, stepPick: nat, roster: Roster)
    requires MonstersKnown(w.grid, roster)
    ensures MonstersKnown(StepMonsters(w, stepPick).grid, roster)
  {
    var w1 := StepMonsters(w, stepPick);
    forall q | InBounds(q) && At(w1.grid, q).monster.Some?
      ensures At(w1.grid, q).monster.value in roster.records
    {
      match MonsterStep(w.grid, stepPick)
      case None =>
      case Some((from, to)) =>
        if q == to {
          assert At(w1.grid, q).monster == At(w.grid, from).monster;
        } else {
          assert At(w1.grid, q).monster == At(w.grid, q).monster;
        }
    }
  }

  /** The encounter only removes monsters. */
  lemma EncounterKeepsValid(gs: GameState, stepPick: nat, fought: Hero)
    requires 0 <= gs.currentHeroIndex < |gs.party| && Valid(gs)
    ensures Valid(Encounter(gs, stepPick, fought))
  {
    StepKeepsKnown(gs.world, stepPick, gs.roster);
  }

  /** Counting the round, with its wave, and the win checks keep the state valid. */
  lemma AfterMoveKeepsValid(gs: GameState, stepPick: nat, fought: Hero, waveChoices: seq<int>)
    requires 0 <= gs.currentHeroIndex < |gs.party| && |waveChoices| == 3 && Valid(gs)
    ensures Valid(AfterMove(gs, stepPick, fought, waveChoices))
  {
    EncounterKeepsValid(gs, stepPick, fought);
    var e := Encounter(gs, stepPick, fought);
    var c := CountRound(e, waveChoices);
    assert AfterMove(gs, stepPick, fought, waveChoices) == CheckWin(c);
  }

  /** A move command, whatever its outcome, keeps the shared state valid. */
  lemma HandleHeroMovementKeepsValid(gs: GameState, dir: char, stepPick: nat, fought: Hero, waveChoices: seq<int>)
    requires 0 <= gs.currentHeroIndex < |gs.party| && |waveChoices| == 3 && Valid(gs)
    ensures Valid(HandleHeroMovement(gs, dir, stepPick, fought, waveChoices).0)
  {
    var base := Respawned(gs);
    RespawnKeepsValid(gs);
    match HeroPosition(base.world.grid, gs.currentHeroIndex)
    case None =>
    case Some(from) =>
      match KeyTarget(from, dir)
      case None =>
      case Some(to) =>
        if InBounds(to) && Move(base.world, from, to, true).1 {
          var b1 := base.(world := Move(base.world, from, to, true).0);
          HeroMoveKeepsValid(base, from, to);
          AfterMoveKeepsValid(b1, stepPick, fought, waveChoices);
          assert HandleHeroMovement(gs, dir, stepPick, fought, waveChoices).0 == AfterMove(b1, stepPick, fought, waveChoices);
        }
  }
}

=== FILE: movement_rules.dfy ===
/**
 * The movement rule set of world/MovementRules.java, used by WorldMap:
 * Manhattan range (orthogonal steps only), lane blocking, and a teleport rule
 * that asks for an orthogonal neighbour in a different lane. The cell-level
 * walkability and entry checks are shared with ValorWorldMap, whose own
 * copies are the same code.
 */
module MovementRules {
  import opened Wrappers
  import opened JavaMath
  import opened CellTypes
  import opened Cells
  import opened Geometry
  import opened Grids

  /** isValidPosition for a board of side `size`. */
  predicate IsValidPosition(pos: Position, size: int)
  {
    pos.row >= 0 && pos.row < size && pos.col >= 0 && pos.col < size
  }

  /** Every map is 8x8, so validity is `InBounds`. */
  lemma ValidPositionIsInBounds(pos: Position)
    ensures IsValidPosition(pos, Size) <==> InBounds(pos)
    ensures IsValidPosition(pos, Size) <==> 0 <= pos.row < 8 && 0 <= pos.col < 8
  {
  }

  /** isWalkable on a cell: anything but a wall or an obstacle. */
  predicate WalkableCell(c: Cell)
  {
    c.kind != Inaccessible && c.kind != Obstacle
  }

  /** canEnter on a cell: walkable and the mover's own slot empty. */
  predicate CanEnterCell(c: Cell, isHero: bool)
  {
    if c.kind == Inaccessible then false
    else if c.kind == Obstacle then false
    else if isHero then !HasHero(c)
    else !HasMonster(c)
  }

  /** canEnter is exactly walkability plus a free own-kind slot; the other slot never matters. */
  lemma CanEnterCellMeaning(c: Cell, isHero: bool, other: Option<nat>)
    ensures CanEnterCell(c, isHero) <==> WalkableCell(c) && Slot(c, isHero).None?
    ensures WalkableCell(c) <==> Passable(c.kind)
    ensures CanEnterCell(if isHero then c.(monster := other) else c.(hero := other), isHero) == CanEnterCell(c, isHero)
  {
  }

  /** isInRange: both on the board and the same cell or an orthogonal neighbour. */
  predicate InRangeOrthogonal(a: Position, b: Position)
  {
    InBounds(a) && InBounds(b) && (a == b || Abs(a.row - b.row) + Abs(a.col - b.col) == 1)
  }

  /** In range means Manhattan distance at most one, so no diagonal is in range. */
  lemma InRangeOrthogonalMeaning(a: Position, b: Position)
    requires InBounds(a) && InBounds(b)
    ensures InRangeOrthogonal(a, b) <==> Manhattan(a, b) <= 1
    ensures Abs(a.row - b.row) == 1 && Abs(a.col - b.col) == 1 ==> !InRangeOrthogonal(a, b)
  {
  }

  /** Opposing unit for the mover: a monster blocks a hero, a hero blocks a monster. */
  predicate Opposes(c: Cell, movingIsHero: bool)
  {
    if movingIsHero then HasMonster(c) else HasHero(c)
  }

  /**
   * isBlockedByOpposingUnit: both ends in the same lane and an opposing unit
   * in that lane on a row strictly between the two rows.
   */
  predicate BlockedByOpposingUnit(g: Grid, from: Position, to: Position, movingIsHero: bool)
  {
    var laneFrom := LaneOfPosition(from);
    var laneTo := LaneOfPosition(to);
    laneFrom != -1 && laneTo != -1 && laneFrom == laneTo
    && exists r, c :: Min(from.row, to.row) < r < Max(from.row, to.row) && c in Lanes[laneFrom]
        && Opposes(At(g, Position(r, c)), movingIsHero)
  }

  /** Blocking needs a row strictly between the ends, the same lane and lane cells at both ends. */
  lemma WhenNeverBlocked(g: Grid, from: Position, to: Position, movingIsHero: bool)
    requires Abs(from.row - to.row) <= 1 || LaneOfPosition(from) == -1 || LaneOfPosition(to) == -1
      || LaneOfPosition(from) != LaneOfPosition(to)
    ensures !BlockedByOpposingUnit(g, from, to, movingIsHero)
  {
  }

  /**
   * applyTeleportRules: an orthogonal neighbour of the target, in a lane
   * different from the target's, not a wall or obstacle, holding no hero,
   * and enterable by the mover.
   */
  predicate OrthogonalTeleportAllowed(g: Grid, dest: Position, target: Position, isHeroMover: bool)
  {
    InBounds(dest) && InBounds(target) && dest != target
    && Abs(dest.row - target.row) + Abs(dest.col - target.col) == 1
    && LaneForColumn(target.col) != -1 && LaneForColumn(dest.col) != -1
    && LaneForColumn(target.col) != LaneForColumn(dest.col)
    && KindAt(g, dest) != Obstacle && KindAt(g, dest) != Inaccessible
    && !HasHero(At(g, dest))
    && CanEnterCell(At(g, dest), isHeroMover)
  }

  /**
   * Lanes {0,1}, {3,4}, {6,7} are separated by a wall column, so no
   * orthogonal neighbour of a lane cell lies in another lane: the rule never holds.
   */
  lemma OrthogonalTeleportNeverAllowed(g: Grid, dest: Position, target: Position, isHeroMover: bool)
    ensures !OrthogonalTeleportAllowed(g, dest, target, isHeroMover)
  {
    LanesPartitionColumns(dest.col);
    LanesPartitionColumns(target.col);
  }

  /** getTeleportCandidates: the target's up, down, left and right cells that pass the rule. */
  function OrthogonalTeleportCandidates(g: Grid, target: Position, isHeroMover: bool): (r: seq<Position>)
    ensures forall d :: d in r ==> OrthogonalTeleportAllowed(g, d, target, isHeroMover)
    ensures forall d :: d in Neighbors(target) && OrthogonalTeleportAllowed(g, d, target, isHeroMover) ==> d in r
  {
    if !InBounds(target) then []
    else
      var cands := [target.MoveUp(), target.MoveDown(), target.MoveLeft(), target.MoveRight()];
      Keep(g, target, isHeroMover, cands)
  }

  function Keep(g: Grid, target: Position, isHeroMover: bool, cands: seq<Position>): (r: seq<Position>)
    ensures forall d :: d in r <==> d in cands && OrthogonalTeleportAllowed(g, d, target, isHeroMover)
  {
    if cands == [] then []
    else
      var rest := Keep(g, target, isHeroMover, cands[1..]);
      if InBounds(cands[0]) && OrthogonalTeleportAllowed(g, cands[0], target, isHeroMover) then [cands[0]] + rest else rest
  }

  /** The candidate list of this rule set is always empty. */
  lemma OrthogonalTeleportCandidatesEmpty(g: Grid, target: Position, isHeroMover: bool)
    ensures OrthogonalTeleportCandidates(g, target, isHeroMover) == []
  {
    var r := OrthogonalTeleportCandidates(g, target, isHeroMover);
    if r != [] {
      OrthogonalTeleportNeverAllowed(g, r[0], target, isHeroMover);
      assert false;
    }
  }
}

=== FILE: respawn_manager.dfy ===
/**
 * respawnDeadHeroesAtNexus, which game/RespawnManager.java and
 * managers/HeroManager.java implement alike: every fainted hero is taken
 * off its cell, revived to half its maxima, and put on the bottom nexus
 * spawn of the lane its party index names, when that cell admits a hero.
 */
module RespawnManagers {
  import opened Wrappers
  import opened CellTypes
  import opened Cells
  import opened Geometry
  import opened Grids
  import opened EntityTracking
  import opened ValorWorld
  import opened Heroes

  /** detachHeroFromCell at the hero's first cell, when it has one; its id is kept. */
  function DetachHero(w: Board, h: HeroRef): (r: Board)
    ensures r.ids == w.ids
    ensures forall q :: InBounds(q) ==> At(r.grid, q).monster == At(w.grid, q).monster && KindAt(r.grid, q) == KindAt(w.grid, q)
    ensures forall q :: InBounds(q) && At(w.grid, q).hero != Some(h) ==> At(r.grid, q) == At(w.grid, q)
    ensures forall q :: InBounds(q) && At(r.grid, q).hero.Some? ==> At(r.grid, q).hero == At(w.grid, q).hero
  {
    match HeroPosition(w.grid, h)
    case None => w
    case Some(p) => DetachHeroAt(w, p).0
  }

  /** Hero `k` is one the loop from index `i` on revives. */
  predicate Respawns(party: seq<Hero>, i: nat, k: HeroRef)
  {
    i <= k < |party| && IsFainted(party[k])
  }

  /** The loop body for party index `i`. */
  function RespawnOne(w: Board, party: seq<Hero>, i: nat): (r: (Board, seq<Hero>))
    requires i < |party|
    ensures r.1 == party[i := if IsFainted(party[i]) then Revive(party[i]) else party[i]]
    ensures !IsFainted(party[i]) ==> r.0 == w
    ensures r.0.ids.monsterIds == w.ids.monsterIds
    ensures LaneRecordsValid(w.ids) ==> LaneRecordsValid(r.0.ids)
    ensures forall q :: InBounds(q) ==> At(r.0.grid, q).monster == At(w.grid, q).monster && KindAt(r.0.grid, q) == KindAt(w.grid, q)
    ensures forall q :: InBounds(q) && At(w.grid, q).hero != Some(i) && q != HeroNexusSpawn(i) ==> At(r.0.grid, q) == At(w.grid, q)
    ensures forall q :: InBounds(q) && At(w.grid, q).hero.Some? && At(w.grid, q).hero != Some(i) ==> At(r.0.grid, q).hero == At(w.grid, q).hero
    ensures IsFainted(party[i]) && CanEnter(DetachHero(w, i).grid, HeroNexusSpawn(i), true) ==>
      At(r.0.grid, HeroNexusSpawn(i)).hero == Some(i)
  {
    if !IsFainted(party[i]) then (w, party)
    else
      var w1 := DetachHero(w, i);
      (PlaceHeroAt(w1, HeroNexusSpawn(i), i).0, party[i := Revive(party[i])])
  }

  /** The loop from index `i` on. */
  function RespawnFrom(w: Board, party: seq<Hero>, i: nat): (r: (Board, seq<Hero>))
    requires i <= |party|
    ensures |r.1| == |party|
    ensures forall j :: 0 <= j < i ==> r.1[j] == party[j]
    ensures forall j :: i <= j < |party| ==> r.1[j] == (if IsFainted(party[j]) then Revive(party[j]) else party[j])
    ensures r.0.ids.monsterIds == w.ids.monsterIds
    ensures LaneRecordsValid(w.ids) ==> LaneRecordsValid(r.0.ids)
    ensures forall q :: InBounds(q) ==> At(r.0.grid, q).monster == At(w.grid, q).monster && KindAt(r.0.grid, q) == KindAt(w.grid, q)
    ensures forall q :: InBounds(q) && At(w.grid, q).hero.Some? && !Respawns(party, i, At(w.grid, q).hero.value) ==>
      At(r.0.grid, q).hero == At(w.grid, q).hero
    decreases |party| - i
  {
    if i == |party| then (w, party)
    else
      var (w1, p1) := RespawnOne(w, party, i);
      RespawnFrom(w1, p1, i + 1)
  }

  /**
   * respawnDeadHeroesAtNexus: fainted heroes are revived and living ones are
   * untouched, so afterwards every hero whose maximum HP is at least 2 is
   * alive; monsters, terrain and the cells of living heroes stay as they were.
   */
  function RespawnDeadHeroes(w: Board, party: seq<Hero>): (r: (Board, seq<Hero>))
    ensures |r.1| == |party|
    ensures forall j :: 0 <= j < |party| ==> r.1[j] == (if IsFainted(party[j]) then Revive(party[j]) else party[j])
    ensures forall j :: 0 <= j < |party| && party[j].hp.maximum >= 2 ==> IsAlive(r.1[j])
    ensures r.0.ids.monsterIds == w.ids.monsterIds
    ensures LaneRecordsValid(w.ids) ==> LaneRecordsValid(r.0.ids)
    ensures forall q :: InBounds(q) ==> At(r.0.grid, q).monster == At(w.grid, q).monster && KindAt(r.0.grid, q) == KindAt(w.grid, q)
    ensures forall q :: InBounds(q) && At(w.grid, q).hero.Some? && !Respawns(party, 0, At(w.grid, q).hero.value) ==>
      At(r.0.grid, q).hero == At(w.grid, q).hero
  {
    RespawnFrom(w, party, 0)
  }

  /** With no fainted hero, respawning changes nothing. */
  lemma {:induction false} NoneFaintedNoChange(w: Board, party: seq<Hero>, i: nat)
    requires i <= |party| && forall j :: i <= j < |party| ==> !IsFainted(party[j])
    ensures RespawnFrom(w, party, i) == (w, party)
    decreases |party| - i
  {
    if i < |party| {
      NoneFaintedNoChange(w, party, i + 1);
    }
  }

  /**
   * Indices past 2 are clamped to lane 2, so the third and fourth heroes
   * share one nexus spawn: when both are fainted and that spawn is a free
   * walkable cell, the third hero takes it and it stays theirs.
   */
  lemma LaneTwoSpawnGoesToThirdHero(w: Board, party: seq<Hero>)
    requires |party| >= 4 && IsFainted(party[2]) && IsFainted(party[3])
    requires Passable(KindAt(w.grid, HeroNexusSpawn(2))) && At(w.grid, HeroNexusSpawn(2)).hero.None?
    ensures HeroNexusSpawn(3) == HeroNexusSpawn(2)
    ensures At(RespawnDeadHeroes(w, party).0.grid, HeroNexusSpawn(2)).hero == Some(2)
  {
    var s := HeroNexusSpawn(2);
    var (w1, p1) := RespawnOne(w, party, 0);
    var (w2, p2) := RespawnOne(w1, p1, 1);
    assert At(w2.grid, s) == At(w.grid, s);
    var d := DetachHero(w2, 2);
    assert At(d.grid, s) == At(w2.grid, s);
    var (w3, p3) := RespawnOne(w2, p2, 2);
    assert p2[2] == party[2];
    assert At(w3.grid, s).hero == Some(2);
    var r := RespawnFrom(w3, p3, 3);
    assert !Respawns(p3, 3, 2);
    assert RespawnFrom(w, party, 0) == RespawnFrom(w1, p1, 1) == RespawnFrom(w2, p2, 2) == r;
  }
}

=== FILE: spawn_manager.dfy ===
/**
 * valor/spawn/SpawnManager.java: the size of a monster wave, from the
 * difficulty, the round number and the number of heroes.
 */
module SpawnManagers {
  import opened JavaMath

  datatype Difficulty = Easy | Normal | Hard

  /** One monster per hero (at least one), and one more for every three rounds after the first. */
  function NormalWave(roundNumber: int, heroCount: int): (n: int)
    ensures n >= 1
    ensures n == Max(1, heroCount) + (if roundNumber >= 1 then (roundNumber - 1) / 3 else 0)
  {
    Max(1, heroCount) + Max(0, JavaDiv(roundNumber - 1, 3))
  }

  /** monstersToSpawn: EASY one fewer (never below one), HARD one more. */
  function MonstersToSpawn(d: Difficulty, roundNumber: int, heroCount: int): (n: int)
    ensures n >= 1
    ensures d == Normal ==> n == NormalWave(roundNumber, heroCount)
    ensures d == Hard ==> n == NormalWave(roundNumber, heroCount) + 1
    ensures d == Easy ==> n == Max(1, NormalWave(roundNumber, heroCount) - 1)
  {
    var total := NormalWave(roundNumber, heroCount);
    match d
    case Easy => Max(1, total - 1)
    case Hard => total + 1
    case Normal => total
  }

  /** EASY never spawns more than NORMAL, which never spawns more than HARD. */
  lemma DifficultyOrder(roundNumber: int, heroCount: int)
    ensures MonstersToSpawn(Easy, roundNumber, heroCount) <= MonstersToSpawn(Normal, roundNumber, heroCount)
    ensures MonstersToSpawn(Normal, roundNumber, heroCount) < MonstersToSpawn(Hard, roundNumber, heroCount)
  {
  }

  /** More rounds or more heroes never mean fewer monsters. */
  lemma WaveIsMonotone(d: Difficulty, r1: int, r2: int, h1: int, h2: int)
    requires r1 <= r2 && h1 <= h2
    ensures MonstersToSpawn(d, r1, h1) <= MonstersToSpawn(d, r2, h2)
  {
    if r1 >= 1 {
      DivIsMonotone(r1 - 1, r2 - 1, 3);
    }
  }

  lemma DivIsMonotone(a: int, b: int, d: int)
    requires 0 <= a <= b && d > 0
    ensures a / d <= b / d
  {
    var qa, qb := a / d, b / d;
    assert qa * d <= a && b < (qb + 1) * d;
    assert qa * d < (qb + 1) * d;
  }

  /** The wave is the same through rounds 3k+1 to 3k+3 and one larger at 3k+4 (for NORMAL and HARD). */
  lemma GrowthEveryThreeRounds(d: Difficulty, k: nat, heroCount: int)
    requires d != Easy
    ensures MonstersToSpawn(d, 3 * k + 1, heroCount) == MonstersToSpawn(d, 3 * k + 3, heroCount)
    ensures MonstersToSpawn(d, 3 * k + 4, heroCount) == MonstersToSpawn(d, 3 * k + 3, heroCount) + 1
  {
    assert (3 * k) / 3 == k && (3 * k + 2) / 3 == k && (3 * k + 3) / 3 == k + 1;
  }

  /** Worked example of MonstersToSpawn: on EASY the floor of one hides the first step, so one hero in rounds 3 and 4 meets a single monster. */
  lemma EasyFirstStepHidden()
    ensures MonstersToSpawn(Easy, 3, 1) == 1 && MonstersToSpawn(Easy, 4, 1) == 1
    ensures MonstersToSpawn(Normal, 3, 1) == 1 && MonstersToSpawn(Normal, 4, 1) == 2
  {
  }

  /** Rounds before the first add nothing: Java's division truncates toward zero and the growth is floored at zero. */
  lemma EarlyRoundsAddNothing(d: Difficulty, roundNumber: int, heroCount: int)
    requires roundNumber <= 3
    ensures MonstersToSpawn(d, roundNumber, heroCount) == MonstersToSpawn(d, 1, heroCount)
  {
  }
}

=== FILE: turn_context.dfy ===
/**
 * valor/turns/TurnContext.java: the state a turn is resolved against.
 *
 * The shown class holds the hero and monster lists, the random generator
 * and the round counter. The turn engine also asks it for the board, for
 * unit positions and for occupancy, and asks it to move units; those
 * methods are not in the file, so they are modelled here as a board field
 * and two position maps keyed by the unit's index in its list.
 */
module TurnContexts {
  import opened Wrappers
  import opened Geometry
  import opened Heroes
  import opened Monsters
  import opened ValorBoards

  /** The injected random generator, kept only as an identity; its draws are passed to each operation. */
  datatype Rng = Rng(seed: int)

  datatype TurnContext = TurnContext(heroes: seq<Hero>, monsters: seq<Monster>, rng: Rng, roundNumber: int,
                                     board: Option<ValorGrid>,
                                     heroPositions: map<nat, Position>, monsterPositions: map<nat, Position>)

  /** The four-argument constructor: the lists are copied, the generator and round kept as given. */
  function NewTurnContextWith(heroes: seq<Hero>, monsters: seq<Monster>, rng: Rng, startingRound: int): (c: TurnContext)
    ensures c.heroes == heroes && c.monsters == monsters && c.rng == rng && c.roundNumber == startingRound
    ensures c.board.None? && c.heroPositions == map[] && c.monsterPositions == map[]
  {
    TurnContext(heroes, monsters, rng, startingRound, None, map[], map[])
  }

  /** The two-argument constructor: a new generator (`newRng`) and round 1. */
  function NewTurnContext(heroes: seq<Hero>, monsters: seq<Monster>, newRng: Rng): (c: TurnContext)
    ensures c.roundNumber == 1 && c.heroes == heroes && c.monsters == monsters && c.rng == newRng
  {
    NewTurnContextWith(heroes, monsters, newRng, 1)
  }

  /** getRng hands back the injected generator itself, so a seeded run can be replayed. */
  function GetRng(c: TurnContext): (r: Rng)
    ensures r == c.rng
  {
    c.rng
  }

  /** nextRound: the round grows by exactly one and nothing else changes. */
  function NextRound(c: TurnContext): (r: TurnContext)
    ensures r.roundNumber == c.roundNumber + 1
    ensures r == c.(roundNumber := r.roundNumber)
  {
    c.(roundNumber := c.roundNumber + 1)
  }

  function HeroPosition(c: TurnContext, h: nat): (p: Option<Position>)
    ensures p.Some? <==> h in c.heroPositions
    ensures p.Some? ==> p.value == c.heroPositions[h]
  {
    if h in c.heroPositions then Some(c.heroPositions[h]) else None
  }

  function MonsterPosition(c: TurnContext, m: nat): (p: Option<Position>)
    ensures p.Some? <==> m in c.monsterPositions
    ensures p.Some? ==> p.value == c.monsterPositions[m]
  {
    if m in c.monsterPositions then Some(c.monsterPositions[m]) else None
  }

  /** Every cell holding a hero or a monster. */
  function Occupied(c: TurnContext): (s: set<Position>)
    ensures forall p :: p in s <==> ((exists h :: h in c.heroPositions && c.heroPositions[h] == p)
                                  || (exists m :: m in c.monsterPositions && c.monsterPositions[m] == p))
  {
    c.heroPositions.Values + c.monsterPositions.Values
  }

  predicate IsOccupied(c: TurnContext, p: Position)
  {
    p in Occupied(c)
  }

  /** moveHero: the hero's recorded position becomes `dest`; nothing else changes. */
  function MoveHero(c: TurnContext, h: nat, dest: Position): (r: TurnContext)
    ensures r == c.(heroPositions := r.heroPositions)
    ensures HeroPosition(r, h) == Some(dest)
    ensures forall k :: k != h ==> HeroPosition(r, k) == HeroPosition(c, k)
  {
    c.(heroPositions := c.heroPositions[h := dest])
  }

  /** moveMonster: the monster's recorded position becomes `dest`; nothing else changes. */
  function MoveMonster(c: TurnContext, m: nat, dest: Position): (r: TurnContext)
    ensures r == c.(monsterPositions := r.monsterPositions)
    ensures MonsterPosition(r, m) == Some(dest)
    ensures forall k :: k != m ==> MonsterPosition(r, k) == MonsterPosition(c, k)
  {
    c.(monsterPositions := c.monsterPositions[m := dest])
  }
}

=== FILE: turn_engine.dfy ===
/**
 * valor/turns/TurnEngine.java: routes a hero's chosen action to movement
 * or combat, runs a monster's turn and closes a round. Heroes and monsters
 * are referred to by their index in the context's lists; the target draw
 * (`nextInt`) and the dodge draw (`nextDouble`) are parameters.
 */
module TurnEngines {
  import opened Wrappers
  import opened JavaMath
  import opened Geometry
  import opened Items
  import opened Heroes
  import opened Monsters
  import opened ValorBoards
  import opened Actions
  import opened TurnContexts
  import CombatResolver

  /** What the engine hands back: the context after the action and its result. */
  datatype Turn = Turn(ctx: Option<TurnContext>, result: ActionResult)

  /** References given to the engine name units of the context's lists. */
  predicate RefersInto(ctx: Option<TurnContext>, hero: Option<nat>, monster: Option<nat>)
  {
    ctx.Some? ==> ((hero.Some? ==> hero.value < |ctx.value.heroes|)
                && (monster.Some? ==> monster.value < |ctx.value.monsters|))
  }

  function Fail(ctx: Option<TurnContext>): (t: Turn)
    ensures t.ctx == ctx && t.result == Outcome(false)
  {
    Turn(ctx, Outcome(false))
  }

  // ---- Range and movement ----

  /** isMeleeInRange: both on the board, at Manhattan distance one. */
  function IsMeleeInRange(c: TurnContext, hi: Option<nat>, mi: Option<nat>): (r: bool)
    ensures r <==> (hi.Some? && mi.Some? && c.board.Some?
      && HeroPosition(c, hi.value).Some? && MonsterPosition(c, mi.value).Some?
      && Manhattan(HeroPosition(c, hi.value).value, MonsterPosition(c, mi.value).value) == 1)
  {
    if hi.None? || mi.None? || c.board.None? then false
    else
      var hp := HeroPosition(c, hi.value);
      var mp := MonsterPosition(c, mi.value);
      hp.Some? && mp.Some? && IsInAttackRange(hp.value, mp.value)
  }

  /**
   * handleMove: a destination is needed, the board and the hero's position
   * must be known, and the destination must be on the board, accessible,
   * one orthogonal step away and free of any unit.
   */
  function HandleMove(c: TurnContext, hi: nat, dest: Option<Position>): (t: Turn)
    ensures t.result.success <==> (dest.Some? && c.board.Some? && HeroPosition(c, hi).Some?
      && IsAccessible(c.board.value, dest.value)
      && Manhattan(HeroPosition(c, hi).value, dest.value) == 1
      && !IsOccupied(c, dest.value))
    ensures !t.result.success ==> t == Fail(Some(c))
    ensures t.result.success ==> t == Turn(Some(MoveHero(c, hi, dest.value)), Outcome(true))
  {
    if dest.None? then Fail(Some(c))
    else
      var current := HeroPosition(c, hi);
      if c.board.None? || current.None? then Fail(Some(c))
      else if !InBounds(dest.value) || !IsAccessible(c.board.value, dest.value) then Fail(Some(c))
      else if Abs(current.value.row - dest.value.row) + Abs(current.value.col - dest.value.col) != 1 then Fail(Some(c))
      else if IsOccupied(c, dest.value) then Fail(Some(c))
      else Turn(Some(MoveHero(c, hi, dest.value)), Outcome(true))
  }

  /**
   * handleTeleport: like a move, except that the distance is free, the
   * monster nexus is refused, and the lane must change. A wall column has
   * lane -1, which differs from every lane.
   */
  function HandleTeleport(c: TurnContext, hi: nat, dest: Option<Position>): (t: Turn)
    ensures t.result.success <==> (dest.Some? && c.board.Some? && HeroPosition(c, hi).Some?
      && IsAccessible(c.board.value, dest.value)
      && !IsMonsterNexus(c.board.value, dest.value)
      && !IsOccupied(c, dest.value)
      && GetLane(dest.value) != GetLane(HeroPosition(c, hi).value))
    ensures !t.result.success ==> t == Fail(Some(c))
    ensures t.result.success ==> t == Turn(Some(MoveHero(c, hi, dest.value)), Outcome(true))
  {
    if dest.None? then Fail(Some(c))
    else
      var current := HeroPosition(c, hi);
      if c.board.None? || current.None? then Fail(Some(c))
      else if !InBounds(dest.value) || !IsAccessible(c.board.value, dest.value) then Fail(Some(c))
      else if IsMonsterNexus(c.board.value, dest.value) then Fail(Some(c))
      else if IsOccupied(c, dest.value) then Fail(Some(c))
      else if GetLane(dest.value) == GetLane(current.value) then Fail(Some(c))
      else Turn(Some(MoveHero(c, hi, dest.value)), Outcome(true))
  }

  /** handleRecall: to the first free spot of the hero nexus in the lane the hero stands in now. */
  function HandleRecall(c: TurnContext, hi: nat): (t: Turn)
    ensures t.result.success <==> (c.board.Some? && HeroPosition(c, hi).Some?
      && FindHeroRecallSpot(c.board.value, GetLane(HeroPosition(c, hi).value), Occupied(c)).Some?)
    ensures !t.result.success ==> t == Fail(Some(c))
    ensures t.result.success ==>
      (var spot := FindHeroRecallSpot(c.board.value, GetLane(HeroPosition(c, hi).value), Occupied(c)).value;
       t == Turn(Some(MoveHero(c, hi, spot)), Outcome(true))
       && spot.row == Size - 1 && GetLane(spot) == GetLane(HeroPosition(c, hi).value)
       && !IsOccupied(c, spot) && IsAccessible(c.board.value, spot))
  {
    var current := HeroPosition(c, hi);
    if c.board.None? || current.None? then Fail(Some(c))
    else
      match FindHeroRecallSpot(c.board.value, GetLane(current.value), Occupied(c))
      case None => Fail(Some(c))
      case Some(spot) => Turn(Some(MoveHero(c, hi, spot)), Outcome(true))
  }

  /** A hero standing in a wall column has no lane, so recall always fails there. */
  lemma RecallFailsOffLane(c: TurnContext, hi: nat)
    requires HeroPosition(c, hi).Some? && GetLane(HeroPosition(c, hi).value) == -1
    ensures !HandleRecall(c, hi).result.success
  {
    if c.board.Some? {
      NoRecallSpotOffLane(c.board.value, -1, Occupied(c));
    }
  }

  /** A free, accessible wall-column cell outside the monster nexus is a legal teleport destination. */
  lemma TeleportIntoWallColumn(c: TurnContext, hi: nat, dest: Position)
    requires c.board.Some? && HeroPosition(c, hi).Some? && GetLane(HeroPosition(c, hi).value) != -1
    requires dest.col == 2 || dest.col == 5
    requires IsAccessible(c.board.value, dest) && !IsMonsterNexus(c.board.value, dest) && !IsOccupied(c, dest)
    ensures HandleTeleport(c, hi, Some(dest)).result.success
  {
  }

  /** A teleport never stays in the hero's lane, while a move may. */
  lemma TeleportChangesLane(c: TurnContext, hi: nat, dest: Option<Position>)
    ensures HandleTeleport(c, hi, dest).result.success ==>
      GetLane(HeroPosition(HandleTeleport(c, hi, dest).ctx.value, hi).value) != GetLane(HeroPosition(c, hi).value)
  {
  }

  // ---- Hero actions ----

  /** Writes a monster back into the context. */
  function WithMonster(c: TurnContext, mi: nat, m: Option<Monster>): TurnContext
    requires mi < |c.monsters|
  {
    if m.Some? then c.(monsters := c.monsters[mi := m.value]) else c
  }

  /**
   * handleHeroAction: a missing action, hero or context fails. ATTACK and
   * CAST_SPELL need the target in melee range and then go to the combat
   * resolver, whose hero and monster are written back and whose result is
   * the turn's; MOVE, TELEPORT and RECALL go to their handlers; PASS always
   * succeeds; EQUIP and USE_POTION are not wired and fail.
   */
  function HandleHeroAction(action: Option<ValorAction>, hero: Option<nat>, target: Option<nat>,
                            spell: Option<Spell>, dest: Option<Position>, ctx: Option<TurnContext>,
                            roll: real): (t: Turn)
    requires RefersInto(ctx, hero, target)
    ensures action.None? || hero.None? || ctx.None? ==> t == Fail(ctx)
    ensures action == Some(Pass) && hero.Some? && ctx.Some? ==> t == Turn(ctx, Outcome(true))
    ensures action == Some(Equip) || action == Some(UsePotion) ==> t == Fail(ctx)
    ensures ((action == Some(Attack) || action == Some(CastSpell)) && ctx.Some?
      && !IsMeleeInRange(ctx.value, hero, target)) ==> t == Fail(ctx)
    ensures action == Some(Attack) && hero.Some? && ctx.Some? && IsMeleeInRange(ctx.value, hero, target) ==>
      (var c := ctx.value;
       var (m, res) := CombatResolver.HeroAttack(Some(c.heroes[hero.value]), Some(c.monsters[target.value]), ctx, roll);
       t == Turn(Some(WithMonster(c, target.value, m)), res))
    ensures action == Some(Move) && hero.Some? && ctx.Some? ==> t == HandleMove(ctx.value, hero.value, dest)
    ensures action == Some(Teleport) && hero.Some? && ctx.Some? ==> t == HandleTeleport(ctx.value, hero.value, dest)
    ensures action == Some(Recall) && hero.Some? && ctx.Some? ==> t == HandleRecall(ctx.value, hero.value)
    ensures t.ctx.Some? <==> ctx.Some?
    ensures action == Some(CastSpell) && hero.Some? && ctx.Some? && IsMeleeInRange(ctx.value, hero, target) ==>
      (var c := ctx.value;
       var cast := CombatResolver.HeroCastSpell(Some(c.heroes[hero.value]), spell, Some(c.monsters[target.value]), ctx, roll);
       t.result == cast.result && cast.target.Some?
       && |t.ctx.value.heroes| == |c.heroes| && |t.ctx.value.monsters| == |c.monsters|
       && t.ctx.value.monsters[target.value] == cast.target.value
       && (cast.hero.Some? ==> t.ctx.value.heroes[hero.value] == cast.hero.value)
       && (forall j :: 0 <= j < |c.heroes| && j != hero.value ==> t.ctx.value.heroes[j] == c.heroes[j])
       && (forall j :: 0 <= j < |c.monsters| && j != target.value ==> t.ctx.value.monsters[j] == c.monsters[j])
       && t.ctx.value == c.(heroes := t.ctx.value.heroes, monsters := t.ctx.value.monsters))
  {
    if action.None? || hero.None? || ctx.None? then Fail(ctx)
    else
      var c := ctx.value;
      var hi := hero.value;
      match action.value
      case Attack =>
        if !IsMeleeInRange(c, hero, target) then Fail(ctx)
        else
          var (m, res) := CombatResolver.HeroAttack(Some(c.heroes[hi]), Some(c.monsters[target.value]), ctx, roll);
          Turn(Some(WithMonster(c, target.value, m)), res)
      case CastSpell =>
        if !IsMeleeInRange(c, hero, target) then Fail(ctx)
        else
          var cast := CombatResolver.HeroCastSpell(Some(c.heroes[hi]), spell, Some(c.monsters[target.value]), ctx, roll);
          var c1 := if cast.hero.Some? then c.(heroes := c.heroes[hi := cast.hero.value]) else c;
          Turn(Some(WithMonster(c1, target.value, cast.target)), cast.result)
      case Move => HandleMove(c, hi, dest)
      case Teleport => HandleTeleport(c, hi, dest)
      case Recall => HandleRecall(c, hi)
      case Pass => Turn(ctx, Outcome(true))
      case Equip => Fail(ctx)
      case UsePotion => Fail(ctx)
  }

  /** A spell cast in range spends the caster's mana and a use of the spell, even when it is dodged. */
  lemma CastSpellInRangeSpendsMana(hi: nat, ti: nat, spell: Spell, c: TurnContext, roll: real)
    requires hi < |c.heroes| && ti < |c.monsters| && IsMeleeInRange(c, Some(hi), Some(ti))
    requires Heroes.IsAlive(c.heroes[hi]) && Monsters.IsAlive(c.monsters[ti])
    requires HasMana(c.heroes[hi], spell.kind.manaCost)
    ensures var t := HandleHeroAction(Some(CastSpell), Some(hi), Some(ti), Some(spell), None, Some(c), roll);
      t.result.success && t.ctx.value.heroes[hi].mp.current == Max(0, c.heroes[hi].mp.current - spell.kind.manaCost)
  {
    var cast := CombatResolver.HeroCastSpell(Some(c.heroes[hi]), Some(spell), Some(c.monsters[ti]), Some(c), roll);
    assert cast.result.success;
  }

  // ---- Monster turns ----

  /** The living heroes among the first `n` that stand in attack range of `mp`, in list order. */
  function InRangeHeroes(c: TurnContext, mp: Position, n: nat): (r: seq<nat>)
    requires n <= |c.heroes|
    ensures forall i :: i in r <==> (0 <= i < n && HeroPosition(c, i).Some? && Heroes.IsAlive(c.heroes[i])
      && Manhattan(mp, HeroPosition(c, i).value) == 1)
    ensures forall k :: 0 <= k < |r| ==> r[k] < n
  {
    if n == 0 then []
    else
      var rest := InRangeHeroes(c, mp, n - 1);
      var hp := HeroPosition(c, n - 1);
      if hp.Some? && Heroes.IsAlive(c.heroes[n - 1]) && IsInAttackRange(mp, hp.value) then rest + [n - 1] else rest
  }

  /** pickAnyAliveHero: the first living hero of the list. */
  function FirstAliveHero(hs: seq<Hero>): (r: Option<nat>)
    ensures r.Some? ==> (r.value < |hs| && Heroes.IsAlive(hs[r.value])
      && forall j :: 0 <= j < r.value ==> !Heroes.IsAlive(hs[j]))
    ensures r.None? <==> forall j :: 0 <= j < |hs| ==> !Heroes.IsAlive(hs[j])
  {
    if hs == [] then None
    else if Heroes.IsAlive(hs[0]) then Some(0)
    else
      var rest := FirstAliveHero(hs[1..]);
      assert forall j :: 1 <= j < |hs| ==> hs[j] == hs[1..][j - 1];
      if rest.Some? then Some(rest.value + 1) else None
  }

  /**
   * pickHeroInRange: with no board or no position for the monster, the
   * first living hero wherever it stands; otherwise the `pick`-th living
   * hero in attack range (`nextInt` over the candidates), or none.
   */
  function PickHeroInRange(c: TurnContext, mi: nat, pick: nat): (r: Option<nat>)
    ensures c.board.None? || MonsterPosition(c, mi).None? ==> r == FirstAliveHero(c.heroes)
    ensures c.board.Some? && MonsterPosition(c, mi).Some? && r.Some? ==>
      (r.value < |c.heroes| && Heroes.IsAlive(c.heroes[r.value]) && HeroPosition(c, r.value).Some?
       && Manhattan(MonsterPosition(c, mi).value, HeroPosition(c, r.value).value) == 1)
    ensures c.board.Some? && MonsterPosition(c, mi).Some? && r.None? ==>
      forall i :: 0 <= i < |c.heroes| && HeroPosition(c, i).Some? && Heroes.IsAlive(c.heroes[i]) ==>
        Manhattan(MonsterPosition(c, mi).value, HeroPosition(c, i).value) != 1
  {
    if c.board.None? then FirstAliveHero(c.heroes)
    else
      var mp := MonsterPosition(c, mi);
      if mp.None? then FirstAliveHero(c.heroes)
      else
        var candidates := InRangeHeroes(c, mp.value, |c.heroes|);
        if candidates == [] then None
        else
          assert candidates[pick % |candidates|] in candidates;
          Some(candidates[pick % |candidates|])
  }

  /** nextForwardStep: the cell one row down, if it is on the board, accessible and free. */
  function NextForwardStep(c: TurnContext, mi: nat): (r: Option<Position>)
    ensures r.Some? <==> (c.board.Some? && MonsterPosition(c, mi).Some?
      && IsAccessible(c.board.value, MonsterPosition(c, mi).value.MoveDown())
      && !IsOccupied(c, MonsterPosition(c, mi).value.MoveDown()))
    ensures r.Some? ==> r.value == MonsterPosition(c, mi).value.MoveDown()
  {
    var current := MonsterPosition(c, mi);
    if c.board.None? || current.None? then None
    else
      var forward := Position(current.value.row + 1, current.value.col);
      if InBounds(forward) && IsAccessible(c.board.value, forward) && !IsOccupied(c, forward) then Some(forward)
      else None
  }

  /**
   * runMonsterTurn: a missing monster or context, or a defeated monster,
   * fails. A hero picked by PickHeroInRange is attacked through the combat
   * resolver; with none, the monster steps forward if it can and succeeds
   * either way. The `target` argument is never read.
   */
  function RunMonsterTurn(monster: Option<nat>, target: Option<nat>, ctx: Option<TurnContext>,
                          pick: nat, roll: real): (t: Turn)
    requires RefersInto(ctx, target, monster)
    ensures t.result.success <==> (monster.Some? && ctx.Some? && Monsters.IsAlive(ctx.value.monsters[monster.value]))
    ensures !t.result.success ==> t == Fail(ctx)
    ensures t.result.success ==>
      (var c := ctx.value;
       var mi := monster.value;
       match PickHeroInRange(c, mi, pick)
       case None =>
         t.result == Outcome(true)
         && (NextForwardStep(c, mi).Some? ==> t.ctx == Some(MoveMonster(c, mi, NextForwardStep(c, mi).value)))
         && (NextForwardStep(c, mi).None? ==> t.ctx == ctx)
       case Some(hi) =>
         hi < |c.heroes|
         && var (h, res) := CombatResolver.MonsterAttack(Some(c.monsters[mi]), Some(c.heroes[hi]), ctx, roll);
         res == t.result && h.Some? && t.ctx == Some(c.(heroes := c.heroes[hi := h.value])))
  {
    if monster.None? || ctx.None? then Fail(ctx)
    else
      var c := ctx.value;
      var mi := monster.value;
      var m := c.monsters[mi];
      if !Monsters.IsAlive(m) then Fail(ctx)
      else
        match PickHeroInRange(c, mi, pick)
        case None =>
          (match NextForwardStep(c, mi)
           case Some(next) => Turn(Some(MoveMonster(c, mi, next)), Outcome(true))
           case None => Turn(ctx, Outcome(true)))
        case Some(hi) =>
          var (h, res) := CombatResolver.MonsterAttack(Some(m), Some(c.heroes[hi]), ctx, roll);
          Turn(Some(c.(heroes := c.heroes[hi := h.value])), res)
  }

  /** The target argument makes no difference to a monster's turn. */
  lemma MonsterTurnIgnoresTarget(monster: Option<nat>, t1: Option<nat>, t2: Option<nat>,
                                 ctx: Option<TurnContext>, pick: nat, roll: real)
    requires RefersInto(ctx, t1, monster) && RefersInto(ctx, t2, monster)
    ensures RunMonsterTurn(monster, t1, ctx, pick, roll) == RunMonsterTurn(monster, t2, ctx, pick, roll)
  {
  }

  /** A monster that moves goes exactly one row down, in its own column; heroes and the other monsters stay put. */
  lemma MonsterMovesOnlyForward(mi: nat, ctx: TurnContext, pick: nat, roll: real)
    requires mi < |ctx.monsters| && MonsterPosition(ctx, mi).Some?
    ensures var t := RunMonsterTurn(Some(mi), None, Some(ctx), pick, roll);
      t.ctx.Some? && MonsterPosition(t.ctx.value, mi) != MonsterPosition(ctx, mi) ==>
        (MonsterPosition(t.ctx.value, mi).value == MonsterPosition(ctx, mi).value.MoveDown()
         && t.ctx.value.heroPositions == ctx.heroPositions
         && forall k :: k != mi ==> MonsterPosition(t.ctx.value, k) == MonsterPosition(ctx, k))
  {
  }

  // ---- End of turn ----

  /** endOfTurn: living heroes regenerate, the round advances by one; positions and monsters stay. */
  function EndOfTurn(ctx: Option<TurnContext>): (t: Turn)
    ensures ctx.None? ==> t == Fail(ctx)
    ensures ctx.Some? ==> (t.result == Outcome(true) && t.ctx.Some?
      && t.ctx.value == ctx.value.(heroes := t.ctx.value.heroes, roundNumber := ctx.value.roundNumber + 1)
      && |t.ctx.value.heroes| == |ctx.value.heroes|
      && forall i :: 0 <= i < |ctx.value.heroes| ==>
        t.ctx.value.heroes[i] == (if Heroes.IsAlive(ctx.value.heroes[i]) then Regenerate(ctx.value.heroes[i]) else ctx.value.heroes[i]))
  {
    if ctx.None? then Fail(ctx)
    else
      var c := ctx.value;
      var hs := seq(|c.heroes|, i requires 0 <= i < |c.heroes| =>
        if Heroes.IsAlive(c.heroes[i]) then Regenerate(c.heroes[i]) else c.heroes[i]);
      Turn(Some(NextRound(c.(heroes := hs))), Outcome(true))
  }
}

=== FILE: valor_board.dfy ===
/**
 * valor/board/ValorBoard.java: the fixed terrain layout the turn engine
 * uses. It has its own cell-type enumeration with separate hero and
 * monster nexus types, and knows nothing about occupants; occupancy is
 * supplied by the caller as the set of occupied positions.
 */
module ValorBoards {
  import opened Wrappers
  import opened JavaMath
  import opened Geometry

  datatype ValorCellType = MonsterNexus | HeroNexus | Plain | Inaccessible | Bush | Cave | Koulou

  type ValorGrid = g: seq<ValorCellType> | |g| == 64 witness seq(64, _ => Plain)

  function TypeAt(b: ValorGrid, p: Position): ValorCellType
    requires InBounds(p)
  {
    b[Idx(p)]
  }

  /**
   * defaultBoard, pass by pass: everything PLAIN, then columns 2 and 5
   * INACCESSIBLE on every row, then row 0 MONSTER_NEXUS and row 7 HERO_NEXUS
   * across all columns, walls included.
   */
  method DefaultBoard() returns (b: ValorGrid)
    ensures forall p :: InBounds(p) && p.row == 0 ==> TypeAt(b, p) == MonsterNexus
    ensures forall p :: InBounds(p) && p.row == Size - 1 ==> TypeAt(b, p) == HeroNexus
    ensures forall p :: InBounds(p) && 0 < p.row < Size - 1 && (p.col == 2 || p.col == 5) ==> TypeAt(b, p) == Inaccessible
    ensures forall p :: InBounds(p) && 0 < p.row < Size - 1 && p.col != 2 && p.col != 5 ==> TypeAt(b, p) == Plain
  {
    b := seq(64, _ => Plain);
    var r := 0;
    while r < Size
      invariant 0 <= r <= Size
      invariant forall p :: InBounds(p) && (p.col == 2 || p.col == 5) ==> (TypeAt(b, p) == Inaccessible <==> p.row < r)
      invariant forall p :: InBounds(p) && p.col != 2 && p.col != 5 ==> TypeAt(b, p) == Plain
    {
      b := b[Idx(Position(r, 2)) := Inaccessible][Idx(Position(r, 5)) := Inaccessible];
      r := r + 1;
    }
    var c := 0;
    while c < Size
      invariant 0 <= c <= Size
      invariant forall p :: InBounds(p) && (p.row == 0 || p.row == Size - 1) && p.col < c ==>
        TypeAt(b, p) == (if p.row == 0 then MonsterNexus else HeroNexus)
      invariant forall p :: InBounds(p) && !((p.row == 0 || p.row == Size - 1) && p.col < c) ==>
        TypeAt(b, p) == (if p.col == 2 || p.col == 5 then Inaccessible else Plain)
    {
      b := b[Idx(Position(0, c)) := MonsterNexus][Idx(Position(Size - 1, c)) := HeroNexus];
      c := c + 1;
    }
  }

  /** getCellType: None stands for the null returned off the board. */
  function CellTypeAt(b: ValorGrid, p: Position): (t: Option<ValorCellType>)
    ensures t.None? <==> !InBounds(p)
    ensures t.Some? ==> t.value == TypeAt(b, p)
  {
    if !InBounds(p) then None else Some(TypeAt(b, p))
  }

  /** isAccessible: on the board and not INACCESSIBLE. */
  function IsAccessible(b: ValorGrid, p: Position): (r: bool)
    ensures r <==> InBounds(p) && TypeAt(b, p) != Inaccessible
  {
    var t := CellTypeAt(b, p);
    t.Some? && t.value != Inaccessible
  }

  /** isHeroNexus and friends: the position is on the board with the given type. */
  function HasType(b: ValorGrid, p: Position, t: ValorCellType): (r: bool)
    ensures r <==> InBounds(p) && TypeAt(b, p) == t
  {
    CellTypeAt(b, p) == Some(t)
  }

  function IsHeroNexus(b: ValorGrid, p: Position): bool { HasType(b, p, HeroNexus) }
  function IsMonsterNexus(b: ValorGrid, p: Position): bool { HasType(b, p, MonsterNexus) }

  /** getLane: by column ranges 0-1, 3-4, 6-7; -1 otherwise. The row is not checked. */
  function GetLane(p: Position): (lane: int)
    ensures -1 <= lane < 3
    ensures lane == LaneForColumn(p.col)
  {
    LanesPartitionColumns(p.col);
    if 0 <= p.col <= 1 then 0
    else if 3 <= p.col <= 4 then 1
    else if 6 <= p.col <= 7 then 2
    else -1
  }

  /** laneToColumns: the lane's two columns, or none outside 0..2. */
  function LaneToColumns(lane: int): (cols: seq<int>)
    ensures cols == LaneColumns(lane)
  {
    if lane == 0 then [0, 1]
    else if lane == 1 then [3, 4]
    else if lane == 2 then [6, 7]
    else []
  }

  /** laneToColumns inverts getLane on the three lanes. */
  lemma LaneToColumnsInvertsGetLane(lane: int, p: Position)
    ensures 0 <= lane < 3 && p.col in LaneToColumns(lane) ==> GetLane(p) == lane
    ensures GetLane(p) != -1 ==> p.col in LaneToColumns(GetLane(p))
    ensures !(0 <= lane < 3) ==> LaneToColumns(lane) == []
  {
    LanesPartitionColumns(p.col);
  }

  /** isInAttackRange: Manhattan distance exactly one. */
  function IsInAttackRange(a: Position, b: Position): (r: bool)
    ensures r <==> Manhattan(a, b) == 1
    ensures r ==> a != b
    ensures Abs(a.row - b.row) == 1 && Abs(a.col - b.col) == 1 ==> !r
  {
    Abs(a.row - b.row) + Abs(a.col - b.col) == 1
  }

  /** The first of `cols`, in order, whose cell on `row` is free and accessible. */
  function FirstFreeSpot(b: ValorGrid, row: int, cols: seq<int>, occupied: set<Position>): (r: Option<Position>)
    requires forall i, j :: 0 <= i < j < |cols| ==> cols[i] != cols[j]
    ensures r.Some? ==> (r.value.row == row && r.value.col in cols
      && r.value !in occupied && IsAccessible(b, r.value))
    ensures r.Some? ==> forall k :: 0 <= k < |cols| && cols[k] == r.value.col ==>
      forall j :: 0 <= j < k ==> Position(row, cols[j]) in occupied || !IsAccessible(b, Position(row, cols[j]))
    ensures r.None? <==> forall c :: c in cols ==> Position(row, c) in occupied || !IsAccessible(b, Position(row, c))
  {
    if cols == [] then None
    else
      var pos := Position(row, cols[0]);
      if pos !in occupied && IsAccessible(b, pos) then Some(pos)
      else
        var rest := FirstFreeSpot(b, row, cols[1..], occupied);
        assert forall c :: c in cols ==> c == cols[0] || c in cols[1..];
        rest
  }

  /**
   * findHeroRecallSpot: the first free accessible cell of the lane on the
   * bottom row, trying the lane's first column before its second.
   */
  function FindHeroRecallSpot(b: ValorGrid, lane: int, occupied: set<Position>): (r: Option<Position>)
    ensures r.Some? ==> (r.value.row == Size - 1 && GetLane(r.value) == lane
      && r.value !in occupied && IsAccessible(b, r.value))
    ensures r.None? <==> forall c :: c in LaneColumns(lane) ==>
      Position(Size - 1, c) in occupied || !IsAccessible(b, Position(Size - 1, c))
    ensures 0 <= lane < 3 && Position(Size - 1, Lanes[lane][0]) !in occupied && IsAccessible(b, Position(Size - 1, Lanes[lane][0])) ==>
      r == Some(Position(Size - 1, Lanes[lane][0]))
    ensures 0 <= lane < 3 && r.Some? && r.value.col != Lanes[lane][0] ==>
      r.value.col == Lanes[lane][1]
      && (Position(Size - 1, Lanes[lane][0]) in occupied || !IsAccessible(b, Position(Size - 1, Lanes[lane][0])))
  {
    var r := FirstFreeSpot(b, Size - 1, LaneToColumns(lane), occupied);
    if r.Some? then LaneToColumnsInvertsGetLane(lane, r.value); r else r
  }

  /** findMonsterSpawnSpot: the same search on the top row, first column first. */
  function FindMonsterSpawnSpot(b: ValorGrid, lane: int, occupied: set<Position>): (r: Option<Position>)
    ensures r.Some? ==> (r.value.row == 0 && GetLane(r.value) == lane
      && r.value !in occupied && IsAccessible(b, r.value))
    ensures r.None? <==> forall c :: c in LaneColumns(lane) ==>
      Position(0, c) in occupied || !IsAccessible(b, Position(0, c))
    ensures 0 <= lane < 3 && Position(0, Lanes[lane][0]) !in occupied && IsAccessible(b, Position(0, Lanes[lane][0])) ==>
      r == Some(Position(0, Lanes[lane][0]))
    ensures 0 <= lane < 3 && r.Some? && r.value.col != Lanes[lane][0] ==>
      r.value.col == Lanes[lane][1]
      && (Position(0, Lanes[lane][0]) in occupied || !IsAccessible(b, Position(0, Lanes[lane][0])))
  {
    var r := FirstFreeSpot(b, 0, LaneToColumns(lane), occupied);
    if r.Some? then LaneToColumnsInvertsGetLane(lane, r.value); r else r
  }

  /** Outside the three lanes there is never a recall spot. */
  lemma NoRecallSpotOffLane(b: ValorGrid, lane: int, occupied: set<Position>)
    requires !(0 <= lane < 3)
    ensures FindHeroRecallSpot(b, lane, occupied).None?
  {
  }
}

=== FILE: valor_world_map.dfy ===
/**
 * The Valor board with its occupancy store (world/ValorWorldMap.java): a
 * generated 8x8 grid plus the hero/monster id maps and the hero lane record.
 * Movement here uses Chebyshev range (diagonal steps are legal) and
 * teleporting stays inside the target's lane.
 */
module ValorWorld {
  import opened Wrappers
  import opened JavaMath
  import opened CellTypes
  import opened Cells
  import opened Geometry
  import opened Grids
  import opened EntityTracking
  import opened BoardGeneration
  import opened MovementRules

  datatype Board = Board(grid: Grid, ids: Tracker)

  /** The heroes' nexus row. */
  const BottomRow: int := Size - 1

  /** Recorded lanes come from `LaneOfPosition`, so they lie in -1..2. */
  predicate LaneRecordsValid(t: Tracker)
  {
    forall h | h in t.heroLane :: -1 <= t.heroLane[h] < 3
  }

  /** The constructor: a generated board and empty id maps. */
  method NewValorMap(perm: seq<nat>, draws: seq<real>) returns (w: Board)
    requires IsPermutation(perm, |Eligible(Skeleton())|)
    requires |draws| == |Eligible(Skeleton())| - PickCount(|Eligible(Skeleton())|)
    ensures WellLaid(w.grid)
    ensures forall lane :: 0 <= lane < 3 ==> HasLanePath(w.grid, lane)
    ensures w.ids == EmptyTracker && LaneRecordsValid(w.ids)
  {
    var g, _, _ := GenerateBoard(perm, draws);
    w := Board(g, EmptyTracker);
  }

  /** isWalkable: on the board and neither wall nor obstacle. */
  predicate IsWalkable(g: Grid, pos: Position)
  {
    InBounds(pos) && WalkableCell(At(g, pos))
  }

  /** canEnter: on the board, and the cell admits the mover (see `CanEnterCellMeaning`). */
  predicate CanEnter(g: Grid, pos: Position, isHero: bool)
  {
    InBounds(pos) && CanEnterCell(At(g, pos), isHero)
  }

  /** Every cell other than `p` is unchanged. */
  ghost predicate OnlyChangedAt(g: Grid, r: Grid, p: Position)
  {
    forall q :: InBounds(q) && q != p ==> At(r, q) == At(g, q)
  }

  /**
   * placeHero: succeeds exactly when the hero may enter. The id is assigned
   * (size + 1) and the lane recorded only on the hero's first placement.
   */
  function PlaceHeroAt(w: Board, pos: Position, h: HeroRef): (r: (Board, bool))
    ensures r.1 <==> CanEnter(w.grid, pos, true)
    ensures !r.1 ==> r.0 == w
    ensures r.1 ==> (At(r.0.grid, pos).hero == Some(h)
      && At(r.0.grid, pos).monster == At(w.grid, pos).monster
      && KindAt(r.0.grid, pos) == KindAt(w.grid, pos)
      && OnlyChangedAt(w.grid, r.0.grid, pos))
    ensures r.1 ==> r.0.ids.heroIds == (if h in w.ids.heroIds then w.ids.heroIds else w.ids.heroIds[h := |w.ids.heroIds| + 1])
    ensures r.1 ==> r.0.ids.heroLane == (if h in w.ids.heroLane then w.ids.heroLane else w.ids.heroLane[h := LaneOfPosition(pos)])
    ensures r.0.ids.monsterIds == w.ids.monsterIds
    ensures LaneRecordsValid(w.ids) ==> LaneRecordsValid(r.0.ids)
  {
    if !InBounds(pos) || !CanEnter(w.grid, pos, true) then (w, false)
    else
      var (t1, _) := GetOrAssignHeroId(w.ids, h);
      var g1 := Put(w.grid, pos, PlaceHero(At(w.grid, pos), h));
      var t2 := if HasHeroLane(t1, h) then t1 else SetHeroLane(t1, h, LaneOfPosition(pos));
      (Board(g1, t2), true)
  }

  /** removeHero: empties the hero slot and forgets that hero's id (not its lane). */
  function RemoveHeroAt(w: Board, pos: Position): (r: (Board, bool))
    ensures r.1 <==> InBounds(pos) && HasHero(At(w.grid, pos))
    ensures !r.1 ==> r.0 == w
    ensures r.1 ==> At(r.0.grid, pos) == At(w.grid, pos).(hero := None) && OnlyChangedAt(w.grid, r.0.grid, pos)
    ensures r.1 ==> (At(w.grid, pos).hero.value !in r.0.ids.heroIds
      && (forall k :: k in w.ids.heroIds && k != At(w.grid, pos).hero.value ==> k in r.0.ids.heroIds && r.0.ids.heroIds[k] == w.ids.heroIds[k])
      && r.0.ids.heroLane == w.ids.heroLane && r.0.ids.monsterIds == w.ids.monsterIds)
  {
    if !InBounds(pos) || !HasHero(At(w.grid, pos)) then (w, false)
    else
      var h := At(w.grid, pos).hero.value;
      (Board(Put(w.grid, pos, RemoveHero(At(w.grid, pos))), RemoveHeroId(w.ids, h)), true)
  }

  /** detachHeroFromCell: empties the hero slot and keeps every id. */
  function DetachHeroAt(w: Board, pos: Position): (r: (Board, bool))
    ensures r.1 <==> InBounds(pos) && HasHero(At(w.grid, pos))
    ensures !r.1 ==> r.0 == w
    ensures r.1 ==> At(r.0.grid, pos) == At(w.grid, pos).(hero := None) && OnlyChangedAt(w.grid, r.0.grid, pos)
    ensures r.0.ids == w.ids
  {
    if !InBounds(pos) || !HasHero(At(w.grid, pos)) then (w, false)
    else (w.(grid := Put(w.grid, pos, RemoveHero(At(w.grid, pos)))), true)
  }

  /** placeMonster: succeeds exactly when the monster may enter; assigns an id on first placement. */
  function PlaceMonsterAt(w: Board, pos: Position, m: MonsterRef): (r: (Board, bool))
    ensures r.1 <==> CanEnter(w.grid, pos, false)
    ensures !r.1 ==> r.0 == w
    ensures r.1 ==> (At(r.0.grid, pos).monster == Some(m)
      && At(r.0.grid, pos).hero == At(w.grid, pos).hero
      && KindAt(r.0.grid, pos) == KindAt(w.grid, pos)
      && OnlyChangedAt(w.grid, r.0.grid, pos))
    ensures r.1 ==> r.0.ids.monsterIds == (if m in w.ids.monsterIds then w.ids.monsterIds else w.ids.monsterIds[m := |w.ids.monsterIds| + 1])
    ensures r.0.ids.heroIds == w.ids.heroIds && r.0.ids.heroLane == w.ids.heroLane
  {
    if !InBounds(pos) || !CanEnter(w.grid, pos, false) then (w, false)
    else
      var (t1, _) := GetOrAssignMonsterId(w.ids, m);
      (Board(Put(w.grid, pos, PlaceMonster(At(w.grid, pos), m)), t1), true)
  }

  /** removeMonster: empties the monster slot but keeps the monster's id for later. */
  function RemoveMonsterAt(w: Board, pos: Position): (r: (Board, bool))
    ensures r.1 <==> InBounds(pos) && HasMonster(At(w.grid, pos))
    ensures !r.1 ==> r.0 == w
    ensures r.1 ==> At(r.0.grid, pos) == At(w.grid, pos).(monster := None) && OnlyChangedAt(w.grid, r.0.grid, pos)
    ensures r.0.ids == w.ids
  {
    if !InBounds(pos) || !HasMonster(At(w.grid, pos)) then (w, false)
    else (w.(grid := Put(w.grid, pos, RemoveMonster(At(w.grid, pos)))), true)
  }

  /** A monster taken off for a battle and put back gets its old id again. */
  lemma MonsterIdSurvivesRemoval(w: Board, pos: Position, m: MonsterRef)
    requires InBounds(pos) && At(w.grid, pos).monster == Some(m) && m in w.ids.monsterIds
    ensures var (w1, ok1) := RemoveMonsterAt(w, pos);
      var (w2, ok2) := PlaceMonsterAt(w1, pos, m);
      ok1 && (ok2 <==> Passable(KindAt(w.grid, pos)))
      && w2.ids.monsterIds[m] == w.ids.monsterIds[m]
  {
  }

  /** isInRange: both on the board, and the same cell or one king's step apart. */
  predicate InRange(a: Position, b: Position)
  {
    InBounds(a) && InBounds(b) && (a == b || Max(Abs(a.row - b.row), Abs(a.col - b.col)) <= 1)
  }

  lemma InRangeIsChebyshev(a: Position, b: Position)
    requires InBounds(a) && InBounds(b)
    ensures InRange(a, b) <==> Chebyshev(a, b) <= 1
  {
  }

  /**
   * move: a one-step move of the hero (or monster) at `from`. On success the
   * occupant is carried to `to` and nothing else changes, ids included.
   */
  function Move(w: Board, from: Position, to: Position, isHero: bool): (r: (Board, bool))
    ensures r.1 <==> (InRange(from, to) && CanEnter(w.grid, to, isHero)
      && !BlockedByOpposingUnit(w.grid, from, to, isHero) && Slot(At(w.grid, from), isHero).Some?)
    ensures !r.1 ==> r.0 == w
    ensures r.1 ==> Relocated(w.grid, r.0.grid, from, to, isHero) && r.0.ids == w.ids
  {
    if !InBounds(from) || !InBounds(to) then (w, false)
    else if !InRange(from, to) then (w, false)
    else if !CanEnter(w.grid, to, isHero) then (w, false)
    else if BlockedByOpposingUnit(w.grid, from, to, isHero) then (w, false)
    else if Slot(At(w.grid, from), isHero).None? then (w, false)
    else (w.(grid := Relocate(w.grid, from, to, isHero)), true)
  }

  /** Diagonal single steps are legal moves, whatever the surrounding cells hold. */
  lemma DiagonalStepAllowed(w: Board, from: Position, to: Position, isHero: bool)
    requires InBounds(from) && InBounds(to)
    requires Abs(from.row - to.row) == 1 && Abs(from.col - to.col) == 1
    requires CanEnter(w.grid, to, isHero) && Slot(At(w.grid, from), isHero).Some?
    ensures Move(w, from, to, isHero).1
  {
    WhenNeverBlocked(w.grid, from, to, isHero);
  }

  /** A move onto the mover's own cell always fails: its slot there is taken. */
  lemma MoveToSameCellFails(w: Board, p: Position, isHero: bool)
    ensures !Move(w, p, p, isHero).1
  {
  }

  /** The other column of a lane column. */
  function OtherLaneColumn(lane: int, col: int): (r: int)
    requires 0 <= lane < 3 && col in Lanes[lane]
    ensures r in Lanes[lane] && r != col
  {
    if Lanes[lane][0] == col then Lanes[lane][1] else Lanes[lane][0]
  }

  /** A monster step from `from`: down one row, or sideways to the other column of its lane. */
  predicate MonsterStepShape(g: Grid, from: Position, to: Position)
    requires InBounds(from)
  {
    InBounds(to) && CanEnter(g, to, false)
    && (to == from.MoveDown()
        || (to.row == from.row && to.col != from.col && LaneOfPosition(to) == LaneOfPosition(from) != -1
            && !CanEnter(g, from.MoveDown(), false)))
  }

  /** The cell beside `from` in the other column of its lane. */
  function LateralStep(from: Position): (p: Position)
    requires LaneOfPosition(from) != -1
    ensures p.row == from.row && p.col != from.col && p.col in Lanes[LaneOfPosition(from)]
  {
    Position(from.row, OtherLaneColumn(LaneOfPosition(from), from.col))
  }

  /**
   * Where the monster at `from` goes: down if it may enter that cell, else the
   * other column of its lane if it may enter that one, else nowhere.
   */
  function MonsterStepFrom(g: Grid, from: Position): (r: Option<Position>)
    requires InBounds(from)
    ensures r.Some? ==> MonsterStepShape(g, from, r.value)
    ensures CanEnter(g, from.MoveDown(), false) ==> r == Some(from.MoveDown())
    ensures !CanEnter(g, from.MoveDown(), false) && LaneOfPosition(from) != -1 && CanEnter(g, LateralStep(from), false) ==>
      r == Some(LateralStep(from))
    ensures r.None? <==> !CanEnter(g, from.MoveDown(), false)
                         && (LaneOfPosition(from) == -1 || !CanEnter(g, LateralStep(from), false))
  {
    var forward := from.MoveDown();
    WhenNeverBlocked(g, from, forward, false);
    if InBounds(forward) && CanEnter(g, forward, false) && !BlockedByOpposingUnit(g, from, forward, false) then
      Some(forward)
    else if LaneOfPosition(from) == -1 then None
    else
      var lateral := LateralStep(from);
      WhenNeverBlocked(g, from, lateral, false);
      if InBounds(lateral) && CanEnter(g, lateral, false) && !BlockedByOpposingUnit(g, from, lateral, false) then
        Some(lateral)
      else None
  }

  /** The step stepMonsters takes with the `pick`-th monster of the row-major list, if any. */
  function MonsterStep(g: Grid, pick: nat): (r: Option<(Position, Position)>)
    ensures MonsterCells(g) == [] ==> r.None?
    ensures r.Some? ==> InBounds(r.value.0) && r.value.0 == MonsterCells(g)[pick % |MonsterCells(g)|]
    ensures r.Some? ==> HasMonster(At(g, r.value.0)) && MonsterStepShape(g, r.value.0, r.value.1)
    ensures MonsterCells(g) != [] ==> var c := MonsterCells(g)[pick % |MonsterCells(g)|];
      (r.Some? <==> MonsterStepFrom(g, c).Some?) && (r.Some? ==> r.value == (c, MonsterStepFrom(g, c).value))
  {
    var ps := MonsterCells(g);
    if |ps| == 0 then None
    else
      var chosen := ps[pick % |ps|];
      match MonsterStepFrom(g, chosen)
      case None => None
      case Some(to) => Some((chosen, to))
  }

  /**
   * stepMonsters with `pick` standing for the random index draw: the
   * `pick`-th monster of the row-major list is carried to its step target,
   * and with no monster or no target the board is unchanged.
   */
  function StepMonsters(w: Board, pick: nat): (r: Board)
    ensures r.ids == w.ids
    ensures MonsterStep(w.grid, pick).None? ==> r == w
    ensures MonsterStep(w.grid, pick).Some? ==>
      var (from, to) := MonsterStep(w.grid, pick).value; Relocated(w.grid, r.grid, from, to, false)
    ensures |MonsterCells(r.grid)| == |MonsterCells(w.grid)|
  {
    match MonsterStep(w.grid, pick)
    case None => w
    case Some((from, to)) =>
      var g := Relocate(w.grid, from, to, false);
      RelocationKeepsCount(w.grid, g, HasMonster, from, to);
      w.(grid := g)
  }

  /**
   * The picked monster moves down when it may enter the cell below, else to
   * the other column of its lane when it may enter that, else nothing moves;
   * without monsters nothing moves either.
   */
  lemma StepMonstersMovesPicked(w: Board, pick: nat)
    ensures MonsterCells(w.grid) == [] ==> StepMonsters(w, pick) == w
    ensures MonsterCells(w.grid) != [] ==>
      var c := MonsterCells(w.grid)[pick % |MonsterCells(w.grid)|];
      var r := StepMonsters(w, pick);
      InBounds(c) && HasMonster(At(w.grid, c))
      && (MonsterStepFrom(w.grid, c).None? ==> r == w)
      && (MonsterStepFrom(w.grid, c).Some? ==> Relocated(w.grid, r.grid, c, MonsterStepFrom(w.grid, c).value, false))
  {
    if MonsterCells(w.grid) != [] {
      var c := MonsterCells(w.grid)[pick % |MonsterCells(w.grid)|];
      assert MonsterStep(w.grid, pick).Some? ==> MonsterStep(w.grid, pick).value == (c, MonsterStepFrom(w.grid, c).value);
    }
  }

  /** A monster that may enter the cell below its own goes there when it is the one picked. */
  lemma PickedMonsterAdvances(w: Board, pick: nat)
    requires MonsterCells(w.grid) != []
    requires CanEnter(w.grid, MonsterCells(w.grid)[pick % |MonsterCells(w.grid)|].MoveDown(), false)
    ensures var c := MonsterCells(w.grid)[pick % |MonsterCells(w.grid)|];
      InBounds(c) && InBounds(c.MoveDown())
      && At(StepMonsters(w, pick).grid, c.MoveDown()).monster == At(w.grid, c).monster
      && At(StepMonsters(w, pick).grid, c).monster.None?
  {
    StepMonstersMovesPicked(w, pick);
  }

  /** A monster step never moves or removes a hero. */
  lemma StepMonstersKeepsHeroes(w: Board, pick: nat)
    ensures forall q :: InBounds(q) ==> At(StepMonsters(w, pick).grid, q).hero == At(w.grid, q).hero
  {
  }

  /**
   * applyTeleportRules: `dest` is a king's step from `target` in the same lane,
   * not diagonally behind it (below for a hero, above for a monster), not a wall
   * or obstacle, holds no hero, and the mover may enter it.
   */
  predicate TeleportAllowed(g: Grid, dest: Position, target: Position, isHeroMover: bool)
  {
    InBounds(dest) && InBounds(target) && dest != target
    && var dr := dest.row - target.row;
    var dc := dest.col - target.col;
    Max(Abs(dr), Abs(dc)) <= 1
    && !(Abs(dr) == 1 && Abs(dc) == 1 && ((isHeroMover && dr > 0) || (!isHeroMover && dr < 0)))
    && LaneForColumn(target.col) != -1 && LaneForColumn(dest.col) != -1
    && LaneForColumn(target.col) == LaneForColumn(dest.col)
    && KindAt(g, dest) != Obstacle && KindAt(g, dest) != Inaccessible
    && !HasHero(At(g, dest))
    && CanEnter(g, dest, isHeroMover)
  }

  /** The candidate `cand` if it is not the target and passes the rules. */
  function KeepCandidate(g: Grid, target: Position, isHeroMover: bool, cand: Position): (r: seq<Position>)
    ensures r == [] || r == [cand]
    ensures r == [cand] <==> TeleportAllowed(g, cand, target, isHeroMover)
  {
    if InBounds(cand) && cand != target && TeleportAllowed(g, cand, target, isHeroMover) then [cand] else []
  }

  /** Candidates on row `rr`, in lane-column order. */
  function RowCandidates(g: Grid, target: Position, isHeroMover: bool, lane: int, rr: int): (r: seq<Position>)
    requires 0 <= lane < 3
    ensures forall d :: d in r <==> d.row == rr && d.col in Lanes[lane] && TeleportAllowed(g, d, target, isHeroMover)
  {
    if rr < 0 || rr >= Size then []
    else
      KeepCandidate(g, target, isHeroMover, Position(rr, Lanes[lane][0]))
      + KeepCandidate(g, target, isHeroMover, Position(rr, Lanes[lane][1]))
  }

  /**
   * teleportCandidates: the allowed destinations on the target's row and the
   * row below it, in the target's lane. The row above is never scanned.
   */
  function TeleportCandidates(g: Grid, target: Position, isHeroMover: bool): (r: seq<Position>)
    ensures forall d :: d in r ==> TeleportAllowed(g, d, target, isHeroMover)
    ensures forall d :: d in r ==> d.row == target.row || d.row == target.row + 1
    ensures forall d :: TeleportAllowed(g, d, target, isHeroMover) && d.row >= target.row ==> d in r
  {
    if !InBounds(target) then []
    else
      var lane := LaneForColumn(target.col);
      if lane == -1 then []
      else RowCandidates(g, target, isHeroMover, lane, target.row) + RowCandidates(g, target, isHeroMover, lane, target.row + 1)
  }

  /** For a hero mover only the other column of the same row and the cell directly below can be offered. */
  lemma HeroTeleportCandidates(g: Grid, target: Position, d: Position)
    requires d in TeleportCandidates(g, target, true)
    ensures (d.row == target.row && d.col != target.col && LaneForColumn(d.col) == LaneForColumn(target.col))
         || d == target.MoveDown()
  {
    LanesPartitionColumns(target.col);
    LanesPartitionColumns(d.col);
  }

  /** The cell above the target is never a candidate, although the rules would allow it. */
  lemma RowAboveNeverCandidate(g: Grid, target: Position, isHeroMover: bool)
    ensures target.MoveUp() !in TeleportCandidates(g, target, isHeroMover)
  {
  }

  /**
   * teleportHero: positions on the board, a hero at `from`, and `to` enterable
   * for a hero. The hero keeps (or, if it had none, receives) its id.
   */
  function TeleportHero(w: Board, from: Position, to: Position): (r: (Board, bool))
    ensures r.1 <==> InBounds(from) && HasHero(At(w.grid, from)) && CanEnter(w.grid, to, true)
    ensures !r.1 ==> r.0 == w
    ensures r.1 ==> Relocated(w.grid, r.0.grid, from, to, true)
    ensures r.1 ==> var h := At(w.grid, from).hero.value;
      r.0.ids.heroIds == (if h in w.ids.heroIds then w.ids.heroIds else w.ids.heroIds[h := |w.ids.heroIds| + 1])
    ensures r.0.ids.monsterIds == w.ids.monsterIds && r.0.ids.heroLane == w.ids.heroLane
  {
    if !InBounds(from) || !InBounds(to) then (w, false)
    else if !HasHero(At(w.grid, from)) then (w, false)
    else if !CanEnter(w.grid, to, true) then (w, false)
    else
      var (t1, _) := GetOrAssignHeroId(w.ids, At(w.grid, from).hero.value);
      (Board(Relocate(w.grid, from, to, true), t1), true)
  }

  /** The lane a recall uses: the first-placement record, else the current lane, else lane 1. */
  function RecallLane(t: Tracker, h: HeroRef, from: Position): (lane: int)
    requires LaneRecordsValid(t)
    ensures 0 <= lane < 3
    ensures HasHeroLane(t, h) && GetHeroLane(t, h) != -1 ==> lane == GetHeroLane(t, h)
    ensures !HasHeroLane(t, h) && LaneOfPosition(from) != -1 ==> lane == LaneOfPosition(from)
    ensures lane != 1 ==> lane == GetHeroLane(t, h) || (!HasHeroLane(t, h) && lane == LaneOfPosition(from))
  {
    var recorded := if HasHeroLane(t, h) then GetHeroLane(t, h) else LaneOfPosition(from);
    if recorded == -1 then 1 else recorded
  }

  /** The bottom-row cell a recall targets: the first column of the recall lane. */
  function RecallSpawn(t: Tracker, h: HeroRef, from: Position): (p: Position)
    requires LaneRecordsValid(t)
    ensures InBounds(p) && p.row == Size - 1 && p.col == Lanes[RecallLane(t, h, from)][0]
  {
    Position(Size - 1, Lanes[RecallLane(t, h, from)][0])
  }

  /**
   * recallHero: fails with nothing changed when `from` holds no hero or the
   * spawn cell already holds one. Otherwise the hero leaves `from` and is
   * placed at the spawn through placeHero, whose own failure is ignored.
   */
  function RecallHero(w: Board, from: Position): (r: (Board, bool))
    requires LaneRecordsValid(w.ids)
    ensures r.1 <==> (InBounds(from) && HasHero(At(w.grid, from))
      && !HasHero(At(w.grid, RecallSpawn(w.ids, At(w.grid, from).hero.value, from))))
    ensures !r.1 ==> r.0 == w
    ensures r.1 ==> var h := At(w.grid, from).hero.value;
      var spawn := RecallSpawn(w.ids, h, from);
      At(r.0.grid, from).hero != Some(h)
      && (Passable(KindAt(w.grid, spawn)) ==>
            Relocated(w.grid, r.0.grid, from, spawn, true)
            && (h in w.ids.heroIds ==> r.0.ids.heroIds == w.ids.heroIds)
            && (HasHeroLane(w.ids, h) ==> r.0.ids.heroLane == w.ids.heroLane))
      && (!Passable(KindAt(w.grid, spawn)) ==>
            At(r.0.grid, from) == At(w.grid, from).(hero := None)
            && OnlyChangedAt(w.grid, r.0.grid, from) && r.0.ids == w.ids)
    ensures LaneRecordsValid(r.0.ids)
  {
    if !InBounds(from) || !HasHero(At(w.grid, from)) then (w, false)
    else
      var h := At(w.grid, from).hero.value;
      var spawn := RecallSpawn(w.ids, h, from);
      if HasHero(At(w.grid, spawn)) then (w, false)
      else
        var detached := w.(grid := Put(w.grid, from, RemoveHero(At(w.grid, from))));
        (PlaceHeroAt(detached, spawn, h).0, true)
  }

  /** The lane cells of both nexus rows are still NEXUS: true after generation, kept by every operation here. */
  ghost predicate NexusIntact(g: Grid)
  {
    forall p :: InBounds(p) && (p.row == 0 || p.row == Size - 1) && LaneOfPosition(p) != -1 ==> KindAt(g, p) == Nexus
  }

  lemma WellLaidNexusIntact(g: Grid)
    requires WellLaid(g)
    ensures NexusIntact(g)
  {
  }

  /** While the nexus rows are intact a successful recall always puts the hero on its spawn. */
  lemma RecallNeverLosesHeroOnIntactBoard(w: Board, from: Position)
    requires LaneRecordsValid(w.ids) && NexusIntact(w.grid)
    requires RecallHero(w, from).1
    ensures var spawn := RecallSpawn(w.ids, At(w.grid, from).hero.value, from);
      At(RecallHero(w, from).0.grid, spawn).hero == At(w.grid, from).hero
  {
    var spawn := RecallSpawn(w.ids, At(w.grid, from).hero.value, from);
    assert LaneOfPosition(spawn) == RecallLane(w.ids, At(w.grid, from).hero.value, from);
  }

  /** With an obstacle on the spawn, recall reports success but the hero leaves the board. */
  lemma RecallOntoObstacleLosesHero(w: Board, from: Position, h: HeroRef)
    requires LaneRecordsValid(w.ids) && InBounds(from) && At(w.grid, from).hero == Some(h)
    requires forall q :: InBounds(q) && q != from ==> At(w.grid, q).hero != Some(h)
    requires KindAt(w.grid, RecallSpawn(w.ids, h, from)) == Obstacle && !HasHero(At(w.grid, RecallSpawn(w.ids, h, from)))
    ensures var (r, ok) := RecallHero(w, from);
      ok && forall q :: InBounds(q) ==> At(r.grid, q).hero != Some(h)
  {
  }

  /** removeObstacle: an OBSTACLE cell becomes PLAIN with its occupants; anything else fails. */
  function RemoveObstacle(w: Board, pos: Position): (r: (Board, bool))
    ensures r.1 <==> InBounds(pos) && KindAt(w.grid, pos) == Obstacle
    ensures !r.1 ==> r.0 == w
    ensures r.1 ==> (KindAt(r.0.grid, pos) == Plain
      && At(r.0.grid, pos).hero == At(w.grid, pos).hero && At(r.0.grid, pos).monster == At(w.grid, pos).monster
      && OnlyChangedAt(w.grid, r.0.grid, pos) && r.0.ids == w.ids)
    ensures NexusIntact(w.grid) ==> NexusIntact(r.0.grid)
  {
    if !InBounds(pos) || KindAt(w.grid, pos) != Obstacle then (w, false)
    else (w.(grid := SetKind(w.grid, pos, Plain)), true)
  }

  /** Lane index clamped into 0..2. */
  function ClampLane(index: int): (i: int)
    ensures 0 <= i < 3
    ensures 0 <= index < 3 ==> i == index
    ensures index < 0 ==> i == 0
    ensures index >= 3 ==> i == 2
  {
    Max(0, Min(index, |Lanes| - 1))
  }

  /** getHeroNexusSpawn: the first column of the clamped lane, on the bottom row. */
  function HeroNexusSpawn(index: int): (p: Position)
    ensures InBounds(p) && p.row == Size - 1 && LaneOfPosition(p) == ClampLane(index)
    ensures p.col == Lanes[ClampLane(index)][0]
  {
    Position(Size - 1, Lanes[ClampLane(index)][0])
  }

  /** getMonsterNexusSpawn: the first column of the clamped lane, on the top row. */
  function MonsterNexusSpawn(index: int): (p: Position)
    ensures InBounds(p) && p.row == 0 && LaneOfPosition(p) == ClampLane(index)
    ensures p.col == Lanes[ClampLane(index)][0]
  {
    Position(0, Lanes[ClampLane(index)][0])
  }

  /** The monster slot of cell `p` emptied, if it held one. */
  function ClearMonster(g: Grid, p: Position): (r: Grid)
    requires InBounds(p)
    ensures At(r, p) == At(g, p).(monster := None) && OnlyChangedAt(g, r, p)
  {
    if HasMonster(At(g, p)) then Put(g, p, RemoveMonster(At(g, p))) else g
  }

  /** clearMonstersAtTopNexus: no monster is left on the three top-row spawn cells. */
  function ClearMonstersAtTopNexus(w: Board): (r: Board)
    ensures forall i :: 0 <= i < 3 ==> !HasMonster(At(r.grid, MonsterNexusSpawn(i)))
    ensures forall q :: InBounds(q) ==> At(r.grid, q).hero == At(w.grid, q).hero && KindAt(r.grid, q) == KindAt(w.grid, q)
    ensures forall q :: InBounds(q) && !(q.row == 0 && (q.col == 0 || q.col == 3 || q.col == 6)) ==> At(r.grid, q) == At(w.grid, q)
    ensures r.ids == w.ids
  {
    var g0 := ClearMonster(w.grid, Position(0, Lanes[0][0]));
    var g1 := ClearMonster(g0, Position(0, Lanes[1][0]));
    var g2 := ClearMonster(g1, Position(0, Lanes[2][0]));
    w.(grid := g2)
  }

  /** Row `row` from column `c` on has a cell of type `kind` whose `isHero` slot is filled. */
  function RowHasOccupiedKind(g: Grid, row: int, c: int, kind: CellType, isHero: bool): (b: bool)
    requires 0 <= row < Size && 0 <= c <= Size
    ensures b <==> exists k :: c <= k < Size && KindAt(g, Position(row, k)) == kind && Slot(At(g, Position(row, k)), isHero).Some?
    decreases Size - c
  {
    if c == Size then false
    else
      (Slot(At(g, Position(row, c)), isHero).Some? && KindAt(g, Position(row, c)) == kind)
      || RowHasOccupiedKind(g, row, c + 1, kind, isHero)
  }

  /** anyHeroAtTopNexus: some NEXUS cell of row 0 holds a hero. */
  function AnyHeroAtTopNexus(w: Board): (b: bool)
    ensures b <==> exists k :: 0 <= k < Size && KindAt(w.grid, Position(0, k)) == Nexus && HasHero(At(w.grid, Position(0, k)))
  {
    RowHasOccupiedKind(w.grid, 0, 0, Nexus, true)
  }

  /** anyMonsterAtBottomNexus: some NEXUS cell of row 7 holds a monster. */
  function AnyMonsterAtBottomNexus(w: Board): (b: bool)
    ensures b <==> exists k :: 0 <= k < Size && KindAt(w.grid, Position(BottomRow, k)) == Nexus && HasMonster(At(w.grid, Position(BottomRow, k)))
  {
    RowHasOccupiedKind(w.grid, BottomRow, 0, Nexus, false)
  }
}

=== FILE: world_map.dfy ===
/**
 * world/WorldMap.java: the same board and occupancy store as the Valor map,
 * but delegating its rules to MovementRules and its ids to EntityTracker.
 * placeHero, removeHero, detachHeroFromCell, placeMonster, teleportHero, stepMonsters,
 * removeObstacle, the nexus spawns, clearMonstersAtTopNexus and the win
 * checks are the same code as in ValorWorldMap and use the `ValorWorld`
 * definitions. What differs is defined here: orthogonal-only moves, a
 * removeMonster that frees the id, the always-empty teleport candidate list,
 * and a recall that treats a recorded lane of -1 as "no record".
 */
module WorldMaps {
  import opened Wrappers
  import opened JavaMath
  import opened CellTypes
  import opened Cells
  import opened Geometry
  import opened Grids
  import opened EntityTracking
  import opened BoardGeneration
  import opened MovementRules
  import opened ValorWorld

  /**
   * The constructor ignores the requested size and always builds the
   * generated 8x8 board with empty trackers.
   */
  method NewWorldMap(requestedSize: int, perm: seq<nat>, draws: seq<real>) returns (w: Board, size: int)
    requires IsPermutation(perm, |Eligible(Skeleton())|)
    requires |draws| == |Eligible(Skeleton())| - PickCount(|Eligible(Skeleton())|)
    ensures size == 8
    ensures WellLaid(w.grid) && forall lane :: 0 <= lane < 3 ==> HasLanePath(w.grid, lane)
    ensures w.ids == EmptyTracker
  {
    size := 8;
    var g, _, _ := GenerateBoard(perm, draws);
    w := Board(g, EmptyTracker);
  }

  /**
   * move: like the Valor move, except that range is orthogonal
   * (`InRangeOrthogonal`).
   */
  function MoveOrthogonal(w: Board, from: Position, to: Position, isHero: bool): (r: (Board, bool))
    ensures r.1 <==> (InRangeOrthogonal(from, to) && CanEnter(w.grid, to, isHero)
      && !BlockedByOpposingUnit(w.grid, from, to, isHero) && Slot(At(w.grid, from), isHero).Some?)
    ensures !r.1 ==> r.0 == w
    ensures r.1 ==> Relocated(w.grid, r.0.grid, from, to, isHero) && r.0.ids == w.ids
    ensures r.1 ==> Manhattan(from, to) == 1
  {
    if !InBounds(from) || !InBounds(to) then (w, false)
    else if !InRangeOrthogonal(from, to) then (w, false)
    else if !CanEnter(w.grid, to, isHero) then (w, false)
    else if BlockedByOpposingUnit(w.grid, from, to, isHero) then (w, false)
    else if Slot(At(w.grid, from), isHero).None? then (w, false)
    else (w.(grid := Relocate(w.grid, from, to, isHero)), true)
  }

  /** A move to the mover's own cell always fails. */
  lemma MoveOrthogonalSameCellFails(w: Board, p: Position, isHero: bool)
    ensures !MoveOrthogonal(w, p, p, isHero).1
  {
  }

  /** A diagonal step is rejected here though the Valor map accepts it. */
  lemma DiagonalStepRejected(w: Board, from: Position, to: Position, isHero: bool)
    requires InBounds(from) && InBounds(to)
    requires Abs(from.row - to.row) == 1 && Abs(from.col - to.col) == 1
    requires CanEnter(w.grid, to, isHero) && Slot(At(w.grid, from), isHero).Some?
    ensures !MoveOrthogonal(w, from, to, isHero).1
    ensures Move(w, from, to, isHero).1
  {
    DiagonalStepAllowed(w, from, to, isHero);
  }

  /** removeMonster: unlike the Valor map, this one frees the monster's id. */
  function RemoveMonsterTracked(w: Board, pos: Position): (r: (Board, bool))
    ensures r.1 <==> InBounds(pos) && HasMonster(At(w.grid, pos))
    ensures !r.1 ==> r.0 == w
    ensures r.1 ==> At(r.0.grid, pos) == At(w.grid, pos).(monster := None) && OnlyChangedAt(w.grid, r.0.grid, pos)
    ensures r.1 ==> (At(w.grid, pos).monster.value !in r.0.ids.monsterIds
      && r.0.ids.heroIds == w.ids.heroIds && r.0.ids.heroLane == w.ids.heroLane
      && forall k :: k in w.ids.monsterIds && k != At(w.grid, pos).monster.value ==>
           k in r.0.ids.monsterIds && r.0.ids.monsterIds[k] == w.ids.monsterIds[k])
  {
    if !InBounds(pos) || !HasMonster(At(w.grid, pos)) then (w, false)
    else
      var m := At(w.grid, pos).monster.value;
      (Board(Put(w.grid, pos, RemoveMonster(At(w.grid, pos))), RemoveMonsterId(w.ids, m)), true)
  }

  /** The two removeMonster versions change the board alike and differ only in the id map. */
  lemma RemoveMonsterVersionsDiffer(w: Board, pos: Position)
    requires InBounds(pos) && At(w.grid, pos).monster.Some? && At(w.grid, pos).monster.value in w.ids.monsterIds
    ensures RemoveMonsterTracked(w, pos).0.grid == RemoveMonsterAt(w, pos).0.grid
    ensures At(w.grid, pos).monster.value in RemoveMonsterAt(w, pos).0.ids.monsterIds
    ensures At(w.grid, pos).monster.value !in RemoveMonsterTracked(w, pos).0.ids.monsterIds
  {
  }

  /** teleportCandidates delegates to MovementRules, so the list is always empty. */
  function WorldTeleportCandidates(w: Board, target: Position, isHeroMover: bool): (r: seq<Position>)
    ensures r == []
  {
    OrthogonalTeleportCandidatesEmpty(w.grid, target, isHeroMover);
    OrthogonalTeleportCandidates(w.grid, target, isHeroMover)
  }

  /** The recall lane: the tracker's lane unless it is -1, then the current lane, then lane 1. */
  function TrackedRecallLane(t: Tracker, h: HeroRef, from: Position): (lane: int)
    requires LaneRecordsValid(t)
    ensures 0 <= lane < 3
    ensures GetHeroLane(t, h) != -1 ==> lane == GetHeroLane(t, h)
    ensures GetHeroLane(t, h) == -1 && LaneOfPosition(from) != -1 ==> lane == LaneOfPosition(from)
    ensures GetHeroLane(t, h) == -1 && LaneOfPosition(from) == -1 ==> lane == 1
  {
    var recorded := GetHeroLane(t, h);
    var lane := if recorded == -1 then LaneOfPosition(from) else recorded;
    if lane == -1 then 1 else lane
  }

  /**
   * The two recall lanes differ only for a hero whose first placement
   * recorded lane -1: the Valor map then uses lane 1, WorldMap the current lane.
   */
  lemma RecallLanesDiffer(t: Tracker, h: HeroRef, from: Position)
    requires LaneRecordsValid(t)
    ensures GetHeroLane(t, h) != -1 || !HasHeroLane(t, h) ==> TrackedRecallLane(t, h, from) == RecallLane(t, h, from)
    ensures HasHeroLane(t, h) && GetHeroLane(t, h) == -1 ==> RecallLane(t, h, from) == 1
  {
  }

  function TrackedRecallSpawn(t: Tracker, h: HeroRef, from: Position): (p: Position)
    requires LaneRecordsValid(t)
    ensures InBounds(p) && p.row == Size - 1 && p.col == Lanes[TrackedRecallLane(t, h, from)][0]
  {
    Position(Size - 1, Lanes[TrackedRecallLane(t, h, from)][0])
  }

  /**
   * recallHero: fails with nothing changed when `from` holds no hero or the
   * spawn already holds one; otherwise detaches the hero and calls placeHero
   * on the spawn, ignoring whether that succeeds.
   */
  function RecallTracked(w: Board, from: Position): (r: (Board, bool))
    requires LaneRecordsValid(w.ids)
    ensures r.1 <==> (InBounds(from) && HasHero(At(w.grid, from))
      && !HasHero(At(w.grid, TrackedRecallSpawn(w.ids, At(w.grid, from).hero.value, from))))
    ensures !r.1 ==> r.0 == w
    ensures r.1 ==> var h := At(w.grid, from).hero.value;
      var spawn := TrackedRecallSpawn(w.ids, h, from);
      At(r.0.grid, from).hero != Some(h)
      && (Passable(KindAt(w.grid, spawn)) ==>
            Relocated(w.grid, r.0.grid, from, spawn, true)
            && (h in w.ids.heroIds ==> r.0.ids.heroIds == w.ids.heroIds))
      && (!Passable(KindAt(w.grid, spawn)) ==> OnlyChangedAt(w.grid, r.0.grid, from) && r.0.ids == w.ids)
    ensures LaneRecordsValid(r.0.ids)
  {
    if !InBounds(from) || !HasHero(At(w.grid, from)) then (w, false)
    else
      var h := At(w.grid, from).hero.value;
      var spawn := TrackedRecallSpawn(w.ids, h, from);
      if HasHero(At(w.grid, spawn)) then (w, false)
      else
        var detached := w.(grid := Put(w.grid, from, RemoveHero(At(w.grid, from))));
        (PlaceHeroAt(detached, spawn, h).0, true)
  }
}

=== FILE: wrappers.dfy ===
/** Option type standing in for the source's nullable references. */
module Wrappers {

  datatype Option<+T> = None | Some(value: T) {

    /** The wrapped value, or `default` when there is none. */
    function GetOr(default: T): T
    {
      match this
      case Some(v) => v
      case None => default
    }
  }
}
